=== FILE: README.md ===
# Plasma mirror control GUIs: a verified model of the decision logic

This project models the decision logic of the lab control software for a
plasma-mirror and plasma-grating experiment, written in Python with Qt. The
software drives Zaber linear and rotary stages, New Focus Picomotor
controllers and a Thorlabs KSC101 shutter. It also drives NI-DAQ digital
lines for the shutter, camera and spectrometer. After each shot or burst it
renames the files the cameras and spectrometers write.

Every device reply, widget reading, clock reading and directory listing is
an explicit input of the model. Every output is an explicit value:
- the new state;
- the trace of signals emitted (`moving`, `moved`, `position`, `error`, ...);
- the lines written to the DAQ;
- the renamed files.

The modules follow the program's structure:

| module | file | what it models |
|---|---|---|
| `KinesisFire` | kinesis_fire.dfy | the KSC101/NI-DAQ fire controller of the Qt application: mode, arming, burst count, trigger tick |
| `KscBridge` | ksc_bridge.dfy | the older threaded fire controller and its polling loop |
| `DaqLines` | daq_lines.dfy | the three output lines and falling-edge detection shared by both |
| `PmAuto` | pm_auto.dfy | automatic plasma-mirror moves and the bound check |
| `Forbidden` | forbidden.dfy | the forbidden-position check |
| `ZaberBlocking` | zaber_blocking.dfy | the blocking Zaber worker |
| `ZaberPoll` | zaber_poll.dfy | the polling Zaber worker over the binary protocol |
| `ZaberAscii` | zaber_ascii.dfy | the polling Zaber worker over the ASCII protocol |
| `StageEvents` | stage_events.dfy | the commands and signals the Zaber workers share |
| `PicoIO` | pico_io.dfy | the Picomotor worker: address enumeration, reply reading, relative moves, position cache |
| `ShotRename` | shot_rename.dfy | renaming the files of one shot, both copies of the renamer |
| `BurstSave` | burst_save.dfy | moving the files of one burst into a numbered burst folder |
| `MotorRows` | motor_row.dfy | one row of the motor status table: formatting and the progress bar |
| `MotorStatus` | motor_status.dfy | the motor status panels of both applications |
| `StageControl` | stage_control.dfy | the stage control panel: selection, moves, jogs, bounds |
| `LegacyInterface` | legacy_interface.dfy | the same widgets in the older single-file application |
| `DeviceStatus` | device_status.dfy | the device status tree: power, status and check cells |
| `DeviceTabs` | device_tabs.dfy | the stage list: load order, field edits, limits, saving |
| `PicoPanel` | pico_panel.dfy | the Picomotor panel: controller and motor selectors, jog buttons |
| `FireControls` | fire_controls.dfy | the shot progress bar and the firing-mode radio buttons |
| `PmPanel`, `Motors` | pm_panel.dfy, motor_info.dfy | the records the panels read (mirror groups, motor records) |

The shared helpers model the Python built-ins the code relies on:
- `PyText`: `strip`, `lower` (ASCII letters only), `int()`, `str()`, `round`, zero padding, digit grouping and `os.path` on Windows paths.
- `Json`: JSON values with `dict.get`, truthiness, `int()`, `float()` and `str()`.
- `Dicts`: dictionaries in insertion order.
- `Sorting`: the stable `sorted`.
- `Wrappers`: `Option`.

Positions are `real`. The number π in the circular auto-move is the constant
3.141592653589793, the value of `math.pi`. Fixed-point text is modelled as a structured value
(value and digit count) rather than rendered digits.

## Model

| member | source | states |
|---|---|---|
| KinesisFire.Open | PlasmaMirrors/device_io/kinesis_fire_io.py:128-138 | after `open` the controller is in single mode, unarmed, with burst target 10, count 0 and no previous trigger reading, a state the slots keep valid |
| KinesisFire.SetMode | PlasmaMirrors/device_io/kinesis_fire_io.py:176-189 | the mode text is trimmed and lower-cased; only continuous/single/burst are accepted and any other text emits an error and leaves the state unchanged; continuous selects manual operation, the others triggered operation, always with the shutter on |
| KinesisFire.SetBurstCount | PlasmaMirrors/device_io/kinesis_fire_io.py:192-194 | the burst target becomes max(1, n), is never below one, and the progress is reported as 0 of the target |
| KinesisFire.Fire | PlasmaMirrors/device_io/kinesis_fire_io.py:198-206 | in continuous mode nothing changes; otherwise the controller is armed and the count restarts at 0 |
| KinesisFire.FollowOrHold | PlasmaMirrors/device_io/kinesis_fire_io.py:305-308 | the shutter line is always high, and a failed reading holds camera and spectrometer low |
| KinesisFire.Tick | PlasmaMirrors/device_io/kinesis_fire_io.py:295-348 | continuous follows the inverted trigger; single pulses (1,1,1) and disarms only when armed on a falling edge and writes (0,0,0) otherwise; burst counts edges while armed; the reading is always stored as the previous one, a failed reading included |
| KinesisFire.BurstTick | PlasmaMirrors/device_io/kinesis_fire_io.py:322-340 | while armed in burst mode each falling edge adds one to the count, and reaching the target disarms, clears the count and writes all lines low last; unarmed burst ticks write (0,0,0) |
| KinesisFire.ValidPreserved | PlasmaMirrors/device_io/kinesis_fire_io.py:176-206 | every slot (mode change, burst count, fire, tick) keeps the mode one of the three names and the burst target at least one |
| KinesisFire.NoIdleTick | PlasmaMirrors/device_io/kinesis_fire_io.py:342-346 | the tick's fallback branch (manual, shutter off) is unreachable from any state the slots produce |
| KinesisFire.LowUnlessArmed | PlasmaMirrors/device_io/kinesis_fire_io.py:310-340 | outside continuous mode an unarmed controller writes all three lines low on every tick |
| KinesisFire.OnePulsePerFire | PlasmaMirrors/device_io/kinesis_fire_io.py:310-320 | in single mode one press of Fire yields at most one pulse over any run of ticks |
| DaqLines.NoEdgeWithoutReadings | PlasmaMirrors/device_io/kinesis_fire_io.py:299 | a falling edge needs a previous reading of 1 and a current reading of 0, so a failed reading never forms one |
| KscBridge.Create | PlasmaGratings/ELMIL_NI_KSC101_bridge.py:150-174 | construction leaves single mode, unarmed, burst size 10 and counter 0, and its last action writes all lines low |
| KscBridge.HandleTrigger | PlasmaGratings/ELMIL_NI_KSC101_bridge.py:218-276 | the handler raises exactly when the mode needs a trigger value and none was read; it never changes the mode or the burst size; continuous follows the inverted trigger and an unarmed non-continuous controller writes low |
| KscBridge.SetMode | PlasmaGratings/ELMIL_NI_KSC101_bridge.py:201-202 | any text is stored as the mode, unchecked, and nothing else changes |
| KscBridge.SetNumBurst | PlasmaGratings/ELMIL_NI_KSC101_bridge.py:204-205 | the burst size becomes n when n >= 1 and 1 otherwise; nothing else changes |
| KscBridge.Fire | PlasmaGratings/ELMIL_NI_KSC101_bridge.py:207-216 | single mode arms without touching the counter, burst mode arms and zeroes the counter, any other mode changes nothing |
| KscBridge.LoopStep | PlasmaGratings/ELMIL_NI_KSC101_bridge.py:282-292 | one pass of the worker loop: a failed read writes all lines low first; a loop that goes on remembers the value read, or keeps the previous one after a failed read; a loop that stops has written all lines low last |
| KscBridge.FailedReadNoEdge | PlasmaGratings/ELMIL_NI_KSC101_bridge.py:284-291 | a failed read reuses the previous value, so it never forms a new falling edge |
| KscBridge.StopsOnlyWithoutReading | PlasmaGratings/ELMIL_NI_KSC101_bridge.py:283-290 | the handler can end the loop only while no reading has ever succeeded |
| KscBridge.RunEndsLow | PlasmaGratings/ELMIL_NI_KSC101_bridge.py:278-299 | however the worker ends, the last write is all lines low |
| KscBridge.SinglePulse | PlasmaGratings/ELMIL_NI_KSC101_bridge.py:257-271 | in single mode a pulse (1,1,1) is written exactly when armed on a falling edge, and it is followed by the 200 ms hold, a low write and disarming |
| KscBridge.BurstEdge | PlasmaGratings/ELMIL_NI_KSC101_bridge.py:238-250 | in burst mode a falling edge while armed advances the counter, and the edge that reaches the burst size disarms, clears it and writes low |
| KscBridge.GuiModeToInternal | PlasmaGratings/ELMIL_NI_KSC101_bridge.py:366-374 | the result is always one of the three modes: continuous exactly when the lower-cased text contains "continuous"; otherwise single when it contains "single" or does not contain "burst", and burst when it contains "burst" but not "single" |
| KscBridge.GuiLabelsSelectModes | PlasmaGratings/ELMIL_NI_KSC101_bridge.py:313-318 | the buttons Continuous, Single Shot and Burst select continuous, single and burst mode |
| KscBridge.GuiModesAreHandled | PlasmaGratings/ELMIL_NI_KSC101_bridge.py:273-276 | with a mode chosen through the front end, the shutter is switched off only by the continuous branch's reset, never by the idle branch |
| PmAuto.Signed | PlasmaMirrors/utilities/pm_auto.py:226-227 | the step is +magnitude when the direction text starts with 'p' in any case, else -abs(magnitude) |
| PmAuto.Toggle | PlasmaMirrors/utilities/pm_auto.py:70-112 | only the direction changes, and it becomes "Pos" or "Neg"; a row without a direction box keeps none |
| PmAuto.ToggleTwice | PlasmaMirrors/utilities/pm_auto.py:85 | toggling swaps "Pos" and "Neg", so toggling twice restores the direction |
| PmAuto.PositionOf | PlasmaMirrors/utilities/pm_auto.py:236-249 | a stage's position is the motor record's value when 1 <= address <= number of records, else the widget reading, which may be missing |
| PmAuto.GroupPlan | PlasmaMirrors/utilities/pm_auto.py:41-296 | a group not on Auto plans nothing; every planned move names a positive address; a toggled group keeps its name, Auto flag, Z and SD rows |
| PmAuto.Resolve | PlasmaMirrors/utilities/pm_auto.py:206-298 | a fixed move binds `log` to its own text; an in-bounds rectangular move exists exactly when an earlier group bound `log`, and then carries that text; no move leaves the group and `log` as they were |
| PmAuto.GroupMove | PlasmaMirrors/utilities/pm_auto.py:41-298 | a group not on Auto contributes nothing; a move always names a positive address; without a move the group and `log` are unchanged; only the directions of RX or Y can change |
| PmAuto.MovesFrom | PlasmaMirrors/utilities/pm_auto.py:27-300 | at most one move per group, each to a positive address, with the groups not on Auto kept |
| PmAuto.MovesFromThreaded | PlasmaMirrors/utilities/pm_auto.py:41-298 | the moves come group by group in loop order: the first `k` groups' moves, each group resolved under the `log` value the groups before it left |
| PmAuto.MovesFromGroups | PlasmaMirrors/utilities/pm_auto.py:41-298 | each group comes back as its own resolution leaves it, resolved under the `log` value the groups before it left |
| PmAuto.GenerateMoves | PlasmaMirrors/utilities/pm_auto.py:27-300 | pm1, pm2, pm3 are visited in that order, `log` starting unbound: the moves are pm1's, then pm2's under the `log` pm1 left, then pm3's under the `log` pm2 left, at most one each and each to a positive stage address; the panel holds the three groups as their passes leave them |
| PmAuto.NoAutoNoMoves | PlasmaMirrors/utilities/pm_auto.py:41-48 | with no group on Auto nothing moves and the panel is untouched |
| PmAuto.NoPlansNoMoves | PlasmaMirrors/utilities/pm_auto.py:41-48 | groups that all plan nothing produce no moves, whatever `log` holds |
| PmAuto.CircularMoves | PlasmaMirrors/utilities/pm_auto.py:114-216 | a circular group moves only when its radius has size at least 1e-4; it then turns RX by the signed angle when that keeps RX within its bounds (1e-4 tolerance), and otherwise moves Y by the signed distance and flips the RX direction |
| PmAuto.CircularMovesIff | PlasmaMirrors/utilities/pm_auto.py:114-216 | a circular group on Auto moves if and only if its radius has size at least 1e-4, its RX address is positive, and its Y address is positive whenever the RX turn would leave the RX bounds; the `log` of earlier groups never changes its move |
| PmAuto.LinearMoves | PlasmaMirrors/utilities/pm_auto.py:217-296 | a rectangular group that moves either moves Y by the signed distance, staying within Y's bounds when the position is known, or, when that would leave them, moves RX by the signed distance and flips the Y direction |
| PmAuto.LinearNeedsEarlierLog | PlasmaMirrors/utilities/pm_auto.py:294-298 | an in-bounds rectangular move is dropped exactly when no earlier group of the same call bound the `log` variable |
| PmAuto.LinearSwap | PlasmaMirrors/utilities/pm_auto.py:270-293 | an out-of-bounds rectangular move becomes an RX move of the signed distance with the Y direction flipped, when RX has a valid address, and nothing otherwise |
| PmAuto.CheckRow | PlasmaMirrors/utilities/pm_auto.py:333-358 | a row is reported 'below' when its known position is under min-1e-4, else 'above' when over max+1e-4, else not at all |
| PmAuto.CheckGroup | PlasmaMirrors/utilities/pm_auto.py:325-358 | a group not on Auto reports nothing; otherwise at most three violations, all on RX, Y or Z of that group and all genuinely outside the tolerated bounds |
| PmAuto.CheckBounds | PlasmaMirrors/utilities/pm_auto.py:302-361 | at most nine violations, none for an SD row, each a position genuinely outside its bounds plus tolerance |
| PmAuto.CheckBoundsComplete | PlasmaMirrors/utilities/pm_auto.py:318-358 | an Auto group's RX, Y or Z stage with a positive address and a known position outside its bounds is always reported |
| Forbidden.Ids | PlasmaMirrors/utilities/forbidden_position.py:66-116 | Y and Z publish one id each, RX and SD two |
| Forbidden.Slots | PlasmaMirrors/utilities/forbidden_position.py:52-55 | the rows scanned are those of the Auto groups only, and there are none exactly when no group is on Auto |
| Forbidden.PutAll | PlasmaMirrors/utilities/forbidden_position.py:70-71 | every id gets the value, existing ids outside the list are kept, and the map's keys grow by exactly the ids |
| Forbidden.AddIdsKeeps | PlasmaMirrors/utilities/forbidden_position.py:75-112 | appending under any address keeps what every address already listed |
| Forbidden.AddIds | PlasmaMirrors/utilities/forbidden_position.py:75 | afterwards the address lists the new ids, and the ids listed overall are the old ones plus the new |
| Forbidden.Record | PlasmaMirrors/utilities/forbidden_position.py:67-79 | a row's position is published under its ids when the read succeeds, and its address is recorded only then and only when positive |
| Forbidden.Fallback | PlasmaMirrors/utilities/forbidden_position.py:118-138 | the fallback keeps every published position and adds only recorded ids or the short names of recorded addresses' motor records |
| Forbidden.FallbackCovers | PlasmaMirrors/utilities/forbidden_position.py:119-128 | every id of an address whose motor record exists ends up in the map |
| Forbidden.ScanRecordsOnlyRead | PlasmaMirrors/utilities/forbidden_position.py:66-116 | every id the scan records under an address already holds a read position |
| Forbidden.FallbackAddsOnlyShorts | PlasmaMirrors/utilities/forbidden_position.py:118-138 | as written, every position the fallback adds is a motor short name, never a stage id |
| Forbidden.ScanAllFailed | PlasmaMirrors/utilities/forbidden_position.py:66-116 | a scan in which no read succeeds publishes nothing and records no address |
| Forbidden.ScanIntendedRecords | PlasmaMirrors/utilities/forbidden_position.py:72-75 | with the address recorded independently of the read, every row with a positive address has its ids listed under it |
| Forbidden.AllRangesOkIff | PlasmaMirrors/utilities/forbidden_position.py:148-166 | the range loop accepts exactly when every range's trimmed stage id is in the map with min+1e-4 < value < max-1e-4, a missing bound being no constraint and an unreadable one failing |
| Forbidden.MatchEntriesIff | PlasmaMirrors/utilities/forbidden_position.py:141-170 | a match is reported exactly for the entries whose non-empty ranges all hold |
| Forbidden.MatchEntries | PlasmaMirrors/utilities/forbidden_position.py:141-168 | never more matches than entries |
| Forbidden.MatchEntriesSingle | PlasmaMirrors/utilities/forbidden_position.py:142-168 | a single entry yields its (label, description) exactly when it has ranges and all of them hold, and nothing otherwise |
| Forbidden.MatchEntriesAppend | PlasmaMirrors/utilities/forbidden_position.py:141-170 | the matches of two runs of entries are the first run's matches followed by the second's: an in-order filter, one match per matching entry, duplicates kept |
| Forbidden.NoPositionsNoMatches | PlasmaMirrors/utilities/forbidden_position.py:145-168 | with no positions published, no entry matches |
| Forbidden.Check | PlasmaMirrors/utilities/forbidden_position.py:41-173 | a match is reported exactly when some group is on Auto and an entry with that name and description has all its ranges, of which it has at least one, hold at the published positions; with some group on Auto the result is MatchEntries at those positions, so matches come in entry order, one per matching entry, duplicates kept |
| Forbidden.CheckIntended | PlasmaMirrors/utilities/forbidden_position.py:41-173 | the same check with every positive address recorded whether or not its row's read succeeded: a match exactly when some group is on Auto and an entry's ranges all hold at those positions; with some group on Auto the result is MatchEntries at those positions, in entry order with duplicates kept |
| Forbidden.AllReadsFailNoMatches | PlasmaMirrors/utilities/forbidden_position.py:67-116 | as written, when no Auto row's value reads, the map is empty and no entry ever matches, whatever the motor records hold |
| Forbidden.IntendedCoversRows | PlasmaMirrors/utilities/forbidden_position.py:118-128 | with the intended recording, every id of an Auto row whose address names a motor record has a position |
| ZaberBlocking.MoveAbsolute | PlasmaMirrors/device_io/zaber_stage_io.py:98-125 | moving True comes first and moving False last on every path; position and `moved` follow only a completed move, and `moved` carries the position read back |
| ZaberBlocking.Home | PlasmaMirrors/device_io/zaber_stage_io.py:127-141 | bracketed by moving True and False around exactly one event: `homed` when homing returned, an error otherwise; while not connected no command is sent |
| ZaberBlocking.MoveDelta | PlasmaMirrors/device_io/zaber_stage_io.py:142-175 | bracketed like `move_absolute`; the target is the position read first plus the delta |
| ZaberBlocking.Stop | PlasmaMirrors/device_io/zaber_stage_io.py:176-210 | on success position, `moved` and moving False, in that order; otherwise an error alone; while not connected, the "Not connected" error alone and no device command |
| ZaberBlocking.SetTargetSpeed | PlasmaMirrors/device_io/zaber_stage_io.py:211-254 | acts only for "mm/s" and "deg/s"; any other unit sends and emits nothing; for those units at most one event, an error exactly when the set or the read-back raised, `speed` only for a value read back; while not connected, the "Not connected" error alone and no device command |
| ZaberBlocking.SetLowerLimit | PlasmaMirrors/device_io/zaber_stage_io.py:255-274 | bounds are emitted only when both limits read back; there is no fallback; while not connected, the "Not connected" error alone and no device command |
| ZaberBlocking.SetUpperLimit | PlasmaMirrors/device_io/zaber_stage_io.py:275-297 | a failed minimum read reports an error and falls back to 0.0, and the bounds are still emitted; while not connected, the "Not connected" error alone and no device command |
| ZaberBlocking.GetLimits | PlasmaMirrors/device_io/zaber_stage_io.py:298-317 | the same minimum fallback; a failed maximum read ends the slot with an error, after the minimum's error if that read failed too; while not connected, the "Not connected" error alone and no device command |
| ZaberPoll.StartPoll | PlasmaMirrors/device_io/zaber_stage_poll_io.py:89-98 | an address already polled is left as it is; otherwise it is registered with no previous position and a stable count of 0 |
| ZaberPoll.StopPoll | PlasmaMirrors/device_io/zaber_stage_poll_io.py:100-106 | the address is forgotten and every other address keeps its poller |
| ZaberPoll.StartPollIdempotent | PlasmaMirrors/device_io/zaber_stage_poll_io.py:89-98 | starting a poll twice is starting it once |
| ZaberPoll.IsBusy | PlasmaMirrors/device_io/zaber_stage_poll_io.py:108-116 | a busy query that raised counts as busy |
| ZaberPoll.NextStable | PlasmaMirrors/device_io/zaber_stage_poll_io.py:127-134 | the stable count goes up by one exactly when a previous position exists within 1e-9 of the new one, and is 0 otherwise |
| ZaberPoll.PollOnce | PlasmaMirrors/device_io/zaber_stage_poll_io.py:118-147 | a poll finishes (position, `moved` with the final read, polling stopped, moving False) exactly when the stage is not busy or the stable count reached 2; a raised read reports an error, stops polling and emits moving False |
| ZaberPoll.PollMovingIffStopped | PlasmaMirrors/device_io/zaber_stage_poll_io.py:136-145 | a poll emits moving False exactly when it stops polling the address, and a poll that keeps polling emits only a position |
| ZaberPoll.ThreeStillPollsFinish | PlasmaMirrors/device_io/zaber_stage_poll_io.py:127-141 | with the busy query failing every time, a stage that stopped is finished by the third poll |
| ZaberPoll.MoveAbsolute | PlasmaMirrors/device_io/zaber_stage_poll_io.py:172-190 | moving True and polling start only once the command returned; an exception emits moving False; without a connection only an error |
| ZaberPoll.MoveDelta | PlasmaMirrors/device_io/zaber_stage_poll_io.py:192-208 | an absolute move to the position read first plus the delta, with the same event rules |
| ZaberPoll.Home | PlasmaMirrors/device_io/zaber_stage_poll_io.py:210-223 | the same rules, always polling in millimetres |
| ZaberPoll.Stop | PlasmaMirrors/device_io/zaber_stage_poll_io.py:225-250 | whatever happens, polling of the address ends and moving False is the last signal, even without a connection |
| ZaberAscii.StartPoll | PlasmaMirrors/device_io/zaber_stage_ASCII_io.py:82-89 | an address already polled keeps its poller and unit; otherwise it is polled with the given unit |
| ZaberAscii.StopPoll | PlasmaMirrors/device_io/zaber_stage_ASCII_io.py:91-95 | only that address stops being polled |
| ZaberAscii.PollOnce | PlasmaMirrors/device_io/zaber_stage_ASCII_io.py:97-115 | a poll finishes exactly when the axis reports not busy; a raised query reports an error, stops polling and emits moving False; positions carry 0 steps |
| ZaberAscii.MoveAbsolute | PlasmaMirrors/device_io/zaber_stage_ASCII_io.py:143-157 | moving True and polling start after the command returns; an exception emits moving False; without a connection only an error |
| ZaberAscii.MoveDelta | PlasmaMirrors/device_io/zaber_stage_ASCII_io.py:159-172 | a relative move of the delta itself, with the same event rules |
| ZaberAscii.Home | PlasmaMirrors/device_io/zaber_stage_ASCII_io.py:174-186 | homing polls in millimetres |
| ZaberAscii.Stop | PlasmaMirrors/device_io/zaber_stage_ASCII_io.py:188-200 | `stop` only requests the stop: polling continues and no moving False is emitted; while not connected, the "Not connected" error alone and no device command |
| ZaberAscii.StopThenIdlePoll | PlasmaMirrors/device_io/zaber_stage_ASCII_io.py:97-109 | after a stop request on a moving address, the first poll that sees the axis idle ends the motion with its final position |
| PicoIO.Accepted | PlasmaMirrors/device_io/newfocus_pico_io.py:164-197 | a tuple reply counts only when its flag is set and its value converts; a bare value counts whenever it converts |
| PicoIO.FinalRead | PlasmaMirrors/device_io/newfocus_pico_io.py:316-340 | after a move the read is ok by the tuple's flag, or for a bare value by whether it converts, so a tuple can be ok without a usable position |
| PicoIO.PollMotionDone | PlasmaMirrors/device_io/newfocus_pico_io.py:274-311 | at most 500 polls, stopping at the first reply that reports done; done exactly when some reply within the first 500 reports it |
| PicoIO.Finish | PlasmaMirrors/device_io/newfocus_pico_io.py:343-378 | done with an ok read equal to the cached position gives "nothing attached", updates the cache and emits no `moved`; any other ok read updates the cache and emits `moved`; moving False ends every path |
| PicoIO.RelativeMove | PlasmaMirrors/device_io/newfocus_pico_io.py:216-385 | without the command library only an error; otherwise moving True first and moving False last on every path, including failed overloads |
| PicoIO.NothingAttachedNoMoved | PlasmaMirrors/device_io/newfocus_pico_io.py:343-355 | a move onto the cached position while motion is reported done is an error without `moved`, and the cache keeps the value |
| PicoIO.MaxAddr | PlasmaMirrors/device_io/newfocus_pico_io.py:120-125 | the highest address to enumerate is at least 1 and no reported address exceeds it; it is 1 or one of the reported addresses |
| PicoIO.Discover | PlasmaMirrors/device_io/newfocus_pico_io.py:98-144 | the list holds exactly as many entries as the adapters' highest addresses add up to, so at least one per adapter |
| PicoIO.OpenedCount | PlasmaMirrors/device_io/newfocus_pico_io.py:150-151 | the count reported is the number of adapters, not of entries, and never exceeds the entries |
| PicoIO.DiscoverListsEveryAddress | PlasmaMirrors/device_io/newfocus_pico_io.py:98-144 | every address from 1 to an adapter's highest reported address is listed for that adapter |
| PicoIO.DiscoverEntry | PlasmaMirrors/device_io/newfocus_pico_io.py:98-144 | every listed entry is an address from 1 to some adapter's highest address, under that adapter's key, with that address's serial or '' |
| PicoIO.Enumerate | PlasmaMirrors/device_io/newfocus_pico_io.py:128-142 | one entry per address in the range, in order, with the adapter's serial for that address or '' |
| PicoIO.ReadAxes | PlasmaMirrors/device_io/newfocus_pico_io.py:156-204 | for one entry, every axis up to 4 whose reply is accepted is cached with that value; other keys are kept; only that entry's axes are added |
| PicoIO.InitialReads | PlasmaMirrors/device_io/newfocus_pico_io.py:155-204 | over all entries, nothing cached is lost and every cached value comes from an accepted reply |
| PicoIO.InitialReadsCache | PlasmaMirrors/device_io/newfocus_pico_io.py:155-204 | after `open`, axes 1..4 of every entry whose reply is accepted are cached with that reply's value |
| PicoIO.InitialReadsKeeps | PlasmaMirrors/device_io/newfocus_pico_io.py:155-204 | a cached value that the replies confirm survives the initial reads unchanged |
| ShotRename.DefaultMatch | PlasmaMirrors/utilities/file_renamer.py:24-25 | a file matches when the lower-cased token occurs in its lower-cased name |
| ShotRename.CleanTokens | PlasmaMirrors/utilities/file_renamer.py:59-60 | empty tokens are dropped, then the rest stripped, so a token of spaces survives as "" |
| ShotRename.ExperimentName | PlasmaMirrors/utilities/file_renamer.py:63 | the experiment name, or "Experiment" when empty |
| ShotRename.StampWidths | PlasmaMirrors/utilities/file_renamer.py:134-136 | for a valid date and time the date text has exactly 8 digits and the time text exactly 9 |
| ShotRename.ShotNumberRoundTrip | PlasmaMirrors/utilities/file_renamer.py:138 | the five-digit shot field of a new name reads back as the shot number, and the name ends with the token, the `_0` counter and the extension |
| ShotRename.DupName | PlasmaMirrors/utilities/file_renamer.py:140-145 | the `_dup` path is the original with the four characters `_dup` added |
| ShotRename.DupKeepsExtension | PlasmaMirrors/utilities/file_renamer.py:140-145 | a collision always gives a different path, and one that keeps the extension |
| ShotRename.PickFrom | PlasmaMirrors/utilities/file_renamer.py:88-103 | the search loop's choice is the first entry with the newest non-zero modification time among matching unprocessed files |
| ShotRename.PickStep | PlasmaMirrors/utilities/file_renamer.py:88-103 | each entry the search loop visits keeps its choice the newest so far, as the strict `>` picks the first of equal times |
| ShotRename.Newest | PlasmaMirrors/utilities/file_renamer.py:88-103 | a token's candidate in one poll is the newest matching unprocessed file, if any |
| ShotRename.RenameNeedsStability | PlasmaMirrors/utilities/file_renamer.py:107-123 | a rename happens only for the token's standing candidate, after its size was recorded non-negative on an earlier poll, read equal now, and the stable time has passed |
| ShotRename.RetiredAfterAttempt | PlasmaMirrors/utilities/file_renamer.py:124-161 | a token leaves the waiting set only through a rename attempt, recorded or failed |
| ShotRename.Remove | PlasmaMirrors/utilities/file_renamer.py:158-161 | discarding removes that index and only it, and shrinks the list when the index was there |
| ShotRename.ChangeRestartsWait | PlasmaMirrors/utilities/file_renamer.py:108-164 | a new candidate, or a size different from the recorded one, restarts the wait: no rename and no stable-since time |
| ShotRename.TokenStepShape | PlasmaMirrors/utilities/file_renamer.py:146-161 | one token step appends at most one pair, records its destination as processed, and may retire the token |
| ShotRename.TokenStepStamped | PlasmaMirrors/utilities/file_renamer.py:126-139 | the destination of a new pair is a shot name with the allowed stamp, or its `_dup` variant |
| ShotRename.TokenStepInv | PlasmaMirrors/utilities/file_renamer.py:85-164 | one token step keeps the loop invariant: each token renamed at most once, no file renamed twice, every destination processed |
| ShotRename.SweepCounts | PlasmaMirrors/utilities/file_renamer.py:85-161 | a sweep over the waiting tokens never renames a token twice |
| ShotRename.RenameShotFiles | PlasmaMirrors/utilities/file_renamer.py:28-216 | an empty or missing output directory renames nothing and returns the processed set unchanged; otherwise there are no more renames than cleaned tokens, no source is renamed twice, and every destination joins the processed set |
| ShotRename.DestinationsAreShotNames | PlasmaMirrors/utilities/file_renamer.py:126-148 | every destination is a shot name for one of the cleaned tokens or its `_dup` variant, stamped with the event time when given and otherwise with the clock of some poll |
| ShotRename.LegacyRenameShotFiles | PlasmaMirrors/file_renamer.py:28-207 | the older copy, which stamps each file with the clock at its rename, keeps the same guarantees: nothing for a missing directory, at most one rename per cleaned token, no source twice, every destination processed |
| BurstSave.BurstNumber | PlasmaMirrors/utilities/file_renamer.py:265-273 | only folders whose names start with `Burst_` carry a burst number |
| BurstSave.FolderNameNumber | PlasmaMirrors/utilities/file_renamer.py:269-275 | a folder named from a number reads back as that number |
| BurstSave.NextIndex | PlasmaMirrors/utilities/file_renamer.py:266-274 | one more than the largest existing burst number, 0 when there is none |
| BurstSave.NextFolderIsNew | PlasmaMirrors/utilities/file_renamer.py:274-275 | the folder named from the next index is none of the existing folders |
| BurstSave.MaxNumber | PlasmaMirrors/utilities/file_renamer.py:266-273 | the largest burst number of the listing, or the starting -1 when there is none |
| BurstSave.BaseFolder | PlasmaMirrors/utilities/file_renamer.py:249-252 | the burst goes under a folder inside the output directory |
| BurstSave.FolderNumber | PlasmaMirrors/utilities/file_renamer.py:261-277 | the given index when there is one, else the next index; none when the listing raised |
| BurstSave.BurstFolder | PlasmaMirrors/utilities/file_renamer.py:261-286 | `Burst_<n>` when it does not exist yet (`Burst_0` after a failed listing), else `Burst_<n>_alt`; none when the alternative cannot be made either |
| BurstSave.SafeLabel | PlasmaMirrors/utilities/file_renamer.py:351 | the label is never empty and holds only letters, digits, '-' and '_'; it is the token's own such characters whenever it has any |
| BurstSave.SafeLabelIdempotent | PlasmaMirrors/utilities/file_renamer.py:351 | a label is its own label, and a non-empty token of label characters is used unchanged |
| BurstSave.DupFile | PlasmaMirrors/utilities/file_renamer.py:355-357 | the intended `_dup` name is the burst file name with `_dup` (four characters) added |
| BurstSave.DupAgrees | PlasmaMirrors/utilities/file_renamer.py:355-357 | the source's `_dup` name equals the intended one when the experiment name has no dot or the file has an extension |
| BurstSave.DupAsWrittenDropsLabel | PlasmaMirrors/utilities/file_renamer.py:357 | for a file without extension and an experiment `x.y`, the source's `_dup` name keeps only `x` |
| BurstSave.DupAsWrittenCollides | PlasmaMirrors/utilities/file_renamer.py:357 | two tokens with different labels get the same `_dup` name from the source |
| BurstSave.DupFileDistinct | PlasmaMirrors/utilities/file_renamer.py:352-357 | the intended `_dup` names of different labels differ, and none equals the plain name it replaces |
| BurstSave.Dest | PlasmaMirrors/utilities/file_renamer.py:349-359 | a destination is the token's new name in the burst folder, or its `_dup` variant when that path exists |
| BurstSave.MoveNeedsStability | PlasmaMirrors/utilities/file_renamer.py:338-346 | a file is moved only after its size was recorded non-negative on an earlier poll, read equal now, and stayed so for the stable time, for a matching token not yet done |
| BurstSave.DoneBound | PlasmaMirrors/utilities/file_renamer.py:303-305 | no more moves than tokens, and fewer when a token is empty, since an empty token is never done |
| BurstSave.ScanGrew | PlasmaMirrors/utilities/file_renamer.py:324-380 | scanning the tokens for one file only adds to the moves and the processed set |
| BurstSave.EntryStepOk | PlasmaMirrors/utilities/file_renamer.py:312-321 | one listing entry keeps the move invariant: one move per token, no file twice, each destination processed |
| BurstSave.SweepOk | PlasmaMirrors/utilities/file_renamer.py:305-389 | a whole listing keeps the invariant and only extends the moves |
| BurstSave.LoopOk | PlasmaMirrors/utilities/file_renamer.py:305-389 | every poll until the deadline keeps the invariant |
| BurstSave.SaveBurst | PlasmaMirrors/utilities/file_renamer.py:219-394 | no output directory, or a base folder that cannot be made, returns early; otherwise the folder lies in the base folder and the moves keep the invariant |
| BurstSave.SaveBurstFiles | PlasmaMirrors/utilities/file_renamer.py:219-394 | an early return gives no pairs, the processed set unchanged and an empty folder; otherwise there are no more moves than cleaned tokens, no file is moved twice, and every destination lies in the burst folder and joins the processed set |
| BurstSave.BurstDestinations | PlasmaMirrors/utilities/file_renamer.py:349-372 | every destination is a non-empty token's new name in the burst folder, or its `_dup` variant, and distinct moves belong to distinct tokens |
| MotorRows.FmtSteps | PlasmaMirrors/widgets/motor_row.py:75-76 | the step count's digits in groups of three separated by single spaces, then " steps" |
| MotorRows.FmtUnits | PlasmaMirrors/widgets/motor_row.py:78-85 | three decimals for every unit, in bold when rich; `str(v)` when the value does not convert |
| MotorRows.FmtUnitsUniform | PlasmaMirrors/widgets/motor_row.py:78-85 | the number's format does not depend on the unit, and the rich text is the plain text with the number in bold |
| MotorRows.Progress | PlasmaMirrors/widgets/motor_row.py:87-92 | 0 when ubound <= lbound; otherwise in 0..100, 0 at or below lbound, 100 at or above ubound, and in between the value's position between the bounds in percent rounded half to even, so within 0.5 of it |
| MotorRows.ProgressMonotone | PlasmaMirrors/widgets/motor_row.py:91-92 | a larger value never shows less progress |
| MotorRows.RoundPercent | PlasmaMirrors/widgets/motor_row.py:92 | rounding a percentage stays within 0..100 |
| MotorRows.NewRow | PlasmaMirrors/widgets/motor_row.py:8-50 | a freshly built row shows its record's step count, position, speed and progress |
| MotorStatus.RowIndex | PlasmaMirrors/panels/motor_status_panel.py:58-61 | numbers 1..n select rows 0..n-1, numbers from 1-n to 0 count back from the last row (1-n reaching row 0), anything else raises |
| MotorStatus.NewRows | PlasmaMirrors/panels/motor_status_panel.py:6-20 | one row per record, numbered from 1 in record order |
| MotorStatus.UpdateAddress | PlasmaMirrors/panels/motor_status_panel.py:57-66 | the selected row alone takes the step count truncated toward zero and the position, with its labels and bar refreshed; an index that raises leaves the panel alone |
| MotorStatus.UpdateSpeed | PlasmaMirrors/panels/motor_status_panel.py:68-74 | only the selected row's speed and speed label change |
| MotorStatus.UpdateBounds | PlasmaGratings/panels/motor_status_panel.py:58-65 | both bounds are stored as given, with no ordering check, and only that row's bar is recomputed |
| MotorStatus.ReversedBoundsEmptyBar | PlasmaGratings/panels/motor_status_panel.py:58-65 | bounds given in the wrong order empty the bar rather than being rejected |
| MotorStatus.StageZeroIsLastRow | PlasmaGratings/panels/motor_status_panel.py:39-47 | stage number 0 updates the last row |
| MotorStatus.UpdateAddressIdempotent | PlasmaGratings/panels/motor_status_panel.py:39-47 | reporting the position a consistent row already shows, with a whole step count, changes nothing |
| StageControl.SetValue | PlasmaMirrors/panels/stage_control_panel.py:153 | a spin box clamps a value into its range |
| StageControl.SetRange | PlasmaMirrors/panels/stage_control_panel.py:151-152 | a new range whose maximum is below its minimum collapses to the minimum, and the value is clamped into the new range |
| StageControl.Decimals | PlasmaMirrors/panels/stage_control_panel.py:147-150 | two decimals exactly for a stage in degrees, four otherwise |
| StageControl.Select | PlasmaMirrors/panels/stage_control_panel.py:139-153 | the selector's data names the row (0 without data); the absolute input gets the row's bounds as range and its position clamped into them, the jog input the range 0..span |
| StageControl.SelectIdempotent | PlasmaMirrors/panels/stage_control_panel.py:139-153 | re-selecting the row already shown changes nothing more |
| StageControl.SelectJogNonNegative | PlasmaMirrors/panels/stage_control_panel.py:152 | the jog range is never negative, so Forward never sends a negative delta |
| StageControl.Init | PlasmaMirrors/panels/stage_control_panel.py:13-95 | the panel as built shows the first row; both bound inputs start at 0 within ±99999, and the speed input starts at its minimum 0.01, with maximum 1000 and two decimals |
| StageControl.MoveMessage | PlasmaMirrors/panels/stage_control_panel.py:155-160 | two decimals for degrees and six otherwise, with the row number and the index one below it |
| StageControl.PressHome | PlasmaMirrors/panels/stage_control_panel.py:162-165 | the home request names the selected row |
| StageControl.PressAbsolute | PlasmaMirrors/panels/stage_control_panel.py:167-171 | the target sent is the absolute input's value, which lies within the row's bounds after a selection |
| StageControl.Jog | PlasmaMirrors/panels/stage_control_panel.py:173-177 | the delta sent is the jog input times the direction, and the message carries the row's current position |
| StageControl.JogDirection | PlasmaMirrors/panels/stage_control_panel.py:173-176 | with the jog input in its non-negative range, Forward never moves back, Back never moves forward, and both move by the same amount |
| StageControl.SetLbound | PlasmaMirrors/panels/stage_control_panel.py:179-188 | a value at or above the upper bound is replaced by upper-0.01; the adjusted value alone becomes the row's lower bound, is sent and written back, so afterwards lbound < ubound |
| StageControl.LowerValue | PlasmaMirrors/panels/stage_control_panel.py:181-183 | the stored lower bound is always below the upper bound, and is the input whenever the input already was |
| StageControl.SetUbound | PlasmaMirrors/panels/stage_control_panel.py:190-199 | a value at or below the lower bound is replaced by lower+0.01; the adjusted value alone becomes the upper bound, is sent and written back, so afterwards ubound > lbound |
| StageControl.UpperValue | PlasmaMirrors/panels/stage_control_panel.py:192-194 | the stored upper bound is always above the lower bound, and is the input whenever the input already was |
| StageControl.PressSpeed | PlasmaMirrors/panels/stage_control_panel.py:201-205 | the speed input's value is sent and nothing is stored |
| StageControl.SetLboundIdempotent | PlasmaMirrors/panels/stage_control_panel.py:179-188 | pressing "Set Lower Bound" twice stores the same bound as pressing it once |
| StageControl.BoundsStayOrdered | PlasmaMirrors/panels/stage_control_panel.py:179-199 | either setter, in either order, leaves the row's bounds ordered |
| StageControl.SetLboundStaleBar | PlasmaMirrors/panels/stage_control_panel.py:184 | a bound set here leaves the row's bar as it was, so the bar stops following the record once the bound passes the position |
| LegacyInterface.FormatUnitsAsWritten | PlasmaGratings/ELIMIL_NI_Interface_PlasmaMirror.py:163-168 | as written the guard is always true, so every value is printed with no decimals |
| LegacyInterface.FormatUnits | PlasmaGratings/ELIMIL_NI_Interface_PlasmaMirror.py:163-168 | as intended: no decimals for degrees and degrees per second, four significant digits otherwise |
| LegacyInterface.FormatUnitsAgreeIff | PlasmaGratings/ELIMIL_NI_Interface_PlasmaMirror.py:163-168 | the two agree exactly on the angular units |
| LegacyInterface.MillimetresLoseDecimals | PlasmaGratings/ELIMIL_NI_Interface_PlasmaMirror.py:164-167 | a stage in millimetres shows a whole number as written, where four significant digits were meant |
| LegacyInterface.SpanProgress | PlasmaGratings/ELIMIL_NI_Interface_PlasmaMirror.py:170-174 | the position clamped to 0..span as a percentage of the span, in 0..100; a zero span raises; equal to the newer bar over bounds 0 and span |
| LegacyInterface.SpanProgressMonotone | PlasmaGratings/ELIMIL_NI_Interface_PlasmaMirror.py:170-174 | a later position never shows less progress |
| LegacyInterface.SetMoving | PlasmaGratings/ELIMIL_NI_Interface_PlasmaMirror.py:177-181 | the moving flag follows the argument, a moving row steps by the given count and a stopped one by none, and nothing but the flag, step count and light changes |
| LegacyInterface.StopMotion | PlasmaGratings/ELIMIL_NI_Interface_PlasmaMirror.py:183-185 | stopping leaves the row still with no step per tick, its position and bar untouched |
| LegacyInterface.ToggleMotion | PlasmaGratings/ELIMIL_NI_Interface_PlasmaMirror.py:187-192 | a double click inverts the simulated motion, starting it at the default step count |
| LegacyInterface.Tick | PlasmaGratings/ELIMIL_NI_Interface_PlasmaMirror.py:194-203 | a stopped row is left alone; a moving one adds its step count and, for a non-zero span, sets the position to the new step count / 100000 taken modulo the span by Python's float remainder (so in [0, span) for a positive span), every other field unchanged; with a zero span only the step count changes, as the update then raises |
| LegacyInterface.StoppedRowStaysPut | PlasmaGratings/ELIMIL_NI_Interface_PlasmaMirror.py:194-196 | a tick does not move a stopped row |
| LegacyInterface.TickAdvances | PlasmaGratings/ELIMIL_NI_Interface_PlasmaMirror.py:197-200 | while the position stays inside the span a tick moves it by step count / 100000 |
| LegacyInterface.ApplyValue | PlasmaGratings/ELIMIL_NI_Interface_PlasmaMirror.py:444-451 | `_apply_value`, which nothing in the file calls: the position is the value clamped to 0..span, the step count lies within half a step of position × 100000, and only those two fields change |
| LegacyInterface.ApplyValueIdempotent | PlasmaGratings/ELIMIL_NI_Interface_PlasmaMirror.py:444-451 | applying the same value again changes nothing more |
| LegacyInterface.SetLbound | PlasmaGratings/ELIMIL_NI_Interface_PlasmaMirror.py:483-491 | the input, or upper-0.01 when it would reach the upper bound, becomes the lower bound and is written back; no request is sent |
| LegacyInterface.SetUbound | PlasmaGratings/ELIMIL_NI_Interface_PlasmaMirror.py:493-501 | the input, or lower+0.01 when it would not exceed the lower bound, becomes the upper bound and is written back |
| LegacyInterface.LegacyBoundsStayOrdered | PlasmaGratings/ELIMIL_NI_Interface_PlasmaMirror.py:483-501 | whichever bound is set last, the bounds end up ordered |
| LegacyInterface.UpdateAddress | PlasmaGratings/ELIMIL_NI_Interface_PlasmaMirror.py:259-268 | the row `rows[stage_no - 1]` alone takes the truncated step count and the position, and a row that showed its record still does |
| LegacyInterface.UpdateSpeed | PlasmaGratings/ELIMIL_NI_Interface_PlasmaMirror.py:270-276 | only the selected row's speed and label change |
| LegacyInterface.OnPositionAsWritten | PlasmaGratings/ELIMIL_NI_Interface_PlasmaMirror.py:939-945 | as written `address == 1 or 15` is always true, so every position reply reaches the rows |
| LegacyInterface.OnPosition | PlasmaGratings/ELIMIL_NI_Interface_PlasmaMirror.py:939-945 | as intended only replies from addresses 1 and 15 reach the rows |
| LegacyInterface.OnSpeedAsWritten | PlasmaGratings/ELIMIL_NI_Interface_PlasmaMirror.py:948-954 | as written every speed reply reaches the rows |
| LegacyInterface.OnSpeed | PlasmaGratings/ELIMIL_NI_Interface_PlasmaMirror.py:948-954 | as intended only addresses 1 and 15 |
| LegacyInterface.AddressZeroMovesLastRow | PlasmaGratings/ELIMIL_NI_Interface_PlasmaMirror.py:940 | as written a reply from address 0 overwrites the last row through negative indexing |
| LegacyInterface.AddressTwoChangesSpeed | PlasmaGratings/ELIMIL_NI_Interface_PlasmaMirror.py:949 | as written a speed reply from address 2 overwrites the second row |
| LegacyInterface.HandlersKeepDisplay | PlasmaGratings/ELIMIL_NI_Interface_PlasmaMirror.py:939-954 | neither intended handler breaks a row's display |
| DeviceStatus.Paint | PlasmaMirrors/panels/device_status_panel.py:226-233 | the text is black exactly on the yellow '#e6a400' background and white on every other colour |
| DeviceStatus.StageAddr | PlasmaMirrors/panels/device_status_panel.py:75-78 | `int(num)` when that converts, else the stage's 1-based position |
| DeviceStatus.StageName | PlasmaMirrors/panels/device_status_panel.py:79 | the name, else the abbreviation, else "Addr<address>" |
| DeviceStatus.StageDesc | PlasmaMirrors/panels/device_status_panel.py:80 | the description is `description` when that is truthy, else `desc` when that is truthy, else ''; it is always truthy or '' |
| DeviceStatus.CameraName | PlasmaMirrors/panels/device_status_panel.py:89 | a camera's display name is never empty: the stripped `Name`, or "Camera" |
| DeviceStatus.NewCamera | PlasmaMirrors/panels/device_status_panel.py:88-93 | a camera item has its display name, a blank status, and its stripped `Purpose` as description |
| DeviceStatus.SpecName | PlasmaMirrors/panels/device_status_panel.py:98 | a spectrometer's display name is never empty: the stripped file name token, or "Spec<index>" |
| DeviceStatus.SpecLabel | PlasmaMirrors/panels/device_status_panel.py:99 | "Vis. Spectrometer" for index 0, "XUV spectrometer" for index 1, "Spectrometer" otherwise |
| DeviceStatus.StageKeys | PlasmaMirrors/panels/device_status_panel.py:73-84 | every stage is found under its address, by the last stage with that address |
| DeviceStatus.DevKeys | PlasmaMirrors/panels/device_status_panel.py:88-102 | every camera or spectrometer is found under its name, by the last item with that name |
| DeviceStatus.Populate | PlasmaMirrors/panels/device_status_panel.py:53-109 | one item per stage, camera and spectrometer, in list order, every cell blank, with the dictionaries above |
| DeviceStatus.Found | PlasmaMirrors/panels/device_status_panel.py:115-121 | the addresses of a discovery reply, entries that do not convert left out |
| DeviceStatus.OnZaberDiscovered | PlasmaMirrors/panels/device_status_panel.py:112-129 | PWR is ON (green) exactly for the listed stages whose address was discovered and OFF (red) for every other listed stage; only the PWR cells change, and stages that no address names are untouched |
| DeviceStatus.FindStage | PlasmaMirrors/panels/device_status_panel.py:135-141 | the item under that address, else the address-th item in dictionary order when 1 <= address <= count, else none |
| DeviceStatus.OnStageMoving | PlasmaMirrors/panels/device_status_panel.py:131-152 | a start marks the status cell of the stage found MOV in yellow and changes nothing else; a stop, or an address that finds no stage, leaves the panel as it was |
| DeviceStatus.OnStageMoved | PlasmaMirrors/panels/device_status_panel.py:153-178 | the status cell of the stage found is marked OK in green and nothing else changes; an address that finds no stage changes nothing |
| DeviceStatus.OnStageHomed | PlasmaMirrors/panels/device_status_panel.py:180-194 | the same as a completed move |
| DeviceStatus.MoveCycle | PlasmaMirrors/panels/device_status_panel.py:131-178 | a move that starts and then completes leaves the stage OK |
| DeviceStatus.OnFireStarted | PlasmaMirrors/panels/device_status_panel.py:197-205 | every listed camera and spectrometer has its status cell marked CHK in yellow; their other cells, the items no name finds, the stages and the dictionaries are unchanged |
| DeviceStatus.UpdateCameraSpecStatus | PlasmaMirrors/panels/device_status_panel.py:207-223 | a listed camera or spectrometer is OK exactly when its non-empty name is among the renamed tokens, else F; only those status cells change, and the stages and dictionaries are kept |
| DeviceStatus.OutcomeOverridesCheck | PlasmaMirrors/panels/device_status_panel.py:197-223 | the camera outcomes after a shot do not depend on the check marks the shot started with |
| DeviceStatus.DiscoveryIdempotent | PlasmaMirrors/panels/device_status_panel.py:112-129 | the same discovery reply twice shows the same power cells |
| DeviceTabs.Rank | PlasmaMirrors/panels/device_tabs_panel.py:244-245 | the kinds of sort key: numbers (booleans included) rank 0, strings 1, anything else 2 |
| DeviceTabs.SortKey | PlasmaMirrors/panels/device_tabs_panel.py:245 | the sort key is `num` when present and 0 otherwise |
| DeviceTabs.KeyLePreorder | PlasmaMirrors/panels/device_tabs_panel.py:244-245 | the sort's key order is total and transitive on comparable keys |
| DeviceTabs.Load | PlasmaMirrors/panels/device_tabs_panel.py:244-245 | the sort raises exactly when two keys of different kinds must be compared; otherwise the same stages in a new order |
| DeviceTabs.LoadOrdered | PlasmaMirrors/panels/device_tabs_panel.py:244-245 | a loaded list is in key order, and stages with equal keys keep their file order |
| DeviceTabs.LoadAscends | PlasmaMirrors/panels/device_tabs_panel.py:244-245 | with numeric keys the loaded list ascends by `num`, a missing `num` counting as 0 |
| DeviceTabs.NewValue | PlasmaMirrors/panels/device_tabs_panel.py:546-564 | the text of a text field, the integer of the `num` box, nothing for any other key |
| DeviceTabs.Resort | PlasmaMirrors/panels/device_tabs_panel.py:643-647 | the re-sorted list is always a permutation of the stages, and it is the list as it was when some `num` does not convert |
| DeviceTabs.ResortAscends | PlasmaMirrors/panels/device_tabs_panel.py:643-647 | a successful re-sort ascends by `int(num)` |
| DeviceTabs.OnFieldChanged | PlasmaMirrors/panels/device_tabs_panel.py:536-663 | the list is saved exactly when the selection is valid, the key known, the edit confirmed and the new value's text differs from the old one (a missing key reads as ''); otherwise nothing changes; a saved list is the re-sort of the list with only that key of that stage replaced, and holds the edited stage; `stages_changed` is emitted exactly for saved name and num edits |
| DeviceTabs.UnchangedValueIsNoop | PlasmaMirrors/panels/device_tabs_panel.py:569-572 | a value whose text equals the stored one changes nothing |
| DeviceTabs.RepeatEditIsNoop | PlasmaMirrors/panels/device_tabs_panel.py:631-647 | committing the same edit again, wherever the stage landed, changes nothing |
| DeviceTabs.CommittedStageKept | PlasmaMirrors/panels/device_tabs_panel.py:631-647 | the edited stage is still in the list after a commit |
| DeviceTabs.FirstWithNum | PlasmaMirrors/panels/device_tabs_panel.py:712-718 | the first stage whose `int(num)` (-1 when missing) equals the number |
| DeviceTabs.SetLimitForStage | PlasmaMirrors/panels/device_tabs_panel.py:708-735 | only the first stage with that number gets the limit, no match leaves the list unchanged, and the limit field shows it exactly when that stage is selected |
| DeviceTabs.SetLimitIdempotent | PlasmaMirrors/panels/device_tabs_panel.py:708-735 | a second report of the same limit changes nothing more |
| DeviceTabs.SaveCopy | PlasmaMirrors/panels/device_tabs_panel.py:381-394 | `num` becomes `int(num)` (0 on failure), a convertible `limit` becomes a float, every other field is copied |
| DeviceTabs.SaveStages | PlasmaMirrors/panels/device_tabs_panel.py:376-394 | one coerced copy per stage, in list order, with the in-memory records unchanged |
| DeviceTabs.SaveCopyIdempotent | PlasmaMirrors/panels/device_tabs_panel.py:381-394 | a saved record saved again is written the same |
| PicoPanel.ItemEntry | PlasmaMirrors/panels/picomotor_panel.py:121-124 | the key and serial as text ('' when missing) and `int(address or 0)`; none when the address does not convert |
| PicoPanel.AppendAddsOne | PlasmaMirrors/panels/picomotor_panel.py:125 | `setdefault(...).append` adds exactly that entry to the mapping's contents |
| PicoPanel.Group | PlasmaMirrors/panels/picomotor_panel.py:118-123 | `setdefault(key, []).append`: each key occurs once and holds exactly the entries with that key, in arrival order; every entry's key is present; together the lists hold every entry once |
| PicoPanel.BuildMapping | PlasmaMirrors/panels/picomotor_panel.py:119-126 | the entries grouped by key, each key once holding exactly its own entries in arrival order, with every item's entry once; none when some address does not convert |
| PicoPanel.Label | PlasmaMirrors/panels/picomotor_panel.py:139-140 | "<serial> (Address <a>)", or "Address <a>" without a serial |
| PicoPanel.SetDiscoveredItems | PlasmaMirrors/panels/picomotor_panel.py:113-148 | one selector item per discovered item; the state is kept when some address does not convert |
| PicoPanel.DiscoveredSorted | PlasmaMirrors/panels/picomotor_panel.py:127-143 | the selector lists exactly the items' entries, each once, in (key, address) order |
| PicoPanel.MotorAddresses | PlasmaMirrors/panels/picomotor_panel.py:151-175 | a (key, address) pair selects that address; a non-empty key selects as many addresses as it has entries; anything else selects nothing |
| PicoPanel.KeySelectsAscending | PlasmaMirrors/panels/picomotor_panel.py:160-172 | a key selects its addresses in ascending order, each as often as it was discovered |
| PicoPanel.MappingSelectsItsEntries | PlasmaMirrors/panels/picomotor_panel.py:118-172 | after the mapping is built, a non-empty key selects, ascending, the addresses of exactly the items discovered under that key, each as often as it was discovered |
| PicoPanel.Target | PlasmaMirrors/panels/picomotor_panel.py:200-209 | a pair gives the adapter and the address; a bare key, or the combo text when the key is empty, gives the adapter only |
| PicoPanel.SelectorAddr | PlasmaMirrors/panels/picomotor_panel.py:211-219 | the motor selector's data when it has an item, else `int(text or 1)`, else 1 |
| PicoPanel.Jog | PlasmaMirrors/panels/picomotor_panel.py:191-222 | the step text's integer (0 when it does not convert) with the given sign, on axis 1 |
| PicoPanel.BackUndoesForward | PlasmaMirrors/panels/picomotor_panel.py:191-250 | Back and Forward address the same motor with opposite step counts, and the text of a whole number moves by exactly that number |
| PicoPanel.SetControllers | PlasmaMirrors/panels/picomotor_panel.py:103-111 | each adapter key becomes an item with the key as text and data, recorded as controller (key, 1, '') |
| PicoPanel.ControllerJog | PlasmaMirrors/panels/picomotor_panel.py:191-219 | with a controller from `set_controllers` selected, a jog goes to that adapter at the motor selector's address |
| FireControls.SetProgress | PlasmaMirrors/panels/fire_controls_panel.py:72-77 | the total is at least 1, the count is clamped into 0..total (unchanged when already inside), and the text shows the clamped "cur/total" |
| FireControls.SetProgressIdempotent | PlasmaMirrors/panels/fire_controls_panel.py:72-77 | showing what the bar already shows changes nothing |
| FireControls.CaptionReadsBack | PlasmaMirrors/panels/fire_controls_panel.py:75-77 | the text starts with the shown count, and both numbers read back as the values shown |
| FireControls.OnToggled | PlasmaMirrors/panels/fire_controls_panel.py:27-29 | a mode is requested exactly when its radio becomes checked, never when unchecked |
| FireControls.Click | PlasmaMirrors/panels/fire_controls_panel.py:27-29 | clicking another radio requests its mode once; clicking the checked one requests nothing |
| FireControls.ClicksRequestChanges | PlasmaMirrors/panels/fire_controls_panel.py:27-29 | over any run of clicks the same mode is never requested twice in a row, the last request names the mode left checked, and no request means the mode did not change |
| Sorting.SortSorted | PlasmaMirrors/panels/device_tabs_panel.py:244-245 | the sorted list is in non-decreasing key order |
| Sorting.SortStable | PlasmaMirrors/panels/device_tabs_panel.py:244-245 | elements with equal keys keep their relative order |
| Sorting.SortOfSorted | PlasmaMirrors/panels/device_tabs_panel.py:244-245 | an already sorted list comes back unchanged |
| Dicts.Index | PlasmaMirrors/panels/device_status_panel.py:73-84 | the dictionary built in list order finds every key, at a position holding that key, with no later position holding it (the last occurrence wins) |
| Dicts.IndexFirstOrder | PlasmaMirrors/panels/device_status_panel.py:135-141 | the dictionary's keys, and so `list(d.values())`, follow the order of each key's first occurrence in the list |
| PyText.IntRoundTrip | PlasmaMirrors/panels/fire_controls_panel.py:75 | `int(str(i)) == i` for every integer |
| PyText.RoundHalfEven | PlasmaMirrors/widgets/motor_row.py:92 | `round` gives the nearest integer, ties to even |
| PyText.GroupIntUngroup | PlasmaMirrors/widgets/motor_row.py:76 | the grouped step text carries exactly the digits of `str(n)` |
| PyText.ZeroPadRoundTrip | PlasmaMirrors/utilities/file_renamer.py:138 | `int()` reads a zero-padded number back unchanged |
| PyText.SplitExtJoin | PlasmaMirrors/utilities/file_renamer.py:127 | a proper extension appended to a stem is split off again unchanged |
| PyText.TruncToInt | PlasmaMirrors/panels/motor_status_panel.py:62 | `int(x)` drops the fraction toward zero |
| PyText.SplitExt | PlasmaMirrors/utilities/file_renamer.py:127 | the path is exactly stem plus extension, and the extension is empty or a dot followed by no further dot or separator |
| PyText.Strip | PlasmaMirrors/utilities/file_renamer.py:59 | `str.strip()`: the result is the input with its leading and trailing whitespace cut away, and neither starts nor ends with whitespace |
| PyText.StripIdempotent | PlasmaMirrors/utilities/file_renamer.py:59 | stripping an already stripped text changes nothing |
| Json.PyInt | PlasmaMirrors/panels/device_status_panel.py:76 | `int()` of a JSON value: booleans as 0/1, floats truncated, strings parsed; null, arrays and objects raise |
| Json.PyFloat | PlasmaMirrors/panels/device_tabs_panel.py:391 | `float()` of a JSON value: booleans as 0/1, numbers as they are, strings parsed; null, arrays and objects raise |

## Left out

- Vendor libraries are left out: zaber_motion, Kinesis/pythonnet, nidaqmx and the Picomotor CmdLib. Their replies are explicit inputs. The probing of several overload signatures is folded into one reply per call.
- Threads, QTimer, `sleep`, the 200 ms delayed low write and wall-clock deadlines are left out. Ticks and polls are finite sequences of inputs.
- KinesisFire.Tick: the low write 200 ms after a single pulse is returned as a pending write, without its timing.
- The worker loop exits by `stop_flag` and by window closing; these are modelled only as the end of the poll sequence.
- File-system and JSON I/O are left out: `ForbiddenPositionStore.load`, `_load_*`/`_save_*` file writes, `device_connections.json`, `os.rename`/`os.replace`/`makedirs`. Directory listings are snapshots; file contents are records.
- JSON key order in saved files is left out: records are maps.
- `_save_stages` write failures are left out.
- `write_info` and the shot-info file are left out; they are output only.
- Conversion of an epoch timestamp into calendar fields is left out: stamps are given as date and time records.
- `rename_shot_files` and `save_burst_files` take `match_fn` and `logger` arguments. Only the default matcher is modelled, and log text is left out.
- Set-iteration order of the waiting tokens is left out: the renamer visits them in ascending index order.
- The `commonpath` test that skips files already inside the burst folder is modelled as never true. The listing is of the output directory, not the burst folder.
- A file moved by an earlier poll is treated as gone from later listings.
- `str.isalnum` is modelled on ASCII letters and digits only.
- Windows drive-relative paths and `ntpath` corner cases beyond separators and dots are left out.
- Floating-point rounding and digit rendering are left out: positions are exact reals.
- Json.PyStr takes the text of a float as an input.
- BurstSave.Dest: a taken destination becomes the intended `_dup` name (DupFile), not the program's `<stem of the new name>_dup<ext>`; the program's name is DupAsWritten, and the Findings table shows where the two differ.
- BurstSave.BurstDest: uses the intended `_dup` name, as BurstSave.Dest does.
- BurstSave.SaveBurstFiles: moves taken names to the intended `_dup` name, as BurstSave.Dest does.
- BurstSave.BurstDestinations: states the destinations with the intended `_dup` name, as BurstSave.Dest does.
- LegacyInterface.RowShows: labels are built with the intended FormatUnits, not with FormatUnitsAsWritten, which always renders `.0f`; the Findings table shows where the two differ.
- LegacyInterface.Tick: row labels use the intended FormatUnits, as LegacyInterface.RowShows does.
- LegacyInterface.ShowPosition: the label uses the intended FormatUnits, as LegacyInterface.RowShows does.
- LegacyInterface.ApplyValue: the label uses the intended FormatUnits, as LegacyInterface.RowShows does.
- PyText.Lower: folds the ASCII letters A-Z only. Python's `str.lower` folds every cased Unicode character, and Unicode case tables are not modelled.
- ShotRename.DefaultMatch: matches case-insensitively on ASCII letters only, through PyText.Lower.
- LegacyInterface.SetLbound: the status message sent on `action_performed` is not modelled. The status panel that shows it is outside this model.
- LegacyInterface.SetUbound: the status message sent on `action_performed` is not modelled, as for SetLbound.
- LegacyInterface.UpdateAddress: the label uses the intended FormatUnits, as LegacyInterface.RowShows does.
- LegacyInterface.UpdateSpeed: the label uses the intended FormatUnits, as LegacyInterface.RowShows does.
- LegacyInterface.OnPositionAsWritten: keeps the program's address guard but labels rows with the intended FormatUnits.
- LegacyInterface.OnSpeedAsWritten: keeps the program's address guard but labels rows with the intended FormatUnits.
- StageControl.Init: requires a non-empty row list, because the program's `rows[0]` raises IndexError on an empty one.
- MotorRows.FmtUnits: the value is kept as a (value, decimals) pair rather than rendered digits.
- Spin-box rounding of values to the box's decimals is left out.
- Json.ParseFloat reads plain decimal text only, with Python's single underscores between digits. Exponents, `inf` and `nan` are read as raising.
- DeviceTabs.Load treats array and object keys as incomparable with everything. Python refuses objects, and arrays next to numbers or strings, as the model does. It does compare two arrays, element by element; the model refuses a list whose keys are all arrays.
- Non-dict entries in the JSON lists are not modelled: items are records.
- Names that are not strings are modelled through Json.PyStr.
- StageControl.JogDirection is weaker than the promised "jog_value ≥ 0.0001". `setRange(0, span)` at selection overrides `setMinimum(0.0001)`, so a zero jog is possible. The model follows the code.
- The zero-step-per-unit case of the older interface's `_steps_per_unit`, and its selection, jog, home and speed slots, are left out. They only forward requests to the stage worker.
- The debug line `on_stage_moved` logs when no item is found is left out.
- The outer `try` of `populate`, which keeps a partly filled tree after an exception, is left out: the per-field conversions are modelled as total.
- Widget reverts after a cancelled edit in `_on_field_changed` are left out; the stage data is kept.
- `_on_baud_changed`, `_on_com_changed` and `_on_connect_clicked` are left out: connection settings are written to a file.
- `_on_stage_selected` and the camera/spectrometer tables of the device tabs are left out: they only fill widgets.
- `set_motor_rows` of the Picomotor panel and its row widgets are left out: display only.
- The burst spin box and `_emit_burst` of the fire controls are left out, as is `set_status`: they forward values unchanged.
- `read_position_speed`, `open`, `close` and `discover` of the three Zaber workers are left out. They forward device replies, or enumerate the port, without decisions.
- `set_target_speed` of the polling and ASCII Zaber workers is left out. It has the same unit gate as the blocking worker's, which is modelled.
- `stop_motion`, `stop_all` and `close` of the Picomotor worker are left out. They issue vendor calls and emit `moving(False)`.
- The pre-move position read in `relative_move` is left out: its value is never used.
- Widget construction, layout and painting are left out, as are the tkinter front end beyond its mode mapping and the application wiring.
- The round light is left out.

## Findings

| source | as written | input that shows it | evidently intended | confidence | as-written member | corrected member |
|---|---|---|---|---|---|---|
| PlasmaMirrors/utilities/forbidden_position.py:67-116 | a row's address is recorded inside the same `try` as its `get_current()` read, and the mirror-group rows have no `get_current`, so no address is ever recorded and the motor-record fallback never supplies a stage id | any panel whose Auto rows fail to read: the position map stays empty, so no entry matches | record each row's address independently, so the fallback fills the ids from the motor records | not executed | Forbidden.AllReadsFailNoMatches | Forbidden.IntendedCoversRows |
| PlasmaGratings/ELIMIL_NI_Interface_PlasmaMirror.py:164 | `if unit == "deg" or "deg/s"` is always true | unit "mm", value 12.3456 is shown as "12" | no decimals for angular units, four significant digits otherwise | not executed | LegacyInterface.MillimetresLoseDecimals | LegacyInterface.FormatUnits |
| PlasmaGratings/ELIMIL_NI_Interface_PlasmaMirror.py:940 | `if address == 1 or 15` is always true | a position reply from address 0 overwrites the last row | only replies from addresses 1 and 15 reach the rows | not executed | LegacyInterface.AddressZeroMovesLastRow | LegacyInterface.OnPosition |
| PlasmaGratings/ELIMIL_NI_Interface_PlasmaMirror.py:949 | `if address == 1 or 15` is always true | a speed reply from address 2 overwrites the second row | only addresses 1 and 15 | not executed | LegacyInterface.AddressTwoChangesSpeed | LegacyInterface.OnSpeed |
| PlasmaMirrors/utilities/file_renamer.py:357 | the `_dup` name is built with `splitext(newname)[0]` from the new name, which itself has the file's extension or none | experiment "run.1" and files without extension: every token's `_dup` name is "run_dup" | `_dup` inserted before the file's extension in the new name | not executed | BurstSave.DupAsWrittenCollides | BurstSave.DupFileDistinct |

=== FILE: burst_save.dfy ===
/**
 Saving the files of a burst (`save_burst_files`): the output directory is
 polled, and for every token the first matching file whose size has stayed
 the same for the stability time is moved into a fresh `Burst_<n>` folder
 under the burst sub-folder, renamed `<experiment>_Burst_<label>_0<ext>`.

 The file system is an input: whether the base folder could be created, the
 sub-folders `os.listdir` finds there, the paths that already exist when the
 burst folder is made, and, per poll, the files listed with their sizes, the
 destinations that already exist and the sources whose move raises.
 */
module BurstSave {
  import opened Wrappers
  import PyText
  import ShotRename

  // ---------------------------------------------------------------------
  // The burst folder number
  // ---------------------------------------------------------------------

  /** The number of an existing folder: for a name starting with `Burst_`,
      `int(d.split('_', 1)[1])` reads what follows that first underscore;
      `None` when the name does not qualify or `int` raises. */
  function BurstNumber(d: string): (r: Option<int>)
    ensures r.Some? ==> PyText.StartsWith(d, "Burst_")
  {
    if PyText.StartsWith(d, "Burst_") then PyText.ParseInt(d[6..]) else None
  }

  /** `f'Burst_{n}'`. */
  function FolderName(n: int): string
  {
    "Burst_" + PyText.IntToString(n)
  }

  /** A folder name reads back as its own number. */
  lemma FolderNameNumber(n: int)
    ensures BurstNumber(FolderName(n)) == Some(n)
  {
    var d := FolderName(n);
    assert d[6..] == PyText.IntToString(n);
    PyText.IntRoundTrip(n);
  }

  /** The scan `maxn = -1; for d in existing: ... if n > maxn: maxn = n`,
      continued from `m` over `ds`. */
  function MaxNumber(ds: seq<string>, m: int): (r: int)
    ensures r >= m
    ensures forall d | d in ds && BurstNumber(d).Some? :: BurstNumber(d).value <= r
    ensures r == m || exists d | d in ds :: BurstNumber(d) == Some(r)
    decreases |ds|
  {
    if |ds| == 0 then m
    else
      var n := BurstNumber(ds[0]);
      var m1 := if n.Some? && n.value > m then n.value else m;
      var r := MaxNumber(ds[1..], m1);
      assert forall d | d in ds[1..] :: d in ds;
      r
  }

  /** `nextn = maxn + 1`: one past the largest number among the existing
      `Burst_` folders, 0 when there is none. */
  function NextIndex(ds: seq<string>): (r: int)
    ensures r >= 0
    ensures forall d | d in ds && BurstNumber(d).Some? :: BurstNumber(d).value < r
    ensures r == 0 || exists d | d in ds :: BurstNumber(d) == Some(r - 1)
  {
    var m := MaxNumber(ds, -1);
    NextWitness(ds, m);
    m + 1
  }

  lemma NextWitness(ds: seq<string>, m: int)
    requires m == -1 || exists d | d in ds :: BurstNumber(d) == Some(m)
    ensures m + 1 == 0 || exists d | d in ds :: BurstNumber(d) == Some(m + 1 - 1)
  {
    if m != -1 {
      var d :| d in ds && BurstNumber(d) == Some(m);
      assert BurstNumber(d) == Some(m + 1 - 1);
    }
  }

  /** The folder name built from the next index is none of the existing
      folders. */
  lemma NextFolderIsNew(ds: seq<string>)
    ensures FolderName(NextIndex(ds)) !in ds
  {
    FolderNameNumber(NextIndex(ds));
  }

  // ---------------------------------------------------------------------
  // The burst folder
  // ---------------------------------------------------------------------

  /** What creating the folders finds: whether `makedirs(base_folder)`
      succeeds, the sub-folder names `os.listdir(base_folder)` gives (`None`
      when it raises), the paths that already exist, and whether the
      `_alt` folder can be created. */
  datatype Folders = Folders(baseOk: bool, subdirs: Option<seq<string>>, present: set<string>, altOk: bool)

  /** The folder the burst goes under: `burst_rel` inside the output
      directory, or the output directory itself. */
  function BaseFolder(outdir: string, burstRel: string): (r: string)
    ensures PyText.StartsWith(r, outdir)
  {
    if burstRel == "" then outdir else PyText.Join(outdir, burstRel)
  }

  /** `nextn`: the given index, else the next index after the existing
      folders; `None` when the listing raised and `nextn` stays unbound. */
  function FolderNumber(burstIndex: Option<int>, subdirs: Option<seq<string>>): (r: Option<int>)
    ensures burstIndex.Some? ==> r == burstIndex
    ensures burstIndex.None? && subdirs.Some? ==> r == Some(NextIndex(subdirs.value))
    ensures burstIndex.None? && subdirs.None? ==> r.None?
  {
    if burstIndex.Some? then burstIndex
    else if subdirs.None? then None
    else Some(NextIndex(subdirs.value))
  }

  /** The burst folder: `Burst_<nextn>` (`Burst_0` when the listing raised),
      which `makedirs(..., exist_ok=False)` creates only when it does not
      exist yet; otherwise `Burst_<nextn>_alt`, whose creation fails outright
      when `nextn` is unbound. `None` is the empty string the call then
      returns. */
  function BurstFolder(base: string, burstIndex: Option<int>, fs: Folders): (r: Option<string>)
    ensures var n := FolderNumber(burstIndex, fs.subdirs);
      var plain := PyText.Join(base, FolderName(n.GetOr(0)));
      && (r.Some? && r.value == plain ==> plain !in fs.present)
      && (r.Some? && r.value != plain ==>
            n.Some? && fs.altOk && plain in fs.present && r.value == PyText.Join(base, FolderName(n.value) + "_alt"))
      && (r.None? <==> plain in fs.present && (n.None? || !fs.altOk))
  {
    var n := FolderNumber(burstIndex, fs.subdirs);
    var plain := PyText.Join(base, FolderName(n.GetOr(0)));
    if plain !in fs.present then Some(plain)
    else if n.None? || !fs.altOk then None
    else
      var alt := PyText.Join(base, FolderName(n.value) + "_alt");
      assert |alt| > |plain|;
      Some(alt)
  }

  // ---------------------------------------------------------------------
  // Labels and names
  // ---------------------------------------------------------------------

  /** `str.isalnum` on ASCII letters and digits. */
  predicate IsAlnum(c: char)
  {
    ('a' <= c <= 'z') || ('A' <= c <= 'Z') || ('0' <= c <= '9')
  }

  /** The characters a label keeps. */
  predicate LabelChar(c: char)
  {
    IsAlnum(c) || c == '-' || c == '_'
  }

  ghost predicate AllLabelChars(s: string)
  {
    forall k | 0 <= k < |s| :: LabelChar(s[k])
  }

  /** `''.join(ch for ch in tok if ch.isalnum() or ch in ('-', '_'))`. */
  function KeepLabelChars(s: string): (r: string)
    ensures AllLabelChars(r) && |r| <= |s|
    ensures forall c | c in s && LabelChar(c) :: c in r
    ensures forall c | c in r :: c in s
    ensures AllLabelChars(s) ==> r == s
  {
    if |s| == 0 then ""
    else
      var rest := KeepLabelChars(s[1..]);
      assert forall c | c in s[1..] :: c in s;
      if LabelChar(s[0]) then [s[0]] + rest else rest
  }

  /** The label of a token: its kept characters, or "Token" when none is
      left. */
  function SafeLabel(tok: string): (r: string)
    ensures |r| > 0 && AllLabelChars(r)
    ensures KeepLabelChars(tok) != "" ==> r == KeepLabelChars(tok)
  {
    var kept := KeepLabelChars(tok);
    if kept == "" then "Token" else kept
  }

  /** A label is its own label, and a non-empty token made only of label
      characters is used unchanged. */
  lemma SafeLabelIdempotent(tok: string)
    ensures SafeLabel(SafeLabel(tok)) == SafeLabel(tok)
    ensures tok != "" && AllLabelChars(tok) ==> SafeLabel(tok) == tok
  {
  }

  /** `f"{experiment}_Burst_{safe_label}_{counters_j}{ext}"` with the
      counter always 0. */
  function BurstFile(exp: string, tag: string, ext: string): string
  {
    exp + "_Burst_" + tag + "_0" + ext
  }

  /** The `_dup` name as the source builds it:
      `f"{os.path.splitext(newname)[0]}_dup{ext}"`. */
  function DupAsWritten(newname: string, ext: string): string
  {
    PyText.SplitExt(newname).0 + "_dup" + ext
  }

  /** The `_dup` name as evidently intended: the new name with `_dup` before
      the extension. */
  function DupFile(exp: string, tag: string, ext: string): (r: string)
    ensures |r| == |BurstFile(exp, tag, ext)| + 4
  {
    exp + "_Burst_" + tag + "_0_dup" + ext
  }

  /** An extension as `os.path.splitext` produces it. */
  ghost predicate IsExt(ext: string)
  {
    ext == "" || (ext[0] == '.' && forall k | 1 <= k < |ext| :: ext[k] != '.' && !PyText.IsSep(ext[k]))
  }

  ghost predicate NoDot(s: string)
  {
    forall k | 0 <= k < |s| :: s[k] != '.'
  }

  /** Where the experiment name has no dot or the file has an extension, the
      source's `_dup` name is the intended one. */
  lemma DupAgrees(exp: string, tag: string, ext: string)
    requires AllLabelChars(tag) && IsExt(ext)
    requires ext != "" || NoDot(exp)
    ensures DupAsWritten(BurstFile(exp, tag, ext), ext) == DupFile(exp, tag, ext)
  {
    var stem := exp + "_Burst_" + tag + "_0";
    assert BurstFile(exp, tag, ext) == stem + ext;
    if ext != "" {
      PyText.SplitExtJoin(stem, ext);
    } else {
      assert stem + ext == stem;
      PyText.SplitExtNoDot(stem);
    }
  }

  /** The last dot of `s + t` is that of `s` when `t` has none. */
  lemma {:induction false} LastDotPrefix(s: string, t: string)
    requires NoDot(t)
    ensures PyText.LastIndex(s + t, true) == PyText.LastIndex(s, true)
    decreases |t|
  {
    if |t| > 0 {
      var p := s + t;
      assert p[|p| - 1] == t[|t| - 1] != '.';
      assert p[..|p| - 1] == s + t[..|t| - 1];
      assert PyText.LastIndex(p, true) == PyText.LastIndex(p[..|p| - 1], true);
      LastDotPrefix(s, t[..|t| - 1]);
    } else {
      assert s + t == s;
    }
  }

  /** For a file without extension and an experiment `x.y`, the source's
      `_dup` name keeps only `x`: the label is lost, so every token's
      `_dup` name is the same. */
  lemma DupAsWrittenDropsLabel(x: string, y: string, tag: string)
    requires |x| > 0 && NoDot(x) && NoDot(y) && AllLabelChars(tag)
    requires forall k | 0 <= k < |x| :: !PyText.IsSep(x[k])
    requires forall k | 0 <= k < |y| :: !PyText.IsSep(y[k])
    ensures DupAsWritten(BurstFile(x + "." + y, tag, ""), "") == x + "_dup"
  {
    var p := BurstFile(x + "." + y, tag, "");
    var t := y + "_Burst_" + tag + "_0";
    assert p == (x + ".") + t;
    LastDotPrefix(x + ".", t);
    assert PyText.LastIndex(x + ".", true) == |x|;
    assert forall k | 0 <= k < |p| :: !PyText.IsSep(p[k]);
    assert PyText.LastIndex(p, false) == -1;
    assert p[0] != '.';
    assert PyText.HasNonDot(p, 0, |x|);
    assert p[..|x|] == x;
  }

  /** Two tokens with different labels get the same `_dup` name from the
      source: experiment "run.1", files without extension. */
  lemma DupAsWrittenCollides()
    ensures BurstFile("run.1", "Cam", "") != BurstFile("run.1", "Spec", "")
    ensures DupAsWritten(BurstFile("run.1", "Cam", ""), "") == DupAsWritten(BurstFile("run.1", "Spec", ""), "")
  {
    assert "run.1" == "run" + "." + "1";
    DupAsWrittenDropsLabel("run", "1", "Cam");
    DupAsWrittenDropsLabel("run", "1", "Spec");
    assert |BurstFile("run.1", "Cam", "")| != |BurstFile("run.1", "Spec", "")|;
  }

  /** The intended `_dup` names of different labels differ, and none is
      the plain name it replaces. */
  lemma DupFileDistinct(exp: string, l1: string, l2: string, ext: string)
    ensures DupFile(exp, l1, ext) == DupFile(exp, l2, ext) ==> l1 == l2
    ensures DupFile(exp, l1, ext) != BurstFile(exp, l1, ext)
  {
    if DupFile(exp, l1, ext) == DupFile(exp, l2, ext) {
      var a := DupFile(exp, l1, ext);
      var b := DupFile(exp, l2, ext);
      var n := |exp| + 7;
      assert |l1| == |l2|;
      assert a[n..n + |l1|] == l1;
      assert b[n..n + |l2|] == l2;
    }
  }

  // ---------------------------------------------------------------------
  // The polling state
  // ---------------------------------------------------------------------

  /** The fixed inputs of the polling loop. */
  datatype Job = Job(outdir: string, burstDir: string, toks: seq<string>, exp: string, stableTime: real)

  /** A moved file: the token index it was moved for, and the paths. */
  datatype Move = Move(tok: nat, src: string, dest: string)

  /** The loop's state: the (token, path) candidates seen, the last size and
      the stable-since time per path, the processed paths, the moves made and
      the tokens done. */
  datatype Burst = Burst(
    seen: set<(nat, string)>,
    lastSize: map<string, int>,
    stableSince: map<string, Option<real>>,
    processed: set<string>,
    moves: seq<Move>,
    done: set<nat>)

  function Sources(moves: seq<Move>): (r: set<string>)
    ensures forall k | 0 <= k < |moves| :: moves[k].src in r
  {
    set k | 0 <= k < |moves| :: moves[k].src
  }

  /** The destination of a move: the new name in the burst folder, or its
      `_dup` variant when that path exists. */
  function Dest(job: Job, poll: ShotRename.Poll, full: string, i: nat): (r: string)
    requires i < |job.toks|
    ensures BurstDest(job, i, r)
  {
    var ext := PyText.SplitExt(PyText.Basename(full)).1;
    var tag := SafeLabel(job.toks[i]);
    var dest := PyText.Join(job.burstDir, BurstFile(job.exp, tag, ext));
    var r := if dest in poll.taken then PyText.Join(job.burstDir, DupFile(job.exp, tag, ext)) else dest;
    BurstDestOf(job, i, ext, r);
    r
  }

  lemma BurstDestOf(job: Job, i: nat, ext: string, d: string)
    requires i < |job.toks|
    requires ext == "" || (ext[0] == '.' && forall k | 1 <= k < |ext| :: ext[k] != '.' && !PyText.IsSep(ext[k]))
    requires || d == PyText.Join(job.burstDir, BurstFile(job.exp, SafeLabel(job.toks[i]), ext))
             || d == PyText.Join(job.burstDir, DupFile(job.exp, SafeLabel(job.toks[i]), ext))
    ensures BurstDest(job, i, d)
  {
    assert IsExt(ext);
  }

  /** `d` is the new name of token `i`'s file in the burst folder, or its
      `_dup` variant. */
  ghost predicate BurstDest(job: Job, i: nat, d: string)
    requires i < |job.toks|
  {
    exists ext :: IsExt(ext) &&
      var tag := SafeLabel(job.toks[i]);
      d == PyText.Join(job.burstDir, BurstFile(job.exp, tag, ext)) ||
      d == PyText.Join(job.burstDir, DupFile(job.exp, tag, ext))
  }

  /** The inner loop over the tokens for the listed file `full` (lower-cased
      name `low`, size `size`, `None` when `getsize` raises), from token `i`
      on. The first non-empty matching token decides and the loop breaks,
      except that a stable file whose token is already done goes on to the
      next token. */
  function TokenScan(job: Job, b: Burst, poll: ShotRename.Poll, full: string, low: string, size: Option<int>, i: nat): (r: Burst)
    requires i <= |job.toks|
    decreases |job.toks| - i
  {
    if i == |job.toks| then b
    else
      var tokL := PyText.Lower(job.toks[i]);
      if tokL == "" || !ShotRename.DefaultMatch(low, tokL) then TokenScan(job, b, poll, full, low, size, i + 1)
      else
        var b1 :=
          if (i, full) in b.seen then b
          else b.(seen := b.seen + {(i, full)},
                  lastSize := b.lastSize[full := -1],
                  stableSince := b.stableSince[full := None]);
        var cur := size.GetOr(-1);
        if cur == ShotRename.Get(b1.lastSize, full, -2) && cur >= 0 then
          match ShotRename.Get(b1.stableSince, full, None)
          case None => b1.(stableSince := b1.stableSince[full := Some(poll.now)])
          case Some(since) =>
            if poll.now - since < job.stableTime then b1
            else if i in b1.done then TokenScan(job, b1, poll, full, low, size, i + 1)
            else if full in poll.failing then b1
            else
              var dest := Dest(job, poll, full, i);
              b1.(processed := b1.processed + {dest},
                  moves := b1.moves + [Move(i, full, dest)],
                  done := b1.done + {i})
        else b1.(lastSize := b1.lastSize[full := cur], stableSince := b1.stableSince[full := None])
  }

  /** A scan either leaves the moves alone or adds exactly one, of `full`,
      for a non-empty token not yet done. */
  ghost predicate Grew(job: Job, b: Burst, r: Burst, full: string)
  {
    || (r.moves == b.moves && r.processed == b.processed && r.done == b.done)
    || (&& |r.moves| == |b.moves| + 1 && r.moves == b.moves + [r.moves[|b.moves|]]
        && var m := r.moves[|b.moves|];
        && m.src == full && m.tok < |job.toks| && m.tok !in b.done
        && PyText.Lower(job.toks[m.tok]) != ""
        && BurstDest(job, m.tok, m.dest)
        && r.processed == b.processed + {m.dest} && r.done == b.done + {m.tok})
  }

  lemma {:induction false} ScanGrew(job: Job, b: Burst, poll: ShotRename.Poll, full: string, low: string, size: Option<int>, i: nat)
    requires i <= |job.toks|
    ensures Grew(job, b, TokenScan(job, b, poll, full, low, size, i), full)
    decreases |job.toks| - i
  {
    if i < |job.toks| {
      var tokL := PyText.Lower(job.toks[i]);
      if tokL == "" || !ShotRename.DefaultMatch(low, tokL) {
        ScanGrew(job, b, poll, full, low, size, i + 1);
      } else {
        var b1 :=
          if (i, full) in b.seen then b
          else b.(seen := b.seen + {(i, full)},
                  lastSize := b.lastSize[full := -1],
                  stableSince := b.stableSince[full := None]);
        ScanGrew(job, b1, poll, full, low, size, i + 1);
      }
    }
  }

  /** A move happens only after the file's size was recorded non-negative
      on an earlier poll, read equal now, and stayed so for the stability
      time; the token matches the file and was not done. */
  lemma MoveNeedsStability(job: Job, b: Burst, poll: ShotRename.Poll, full: string, low: string, size: Option<int>, i: nat)
    requires i <= |job.toks|
    ensures var r := TokenScan(job, b, poll, full, low, size, i);
      |r.moves| > |b.moves| ==>
        var m := r.moves[|b.moves|];
        && i <= m.tok < |job.toks| && m.tok !in b.done && m.src == full
        && ShotRename.DefaultMatch(low, PyText.Lower(job.toks[m.tok]))
        && size.Some? && size.value >= 0
        && ShotRename.Get(b.lastSize, full, -2) == size.value
        && ShotRename.Get(b.stableSince, full, None).Some?
        && poll.now - ShotRename.Get(b.stableSince, full, None).value >= job.stableTime
        && full !in poll.failing
    decreases |job.toks| - i
  {
    if i < |job.toks| {
      var tokL := PyText.Lower(job.toks[i]);
      if tokL == "" || !ShotRename.DefaultMatch(low, tokL) {
        MoveNeedsStability(job, b, poll, full, low, size, i + 1);
      } else if (i, full) in b.seen {
        MoveNeedsStability(job, b, poll, full, low, size, i + 1);
      }
    }
  }

  /** Every move's token is done; a done token is a real, non-empty one;
      and there are as many done tokens as moves. */
  ghost predicate DoneOk(job: Job, b: Burst)
  {
    && (forall k | 0 <= k < |b.moves| :: b.moves[k].tok in b.done)
    && (forall i | i in b.done :: i < |job.toks| && PyText.Lower(job.toks[i]) != "")
    && |b.done| == |b.moves|
  }

  /** Every destination is processed and is its token's name in the burst
      folder. */
  ghost predicate DestsOk(job: Job, moves: seq<Move>, processed: set<string>)
  {
    forall k | 0 <= k < |moves| ::
      moves[k].tok < |job.toks| && moves[k].dest in processed && BurstDest(job, moves[k].tok, moves[k].dest)
  }

  /** No token and no file is moved twice. */
  ghost predicate DistinctOk(moves: seq<Move>)
  {
    forall k, l | 0 <= k < l < |moves| :: moves[k].tok != moves[l].tok && moves[k].src != moves[l].src
  }

  /** What the polling keeps true. */
  ghost predicate MovesOk(job: Job, b: Burst)
  {
    DoneOk(job, b) && DestsOk(job, b.moves, b.processed) && DistinctOk(b.moves)
  }

  lemma DoneAppend(job: Job, b: Burst, r: Burst, m: Move)
    requires DoneOk(job, b) && m.tok !in b.done
    requires m.tok < |job.toks| && PyText.Lower(job.toks[m.tok]) != ""
    requires r.moves == b.moves + [m] && r.done == ShotRename.Added(b.done, m.tok)
    ensures DoneOk(job, r)
  {
    forall k | 0 <= k < |r.moves|
      ensures r.moves[k].tok in r.done
    {
      if k < |b.moves| { assert r.moves[k] == b.moves[k]; }
    }
  }

  lemma DestsAppend(job: Job, moves: seq<Move>, processed: set<string>, m: Move)
    requires DestsOk(job, moves, processed)
    requires m.tok < |job.toks| && BurstDest(job, m.tok, m.dest)
    ensures DestsOk(job, moves + [m], processed + {m.dest})
  {
    var ms := moves + [m];
    forall k | 0 <= k < |ms|
      ensures ms[k].tok < |job.toks| && ms[k].dest in processed + {m.dest} && BurstDest(job, ms[k].tok, ms[k].dest)
    {
      if k < |moves| { assert ms[k] == moves[k]; }
    }
  }

  lemma DistinctAppend(moves: seq<Move>, done: set<nat>, m: Move)
    requires DistinctOk(moves)
    requires forall k | 0 <= k < |moves| :: moves[k].tok in done
    requires m.tok !in done && m.src !in Sources(moves)
    ensures DistinctOk(moves + [m])
  {
    var ms := moves + [m];
    forall k, l | 0 <= k < l < |ms|
      ensures ms[k].tok != ms[l].tok && ms[k].src != ms[l].src
    {
      assert ms[k] == moves[k];
      if l < |moves| { assert ms[l] == moves[l]; }
    }
  }

  /** Adding one move of a new source for a token not yet done keeps the
      invariant. */
  lemma MovesOkAppend(job: Job, b: Burst, r: Burst, full: string)
    requires MovesOk(job, b) && Grew(job, b, r, full) && full !in Sources(b.moves)
    ensures MovesOk(job, r)
  {
    if r.moves != b.moves {
      var m := r.moves[|b.moves|];
      DoneAppend(job, b, r, m);
      DestsAppend(job, b.moves, b.processed, m);
      DistinctAppend(b.moves, b.done, m);
    }
  }

  /** One listed file: skipped when it is processed (or was moved away
      earlier in the call, so it is no longer there), else scanned against
      the tokens. */
  function EntryStep(job: Job, b: Burst, poll: ShotRename.Poll, e: ShotRename.Entry): (r: Burst)
  {
    var full := PyText.Join(job.outdir, e.name);
    if full in b.processed || full in Sources(b.moves) then b
    else TokenScan(job, b, poll, full, PyText.Lower(e.name), e.size, 0)
  }

  lemma EntryStepOk(job: Job, b: Burst, poll: ShotRename.Poll, e: ShotRename.Entry)
    requires MovesOk(job, b)
    ensures MovesOk(job, EntryStep(job, b, poll, e))
    ensures b.processed <= EntryStep(job, b, poll, e).processed
    ensures |EntryStep(job, b, poll, e).moves| >= |b.moves|
    ensures EntryStep(job, b, poll, e).moves[..|b.moves|] == b.moves
  {
    var full := PyText.Join(job.outdir, e.name);
    if !(full in b.processed || full in Sources(b.moves)) {
      var r := TokenScan(job, b, poll, full, PyText.Lower(e.name), e.size, 0);
      ScanGrew(job, b, poll, full, PyText.Lower(e.name), e.size, 0);
      MovesOkAppend(job, b, r, full);
    }
  }

  /** One poll: every listed file in order. */
  function Sweep(job: Job, b: Burst, poll: ShotRename.Poll, es: seq<ShotRename.Entry>): (r: Burst)
    decreases |es|
  {
    if |es| == 0 then b else Sweep(job, EntryStep(job, b, poll, es[0]), poll, es[1..])
  }

  lemma {:induction false} SweepOk(job: Job, b: Burst, poll: ShotRename.Poll, es: seq<ShotRename.Entry>)
    requires MovesOk(job, b)
    ensures MovesOk(job, Sweep(job, b, poll, es))
    ensures b.processed <= Sweep(job, b, poll, es).processed
    ensures |Sweep(job, b, poll, es).moves| >= |b.moves|
    ensures Sweep(job, b, poll, es).moves[..|b.moves|] == b.moves
    decreases |es|
  {
    if |es| > 0 {
      var b1 := EntryStep(job, b, poll, es[0]);
      EntryStepOk(job, b, poll, es[0]);
      SweepOk(job, b1, poll, es[1..]);
      var r := Sweep(job, b1, poll, es[1..]);
      assert r.moves[..|b.moves|] == r.moves[..|b1.moves|][..|b.moves|];
    }
  }

  /** The `while` loop over the polls made before the deadline; it stops
      early once every token is done. A poll whose listing raised sees no
      files. */
  function Loop(job: Job, b: Burst, polls: seq<ShotRename.Poll>): (r: Burst)
    decreases |polls|
  {
    if |polls| == 0 || |b.done| >= |job.toks| then b
    else Loop(job, Sweep(job, b, polls[0], polls[0].listing.GetOr([])), polls[1..])
  }

  lemma {:induction false} LoopOk(job: Job, b: Burst, polls: seq<ShotRename.Poll>)
    requires MovesOk(job, b)
    ensures MovesOk(job, Loop(job, b, polls))
    ensures b.processed <= Loop(job, b, polls).processed
    decreases |polls|
  {
    if |polls| > 0 && |b.done| < |job.toks| {
      var es := polls[0].listing.GetOr([]);
      SweepOk(job, b, polls[0], es);
      LoopOk(job, Sweep(job, b, polls[0], es), polls[1..]);
    }
  }

  // ---------------------------------------------------------------------
  // Counting the tokens done
  // ---------------------------------------------------------------------

  /** A set of numbers below `n` has at most `n` members. */
  lemma {:induction false} BoundedCard(s: set<nat>, n: nat)
    requires forall x | x in s :: x < n
    ensures |s| <= n
    decreases n
  {
    if n == 0 {
      assert s == {};
    } else {
      var s' := s - {n - 1};
      BoundedCard(s', n - 1);
      if n - 1 in s {
        assert s == s' + {n - 1};
      } else {
        assert s == s';
      }
    }
  }

  /** A set of numbers below `n` that misses `i < n` has fewer than `n`
      members. */
  lemma {:induction false} BoundedCardMissing(s: set<nat>, n: nat, i: nat)
    requires i < n && forall x | x in s :: x < n && x != i
    ensures |s| < n
    decreases n
  {
    if i == n - 1 {
      BoundedCard(s, n - 1);
    } else {
      var s' := s - {n - 1};
      BoundedCardMissing(s', n - 1, i);
      if n - 1 in s {
        assert s == s' + {n - 1};
      } else {
        assert s == s';
      }
    }
  }

  /** No more moves than tokens; with an empty token among them, fewer: that
      token is never done, so the loop never ends early. */
  lemma DoneBound(job: Job, b: Burst)
    requires MovesOk(job, b)
    ensures |b.moves| <= |job.toks|
    ensures forall i | 0 <= i < |job.toks| && job.toks[i] == "" :: i !in b.done
    ensures (exists i | 0 <= i < |job.toks| :: job.toks[i] == "") ==> |b.done| < |job.toks|
  {
    BoundedCard(b.done, |job.toks|);
    if exists i | 0 <= i < |job.toks| :: job.toks[i] == "" {
      var i :| 0 <= i < |job.toks| && job.toks[i] == "";
      BoundedCardMissing(b.done, |job.toks|, i);
    }
  }

  // ---------------------------------------------------------------------
  // The whole call
  // ---------------------------------------------------------------------

  function Start(processed: set<string>): (b: Burst)
    ensures b.moves == [] && b.done == {} && b.processed == processed
  {
    Burst({}, map[], map[], processed, [], {})
  }

  /** `save_burst_files` up to its result: `None` when the call returns
      early (no output directory, or a folder that cannot be made), else
      the burst folder and the final polling state. */
  function SaveBurst(outdir: string, burstRel: string, tokens: seq<string>, experiment: string,
                     stableS: real, burstIndex: Option<int>, processed: set<string>,
                     fs: Folders, polls: seq<ShotRename.Poll>): (r: Option<(string, Burst)>)
    ensures outdir == "" || !fs.baseOk ==> r.None?
    ensures r.Some? ==> r.value.0 != "" && PyText.StartsWith(r.value.0, BaseFolder(outdir, burstRel))
    ensures r.Some? ==> var job := Job(outdir, r.value.0, ShotRename.CleanTokens(tokens), experiment,
                                       if stableS == 0.0 then 0.3 else stableS);
      MovesOk(job, r.value.1) && processed <= r.value.1.processed
  {
    if outdir == "" || !fs.baseOk then None
    else
      var base := BaseFolder(outdir, burstRel);
      match BurstFolder(base, burstIndex, fs)
      case None => None
      case Some(dir) =>
        assert |dir| >= |base| && dir[..|base|] == base;
        var job := Job(outdir, dir, ShotRename.CleanTokens(tokens), experiment,
                       if stableS == 0.0 then 0.3 else stableS);
        LoopOk(job, Start(processed), polls);
        Some((dir, Loop(job, Start(processed), polls)))
  }

  function Pairs(moves: seq<Move>): (r: seq<(string, string)>)
    ensures |r| == |moves| && forall k | 0 <= k < |moves| :: r[k] == (moves[k].src, moves[k].dest)
  {
    if |moves| == 0 then [] else [(moves[0].src, moves[0].dest)] + Pairs(moves[1..])
  }

  /** `save_burst_files`: the moved (source, destination) pairs, the updated
      processed set and the burst folder ("" on an early return, with
      nothing moved). At most one file per non-empty token is moved, no file
      twice, each destination is processed and lies in the burst folder. */
  function SaveBurstFiles(outdir: string, burstRel: string, tokens: seq<string>, experiment: string,
                          stableS: real, burstIndex: Option<int>, processed: set<string>,
                          fs: Folders, polls: seq<ShotRename.Poll>): (r: (seq<(string, string)>, set<string>, string))
    ensures outdir == "" ==> r == ([], processed, "")
    ensures r.2 == "" ==> r.0 == [] && r.1 == processed
    ensures processed <= r.1
    ensures |r.0| <= |ShotRename.CleanTokens(tokens)|
    ensures forall k | 0 <= k < |r.0| :: r.0[k].1 in r.1 && PyText.StartsWith(r.0[k].1, r.2)
    ensures forall k, l | 0 <= k < l < |r.0| :: r.0[k].0 != r.0[l].0
  {
    match SaveBurst(outdir, burstRel, tokens, experiment, stableS, burstIndex, processed, fs, polls)
    case None => ([], processed, "")
    case Some((dir, b)) =>
      var job := Job(outdir, dir, ShotRename.CleanTokens(tokens), experiment,
                     if stableS == 0.0 then 0.3 else stableS);
      DoneBound(job, b);
      var ps := Pairs(b.moves);
      forall k | 0 <= k < |ps|
        ensures ps[k].1 in b.processed && PyText.StartsWith(ps[k].1, dir)
      {
        assert BurstDest(job, b.moves[k].tok, b.moves[k].dest);
      }
      (ps, b.processed, dir)
  }

  /** A destination is the new name of a non-empty token's file in the
      burst folder (or its `_dup` variant), and distinct moves belong to
      distinct tokens. */
  lemma BurstDestinations(outdir: string, burstRel: string, tokens: seq<string>, experiment: string,
                          stableS: real, burstIndex: Option<int>, processed: set<string>,
                          fs: Folders, polls: seq<ShotRename.Poll>)
    requires SaveBurst(outdir, burstRel, tokens, experiment, stableS, burstIndex, processed, fs, polls).Some?
    ensures var (dir, b) := SaveBurst(outdir, burstRel, tokens, experiment, stableS, burstIndex, processed, fs, polls).value;
      var toks := ShotRename.CleanTokens(tokens);
      && (forall k | 0 <= k < |b.moves| ::
            && b.moves[k].tok < |toks| && toks[b.moves[k].tok] != ""
            && exists ext :: IsExt(ext) &&
                 (|| b.moves[k].dest == PyText.Join(dir, BurstFile(experiment, SafeLabel(toks[b.moves[k].tok]), ext))
                  || b.moves[k].dest == PyText.Join(dir, DupFile(experiment, SafeLabel(toks[b.moves[k].tok]), ext))))
      && (forall k, l | 0 <= k < l < |b.moves| :: b.moves[k].tok != b.moves[l].tok)
  {
    var (dir, b) := SaveBurst(outdir, burstRel, tokens, experiment, stableS, burstIndex, processed, fs, polls).value;
    var toks := ShotRename.CleanTokens(tokens);
    var job := Job(outdir, dir, toks, experiment, if stableS == 0.0 then 0.3 else stableS);
    forall k | 0 <= k < |b.moves|
      ensures toks[b.moves[k].tok] != ""
    {
      assert PyText.Lower(toks[b.moves[k].tok]) != "";
    }
  }
}

=== FILE: daq_lines.dfy ===
/**
 The three digital output lines that both fire controllers drive (shutter,
 camera, spectrometer) and the polled trigger input they follow.
 */
module DaqLines {
  import opened Wrappers

  /** One reading of the trigger input, `int(bool(read()))`. */
  type Level = x: int | 0 <= x <= 1

  /** Values written to the shutter, camera and spectrometer lines. */
  datatype Lines = Lines(shutter: Level, cam: Level, spec: Level)

  /** All three lines low: the safe state. */
  const Low: Lines := Lines(0, 0, 0)

  /** All three lines high: one single-shot pulse. */
  const Pulse: Lines := Lines(1, 1, 1)

  /** Shutter open, camera and spectrometer following the inverted trigger. */
  function Follow(v: Level): (r: Lines)
    ensures r.shutter == 1
    ensures r.cam == r.spec && r.cam + v == 1
  {
    Lines(1, 1 - v, 1 - v)
  }

  /** A falling edge of the trigger: the previous reading was 1 and this one is 0. */
  predicate Falling(last: Option<Level>, val: Option<Level>)
  {
    last == Some(1) && val == Some(0)
  }

  /** A failed reading on either side never forms an edge. */
  lemma NoEdgeWithoutReadings(last: Option<Level>, val: Option<Level>)
    requires last.None? || val.None?
    ensures !Falling(last, val)
  {
  }
}

=== FILE: device_status.dfy ===
/**
 The device-status tree: one item per configured stage, camera and
 spectrometer, with a power cell (PWR) and a status cell (STS), and the
 dictionaries that find an item by stage address, camera name or
 spectrometer file token.
 */
module DeviceStatus {
  import opened Wrappers
  import PyText
  import Json
  import Dicts

  // ---------------------------------------------------------------------
  // Cells
  // ---------------------------------------------------------------------

  const Yellow := "#e6a400"
  const Green := "#27a227"
  const Red := "#d12b2b"
  const Black := "#000000"
  const White := "#ffffff"

  /** A cell: blank, or a text on a background with a foreground colour. */
  datatype Cell = Blank | Cell(text: string, bg: string, fg: string)

  /** `_set_cell` with a colour: black text on the yellow background, white
      on every other. */
  function Paint(text: string, bg: string): (c: Cell)
    ensures c.Cell? && c.text == text && c.bg == bg
    ensures c.fg == Black <==> bg == Yellow
    ensures c.fg == White <==> bg != Yellow
  {
    Cell(text, bg, if bg != Yellow then White else Black)
  }

  // ---------------------------------------------------------------------
  // Items
  // ---------------------------------------------------------------------

  /** A stage item: its address, the name and description it shows, and its
      two cells. */
  datatype StageItem = StageItem(addr: int, name: Json.Value, desc: Json.Value, pwr: Cell, sts: Cell)

  /** A camera or spectrometer item. */
  datatype DevItem = DevItem(name: string, desc: string, sts: Cell)

  /** The tree's items (every item ever added, in order) and the
      dictionaries over them. */
  datatype Panel = Panel(
    stages: seq<StageItem>, stageKeys: Dicts.Dict<int>,
    cameras: seq<DevItem>, cameraKeys: Dicts.Dict<string>,
    specs: seq<DevItem>, specKeys: Dicts.Dict<string>)
  {
    ghost predicate Valid()
    {
      && Dicts.Valid(stageKeys, |stages|)
      && Dicts.Valid(cameraKeys, |cameras|)
      && Dicts.Valid(specKeys, |specs|)
    }
  }

  /** The address a stage is listed under: `int(num)` when that works, its
      1-based position `i` when `num` is missing or does not convert. */
  function StageAddr(s: Json.Record, i: int): (a: int)
    ensures "num" !in s ==> a == i
    ensures "num" in s && Json.PyInt(s["num"]).Some? ==> a == Json.PyInt(s["num"]).value
    ensures "num" in s && Json.PyInt(s["num"]).None? ==> a == i
  {
    if "num" in s then Json.PyInt(s["num"]).GetOr(i) else i
  }

  /** `name or Abr or f"Addr{addr}"`. */
  function StageName(s: Json.Record, addr: int): (v: Json.Value)
    ensures Json.Truthy(Json.Get(s, "name", Json.Null)) ==> v == s["name"]
    ensures !Json.Truthy(Json.Get(s, "name", Json.Null)) && Json.Truthy(Json.Get(s, "Abr", Json.Null)) ==> v == s["Abr"]
    ensures !Json.Truthy(Json.Get(s, "name", Json.Null)) && !Json.Truthy(Json.Get(s, "Abr", Json.Null)) ==>
      v == Json.Str("Addr" + PyText.IntToString(addr))
  {
    Json.Or(Json.Or(Json.Get(s, "name", Json.Null), Json.Get(s, "Abr", Json.Null)), Json.Str("Addr" + PyText.IntToString(addr)))
  }

  /** `description or desc or ""`. */
  function StageDesc(s: Json.Record): (v: Json.Value)
    ensures Json.Truthy(v) || v == Json.Str("")
    ensures Json.Truthy(Json.Get(s, "description", Json.Str(""))) ==> v == s["description"]
    ensures !Json.Truthy(Json.Get(s, "description", Json.Str(""))) && Json.Truthy(Json.Get(s, "desc", Json.Str(""))) ==>
      v == s["desc"]
    ensures !Json.Truthy(Json.Get(s, "description", Json.Str(""))) && !Json.Truthy(Json.Get(s, "desc", Json.Str(""))) ==>
      v == Json.Str("")
  {
    Json.Or(Json.Or(Json.Get(s, "description", Json.Str("")), Json.Get(s, "desc", Json.Str(""))), Json.Str(""))
  }

  function NewStage(s: Json.Record, i: int): (it: StageItem)
    ensures it.addr == StageAddr(s, i) && it.pwr == Blank && it.sts == Blank
  {
    var a := StageAddr(s, i);
    StageItem(a, StageName(s, a), StageDesc(s), Blank, Blank)
  }

  /** The stage items, one per configured stage, with the address each is
      listed under. */
  function StageItems(confs: seq<Json.Record>): (r: seq<StageItem>)
    ensures |r| == |confs|
    ensures forall j | 0 <= j < |confs| :: r[j].addr == StageAddr(confs[j], j + 1) && r[j].pwr == Blank && r[j].sts == Blank
  {
    seq(|confs|, j requires 0 <= j < |confs| => NewStage(confs[j], j + 1))
  }

  function CameraItems(cams: seq<Json.Record>, floatText: real -> string): (r: seq<DevItem>)
    ensures |r| == |cams| && forall j | 0 <= j < |cams| :: r[j] == NewCamera(cams[j], floatText)
  {
    seq(|cams|, j requires 0 <= j < |cams| => NewCamera(cams[j], floatText))
  }

  function SpecItems(specs: seq<Json.Record>, floatText: real -> string): (r: seq<DevItem>)
    ensures |r| == |specs|
    ensures forall j | 0 <= j < |specs| :: r[j] == DevItem(SpecName(specs[j], j, floatText), SpecLabel(j), Blank)
  {
    seq(|specs|, j requires 0 <= j < |specs| => DevItem(SpecName(specs[j], j, floatText), SpecLabel(j), Blank))
  }

  function Addrs(items: seq<StageItem>): (r: seq<int>)
    ensures |r| == |items| && forall j | 0 <= j < |items| :: r[j] == items[j].addr
  {
    seq(|items|, j requires 0 <= j < |items| => items[j].addr)
  }

  function Names(items: seq<DevItem>): (r: seq<string>)
    ensures |r| == |items| && forall j | 0 <= j < |items| :: r[j] == items[j].name
  {
    seq(|items|, j requires 0 <= j < |items| => items[j].name)
  }

  /** A camera's name: its `Name` text, stripped, or "Camera". */
  function CameraName(c: Json.Record, floatText: real -> string): (n: string)
    ensures n != ""
  {
    var t := PyText.Strip(Json.PyStr(Json.Get(c, "Name", Json.Str("")), floatText));
    if t == "" then "Camera" else t
  }

  /** A spectrometer's name: its `filename` text, stripped, or "Spec<idx>". */
  function SpecName(s: Json.Record, idx: nat, floatText: real -> string): (n: string)
    ensures n != ""
  {
    var t := PyText.Strip(Json.PyStr(Json.Get(s, "filename", Json.Str("")), floatText));
    if t == "" then "Spec" + PyText.IntToString(idx) else t
  }

  /** A camera item: its name, and its `Purpose` text stripped. */
  function NewCamera(c: Json.Record, floatText: real -> string): (it: DevItem)
    ensures it.name == CameraName(c, floatText) && it.sts == Blank
    ensures it.desc == PyText.Strip(Json.PyStr(Json.Get(c, "Purpose", Json.Str("")), floatText))
  {
    DevItem(CameraName(c, floatText), PyText.Strip(Json.PyStr(Json.Get(c, "Purpose", Json.Str("")), floatText)), Blank)
  }

  /** The fixed spectrometer descriptions, by position. */
  function SpecLabel(idx: nat): (l: string)
    ensures idx == 0 ==> l == "Vis. Spectrometer"
    ensures idx == 1 ==> l == "XUV spectrometer"
    ensures idx >= 2 ==> l == "Spectrometer"
  {
    if idx == 0 then "Vis. Spectrometer" else if idx == 1 then "XUV spectrometer" else "Spectrometer"
  }

  /** `populate`: stages from the stage list, cameras and spectrometers
      from their lists; every cell starts blank. */
  function Populate(stages: seq<Json.Record>, cams: seq<Json.Record>, specs: seq<Json.Record>, floatText: real -> string): (p: Panel)
    ensures p.Valid()
    ensures p.stages == StageItems(stages) && p.stageKeys == StageKeys(p.stages)
    ensures p.cameras == CameraItems(cams, floatText) && p.cameraKeys == DevKeys(p.cameras)
    ensures p.specs == SpecItems(specs, floatText) && p.specKeys == DevKeys(p.specs)
  {
    var st := StageItems(stages);
    var cm := CameraItems(cams, floatText);
    var sp := SpecItems(specs, floatText);
    Panel(st, StageKeys(st), cm, DevKeys(cm), sp, DevKeys(sp))
  }

  /** The stage dictionary: every stage is found under its address, by the
      last stage with that address. */
  function StageKeys(items: seq<StageItem>): (d: Dicts.Dict<int>)
    ensures Dicts.Valid(d, |items|)
    ensures forall j | 0 <= j < |items| :: Dicts.Lookup(d, items[j].addr).Some?
    ensures forall i | 0 <= i < |d| :: items[d[i].1].addr == d[i].0
    ensures forall i, j | 0 <= i < |d| && d[i].1 < j < |items| :: items[j].addr != d[i].0
  {
    Dicts.Index(Addrs(items))
  }

  /** The camera or spectrometer dictionary: every item is found under its
      name, by the last item with that name. */
  function DevKeys(items: seq<DevItem>): (d: Dicts.Dict<string>)
    ensures Dicts.Valid(d, |items|)
    ensures forall j | 0 <= j < |items| :: Dicts.Lookup(d, items[j].name).Some?
    ensures forall i | 0 <= i < |d| :: items[d[i].1].name == d[i].0
    ensures forall i, j | 0 <= i < |d| && d[i].1 < j < |items| :: items[j].name != d[i].0
  {
    Dicts.Index(Names(items))
  }

  // ---------------------------------------------------------------------
  // Stage updates
  // ---------------------------------------------------------------------

  /** The addresses a discovery reply lists: each entry's `int(address)`,
      entries that do not convert left out. */
  function Found(devices: seq<Json.Record>): (f: set<int>)
    ensures forall a :: a in f <==> exists d | d in devices :: Json.PyInt(Json.Get(d, "address", Json.Null)) == Some(a)
  {
    set d | d in devices && Json.PyInt(Json.Get(d, "address", Json.Null)).Some? :: Json.PyInt(Json.Get(d, "address", Json.Null)).value
  }

  /** `on_zaber_discovered`: PWR is ON for every listed stage whose address
      was discovered and OFF for every other listed stage. */
  function OnZaberDiscovered(p: Panel, devices: seq<Json.Record>): (r: Panel)
    requires p.Valid()
    ensures r.Valid() && r == p.(stages := r.stages)
    ensures |r.stages| == |p.stages|
    ensures forall i | 0 <= i < |p.stageKeys| ::
      var it := r.stages[p.stageKeys[i].1];
      && it == p.stages[p.stageKeys[i].1].(pwr := it.pwr)
      && it.pwr.Cell? && (it.pwr.text == "ON" <==> p.stageKeys[i].0 in Found(devices))
      && it.pwr.bg == (if p.stageKeys[i].0 in Found(devices) then Green else Red)
    ensures forall j | 0 <= j < |p.stages| && Unnamed(p.stageKeys, j) :: r.stages[j] == p.stages[j]
  {
    var found := Found(devices);
    var stages := Dicts.UpdateEach(p.stages, p.stageKeys,
      (a: int, it: StageItem) => it.(pwr := if a in found then Paint("ON", Green) else Paint("OFF", Red)));
    p.(stages := stages)
  }

  /** The item an address event finds: the dictionary entry for that
      address, else the `addr`-th listed stage in dictionary order. */
  function FindStage(p: Panel, addr: int): (r: Option<nat>)
    requires p.Valid()
    ensures r.Some? ==> r.value < |p.stages|
    ensures Dicts.Lookup(p.stageKeys, addr).Some? ==> r == Dicts.Lookup(p.stageKeys, addr)
    ensures Dicts.Lookup(p.stageKeys, addr).None? && 1 <= addr <= |p.stageKeys| ==> r == Some(p.stageKeys[addr - 1].1)
    ensures r.None? <==> Dicts.Lookup(p.stageKeys, addr).None? && !(1 <= addr <= |p.stageKeys|)
  {
    match Dicts.Lookup(p.stageKeys, addr)
    case Some(j) =>
      assert exists i | 0 <= i < |p.stageKeys| :: p.stageKeys[i].0 == addr;
      Some(j)
    case None => if 1 <= addr <= |p.stageKeys| then Some(p.stageKeys[addr - 1].1) else None
  }

  /** Set the status cell of the item an address finds. */
  function SetStageStatus(p: Panel, addr: int, c: Cell): (r: Panel)
    requires p.Valid()
    ensures r.Valid()
    ensures FindStage(p, addr).None? ==> r == p
    ensures FindStage(p, addr).Some? ==>
      r == p.(stages := p.stages[FindStage(p, addr).value := p.stages[FindStage(p, addr).value].(sts := c)])
  {
    match FindStage(p, addr)
    case None => p
    case Some(j) => p.(stages := p.stages[j := p.stages[j].(sts := c)])
  }

  /** `on_stage_moving`: a start marks the stage MOV in yellow; a stop
      leaves the status as it is. */
  function OnStageMoving(p: Panel, addr: int, moving: bool): (r: Panel)
    requires p.Valid()
    ensures r.Valid() && |r.stages| == |p.stages|
    ensures !moving ==> r == p
    ensures moving && FindStage(p, addr).Some? ==>
      r.stages[FindStage(p, addr).value].sts == Cell("MOV", Yellow, Black)
    ensures FindStage(p, addr).None? ==> r == p
    ensures moving && FindStage(p, addr).Some? ==>
      var j := FindStage(p, addr).value;
      r == p.(stages := p.stages[j := p.stages[j].(sts := Cell("MOV", Yellow, Black))])
  {
    if moving then SetStageStatus(p, addr, Paint("MOV", Yellow)) else p
  }

  /** `on_stage_moved`: the stage is marked OK in green. */
  function OnStageMoved(p: Panel, addr: int): (r: Panel)
    requires p.Valid()
    ensures r.Valid() && |r.stages| == |p.stages|
    ensures FindStage(p, addr).None? ==> r == p
    ensures FindStage(p, addr).Some? ==> r.stages[FindStage(p, addr).value].sts == Cell("OK", Green, White)
    ensures FindStage(p, addr).Some? ==>
      var j := FindStage(p, addr).value;
      r == p.(stages := p.stages[j := p.stages[j].(sts := Cell("OK", Green, White))])
  {
    SetStageStatus(p, addr, Paint("OK", Green))
  }

  /** `on_stage_homed`: the same as a completed move. */
  function OnStageHomed(p: Panel, addr: int): (r: Panel)
    requires p.Valid()
    ensures r == OnStageMoved(p, addr)
  {
    SetStageStatus(p, addr, Paint("OK", Green))
  }

  /** A move that starts and then completes leaves the stage OK. */
  lemma MoveCycle(p: Panel, addr: int)
    requires p.Valid() && FindStage(p, addr).Some?
    ensures var q := OnStageMoved(OnStageMoving(p, addr, true), addr);
      q.stages[FindStage(p, addr).value].sts == Cell("OK", Green, White)
  {
    var q := OnStageMoving(p, addr, true);
    assert q.stageKeys == p.stageKeys;
    assert FindStage(q, addr) == FindStage(p, addr);
  }

  // ---------------------------------------------------------------------
  // Cameras and spectrometers
  // ---------------------------------------------------------------------

  /** Item `j` is not the one any key of `d` finds: an earlier item whose
      name a later one took over. */
  predicate Unnamed<K>(d: Dicts.Dict<K>, j: int)
  {
    forall i | 0 <= i < |d| :: d[i].1 != j
  }

  /** `on_fire_started`: every listed camera and spectrometer is marked CHK
      in yellow. */
  function OnFireStarted(p: Panel): (r: Panel)
    requires p.Valid()
    ensures r.Valid() && r.stages == p.stages && |r.cameras| == |p.cameras| && |r.specs| == |p.specs|
    ensures forall i | 0 <= i < |p.cameraKeys| :: r.cameras[p.cameraKeys[i].1].sts == Cell("CHK", Yellow, Black)
    ensures forall i | 0 <= i < |p.specKeys| :: r.specs[p.specKeys[i].1].sts == Cell("CHK", Yellow, Black)
    ensures r == p.(cameras := r.cameras, specs := r.specs)
    ensures forall i | 0 <= i < |p.cameraKeys| ::
      r.cameras[p.cameraKeys[i].1] == p.cameras[p.cameraKeys[i].1].(sts := Cell("CHK", Yellow, Black))
    ensures forall i | 0 <= i < |p.specKeys| ::
      r.specs[p.specKeys[i].1] == p.specs[p.specKeys[i].1].(sts := Cell("CHK", Yellow, Black))
    ensures forall j | 0 <= j < |p.cameras| && Unnamed(p.cameraKeys, j) :: r.cameras[j] == p.cameras[j]
    ensures forall j | 0 <= j < |p.specs| && Unnamed(p.specKeys, j) :: r.specs[j] == p.specs[j]
  {
    var chk := (k: string, it: DevItem) => it.(sts := Paint("CHK", Yellow));
    p.(cameras := Dicts.UpdateEach(p.cameras, p.cameraKeys, chk),
       specs := Dicts.UpdateEach(p.specs, p.specKeys, chk))
  }

  /** The result cell for one camera or spectrometer. */
  function Outcome(name: string, renamed: set<string>): (c: Cell)
    ensures c.Cell? && (c.text == "OK" <==> name != "" && name in renamed)
    ensures c.text == "OK" || c.text == "F"
  {
    if name != "" && name in renamed then Paint("OK", Green) else Paint("F", Red)
  }

  /** `update_camera_spec_status`: a listed camera or spectrometer is OK
      exactly when its non-empty name is among the renamed tokens, else F. */
  function UpdateCameraSpecStatus(p: Panel, renamed: set<string>): (r: Panel)
    requires p.Valid()
    ensures r.Valid() && r.stages == p.stages && |r.cameras| == |p.cameras| && |r.specs| == |p.specs|
    ensures forall i | 0 <= i < |p.cameraKeys| :: r.cameras[p.cameraKeys[i].1].sts == Outcome(p.cameraKeys[i].0, renamed)
    ensures forall i | 0 <= i < |p.specKeys| :: r.specs[p.specKeys[i].1].sts == Outcome(p.specKeys[i].0, renamed)
    ensures r == p.(cameras := r.cameras, specs := r.specs)
    ensures forall i | 0 <= i < |p.cameraKeys| ::
      r.cameras[p.cameraKeys[i].1] == p.cameras[p.cameraKeys[i].1].(sts := Outcome(p.cameraKeys[i].0, renamed))
    ensures forall i | 0 <= i < |p.specKeys| ::
      r.specs[p.specKeys[i].1] == p.specs[p.specKeys[i].1].(sts := Outcome(p.specKeys[i].0, renamed))
    ensures forall j | 0 <= j < |p.cameras| && Unnamed(p.cameraKeys, j) :: r.cameras[j] == p.cameras[j]
    ensures forall j | 0 <= j < |p.specs| && Unnamed(p.specKeys, j) :: r.specs[j] == p.specs[j]
  {
    var set_ := (k: string, it: DevItem) => it.(sts := Outcome(k, renamed));
    p.(cameras := Dicts.UpdateEach(p.cameras, p.cameraKeys, set_),
       specs := Dicts.UpdateEach(p.specs, p.specKeys, set_))
  }

  /** The outcome after a shot does not depend on the checking marks the
      shot started with. */
  lemma OutcomeOverridesCheck(p: Panel, renamed: set<string>)
    requires p.Valid()
    ensures UpdateCameraSpecStatus(OnFireStarted(p), renamed).cameras == UpdateCameraSpecStatus(p, renamed).cameras
  {
    var a := UpdateCameraSpecStatus(OnFireStarted(p), renamed).cameras;
    var b := UpdateCameraSpecStatus(p, renamed).cameras;
    forall j | 0 <= j < |p.cameras|
      ensures a[j] == b[j]
    {
      if i :| 0 <= i < |p.cameraKeys| && p.cameraKeys[i].1 == j {
      } else {
      }
    }
  }

  /** Discovery with the same reply twice shows the same power cells. */
  lemma DiscoveryIdempotent(p: Panel, devices: seq<Json.Record>)
    requires p.Valid()
    ensures OnZaberDiscovered(OnZaberDiscovered(p, devices), devices) == OnZaberDiscovered(p, devices)
  {
    var a := OnZaberDiscovered(p, devices);
    var b := OnZaberDiscovered(a, devices);
    forall j | 0 <= j < |p.stages|
      ensures b.stages[j] == a.stages[j]
    {
      if i :| 0 <= i < |p.stageKeys| && p.stageKeys[i].1 == j {
      } else {
      }
    }
  }
}

=== FILE: device_tabs.dfy ===
/**
 The stage list of the device-tabs panel: the list read from the stages
 file and sorted by `num`, the edit handler that commits one field of the
 selected stage and re-sorts, the limit a device reports, and the copies
 written back to the file.
 */
module DeviceTabs {
  import opened Wrappers
  import PyText
  import Json
  import Sorting
  import MotorRows

  /** One stage record of the stages file. */
  type Stage = Json.Record

  // ---------------------------------------------------------------------
  // Loading: sorted(data, key=lambda s: s.get('num', 0))
  // ---------------------------------------------------------------------

  /** The key the loaded list is sorted by. */
  function SortKey(s: Stage): (v: Json.Value)
    ensures "num" in s ==> v == s["num"]
    ensures "num" !in s ==> v == Json.Int(0)
  {
    Json.Get(s, "num", Json.Int(0))
  }

  /** Which keys `<` can compare with which: numbers with numbers (0),
      strings with strings (1); every other key (2) cannot be compared. */
  function Rank(v: Json.Value): (r: nat)
    ensures r == 0 <==> Json.Numeric(v).Some?
    ensures r == 1 <==> v.Str?
    ensures r <= 2
  {
    if Json.Numeric(v).Some? then 0 else if v.Str? then 1 else 2
  }

  /** "Not greater than" on keys: Python's order within numbers and within
      strings, and an arbitrary fixed order between the kinds (which only
      matters for lists `sorted` refuses). */
  predicate KeyLe(a: Stage, b: Stage)
  {
    var ka, kb := SortKey(a), SortKey(b);
    if Rank(ka) != Rank(kb) then Rank(ka) < Rank(kb)
    else if Rank(ka) == 0 then Json.Numeric(ka).value <= Json.Numeric(kb).value
    else if Rank(ka) == 1 then Json.LexLe(ka.s, kb.s)
    else true
  }

  lemma KeyLeTotal(a: Stage, b: Stage)
    ensures KeyLe(a, b) || KeyLe(b, a)
  {
    var ka, kb := SortKey(a), SortKey(b);
    if Rank(ka) == Rank(kb) == 1 {
      Json.LexLeTotal(ka.s, kb.s);
    }
  }

  lemma KeyLeTrans(a: Stage, b: Stage, c: Stage)
    requires KeyLe(a, b) && KeyLe(b, c)
    ensures KeyLe(a, c)
  {
    var ka, kb, kc := SortKey(a), SortKey(b), SortKey(c);
    if Rank(ka) == Rank(kb) == Rank(kc) == 1 {
      Json.LexLeTrans(ka.s, kb.s, kc.s);
    }
  }

  lemma KeyLePreorder()
    ensures Sorting.TotalPreorder(KeyLe)
  {
    forall a, b
      ensures KeyLe(a, b) || KeyLe(b, a)
    {
      KeyLeTotal(a, b);
    }
    forall a, b, c | KeyLe(a, b) && KeyLe(b, c)
      ensures KeyLe(a, c)
    {
      KeyLeTrans(a, b, c);
    }
  }

  /** `sorted` can compare every pair of keys: all are numbers, or all are
      strings. */
  predicate Comparable(data: seq<Stage>)
  {
    || (forall i | 0 <= i < |data| :: Rank(SortKey(data[i])) == 0)
    || (forall i | 0 <= i < |data| :: Rank(SortKey(data[i])) == 1)
  }

  /** The loaded list: `None` when `sorted` raises, which it does exactly
      when two keys of different kinds (or two keys that are neither
      numbers nor strings) must be compared. A single stage is never
      compared. */
  function Load(data: seq<Stage>): (r: Option<seq<Stage>>)
    ensures r.None? <==> |data| >= 2 && !Comparable(data)
    ensures r.Some? ==> |r.value| == |data| && multiset(r.value) == multiset(data)
  {
    if |data| >= 2 && !Comparable(data) then None else Some(Sorting.Sort(data, KeyLe))
  }

  /** A loaded list is in key order, and stages with equal keys keep the
      order they had in the file. */
  lemma LoadOrdered(data: seq<Stage>, a: Stage)
    requires Load(data).Some?
    ensures Sorting.Sorted(Load(data).value, KeyLe)
    ensures Sorting.Ties(Load(data).value, KeyLe, a) == Sorting.Ties(data, KeyLe, a)
  {
    KeyLePreorder();
    Sorting.SortSorted(data, KeyLe);
    Sorting.SortStable(data, KeyLe, a);
  }

  /** The number a numeric key compares as. */
  function NumKey(s: Stage): real
  {
    Json.Numeric(SortKey(s)).GetOr(0.0)
  }

  /** With numeric keys, the loaded list ascends by `num`, a missing `num`
      counting as 0. */
  lemma LoadAscends(data: seq<Stage>)
    requires forall i | 0 <= i < |data| :: Json.Numeric(SortKey(data[i])).Some?
    ensures Load(data).Some?
    ensures forall i, j | 0 <= i < j < |data| :: NumKey(Load(data).value[i]) <= NumKey(Load(data).value[j])
  {
    var r := Load(data).value;
    LoadOrdered(data, map[]);
    forall i | 0 <= i < |r|
      ensures Rank(SortKey(r[i])) == 0
    {
      assert r[i] in multiset(data);
    }
  }

  // ---------------------------------------------------------------------
  // Editing one field of the selected stage
  // ---------------------------------------------------------------------

  /** The keys an edit widget is bound to, apart from `num`. */
  const TextKeys: set<string> := {"name", "model_number", "type", "Abr", "description", "com", "baud"}

  /** The value an edit of `key` reads from its widget: the text of a text
      field, the integer of the `num` spin box, nothing for any other key. */
  function NewValue(key: string, text: string, num: int): (v: Option<Json.Value>)
    ensures key == "num" ==> v == Some(Json.Int(num))
    ensures key in TextKeys ==> v == Some(Json.Str(text))
    ensures v.None? <==> key != "num" && key !in TextKeys
  {
    if key == "num" then Some(Json.Int(num))
    else if key in TextKeys then Some(Json.Str(text))
    else None
  }

  /** The integer the re-sort after an edit uses for a stage. */
  function IntNum(s: Stage): Option<int>
  {
    Json.PyInt(Json.Get(s, "num", Json.Int(0)))
  }

  predicate IntNumLe(a: Stage, b: Stage)
  {
    IntNum(a).GetOr(0) <= IntNum(b).GetOr(0)
  }

  lemma IntNumLePreorder()
    ensures Sorting.TotalPreorder(IntNumLe)
  {
  }

  /** `sorted(stages, key=lambda x: int(x.get('num', 0)))` inside its `try`:
      the key is computed for every stage, so one that does not convert
      leaves the list as it was. */
  function Resort(stages: seq<Stage>): (r: seq<Stage>)
    ensures multiset(r) == multiset(stages) && |r| == |stages|
    ensures (exists i | 0 <= i < |stages| :: IntNum(stages[i]).None?) ==> r == stages
  {
    if exists i | 0 <= i < |stages| :: IntNum(stages[i]).None? then stages
    else Sorting.Sort(stages, IntNumLe)
  }

  /** A re-sort that succeeds puts the stages in ascending `int(num)`. */
  lemma ResortAscends(stages: seq<Stage>)
    requires forall i | 0 <= i < |stages| :: IntNum(stages[i]).Some?
    ensures forall i, j | 0 <= i < j < |stages| :: IntNum(Resort(stages)[i]).GetOr(0) <= IntNum(Resort(stages)[j]).GetOr(0)
  {
    IntNumLePreorder();
    Sorting.SortSorted(stages, IntNumLe);
  }

  /** What an edit leaves: the stage list, and whether it was saved and
      whether `stages_changed` was emitted. */
  datatype Outcome = Outcome(stages: seq<Stage>, saved: bool, emitted: bool)

  /** `_on_field_changed`: with a valid selection and a known key, a value
      whose `str` differs from the old one (a missing key reads as "") is
      confirmed or cancelled; a confirmed value is stored under the key,
      the list is re-sorted, and the list is saved, emitting
      `stages_changed` only for a name or num edit. */
  function OnFieldChanged(stages: seq<Stage>, idx: int, key: string, text: string, num: int,
                          confirmed: bool, floatText: real -> string): (o: Outcome)
    ensures !(0 <= idx < |stages|) || NewValue(key, text, num).None? ==> o == Outcome(stages, false, false)
    ensures !confirmed ==> o.stages == stages && !o.saved
    ensures o.emitted <==> o.saved && (key == "name" || key == "num")
    ensures o.saved <==> (
      && 0 <= idx < |stages| && NewValue(key, text, num).Some? && confirmed
      && Json.PyStr(NewValue(key, text, num).value, floatText) != Json.PyStr(Json.Get(stages[idx], key, Json.Str("")), floatText))
    ensures !o.saved ==> o.stages == stages
    ensures o.saved ==>
      var edited := stages[idx][key := NewValue(key, text, num).value];
      && o.stages == Resort(stages[idx := edited])
      && multiset(o.stages) == multiset(stages[idx := edited])
      && edited in o.stages
  {
    if !(0 <= idx < |stages|) then Outcome(stages, false, false)
    else match NewValue(key, text, num)
      case None => Outcome(stages, false, false)
      case Some(v) =>
        var prior := Json.Get(stages[idx], key, Json.Str(""));
        if Json.PyStr(v, floatText) == Json.PyStr(prior, floatText) || !confirmed then Outcome(stages, false, false)
        else
          var edited := stages[idx][key := v];
          assert stages[idx := edited][idx] == edited;
          assert edited in multiset(Resort(stages[idx := edited]));
          Outcome(Resort(stages[idx := edited]), true, key == "name" || key == "num")
  }

  /** A value whose `str` equals the stored one changes nothing. */
  lemma UnchangedValueIsNoop(stages: seq<Stage>, idx: int, key: string, text: string, num: int,
                             confirmed: bool, floatText: real -> string)
    requires 0 <= idx < |stages| && NewValue(key, text, num).Some?
    requires Json.PyStr(NewValue(key, text, num).value, floatText) == Json.PyStr(Json.Get(stages[idx], key, Json.Str("")), floatText)
    ensures OnFieldChanged(stages, idx, key, text, num, confirmed, floatText) == Outcome(stages, false, false)
  {
  }

  /** Committing the same edit again, wherever the stage landed after the
      re-sort, changes nothing. */
  lemma RepeatEditIsNoop(stages: seq<Stage>, idx: int, key: string, text: string, num: int,
                         floatText: real -> string, j: int)
    requires OnFieldChanged(stages, idx, key, text, num, true, floatText).saved
    requires var r := OnFieldChanged(stages, idx, key, text, num, true, floatText).stages;
      0 <= j < |r| && r[j] == stages[idx][key := NewValue(key, text, num).value]
    ensures var r := OnFieldChanged(stages, idx, key, text, num, true, floatText).stages;
      OnFieldChanged(r, j, key, text, num, true, floatText) == Outcome(r, false, false)
  {
  }

  /** The edited stage is somewhere in the list after a commit. */
  lemma CommittedStageKept(stages: seq<Stage>, idx: int, key: string, text: string, num: int,
                           floatText: real -> string)
    requires OnFieldChanged(stages, idx, key, text, num, true, floatText).saved
    ensures var r := OnFieldChanged(stages, idx, key, text, num, true, floatText).stages;
      exists j | 0 <= j < |r| :: r[j] == stages[idx][key := NewValue(key, text, num).value]
  {
    var r := OnFieldChanged(stages, idx, key, text, num, true, floatText).stages;
    var edited := stages[idx := stages[idx][key := NewValue(key, text, num).value]];
    assert edited[idx] in multiset(edited);
    assert edited[idx] in multiset(r);
  }

  // ---------------------------------------------------------------------
  // A limit reported by a device
  // ---------------------------------------------------------------------

  /** The first stage whose `int(num)` (-1 when missing) is `num`. */
  function FirstWithNum(stages: seq<Stage>, num: int): (r: Option<nat>)
    ensures r.Some? ==> r.value < |stages| && Json.PyInt(Json.Get(stages[r.value], "num", Json.Int(-1))) == Some(num)
    ensures r.Some? ==> forall i | 0 <= i < r.value :: Json.PyInt(Json.Get(stages[i], "num", Json.Int(-1))) != Some(num)
    ensures r.None? ==> forall i | 0 <= i < |stages| :: Json.PyInt(Json.Get(stages[i], "num", Json.Int(-1))) != Some(num)
  {
    if |stages| == 0 then None
    else if Json.PyInt(Json.Get(stages[0], "num", Json.Int(-1))) == Some(num) then Some(0)
    else
      var r := FirstWithNum(stages[1..], num);
      assert forall i | 1 <= i < |stages| :: stages[i] == stages[1..][i - 1];
      if r.Some? then Some(r.value + 1) else None
  }

  /** `set_limit_for_stage`: the first stage whose number matches gets
      `limit = upper`; nothing is saved or emitted. When that stage is the
      selected one, the limit field shows `upper` to 5 significant digits. */
  function SetLimitForStage(stages: seq<Stage>, selected: int, num: int, upper: real): (r: (seq<Stage>, Option<MotorRows.Number>))
    ensures |r.0| == |stages|
    ensures FirstWithNum(stages, num).None? ==> r == (stages, None)
    ensures FirstWithNum(stages, num).Some? ==>
      var k := FirstWithNum(stages, num).value;
      && r.0[k] == stages[k]["limit" := Json.Float(upper)]
      && (forall i | 0 <= i < |stages| && i != k :: r.0[i] == stages[i])
      && (r.1.Some? <==> selected == k)
      && (r.1.Some? ==> r.1.value == MotorRows.General(upper, 5))
  {
    match FirstWithNum(stages, num)
    case None => (stages, None)
    case Some(k) =>
      (stages[k := stages[k]["limit" := Json.Float(upper)]], if selected == k then Some(MotorRows.General(upper, 5)) else None)
  }

  /** A second report of the same limit changes nothing more. */
  lemma SetLimitIdempotent(stages: seq<Stage>, selected: int, num: int, upper: real)
    ensures var once := SetLimitForStage(stages, selected, num, upper).0;
      SetLimitForStage(once, selected, num, upper).0 == once
  {
    var once := SetLimitForStage(stages, selected, num, upper).0;
    match FirstWithNum(stages, num)
    case None =>
    case Some(k) =>
      assert Json.Get(once[k], "num", Json.Int(-1)) == Json.Get(stages[k], "num", Json.Int(-1));
      assert forall i | 0 <= i < |once| && i != k :: once[i] == stages[i];
      var r := FirstWithNum(once, num);
      assert r.Some? && !(r.value < k) && !(r.value > k);
      assert once[k]["limit" := Json.Float(upper)] == once[k];
      assert FirstWithNum(once, num) == Some(k);
  }

  // ---------------------------------------------------------------------
  // Saving: the coerced copies written to the stages file
  // ---------------------------------------------------------------------

  /** `_save_stages` on one record: `num` becomes `int(num)` (0 when missing
      or not convertible) and a `limit` becomes `float(limit)` when that
      converts; every other field is copied as it is. */
  function SaveCopy(s: Stage): (c: Stage)
    ensures c.Keys == s.Keys + {"num"}
    ensures c["num"] == Json.Int(Json.PyInt(Json.Get(s, "num", Json.Int(0))).GetOr(0))
    ensures "limit" in s && Json.PyFloat(s["limit"]).Some? ==> c["limit"] == Json.Float(Json.PyFloat(s["limit"]).value)
    ensures "limit" in s && Json.PyFloat(s["limit"]).None? ==> c["limit"] == s["limit"]
    ensures forall k | k in s && k != "num" && k != "limit" :: c[k] == s[k]
  {
    var withNum := s["num" := Json.Int(Json.PyInt(Json.Get(s, "num", Json.Int(0))).GetOr(0))];
    if "limit" in s && Json.PyFloat(s["limit"]).Some? then withNum["limit" := Json.Float(Json.PyFloat(s["limit"]).value)]
    else withNum
  }

  /** The written list: one coerced copy per stage, in list order. */
  function SaveStages(stages: seq<Stage>): (out: seq<Stage>)
    ensures |out| == |stages|
    ensures forall i | 0 <= i < |stages| :: out[i] == SaveCopy(stages[i])
  {
    seq(|stages|, i requires 0 <= i < |stages| => SaveCopy(stages[i]))
  }

  /** A saved file read back and saved again is written the same. */
  lemma {:induction false} SaveCopyIdempotent(s: Stage)
    ensures SaveCopy(SaveCopy(s)) == SaveCopy(s)
  {
    var c := SaveCopy(s);
    var n := Json.PyInt(Json.Get(s, "num", Json.Int(0))).GetOr(0);
    assert Json.PyInt(Json.Get(c, "num", Json.Int(0))) == Some(n);
    if "limit" in c {
      assert "limit" in s;
      if Json.PyFloat(s["limit"]).Some? {
        assert Json.PyFloat(c["limit"]) == Json.PyFloat(s["limit"]);
      }
    }
    assert SaveCopy(c).Keys == c.Keys;
  }
}

=== FILE: dicts.dfy ===
/**
 Python dictionaries that map keys to positions in a list of items, kept
 as association lists so that their insertion order is visible: assigning
 to a key already present keeps the key where it was and replaces its
 value, and a new key goes to the end.
 */
module Dicts {
  import opened Wrappers

  type Dict<K> = seq<(K, nat)>

  /** No key occurs twice. */
  ghost predicate KeysDistinct<K>(d: Dict<K>)
  {
    forall i, j | 0 <= i < j < |d| :: d[i].0 != d[j].0
  }

  /** No two keys share an item, and every item exists. */
  ghost predicate ValuesOk<K>(d: Dict<K>, n: nat)
  {
    && (forall i | 0 <= i < |d| :: d[i].1 < n)
    && (forall i, j | 0 <= i < j < |d| :: d[i].1 != d[j].1)
  }

  ghost predicate Valid<K>(d: Dict<K>, n: nat)
  {
    KeysDistinct(d) && ValuesOk(d, n)
  }

  /** Where key `k` sits, if anywhere: its first position. */
  function IndexOf<K(==)>(d: Dict<K>, k: K): (r: Option<nat>)
    ensures r.None? <==> forall i | 0 <= i < |d| :: d[i].0 != k
    ensures r.Some? ==> r.value < |d| && d[r.value].0 == k && forall i | 0 <= i < r.value :: d[i].0 != k
  {
    if |d| == 0 then None
    else if d[0].0 == k then Some(0)
    else
      var r := IndexOf(d[1..], k);
      assert forall i | 1 <= i < |d| :: d[i] == d[1..][i - 1];
      if r.Some? then Some(r.value + 1) else None
  }

  /** `d.get(k)`. */
  function Lookup<K(==)>(d: Dict<K>, k: K): (r: Option<nat>)
    ensures r.None? <==> forall i | 0 <= i < |d| :: d[i].0 != k
    ensures KeysDistinct(d) ==> forall i | 0 <= i < |d| && d[i].0 == k :: r == Some(d[i].1)
  {
    match IndexOf(d, k)
    case None => None
    case Some(i) => Some(d[i].1)
  }

  /** `d[k] = v`: the key keeps its place when present, else it is
      appended. */
  function Put<K(==)>(d: Dict<K>, k: K, v: nat): (r: Dict<K>)
    ensures Lookup(d, k).None? ==> r == d + [(k, v)]
    ensures Lookup(d, k).Some? ==> |r| == |d|
    ensures forall i | 0 <= i < |d| :: r[i].0 == d[i].0
    ensures forall i | 0 <= i < |d| && d[i].0 != k :: r[i] == d[i]
  {
    match IndexOf(d, k)
    case None => d + [(k, v)]
    case Some(i) => d[i := (k, v)]
  }

  /** After `d[k] = v` the key finds `v`, every other key finds what it did,
      and the keys stay distinct. */
  lemma PutLookup<K>(d: Dict<K>, k: K, v: nat, k2: K)
    requires KeysDistinct(d)
    ensures KeysDistinct(Put(d, k, v))
    ensures Lookup(Put(d, k, v), k) == Some(v)
    ensures k2 != k ==> Lookup(Put(d, k, v), k2) == Lookup(d, k2)
  {
    var r := Put(d, k, v);
    if IndexOf(d, k).None? {
      assert r[|d|] == (k, v);
    } else {
      var i := IndexOf(d, k).value;
      assert r[i] == (k, v);
    }
    if k2 != k && Lookup(d, k2).Some? {
      var j := IndexOf(d, k2).value;
      assert r[j] == d[j];
    }
  }

  /** Pointing a key at a new item, one past the existing ones, keeps the
      items distinct and in range. */
  lemma PutFresh<K>(d: Dict<K>, k: K, n: nat)
    requires ValuesOk(d, n)
    ensures ValuesOk(Put(d, k, n), n + 1)
  {
    var r := Put(d, k, n);
    // the one position that now holds `n`
    var x := if IndexOf(d, k).Some? then IndexOf(d, k).value else |d|;
    assert r[x] == (k, n);
    assert forall i | 0 <= i < |r| && i != x :: i < |d| && r[i] == d[i];
    forall i, j | 0 <= i < j < |r|
      ensures r[i].1 != r[j].1
    {
      if i != x && j != x {
        assert r[i] == d[i] && r[j] == d[j];
      }
    }
  }

  /** Apply `f` to the item of every key, in dictionary order: the items
      the dictionary names are replaced, every other item is kept. */
  function UpdateEach<K, T>(items: seq<T>, d: Dict<K>, f: (K, T) -> T): (r: seq<T>)
    requires ValuesOk(d, |items|)
    ensures |r| == |items|
    ensures forall i | 0 <= i < |d| :: r[d[i].1] == f(d[i].0, items[d[i].1])
    ensures forall j | 0 <= j < |items| && (forall i | 0 <= i < |d| :: d[i].1 != j) :: r[j] == items[j]
  {
    if |d| == 0 then items
    else
      var rest := UpdateEach(items, d[1..], f);
      assert forall i | 1 <= i < |d| :: d[i] == d[1..][i - 1];
      var j := d[0].1;
      rest[j := f(d[0].0, items[j])]
  }

  /** The distinct elements of `keys`, in the order of their first
      occurrence. */
  function Firsts<K(==)>(keys: seq<K>): (r: seq<K>)
    ensures forall i | 0 <= i < |keys| :: keys[i] in r
    ensures forall i | 0 <= i < |r| :: r[i] in keys
    ensures forall i, j | 0 <= i < j < |r| :: r[i] != r[j]
  {
    if |keys| == 0 then []
    else
      var n := |keys| - 1;
      assert keys == keys[..n] + [keys[n]];
      var p := Firsts(keys[..n]);
      if keys[n] in p then p else p + [keys[n]]
  }

  /** The dictionary `{keys[j]: j}` built in list order: every key finds a
      position holding it, and no later position holds that key again (the
      last occurrence wins). */
  function Index<K(==)>(keys: seq<K>): (d: Dict<K>)
    ensures Valid(d, |keys|)
    ensures forall j | 0 <= j < |keys| :: Lookup(d, keys[j]).Some?
    ensures forall i | 0 <= i < |d| :: keys[d[i].1] == d[i].0
    ensures forall i, j | 0 <= i < |d| && d[i].1 < j < |keys| :: keys[j] != d[i].0
  {
    if |keys| == 0 then []
    else
      var n := |keys| - 1;
      var prev := Index(keys[..n]);
      IndexStep(prev, keys, n);
      Put(prev, keys[n], n)
  }

  /** The keys of the dictionary built in list order stand in the order of
      their first occurrence in the list. */
  lemma {:induction false} IndexFirstOrder<K>(keys: seq<K>)
    ensures |Index(keys)| == |Firsts(keys)|
    ensures forall i | 0 <= i < |Index(keys)| :: Index(keys)[i].0 == Firsts(keys)[i]
    decreases |keys|
  {
    if |keys| > 0 {
      var n := |keys| - 1;
      IndexFirstOrder(keys[..n]);
      IndexOrder(Index(keys[..n]), keys, n);
    }
  }

  /** Adding the last key keeps the keys in first-occurrence order: a new
      key goes to the end, a known one keeps its place. */
  lemma IndexOrder<K>(prev: Dict<K>, keys: seq<K>, n: nat)
    requires n == |keys| - 1
    requires |prev| == |Firsts(keys[..n])| && forall i | 0 <= i < |prev| :: prev[i].0 == Firsts(keys[..n])[i]
    ensures var d := Put(prev, keys[n], n);
      |d| == |Firsts(keys)| && forall i | 0 <= i < |d| :: d[i].0 == Firsts(keys)[i]
  {
    var k, f := keys[n], Firsts(keys[..n]);
    if k in f {
      var j :| 0 <= j < |f| && f[j] == k;
      assert prev[j].0 == k;
    } else {
      assert forall i | 0 <= i < |prev| :: prev[i].0 != k;
    }
  }

  /** Adding the last key to the dictionary of the others gives the
      dictionary of all keys. */
  lemma IndexStep<K>(prev: Dict<K>, keys: seq<K>, n: nat)
    requires n == |keys| - 1
    requires Valid(prev, n)
    requires forall j | 0 <= j < n :: Lookup(prev, keys[..n][j]).Some?
    requires forall i | 0 <= i < |prev| :: keys[..n][prev[i].1] == prev[i].0
    requires forall i, j | 0 <= i < |prev| && prev[i].1 < j < n :: keys[..n][j] != prev[i].0
    ensures Valid(Put(prev, keys[n], n), |keys|)
    ensures forall j | 0 <= j < |keys| :: Lookup(Put(prev, keys[n], n), keys[j]).Some?
    ensures forall i | 0 <= i < |Put(prev, keys[n], n)| ::
      keys[Put(prev, keys[n], n)[i].1] == Put(prev, keys[n], n)[i].0
    ensures forall i, j | 0 <= i < |Put(prev, keys[n], n)| && Put(prev, keys[n], n)[i].1 < j < |keys| ::
      keys[j] != Put(prev, keys[n], n)[i].0
  {
    var front, k := keys[..n], keys[n];
    assert keys == front + [k];
    PutFresh(prev, k, n);
    IndexFinds(prev, front, k);
    IndexLast(prev, front, k);
  }

  /** Every key finds something after the next key is added. */
  lemma IndexFinds<K>(prev: Dict<K>, front: seq<K>, k: K)
    requires KeysDistinct(prev)
    requires forall j | 0 <= j < |front| :: Lookup(prev, front[j]).Some?
    ensures KeysDistinct(Put(prev, k, |front|))
    ensures forall j | 0 <= j < |front| + 1 :: Lookup(Put(prev, k, |front|), (front + [k])[j]).Some?
  {
    var keys := front + [k];
    PutLookup(prev, k, |front|, k);
    forall j | 0 <= j < |keys|
      ensures Lookup(Put(prev, k, |front|), keys[j]).Some?
    {
      if j < |front| && keys[j] != k {
        PutLookup(prev, k, |front|, keys[j]);
      }
    }
  }

  /** Each entry names a position holding its key, and the last one. */
  lemma IndexLast<K>(prev: Dict<K>, front: seq<K>, k: K)
    requires ValuesOk(prev, |front|)
    requires forall i | 0 <= i < |prev| :: front[prev[i].1] == prev[i].0
    requires forall i, j | 0 <= i < |prev| && prev[i].1 < j < |front| :: front[j] != prev[i].0
    ensures var d := Put(prev, k, |front|); var keys := front + [k];
      && (forall i | 0 <= i < |d| :: d[i].1 < |keys| && keys[d[i].1] == d[i].0)
      && (forall i, j | 0 <= i < |d| && d[i].1 < j < |keys| :: keys[j] != d[i].0)
  {
    var n := |front|;
    var keys := front + [k];
    var d := Put(prev, k, n);
    var x := if IndexOf(prev, k).Some? then IndexOf(prev, k).value else |prev|;
    assert d[x] == (k, n);
    assert forall i | 0 <= i < |d| && i != x :: i < |prev| && d[i] == prev[i] && prev[i].0 != k;
  }
}

=== FILE: fire_controls.dfy ===
/**
 The fire-controls panel: the shot-progress bar and the mode radio
 buttons that request a firing mode.
 */
module FireControls {
  import opened Wrappers
  import PyText

  /** The progress bar: its range `[0, total]`, its value and its text. */
  datatype Progress = Progress(total: int, cur: int, text: string)

  /** The text the bar shows: "cur/total". */
  function Caption(cur: int, total: int): string
  {
    PyText.IntToString(cur) + "/" + PyText.IntToString(total)
  }

  /** `set_progress`: the total is at least 1 and the count is clamped into
      `[0, total]`; the text shows the clamped values. */
  function SetProgress(cur: int, total: int): (p: Progress)
    ensures p.total >= 1 && 0 <= p.cur <= p.total
    ensures p.total == (if total >= 1 then total else 1)
    ensures 0 <= cur <= p.total ==> p.cur == cur
    ensures cur < 0 ==> p.cur == 0
    ensures cur > p.total ==> p.cur == p.total
    ensures p.text == Caption(p.cur, p.total)
  {
    var t := if total >= 1 then total else 1;
    var c := if cur < 0 then 0 else if cur > t then t else cur;
    Progress(t, c, Caption(c, t))
  }

  /** Showing what the bar already shows changes nothing. */
  lemma SetProgressIdempotent(cur: int, total: int)
    ensures var p := SetProgress(cur, total); SetProgress(p.cur, p.total) == p
  {
  }

  /** The text names the shown count and total, which read back as the
      numbers they came from. */
  lemma CaptionReadsBack(cur: int, total: int)
    ensures var p := SetProgress(cur, total);
      && PyText.ParseInt(PyText.IntToString(p.cur)) == Some(p.cur)
      && PyText.ParseInt(PyText.IntToString(p.total)) == Some(p.total)
      && p.text[..|PyText.IntToString(p.cur)|] == PyText.IntToString(p.cur)
  {
    var p := SetProgress(cur, total);
    PyText.IntRoundTrip(p.cur);
    PyText.IntRoundTrip(p.total);
  }

  // ---------------------------------------------------------------------
  // Mode radio buttons
  // ---------------------------------------------------------------------

  datatype Mode = Continuous | Single | Burst

  /** The name `request_mode` carries. */
  function Name(m: Mode): (s: string)
    ensures m == Continuous <==> s == "continuous"
    ensures m == Single <==> s == "single"
    ensures m == Burst <==> s == "burst"
  {
    match m
    case Continuous => "continuous"
    case Single => "single"
    case Burst => "burst"
  }

  /** A radio's `toggled(on)` handler, `on and emit(mode)`: a mode is
      requested when its radio becomes checked and never when it is
      unchecked. */
  function OnToggled(m: Mode, on: bool): (requests: seq<string>)
    ensures on <==> requests == [Name(m)]
    ensures !on <==> requests == []
  {
    if on then [Name(m)] else []
  }

  /** Clicking a radio in the exclusive group: the checked radio is
      unchecked and the clicked one checked, each reporting its toggle;
      clicking the checked radio toggles nothing. */
  function Click(checked: Mode, m: Mode): (r: (Mode, seq<string>))
    ensures r.0 == m
    ensures m == checked ==> r.1 == []
    ensures m != checked ==> r.1 == [Name(m)]
  {
    if m == checked then (m, [])
    else (m, OnToggled(checked, false) + OnToggled(m, true))
  }

  /** Clicks request exactly the modes they switch to, in order. */
  function Clicks(checked: Mode, ms: seq<Mode>): (r: (Mode, seq<string>))
    ensures |ms| > 0 ==> r.0 == ms[|ms| - 1]
    ensures |ms| == 0 ==> r == (checked, [])
    ensures |r.1| <= |ms|
  {
    if |ms| == 0 then (checked, [])
    else
      var prev := Clicks(checked, ms[..|ms| - 1]);
      var step := Click(prev.0, ms[|ms| - 1]);
      (step.0, prev.1 + step.1)
  }

  /** Over any run of clicks, the same mode is never requested twice in a
      row, the last request names the mode left checked, and clicks that
      never leave the checked mode request nothing. */
  lemma {:induction false} ClicksRequestChanges(checked: Mode, ms: seq<Mode>)
    ensures var r := Clicks(checked, ms);
      && (forall k | 0 <= k < |r.1| - 1 :: r.1[k] != r.1[k + 1])
      && (|r.1| > 0 ==> r.1[|r.1| - 1] == Name(r.0))
      && (|r.1| == 0 ==> r.0 == checked)
  {
    if |ms| > 0 {
      var n := |ms| - 1;
      ClicksRequestChanges(checked, ms[..n]);
      var prev := Clicks(checked, ms[..n]);
      var step := Click(prev.0, ms[n]);
      var r := prev.1 + step.1;
      assert Clicks(checked, ms) == (step.0, r);
      if step.1 != [] {
        assert step.1 == [Name(ms[n])] && prev.0 != ms[n];
        forall k | 0 <= k < |r| - 1
          ensures r[k] != r[k + 1]
        {
          if k < |prev.1| - 1 {
            assert r[k] == prev.1[k] && r[k + 1] == prev.1[k + 1];
          } else {
            assert r[k] == Name(prev.0) && r[k + 1] == Name(ms[n]);
          }
        }
      }
    }
  }
}

=== FILE: forbidden.dfy ===
/**
 The forbidden-fire-position store: a list of entries, each a conjunction of
 open intervals on named stage positions. `check` builds a map from stage ids
 (PM<i>R, PM<i>X, PM<i>Y, PM<i>Z, PM<i>SD, PM<i>D and motor short names) to
 positions for the Auto mirror groups, and reports every entry whose
 intervals all contain the current positions.
 */
module Forbidden {
  import opened Wrappers
  import opened Motors
  import opened PmPanel
  import PyText

  /** Strict margin on both interval ends. */
  const Tol: real := 0.0001

  /** One interval end as `float(rng.get(...))` sees it: absent, a number, or
      a value whose conversion raises. */
  datatype Bound = Unbounded | Limit(v: real) | Unreadable

  datatype Range = Range(stage: string, min: Bound, max: Bound)

  /** An entry of the store; its `label` (here `name`) and `description` may be absent. */
  datatype Entry = Entry(name: Option<string>, description: Option<string>, ranges: seq<Range>)

  datatype Match = Match(name: string, description: string)

  datatype Axis = RX | Y | Z | SD

  /** One row visited by the position scan: group number, axis, row. */
  datatype Slot = Slot(group: nat, axis: Axis, row: StageRow)

  type PosMap = map<string, real>

  /** Address-to-ids lists in first-insertion order, as a Python dict keeps them. */
  type AddrIds = seq<(int, seq<string>)>

  /** The stage ids a row's position is published under. */
  function Ids(i: nat, a: Axis): (r: seq<string>)
    ensures |r| == (if a == Y || a == Z then 1 else 2)
  {
    var p := "PM" + PyText.IntToString(i);
    match a
    case RX => [p + "R", p + "X"]
    case Y => [p + "Y"]
    case Z => [p + "Z"]
    case SD => [p + "SD", p + "D"]
  }

  /** The rows of the Auto groups in scan order: pm1..pm3, then RX, Y, Z, SD. */
  function Slots(p: Panel): (r: seq<Slot>)
    ensures forall s | s in r :: 1 <= s.group <= 3 && p.Groups()[s.group - 1].auto
    ensures |r| == 0 <==> !p.pm1.auto && !p.pm2.auto && !p.pm3.auto
  {
    var a, b, c := GroupSlots(1, p.pm1), GroupSlots(2, p.pm2), GroupSlots(3, p.pm3);
    assert p.Groups() == [p.pm1, p.pm2, p.pm3];
    forall s | s in a + b + c
      ensures 1 <= s.group <= 3 && p.Groups()[s.group - 1].auto
    {
      assert s in a || s in b || s in c;
    }
    a + b + c
  }

  function GroupSlots(i: nat, g: MirrorGroup): (r: seq<Slot>)
    ensures g.auto ==> r == [Slot(i, RX, g.rx), Slot(i, Y, g.y), Slot(i, Z, g.z), Slot(i, SD, g.sd)]
    ensures !g.auto ==> r == []
    ensures forall s | s in r :: s.group == i && g.auto
  {
    if g.auto then [Slot(i, RX, g.rx), Slot(i, Y, g.y), Slot(i, Z, g.z), Slot(i, SD, g.sd)] else []
  }

  /** Every id of every address list, in order. */
  function AllIds(al: AddrIds): seq<string>
  {
    if |al| == 0 then [] else al[0].1 + AllIds(al[1..])
  }

  /** `addr_to_ids.setdefault(addr, []).extend(ids)`. */
  function AddIds(al: AddrIds, addr: int, ids: seq<string>): (r: AddrIds)
    ensures forall id :: id in AllIds(r) <==> id in AllIds(al) || id in ids
    ensures Holds(r, addr, ids)
  {
    if |al| == 0 then [(addr, ids)]
    else if al[0].0 == addr then
      var r := [(addr, al[0].1 + ids)] + al[1..];
      assert AllIds(r) == al[0].1 + ids + AllIds(al[1..]);
      assert r[0].0 == addr;
      r
    else
      var rest := AddIds(al[1..], addr, ids);
      var r := [al[0]] + rest;
      assert AllIds(r) == al[0].1 + AllIds(rest);
      var j :| 0 <= j < |rest| && rest[j].0 == addr && forall id | id in ids :: id in rest[j].1;
      assert r[j + 1] == rest[j];
      r
  }

  /** The ids `ids` are listed under address `addr`. */
  ghost predicate Holds(al: AddrIds, addr: int, ids: seq<string>)
  {
    exists j :: 0 <= j < |al| && al[j].0 == addr && forall id | id in ids :: id in al[j].1
  }

  /** Appending under any address keeps what was listed. */
  lemma {:induction false} AddIdsKeeps(al: AddrIds, a: int, more: seq<string>, addr: int, ids: seq<string>)
    requires Holds(al, addr, ids)
    ensures Holds(AddIds(al, a, more), addr, ids)
    decreases |al|
  {
    var r := AddIds(al, a, more);
    var j :| 0 <= j < |al| && al[j].0 == addr && forall id | id in ids :: id in al[j].1;
    if al[0].0 == a {
      assert r[j].0 == addr && forall id | id in ids :: id in r[j].1;
    } else if j == 0 {
      assert r[0] == al[0];
    } else {
      assert al[1..][j - 1] == al[j];
      AddIdsKeeps(al[1..], a, more, addr, ids);
      var rest := AddIds(al[1..], a, more);
      var k :| 0 <= k < |rest| && rest[k].0 == addr && forall id | id in ids :: id in rest[k].1;
      assert r[k + 1] == rest[k];
    }
  }

  /** Publish one value under every id. */
  function PutAll(pm: PosMap, ids: seq<string>, v: real): (r: PosMap)
    ensures r.Keys == pm.Keys + set id | id in ids
    ensures forall id | id in ids :: r[id] == v
    ensures forall k | k in pm && k !in ids :: r[k] == pm[k]
    decreases |ids|
  {
    if |ids| == 0 then pm else PutAll(pm[ids[0] := v], ids[1..], v)
  }

  /** One row of the scan. The position is published when the row's current
      value reads; the address is recorded with it when positive. With
      `always` the address is recorded even when the read fails. */
  function Record(pm: PosMap, al: AddrIds, s: Slot, always: bool): (r: (PosMap, AddrIds))
    ensures s.row.current.Some? ==> r.0 == PutAll(pm, Ids(s.group, s.axis), s.row.current.value)
    ensures s.row.current.None? ==> r.0 == pm
    ensures (s.row.current.Some? || always) && s.row.stageNum > 0 ==> r.1 == AddIds(al, s.row.stageNum, Ids(s.group, s.axis))
    ensures !((s.row.current.Some? || always) && s.row.stageNum > 0) ==> r.1 == al
  {
    var ids := Ids(s.group, s.axis);
    var pm' := if s.row.current.Some? then PutAll(pm, ids, s.row.current.value) else pm;
    var al' := if (s.row.current.Some? || always) && s.row.stageNum > 0 then AddIds(al, s.row.stageNum, ids) else al;
    (pm', al')
  }

  function Scan(pm: PosMap, al: AddrIds, slots: seq<Slot>, always: bool): (r: (PosMap, AddrIds))
    ensures pm.Keys <= r.0.Keys
    decreases |slots|
  {
    if |slots| == 0 then (pm, al)
    else
      var (pm1, al1) := Record(pm, al, slots[0], always);
      Scan(pm1, al1, slots[1..], always)
  }

  /** Fill the ids still missing, then the row's short name when non-empty. */
  function FillRow(pm: PosMap, ids: seq<string>, row: MotorInfo): (r: PosMap)
    ensures pm.Keys <= r.Keys
    ensures forall k | k in pm :: r[k] == pm[k]
    ensures forall id | id in ids :: id in r
    ensures forall k | k in r && k !in pm :: k in ids || k == row.short
  {
    var fill := set id | id in ids && id !in pm;
    var pm2 := map k | k in pm.Keys + fill :: if k in pm then pm[k] else row.engValue;
    if row.short != "" && row.short !in pm2 then pm2[row.short := row.engValue] else pm2
  }

  /** One step of the fallback pass: an address with a motor row fills
      from that row, any other address changes nothing. */
  function FillAt(pm: PosMap, entry: (int, seq<string>), rows: seq<MotorInfo>): (r: PosMap)
    ensures pm.Keys <= r.Keys
    ensures forall k | k in pm :: r[k] == pm[k]
    ensures 0 < entry.0 <= |rows| ==> forall id | id in entry.1 :: id in r
    ensures forall k | k in r && k !in pm :: 0 < entry.0 <= |rows| && (k in entry.1 || k == rows[entry.0 - 1].short)
  {
    if entry.0 <= 0 || entry.0 > |rows| then pm else FillRow(pm, entry.1, rows[entry.0 - 1])
  }

  /** The fallback pass over the recorded addresses, in insertion order. */
  function Fallback(pm: PosMap, al: AddrIds, rows: seq<MotorInfo>): (r: PosMap)
    ensures pm.Keys <= r.Keys
    ensures forall k | k in pm :: r[k] == pm[k]
    ensures forall k | k in r && k !in pm :: k in AllIds(al) || ShortOf(k, al, rows)
    decreases |al|
  {
    if |al| == 0 then pm
    else
      var pm1 := FillAt(pm, al[0], rows);
      var r := Fallback(pm1, al[1..], rows);
      forall k | k in r && k !in pm
        ensures k in AllIds(al) || ShortOf(k, al, rows)
      {
        if k in pm1 {
          assert k !in al[0].1 ==> rows[al[0].0 - 1].short == k;
        } else if k !in AllIds(al[1..]) {
          var j :| 0 <= j < |al[1..]| && 0 < al[1..][j].0 <= |rows| && rows[al[1..][j].0 - 1].short == k;
          assert al[j + 1] == al[1..][j];
        }
      }
      r
  }

  /** `k` is the short name of the motor row at one of the recorded addresses. */
  ghost predicate ShortOf(k: string, al: AddrIds, rows: seq<MotorInfo>)
  {
    exists j :: 0 <= j < |al| && 0 < al[j].0 <= |rows| && rows[al[j].0 - 1].short == k
  }

  /** Every id of an address whose motor row exists ends up in the map. */
  lemma {:induction false} FallbackCovers(pm: PosMap, al: AddrIds, rows: seq<MotorInfo>, j: int, id: string)
    requires 0 <= j < |al| && 0 < al[j].0 <= |rows| && id in al[j].1
    ensures id in Fallback(pm, al, rows)
    decreases |al|
  {
    var pm1 := FillAt(pm, al[0], rows);
    FallbackStep(pm, al, rows);
    if j > 0 {
      assert al[1..][j - 1] == al[j];
      FallbackCovers(pm1, al[1..], rows, j - 1, id);
    }
  }

  lemma FallbackStep(pm: PosMap, al: AddrIds, rows: seq<MotorInfo>)
    requires |al| > 0
    ensures Fallback(pm, al, rows) == Fallback(FillAt(pm, al[0], rows), al[1..], rows)
  {
  }

  /** The position map `check` builds; `always` selects the intended
      address recording (see `PositionsIntended`). */
  function PositionsWith(p: Panel, rows: seq<MotorInfo>, always: bool): PosMap
  {
    var (pm, al) := Scan(map[], [], Slots(p), always);
    Fallback(pm, al, rows)
  }

  /** The position map as `check` builds it. */
  function Positions(p: Panel, rows: seq<MotorInfo>): PosMap
  {
    PositionsWith(p, rows, false)
  }

  /** The position map with every positive address recorded, read or not. */
  function PositionsIntended(p: Panel, rows: seq<MotorInfo>): PosMap
  {
    PositionsWith(p, rows, true)
  }

  /** Every listed id holds a position. */
  ghost predicate ListedAreRead(pm: PosMap, al: AddrIds)
  {
    forall id | id in AllIds(al) :: id in pm
  }

  lemma RecordListsOnlyRead(pm: PosMap, al: AddrIds, s: Slot)
    requires ListedAreRead(pm, al)
    ensures var r := Record(pm, al, s, false); ListedAreRead(r.0, r.1)
  {
    var ids := Ids(s.group, s.axis);
    var r := Record(pm, al, s, false);
    if s.row.current.Some? && s.row.stageNum > 0 {
      assert forall id | id in AllIds(r.1) :: id in AllIds(al) || id in ids;
    }
  }

  /** Without `always`, every recorded id already holds a position. */
  lemma {:induction false} ScanRecordsOnlyRead(pm: PosMap, al: AddrIds, slots: seq<Slot>)
    requires ListedAreRead(pm, al)
    ensures var r := Scan(pm, al, slots, false); ListedAreRead(r.0, r.1)
    decreases |slots|
  {
    if |slots| > 0 {
      var r1 := Record(pm, al, slots[0], false);
      RecordListsOnlyRead(pm, al, slots[0]);
      ScanRecordsOnlyRead(r1.0, r1.1, slots[1..]);
    }
  }

  /** As written, the fallback never supplies a stage id: only positions
      that were read appear under the PM ids, and the fallback adds motor
      short names only. */
  lemma FallbackAddsOnlyShorts(p: Panel, rows: seq<MotorInfo>)
    ensures var (pm, al) := Scan(map[], [], Slots(p), false);
      forall k | k in Positions(p, rows) && k !in pm :: ShortOf(k, al, rows)
  {
    ScanRecordsOnlyRead(map[], [], Slots(p));
  }

  /** A scan where no read succeeds publishes nothing and, as written,
      records no address. */
  lemma {:induction false} ScanAllFailed(pm: PosMap, al: AddrIds, slots: seq<Slot>)
    requires forall s | s in slots :: s.row.current.None?
    ensures Scan(pm, al, slots, false) == (pm, al)
    decreases |slots|
  {
    if |slots| > 0 {
      ScanAllFailed(pm, al, slots[1..]);
    }
  }

  /** The intended scan lists the ids of every row with a positive
      address under that address. */
  lemma {:induction false} ScanIntendedRecords(pm: PosMap, al: AddrIds, slots: seq<Slot>, s: Slot)
    requires s.row.stageNum > 0
    requires s in slots || Holds(al, s.row.stageNum, Ids(s.group, s.axis))
    ensures Holds(Scan(pm, al, slots, true).1, s.row.stageNum, Ids(s.group, s.axis))
    decreases |slots|
  {
    if |slots| > 0 {
      var (pm1, al1) := Record(pm, al, slots[0], true);
      if slots[0].row.stageNum > 0 && Holds(al, s.row.stageNum, Ids(s.group, s.axis)) {
        AddIdsKeeps(al, slots[0].row.stageNum, Ids(slots[0].group, slots[0].axis),
                    s.row.stageNum, Ids(s.group, s.axis));
      }
      if s != slots[0] {
        assert s in slots[1..] || Holds(al, s.row.stageNum, Ids(s.group, s.axis));
      }
      ScanIntendedRecords(pm1, al1, slots[1..], s);
    }
  }

  // ---------------------------------------------------------------------
  // Matching
  // ---------------------------------------------------------------------

  predicate LowOk(cur: real, b: Bound)
  {
    match b
    case Unbounded => true
    case Limit(v) => cur > v + Tol
    case Unreadable => false
  }

  predicate HighOk(cur: real, b: Bound)
  {
    match b
    case Unbounded => true
    case Limit(v) => cur < v - Tol
    case Unreadable => false
  }

  /** One range holds: its trimmed stage id is known and the position lies
      strictly inside the interval shrunk by the tolerance. */
  predicate RangeOk(pm: PosMap, rg: Range)
  {
    var id := PyText.Strip(rg.stage);
    id != "" && id in pm && LowOk(pm[id], rg.min) && HighOk(pm[id], rg.max)
  }

  /** The range loop with its early `break`. */
  function AllRangesOk(pm: PosMap, rs: seq<Range>): bool
    decreases |rs|
  {
    if |rs| == 0 then true
    else if !RangeOk(pm, rs[0]) then false
    else AllRangesOk(pm, rs[1..])
  }

  /** An entry matches: it has ranges and every one holds. */
  ghost predicate Matches(pm: PosMap, e: Entry)
  {
    |e.ranges| > 0 && forall rg | rg in e.ranges :: RangeOk(pm, rg)
  }

  lemma {:induction false} AllRangesOkIff(pm: PosMap, rs: seq<Range>)
    ensures AllRangesOk(pm, rs) <==> forall rg | rg in rs :: RangeOk(pm, rg)
    decreases |rs|
  {
    if |rs| > 0 {
      AllRangesOkIff(pm, rs[1..]);
      assert rs == [rs[0]] + rs[1..];
    }
  }

  function MatchOf(e: Entry): Match
  {
    Match(e.name.GetOr("Unnamed"), e.description.GetOr(""))
  }

  /** What one entry contributes: its match when it has ranges and they
      all hold, else nothing. */
  function MatchOne(pm: PosMap, e: Entry): (r: seq<Match>)
    ensures |r| <= 1
  {
    if |e.ranges| > 0 && AllRangesOk(pm, e.ranges) then [MatchOf(e)] else []
  }

  /** The entries that match, in entry order. */
  function MatchEntries(pm: PosMap, es: seq<Entry>): (r: seq<Match>)
    ensures |r| <= |es|
    decreases |es|
  {
    if |es| == 0 then []
    else MatchOne(pm, es[0]) + MatchEntries(pm, es[1..])
  }

  /** A match is reported exactly for the entries whose ranges all hold. */
  lemma {:induction false} MatchEntriesIff(pm: PosMap, es: seq<Entry>, m: Match)
    ensures m in MatchEntries(pm, es) <==> exists e | e in es :: Matches(pm, e) && MatchOf(e) == m
    decreases |es|
  {
    if |es| > 0 {
      var e0 := es[0];
      MatchEntriesIff(pm, es[1..], m);
      AllRangesOkIff(pm, e0.ranges);
      var rest := MatchEntries(pm, es[1..]);
      assert MatchOne(pm, e0) == if Matches(pm, e0) then [MatchOf(e0)] else [];
      assert forall e | e in es :: e == e0 || e in es[1..];
    }
  }

  /** A single entry yields its match exactly when it matches. */
  lemma MatchEntriesSingle(pm: PosMap, e: Entry)
    ensures MatchEntries(pm, [e]) == if Matches(pm, e) then [MatchOf(e)] else []
  {
    AllRangesOkIff(pm, e.ranges);
    assert [e][1..] == [];
  }

  /** Matching is a filter: entries are taken in order, one match for each
      matching entry, duplicates included. */
  lemma {:induction false} MatchEntriesAppend(pm: PosMap, a: seq<Entry>, b: seq<Entry>)
    ensures MatchEntries(pm, a + b) == MatchEntries(pm, a) + MatchEntries(pm, b)
    decreases |a|
  {
    if |a| == 0 {
      assert a + b == b;
    } else {
      var ab := a + b;
      assert ab[0] == a[0] && ab[1..] == a[1..] + b;
      MatchEntriesAppend(pm, a[1..], b);
    }
  }

  /** `check`: nothing without an Auto group, else the matching entries. */
  function Check(es: seq<Entry>, p: Panel, rows: seq<MotorInfo>): (r: seq<Match>)
    ensures !p.pm1.auto && !p.pm2.auto && !p.pm3.auto ==> r == []
    ensures |r| <= |es|
    ensures forall m :: m in r <==>
      && (p.pm1.auto || p.pm2.auto || p.pm3.auto)
      && exists e | e in es :: Matches(Positions(p, rows), e) && MatchOf(e) == m
    ensures p.pm1.auto || p.pm2.auto || p.pm3.auto ==> r == MatchEntries(Positions(p, rows), es)
  {
    if |Slots(p)| == 0 then []
    else
      var pm := Positions(p, rows);
      assert forall m :: m in MatchEntries(pm, es) <==> exists e | e in es :: Matches(pm, e) && MatchOf(e) == m by {
        forall m
          ensures m in MatchEntries(pm, es) <==> exists e | e in es :: Matches(pm, e) && MatchOf(e) == m
        {
          MatchEntriesIff(pm, es, m);
        }
      }
      MatchEntries(pm, es)
  }

  /** `check` with the intended address recording. */
  function CheckIntended(es: seq<Entry>, p: Panel, rows: seq<MotorInfo>): (r: seq<Match>)
    ensures !p.pm1.auto && !p.pm2.auto && !p.pm3.auto ==> r == []
    ensures |r| <= |es|
    ensures forall m :: m in r <==>
      && (p.pm1.auto || p.pm2.auto || p.pm3.auto)
      && exists e | e in es :: Matches(PositionsIntended(p, rows), e) && MatchOf(e) == m
    ensures p.pm1.auto || p.pm2.auto || p.pm3.auto ==> r == MatchEntries(PositionsIntended(p, rows), es)
  {
    if |Slots(p)| == 0 then []
    else
      var pm := PositionsIntended(p, rows);
      assert forall m :: m in MatchEntries(pm, es) <==> exists e | e in es :: Matches(pm, e) && MatchOf(e) == m by {
        forall m
          ensures m in MatchEntries(pm, es) <==> exists e | e in es :: Matches(pm, e) && MatchOf(e) == m
        {
          MatchEntriesIff(pm, es, m);
        }
      }
      MatchEntries(pm, es)
  }

  /** As written: when no Auto row's current value reads, the map is empty
      and no entry ever matches, whatever the motor rows hold. */
  lemma AllReadsFailNoMatches(es: seq<Entry>, p: Panel, rows: seq<MotorInfo>)
    requires forall s | s in Slots(p) :: s.row.current.None?
    ensures Check(es, p, rows) == []
  {
    ScanAllFailed(map[], [], Slots(p));
    assert Positions(p, rows) == map[];
    NoPositionsNoMatches(es);
  }

  lemma {:induction false} NoPositionsNoMatches(es: seq<Entry>)
    ensures MatchEntries(map[], es) == []
    decreases |es|
  {
    if |es| > 0 {
      NoPositionsNoMatches(es[1..]);
      if |es[0].ranges| > 0 {
        assert !RangeOk(map[], es[0].ranges[0]);
      }
    }
  }

  /** Intended: every id of an Auto row whose address names a motor row has
      a position, read from the widget or taken from the motor row. */
  lemma IntendedCoversRows(p: Panel, rows: seq<MotorInfo>, s: Slot, id: string)
    requires s in Slots(p) && 0 < s.row.stageNum <= |rows|
    requires id in Ids(s.group, s.axis)
    ensures id in PositionsIntended(p, rows)
  {
    ScanIntendedRecords(map[], [], Slots(p), s);
    var (pm, al) := Scan(map[], [], Slots(p), true);
    var j :| 0 <= j < |al| && al[j].0 == s.row.stageNum
      && forall x | x in Ids(s.group, s.axis) :: x in al[j].1;
    FallbackCovers(pm, al, rows, j, id);
  }
}

=== FILE: json.dfy ===
/**
 Values read from the JSON configuration files, and the Python conversions
 the panels apply to them: `int(v)`, `float(v)`, `str(v)`, truthiness and
 the `<` that `sorted` uses on keys.
 */
module Json {
  import opened Wrappers
  import PyText

  /** A JSON value as Python holds it; arrays and objects are kept only as
      their `str()` text. */
  datatype Value =
    | Null
    | Bool(b: bool)
    | Int(i: int)
    | Float(x: real)
    | Str(s: string)
    | Other(text: string)

  /** A JSON object. */
  type Record = map<string, Value>

  /** `d.get(key, default)`. */
  function Get(d: Record, key: string, default: Value): (v: Value)
    ensures key in d ==> v == d[key]
    ensures key !in d ==> v == default
  {
    if key in d then d[key] else default
  }

  /** Python truthiness: `None`, `False`, zero, `""`, `[]` and `{}` are
      false. */
  predicate Truthy(v: Value)
  {
    match v
    case Null => false
    case Bool(b) => b
    case Int(i) => i != 0
    case Float(x) => x != 0.0
    case Str(s) => s != ""
    case Other(t) => t != "[]" && t != "{}"
  }

  /** `a or b`: the first operand when it is truthy, else the second. */
  function Or(a: Value, b: Value): (r: Value)
    ensures Truthy(a) ==> r == a
    ensures !Truthy(a) ==> r == b
  {
    if Truthy(a) then a else b
  }

  /** Python `int(v)`: booleans count as 0 and 1, floats are truncated,
      strings are parsed; `None`, arrays and objects raise (`None`). */
  function PyInt(v: Value): (r: Option<int>)
    ensures v.Int? ==> r == Some(v.i)
    ensures v.Bool? ==> r == Some(if v.b then 1 else 0)
    ensures v.Float? ==> r == Some(PyText.TruncToInt(v.x))
    ensures v.Str? ==> r == PyText.ParseInt(v.s)
    ensures v.Null? || v.Other? ==> r.None?
  {
    match v
    case Null => None
    case Bool(b) => Some(if b then 1 else 0)
    case Int(i) => Some(i)
    case Float(x) => Some(PyText.TruncToInt(x))
    case Str(s) => PyText.ParseInt(s)
    case Other(_) => None
  }

  /** The number `str(i)` reads back as through `int()`. */
  lemma PyIntOfIntText(i: int)
    ensures PyInt(Str(PyText.IntToString(i))) == Some(i)
  {
    PyText.IntRoundTrip(i);
  }

  // ---------------------------------------------------------------------
  // float(text)
  // ---------------------------------------------------------------------

  /** Position of the first '.' in `s`, or `|s|`. */
  function DotAt(s: string): (k: nat)
    ensures k <= |s|
    ensures forall j | 0 <= j < k :: s[j] != '.'
    ensures k < |s| ==> s[k] == '.'
  {
    if |s| == 0 || s[0] == '.' then 0 else 1 + DotAt(s[1..])
  }

  /** The digit part of an unsigned decimal `ip.fp`: both parts digit
      groups or empty, and not both empty. */
  function DecimalValue(body: string): (r: Option<real>)
    ensures r.Some? ==> r.value >= 0.0
  {
    var k := DotAt(body);
    if k == |body| then None
    else
      var ip, fp := body[..k], body[k + 1..];
      if (ip == "" || PyText.DigitGroups(ip)) && (fp == "" || PyText.DigitGroups(fp)) && !(ip == "" && fp == "") then
        var whole: nat := if ip == "" then 0 else PyText.DigitsValue(PyText.DropUnderscores(ip));
        var digits: string := if fp == "" then "" else PyText.DropUnderscores(fp);
        var num: real, den: real := PyText.DigitsValue(digits) as real, PyText.Pow10(|digits|) as real;
        assert num / den >= 0.0;
        Some(whole as real + num / den)
      else None
  }

  /** Python `float(text)` for plain decimal text: a string without a point
      reads as `int()` would read it; with one point, an optional sign and
      digits on either side. Exponents, `inf` and `nan` are not read. */
  function ParseFloat(text: string): (r: Option<real>)
    ensures DotAt(PyText.Strip(text)) == |PyText.Strip(text)| ==>
      r == (if PyText.ParseInt(text).Some? then Some(PyText.ParseInt(text).value as real) else None)
  {
    var t := PyText.Strip(text);
    if DotAt(t) == |t| then
      match PyText.ParseInt(text)
      case Some(i) => Some(i as real)
      case None => None
    else if t[0] == '-' || t[0] == '+' then
      match DecimalValue(t[1..])
      case Some(x) => Some(if t[0] == '-' then -x else x)
      case None => None
    else DecimalValue(t)
  }

  /** `str(i)` has no point, so `float()` reads it back exactly. */
  lemma ParseFloatOfInt(i: int)
    ensures ParseFloat(PyText.IntToString(i)) == Some(i as real)
  {
    var s := PyText.IntToString(i);
    PyText.IntRoundTrip(i);
    NoDotInIntText(i);
    IntTextTrimmed(i);
    assert DotAt(PyText.Strip(s)) == |PyText.Strip(s)|;
  }

  /** Decimal text holds no point. */
  lemma NoDotInIntText(i: int)
    ensures DotAt(PyText.IntToString(i)) == |PyText.IntToString(i)|
  {
    var s := PyText.IntToString(i);
    assert forall j | 0 <= j < |s| :: s[j] != '.' by {
      var n: nat := if i < 0 then -i else i;
      assert PyText.AllDigits(PyText.NatToString(n));
    }
    NoDotScan(s);
  }

  lemma {:induction false} NoDotScan(s: string)
    requires forall j | 0 <= j < |s| :: s[j] != '.'
    ensures DotAt(s) == |s|
  {
    if |s| > 0 {
      NoDotScan(s[1..]);
    }
  }

  /** Decimal text has no surrounding white space. */
  lemma IntTextTrimmed(i: int)
    ensures PyText.Strip(PyText.IntToString(i)) == PyText.IntToString(i)
  {
    var s := PyText.IntToString(i);
    var n: nat := if i < 0 then -i else i;
    assert PyText.AllDigits(PyText.NatToString(n));
    assert |PyText.NatToString(n)| >= 1;
    assert !PyText.IsSpace(s[0]) && !PyText.IsSpace(s[|s| - 1]);
    PyText.StripTrimmed(s);
  }

  /** Python `float(v)`: booleans count as 0 and 1, numbers convert, text
      is parsed; `None`, arrays and objects raise (`None`). */
  function PyFloat(v: Value): (r: Option<real>)
    ensures v.Int? ==> r == Some(v.i as real)
    ensures v.Float? ==> r == Some(v.x)
    ensures v.Bool? ==> r == Some(if v.b then 1.0 else 0.0)
    ensures v.Str? ==> r == ParseFloat(v.s)
    ensures v.Null? || v.Other? ==> r.None?
  {
    match v
    case Null => None
    case Bool(b) => Some(if b then 1.0 else 0.0)
    case Int(i) => Some(i as real)
    case Float(x) => Some(x)
    case Str(s) => ParseFloat(s)
    case Other(_) => None
  }

  // ---------------------------------------------------------------------
  // str(v)
  // ---------------------------------------------------------------------

  /** Python `str(v)`; the text of a float is given by `floatText`, since
      the shortest round-trip rendering of a float is not modelled. */
  function PyStr(v: Value, floatText: real -> string): (r: string)
    ensures v.Str? ==> r == v.s
    ensures v.Int? ==> r == PyText.IntToString(v.i)
    ensures v.Null? ==> r == "None"
  {
    match v
    case Null => "None"
    case Bool(b) => if b then "True" else "False"
    case Int(i) => PyText.IntToString(i)
    case Float(x) => floatText(x)
    case Str(s) => s
    case Other(t) => t
  }

  // ---------------------------------------------------------------------
  // Comparing keys
  // ---------------------------------------------------------------------

  /** The numbers among JSON values (booleans included), as Python
      compares them. */
  function Numeric(v: Value): Option<real>
  {
    match v
    case Bool(b) => Some(if b then 1.0 else 0.0)
    case Int(i) => Some(i as real)
    case Float(x) => Some(x)
    case _ => None
  }

  /** Python `a <= b` on strings: code-point lexicographic order. */
  predicate LexLe(a: string, b: string)
  {
    |a| == 0 || (|b| > 0 && (a[0] < b[0] || (a[0] == b[0] && LexLe(a[1..], b[1..]))))
  }

  lemma {:induction false} LexLeTotal(a: string, b: string)
    ensures LexLe(a, b) || LexLe(b, a)
  {
    if |a| > 0 && |b| > 0 && a[0] == b[0] {
      LexLeTotal(a[1..], b[1..]);
    }
  }

  lemma {:induction false} LexLeTrans(a: string, b: string, c: string)
    requires LexLe(a, b) && LexLe(b, c)
    ensures LexLe(a, c)
  {
    if |a| > 0 && a[0] == b[0] && b[0] == c[0] {
      LexLeTrans(a[1..], b[1..], c[1..]);
    }
  }

  /** Comparing a string with itself. */
  lemma {:induction false} LexLeRefl(a: string)
    ensures LexLe(a, a)
  {
    if |a| > 0 {
      LexLeRefl(a[1..]);
    }
  }

  /** Two strings each not greater than the other are equal. */
  lemma {:induction false} LexLeAntisym(a: string, b: string)
    requires LexLe(a, b) && LexLe(b, a)
    ensures a == b
  {
    if |a| > 0 {
      LexLeAntisym(a[1..], b[1..]);
      assert a == [a[0]] + a[1..] && b == [b[0]] + b[1..];
    }
  }
}

=== FILE: kinesis_fire.dfy ===
/**
 The Kinesis KSC101 fire controller of the mirror application: a timer-driven
 state machine over (mode, armed flag, burst target, burst count, previous
 trigger reading). Every slot is a pure function returning the new state and
 the effects it requests: operating-mode and shutter commands to the KSC101,
 writes of the three output lines, progress and status notices.
 */
module KinesisFire {
  import opened Wrappers
  import opened DaqLines
  import PyText

  datatype OperatingMode = Manual | Triggered

  /** Requests to the KSC101 shutter controller. */
  datatype DeviceCmd = SetOperatingMode(op: OperatingMode) | ShutterOn | ShutterOff

  datatype Notice =
    | Ready(mode: string)
    | ModeSet(mode: string)
    | UnknownMode(mode: string)
    | BurstTargetSet(target: int)
    | Progress(done: int, total: int)
    | ContinuousFireIgnored
    | Armed(mode: string)
    | SingleShotFired
    | BurstComplete

  /** What one slot asks of the outside world, each kind in order: device
      commands, immediate line writes, the write scheduled 200 ms later, and
      the signals emitted to the panels. */
  datatype Out = Out(device: seq<DeviceCmd>, writes: seq<Lines>, later: seq<Lines>, notes: seq<Notice>)
  {
    function Then(o: Out): Out
    {
      Out(device + o.device, writes + o.writes, later + o.later, notes + o.notes)
    }
  }

  function Notes(ns: seq<Notice>): Out { Out([], [], [], ns) }

  datatype FireState = FireState(
    lastTrig: Option<Level>,
    mode: string,
    armed: bool,
    burstTarget: int,
    burstCount: int)

  const Modes: set<string> := {"continuous", "single", "burst"}

  /** What the slots keep true: a known mode, a target of at least one shot
      and a non-negative count. */
  ghost predicate Valid(st: FireState)
  {
    st.mode in Modes && st.burstTarget >= 1 && st.burstCount >= 0
  }

  /** The state `open` leaves behind, and its "Ready" notice. */
  function Open(): (r: (FireState, Out))
    ensures Valid(r.0)
    ensures r.0.mode == "single" && !r.0.armed && r.0.lastTrig.None?
    ensures r.0.burstTarget == 10 && r.0.burstCount == 0
  {
    (FireState(None, "single", false, 10, 0), Notes([Ready("single")]))
  }

  /** The mode text as `set_mode` compares it: trimmed and lower-cased. */
  function Normalize(text: string): string
  {
    PyText.Lower(PyText.Strip(text))
  }

  /** `set_mode`: normalise, reject unknown names, then put the KSC101 into
      manual (continuous) or triggered operation with the shutter on. */
  function SetMode(st: FireState, text: string): (r: (FireState, Out))
    ensures var m := Normalize(text);
      && (m in Modes ==> r.0 == st.(mode := m))
      && (m !in Modes ==> r.0 == st && r.1 == Notes([UnknownMode(m)]))
      && (m in Modes ==>
            r.1.writes == [] &&
            r.1.device == [SetOperatingMode(if m == "continuous" then Manual else Triggered), ShutterOn])
  {
    var m := Normalize(text);
    if m !in Modes then (st, Notes([UnknownMode(m)]))
    else
      var op := if m == "continuous" then Manual else Triggered;
      (st.(mode := m), Out([SetOperatingMode(op), ShutterOn], [], [], [ModeSet(m)]))
  }

  /** `set_burst_count`: the target is never below one. */
  function SetBurstCount(st: FireState, n: int): (r: (FireState, Out))
    ensures r.0.burstTarget >= 1
    ensures n >= 1 ==> r.0.burstTarget == n
    ensures n < 1 ==> r.0.burstTarget == 1
    ensures r.0 == st.(burstTarget := r.0.burstTarget)
    ensures |r.1.notes| > 0 && r.1.notes[0] == Progress(0, r.0.burstTarget)
  {
    var t := if n > 1 then n else 1;
    (st.(burstTarget := t), Notes([Progress(0, t), BurstTargetSet(t)]))
  }

  /** `fire`: arm single or burst mode and restart the count; continuous
      mode ignores it. */
  function Fire(st: FireState): (r: (FireState, Out))
    ensures st.mode == "continuous" ==> r.0 == st
    ensures st.mode != "continuous" ==> r.0 == st.(armed := true, burstCount := 0)
  {
    if st.mode == "continuous" then (st, Notes([ContinuousFireIgnored]))
    else (st.(armed := true, burstCount := 0),
          Notes([Progress(0, st.burstTarget), Armed(st.mode)]))
  }

  /** Camera/spectrometer follow the inverted trigger; a failed read leaves
      them low with the shutter open. */
  function FollowOrHold(val: Option<Level>): (r: Lines)
    ensures r.shutter == 1
    ensures val.None? ==> r == Lines(1, 0, 0)
  {
    if val.None? then Lines(1, 0, 0) else Follow(val.value)
  }

  /** The number of single-shot pulses among written line values. */
  function PulseCount(w: seq<Lines>): nat
  {
    if |w| == 0 then 0 else (if w[0] == Pulse then 1 else 0) + PulseCount(w[1..])
  }

  lemma PulseCountAppend(a: seq<Lines>, b: seq<Lines>)
    ensures PulseCount(a + b) == PulseCount(a) + PulseCount(b)
  {
    if |a| > 0 {
      assert (a + b)[1..] == a[1..] + b;
      PulseCountAppend(a[1..], b);
    } else {
      assert a + b == b;
    }
  }

  /** One timer tick, given this tick's trigger reading. */
  function Tick(st: FireState, val: Option<Level>): (r: (FireState, Out))
    ensures r.0.lastTrig == val
    ensures r.0.mode == st.mode && r.0.burstTarget == st.burstTarget
    ensures st.mode == "continuous" ==> r.1.writes == [FollowOrHold(val)] && r.0 == st.(lastTrig := val)
    ensures st.mode == "single" ==>
      (if st.armed && Falling(st.lastTrig, val)
       then r.1.writes == [Pulse] && r.1.later == [Low] && r.0 == st.(armed := false, lastTrig := val)
       else r.1.writes == [Low] && r.0 == st.(lastTrig := val))
    ensures st.mode == "burst" && !st.armed ==> r.1.writes == [Low] && r.0 == st.(lastTrig := val)
    ensures st.mode !in Modes ==> r.1.device == [SetOperatingMode(Manual), ShutterOff] && r.1.writes == [Low]
  {
    var falling := Falling(st.lastTrig, val);
    var triggered := [SetOperatingMode(Triggered), ShutterOn];
    var (next, out) :=
      if st.mode == "continuous" then
        (st, Out([SetOperatingMode(Manual), ShutterOn], [FollowOrHold(val)], [], []))
      else if st.mode == "single" then
        if st.armed && falling then
          (st.(armed := false), Out(triggered, [Pulse], [Low], [SingleShotFired]))
        else (st, Out(triggered, [Low], [], []))
      else if st.mode == "burst" then
        if st.armed then
          var follow := [FollowOrHold(val)];
          if falling then
            var c := st.burstCount + 1;
            if c >= st.burstTarget then
              (st.(armed := false, burstCount := 0),
               Out(triggered, follow + [Low], [], [Progress(c, st.burstTarget), BurstComplete]))
            else (st.(burstCount := c), Out(triggered, follow, [], [Progress(c, st.burstTarget)]))
          else (st, Out(triggered, follow, [], []))
        else (st, Out(triggered, [Low], [], []))
      else
        (st, Out([SetOperatingMode(Manual), ShutterOff], [Low], [], []));
    (next.(lastTrig := val), out)
  }

  /** Burst mode while armed: each falling edge is counted, and reaching the
      target disarms, clears the count and drives the lines low last. */
  lemma BurstTick(st: FireState, val: Option<Level>)
    requires st.mode == "burst" && st.armed
    ensures var (next, out) := Tick(st, val);
      if !Falling(st.lastTrig, val) then next == st.(lastTrig := val) && out.writes == [FollowOrHold(val)]
      else if st.burstCount + 1 >= st.burstTarget then
        && !next.armed && next.burstCount == 0
        && out.writes == [FollowOrHold(val), Low]
        && out.notes[0] == Progress(st.burstCount + 1, st.burstTarget)
      else
        && next.armed && next.burstCount == st.burstCount + 1
        && out.writes == [FollowOrHold(val)]
        && out.notes == [Progress(st.burstCount + 1, st.burstTarget)]
  {
  }

  /** Every slot keeps the state valid. */
  lemma ValidPreserved(st: FireState, text: string, n: int, val: Option<Level>)
    requires Valid(st)
    ensures Valid(SetMode(st, text).0)
    ensures Valid(SetBurstCount(st, n).0)
    ensures Valid(Fire(st).0)
    ensures Valid(Tick(st, val).0)
  {
  }

  /** Hence the idle fallback of the tick (manual, shutter off) is never
      reached from a state the slots produce. */
  lemma NoIdleTick(st: FireState, val: Option<Level>)
    requires Valid(st)
    ensures ShutterOff !in Tick(st, val).1.device
  {
  }

  /** Safety: outside continuous mode, a controller that is not armed keeps
      all three lines low on every tick. */
  lemma LowUnlessArmed(st: FireState, val: Option<Level>)
    requires st.mode != "continuous" && !st.armed
    ensures forall w | w in Tick(st, val).1.writes :: w == Low
  {
  }

  /** The slots as inputs: an external reading per tick, or a user action. */
  datatype Input = TickWith(val: Option<Level>) | ModeText(text: string) | BurstCount(n: int) | FirePressed

  function Step(st: FireState, i: Input): (FireState, Out)
  {
    match i
    case TickWith(v) => Tick(st, v)
    case ModeText(t) => SetMode(st, t)
    case BurstCount(n) => SetBurstCount(st, n)
    case FirePressed => Fire(st)
  }

  /** Run a sequence of inputs from `st`, collecting every effect. */
  function Run(st: FireState, ins: seq<Input>): (r: (FireState, Out))
    decreases |ins|
  {
    if |ins| == 0 then (st, Out([], [], [], []))
    else
      var (s1, out) := Step(st, ins[0]);
      var (s2, rest) := Run(s1, ins[1..]);
      (s2, out.Then(rest))
  }

  /** In single mode, one press of Fire yields at most one pulse, however many
      ticks follow, until Fire is pressed again or the mode changes. */
  lemma {:induction false} OnePulsePerFire(st: FireState, ticks: seq<Input>)
    requires st.mode == "single"
    requires forall k :: 0 <= k < |ticks| ==> ticks[k].TickWith?
    ensures PulseCount(Run(st, ticks).1.writes) <= (if st.armed then 1 else 0)
    ensures !st.armed ==> !Run(st, ticks).0.armed
    decreases |ticks|
  {
    if |ticks| > 0 {
      var (s1, out) := Tick(st, ticks[0].val);
      OnePulsePerFire(s1, ticks[1..]);
      PulseCountAppend(out.writes, Run(s1, ticks[1..]).1.writes);
    }
  }
}

=== FILE: ksc_bridge.dfy ===
/**
 The grating application's fire controller: a worker thread that polls the
 trigger input, drives the KSC101 and writes the three output lines. The
 loop body is modelled as a step over (controller state, previous reading,
 this poll's read outcome); the tkinter front end contributes only its
 mode-name mapping.
 */
module KscBridge {
  import opened Wrappers
  import opened DaqLines
  import PyText

  /** Calls made on the KSC101 wrapper. */
  datatype KscCall = SetManual | SetTriggered | SetOn | SetOff

  /** One observable action of the worker, in program order. */
  datatype Action = Ksc(call: KscCall) | Write(lines: Lines) | Hold200ms

  datatype Controller = Controller(mode: string, armed: bool, numBurst: int, counter: int)

  /** Construction: the fields, then the safe start-up sequence. */
  function Create(): (r: (Controller, seq<Action>))
    ensures r.0.mode == "single" && !r.0.armed && r.0.numBurst == 10 && r.0.counter == 0
    ensures |r.1| > 0 && r.1[|r.1| - 1] == Write(Low)
  {
    (Controller("single", false, 10, 0), [Ksc(SetManual), Ksc(SetOff), Write(Low)])
  }

  /** `set_mode` stores whatever it is given. */
  function SetMode(c: Controller, m: string): (r: Controller)
    ensures r.mode == m && r.armed == c.armed && r.numBurst == c.numBurst && r.counter == c.counter
  {
    c.(mode := m)
  }

  /** `set_num_burst`: at least one shot per burst. */
  function SetNumBurst(c: Controller, n: int): (r: Controller)
    ensures r.numBurst >= 1
    ensures n >= 1 ==> r.numBurst == n
    ensures n < 1 ==> r.numBurst == 1
    ensures r == c.(numBurst := r.numBurst)
  {
    c.(numBurst := if n > 1 then n else 1)
  }

  /** `fire`: arm in single mode (count untouched), arm and restart the count
      in burst mode, ignore otherwise. */
  function Fire(c: Controller): (r: Controller)
    ensures c.mode == "single" ==> r == c.(armed := true)
    ensures c.mode == "burst" ==> r == c.(armed := true, counter := 0)
    ensures c.mode != "single" && c.mode != "burst" ==> r == c
  {
    if c.mode == "single" then c.(armed := true)
    else if c.mode == "burst" then c.(armed := true, counter := 0)
    else c
  }

  /** Outcome of `_handle_trigger`: it either returns, or raises because the
      value it was handed is `None` where it computes `1 - val`. */
  datatype Handled = Done(c: Controller, actions: seq<Action>) | Raised(actions: seq<Action>)

  /** The value written while following the trigger; `None` makes `1 - val` raise. */
  predicate NeedsValue(c: Controller)
  {
    c.mode == "continuous" || (c.mode == "burst" && c.armed)
  }

  function HandleTrigger(c: Controller, val: Option<Level>, last: Option<Level>): (r: Handled)
    ensures r.Raised? <==> NeedsValue(c) && val.None?
    ensures r.Done? ==> r.c.mode == c.mode && r.c.numBurst == c.numBurst
    ensures r.Done? && c.mode == "continuous" ==> r.c == c && Write(Follow(val.value)) in r.actions
    ensures r.Done? && !c.armed && c.mode != "continuous" ==> r.c == c && Write(Low) in r.actions
  {
    var falling := Falling(last, val);
    if c.mode == "continuous" then
      var pre := [Ksc(SetOff), Ksc(SetManual), Ksc(SetOn)];
      if val.None? then Raised(pre) else Done(c, pre + [Write(Follow(val.value))])
    else if c.mode == "burst" then
      var pre := [Ksc(SetTriggered), Ksc(SetOn)];
      if c.armed then
        if val.None? then Raised(pre)
        else
          var follow := pre + [Write(Follow(val.value))];
          if falling then
            var n := c.counter + 1;
            if n >= c.numBurst then Done(c.(armed := false, counter := 0), follow + [Write(Low)])
            else Done(c.(counter := n), follow)
          else Done(c, follow)
      else Done(c, pre + [Write(Low)])
    else if c.mode == "single" then
      var pre := [Ksc(SetTriggered), Ksc(SetOn)];
      if c.armed && falling then
        Done(c.(armed := false), pre + [Write(Pulse), Hold200ms, Write(Low)])
      else Done(c, pre + [Write(Low)])
    else
      Done(c, [Ksc(SetManual), Ksc(SetOff), Write(Low)])
  }

  /** Where the worker loop stands: still polling, or ended by an exception. */
  datatype Loop = Polling(c: Controller, last: Option<Level>) | Stopped

  /** One pass of the `run` loop. `read` is `None` when the trigger read
      raised: the previous value is reused and the lines are forced low
      first. An exception out of the handler ends the loop, and the
      `finally` clause drives the lines low. */
  function LoopStep(c: Controller, last: Option<Level>, read: Option<Level>): (r: (Loop, seq<Action>))
    ensures read.None? ==> |r.1| > 0 && r.1[0] == Write(Low)
    ensures r.0.Stopped? ==> |r.1| > 0 && r.1[|r.1| - 1] == Write(Low)
    ensures r.0.Polling? ==> r.0.last == (if read.None? then last else read)
  {
    var val := if read.None? then last else read;
    var pre := if read.None? then [Write(Low)] else [];
    match HandleTrigger(c, val, last)
    case Done(c2, acts) => (Polling(c2, val), pre + acts)
    case Raised(acts) => (Stopped, pre + acts + [Write(Low)])
  }

  /** A failed read reuses the previous value, so it never forms a new
      falling edge. */
  lemma FailedReadNoEdge(last: Option<Level>)
    ensures !Falling(last, last)
  {
  }

  /** The loop can only be ended by the handler while no reading has ever
      succeeded: once a value is held, a failed read reuses it. */
  lemma StopsOnlyWithoutReading(c: Controller, last: Option<Level>, read: Option<Level>)
    requires LoopStep(c, last, read).0.Stopped?
    ensures last.None? && read.None? && NeedsValue(c)
  {
  }

  /** The worker over a finite series of polls; the loop also ends when the
      stop flag is set after the last poll. */
  function Run(c: Controller, last: Option<Level>, polls: seq<Option<Level>>): (r: seq<Action>)
    decreases |polls|
  {
    if |polls| == 0 then [Write(Low)]
    else
      var (next, acts) := LoopStep(c, last, polls[0]);
      match next
      case Stopped => acts
      case Polling(c2, v) => acts + Run(c2, v, polls[1..])
  }

  /** However the worker ends, the last thing it writes is all lines low. */
  lemma {:induction false} RunEndsLow(c: Controller, last: Option<Level>, polls: seq<Option<Level>>)
    ensures |Run(c, last, polls)| > 0
    ensures Run(c, last, polls)[|Run(c, last, polls)| - 1] == Write(Low)
    decreases |polls|
  {
    if |polls| > 0 {
      var (next, acts) := LoopStep(c, last, polls[0]);
      if next.Polling? {
        RunEndsLow(next.c, next.last, polls[1..]);
      }
    }
  }

  /** In single mode a pulse is written only when armed and on a falling edge,
      and the pulse is followed by the hold and the return to low. */
  lemma SinglePulse(c: Controller, val: Option<Level>, last: Option<Level>)
    requires c.mode == "single"
    ensures var r := HandleTrigger(c, val, last);
      && r.Done?
      && (Write(Pulse) in r.actions <==> c.armed && Falling(last, val))
      && (Write(Pulse) in r.actions ==>
            r.actions[|r.actions| - 3..] == [Write(Pulse), Hold200ms, Write(Low)] && !r.c.armed)
  {
  }

  /** In burst mode, a falling edge while armed advances the counter, and
      the edge that reaches `num_burst` disarms, clears it and writes low. */
  lemma BurstEdge(c: Controller, v: Level, last: Option<Level>)
    requires c.mode == "burst" && c.armed && Falling(last, Some(v))
    ensures var r := HandleTrigger(c, Some(v), last);
      && r.Done?
      && (if c.counter + 1 >= c.numBurst
          then !r.c.armed && r.c.counter == 0 && r.actions[|r.actions| - 1] == Write(Low)
          else r.c.armed && r.c.counter == c.counter + 1)
  {
  }

  /** The tkinter front end's mapping from the combobox text to a mode name:
      the first of "continuous", "single", "burst" found in the lower-cased
      text, else "single". */
  function GuiModeToInternal(s: string): (r: string)
    ensures r in {"continuous", "single", "burst"}
    ensures r == "continuous" <==> PyText.Contains(PyText.Lower(s), "continuous")
    ensures r == "burst" <==>
      && !PyText.Contains(PyText.Lower(s), "continuous")
      && !PyText.Contains(PyText.Lower(s), "single")
      && PyText.Contains(PyText.Lower(s), "burst")
    ensures r == "single" <==>
      && !PyText.Contains(PyText.Lower(s), "continuous")
      && (PyText.Contains(PyText.Lower(s), "single") || !PyText.Contains(PyText.Lower(s), "burst"))
  {
    var t := PyText.Lower(s);
    if PyText.Contains(t, "continuous") then "continuous"
    else if PyText.Contains(t, "single") then "single"
    else if PyText.Contains(t, "burst") then "burst"
    else "single"
  }

  /** The three radio buttons of the front end select the three modes, one
      each. */
  lemma GuiLabelsSelectModes()
    ensures GuiModeToInternal("Continuous") == "continuous"
    ensures GuiModeToInternal("Single Shot") == "single"
    ensures GuiModeToInternal("Burst") == "burst"
  {
    ContinuousLabel();
    SingleShotLabel();
    BurstLabel();
  }

  lemma ContinuousLabel()
    ensures GuiModeToInternal("Continuous") == "continuous"
  {
    LowerContinuous();
    LowersToContinuous("Continuous");
  }

  lemma LowerContinuous()
    ensures PyText.Lower("Continuous") == "continuous"
  {
    assert PyText.LowerChar('C') == 'c';
    PyText.LowerPointwise("Continuous", "continuous");
  }

  lemma LowersToContinuous(s: string)
    requires PyText.Lower(s) == "continuous"
    ensures GuiModeToInternal(s) == "continuous"
  {
    assert PyText.StartsWith("continuous", "continuous");
  }

  lemma SingleShotLabel()
    ensures GuiModeToInternal("Single Shot") == "single"
  {
    LowerSingleShot();
    LowersToSingleShot("Single Shot");
  }

  lemma LowerSingleShot()
    ensures PyText.Lower("Single Shot") == "single shot"
  {
    var s: string, t: string := "Single Shot", "single shot";
    assert forall k | 0 <= k < |s| :: PyText.LowerChar(s[k]) == t[k] by {
      assert PyText.LowerChar('S') == 's';
    }
    PyText.LowerPointwise(s, t);
  }

  lemma LowersToSingleShot(s: string)
    requires PyText.Lower(s) == "single shot"
    ensures GuiModeToInternal(s) == "single"
  {
    NoContinuousInSingleShot();
    assert PyText.StartsWith("single shot", "single");
  }

  lemma NoContinuousInSingleShot()
    ensures !PyText.Contains("single shot", "continuous")
  {
    var s: string := "single shot";
    assert s[..10][0] != "continuous"[0] && s[1..][..10][0] != "continuous"[0];
    PyText.ContainsShorter(s[1..][1..], "continuous");
  }

  lemma BurstLabel()
    ensures GuiModeToInternal("Burst") == "burst"
  {
    LowerBurst();
    LowersToBurst("Burst");
  }

  lemma LowerBurst()
    ensures PyText.Lower("Burst") == "burst"
  {
    assert PyText.LowerChar('B') == 'b';
    PyText.LowerPointwise("Burst", "burst");
  }

  lemma LowersToBurst(s: string)
    requires PyText.Lower(s) == "burst"
    ensures GuiModeToInternal(s) == "burst"
  {
    assert PyText.StartsWith("burst", "burst");
    PyText.ContainsShorter("burst", "continuous");
    PyText.ContainsShorter("burst", "single");
  }

  /** A mode chosen through the front end never reaches the idle branch. */
  lemma GuiModesAreHandled(c: Controller, s: string, val: Option<Level>, last: Option<Level>)
    ensures var r := HandleTrigger(SetMode(c, GuiModeToInternal(s)), val, last);
      Ksc(SetOff) in r.actions ==> GuiModeToInternal(s) == "continuous"
  {
  }
}

=== FILE: legacy_interface.dfy ===
/**
 The older single-file grating interface: its own stage rows (with a
 simulated motion driven by a timer), the value and bound setters of its
 stage-control panel, and the read-back handlers that forward position and
 speed replies to the rows.

 Two guards in this file are written `x == a or "b"` / `x == a or b`, which
 Python reads as `(x == a) or "b"`: always true. Each is modelled twice, as
 written and as evidently intended; the rows use the intended formatter.
 */
module LegacyInterface {
  import opened Wrappers
  import PyText
  import opened Motors
  import opened MotorRows
  import MotorStatus
  import StageControl

  // ---------------------------------------------------------------------
  // Label text
  // ---------------------------------------------------------------------

  /** `_fmt_units` as written: the guard `unit == "deg" or "deg/s"` is
      always true, so every value is printed with no decimals. */
  function FormatUnitsAsWritten(v: real, unit: string, rich: bool): (r: UnitsText)
    ensures r.bold == rich && r.unit == unit
    ensures r.num == Fixed(v, 0)
  {
    UnitsText(rich, Fixed(v, 0), unit)
  }

  /** `_fmt_units` as intended: whole numbers for degrees and degrees per
      second, four significant digits for every other unit. */
  function FormatUnits(v: real, unit: string, rich: bool): (r: UnitsText)
    ensures r.bold == rich && r.unit == unit
    ensures unit == "deg" || unit == "deg/s" ==> r.num == Fixed(v, 0)
    ensures unit != "deg" && unit != "deg/s" ==> r.num == General(v, 4)
  {
    UnitsText(rich, if unit == "deg" || unit == "deg/s" then Fixed(v, 0) else General(v, 4), unit)
  }

  /** The two agree exactly on the angular units. */
  lemma FormatUnitsAgreeIff(v: real, unit: string, rich: bool)
    ensures FormatUnitsAsWritten(v, unit, rich) == FormatUnits(v, unit, rich) <==> unit == "deg" || unit == "deg/s"
  {
  }

  /** A stage in millimetres shows its position rounded to a whole number
      as written, where four significant digits were meant. */
  lemma MillimetresLoseDecimals()
    ensures FormatUnitsAsWritten(12.345, "mm", true).num == Fixed(12.345, 0)
    ensures FormatUnits(12.345, "mm", true).num == General(12.345, 4)
    ensures FormatUnitsAsWritten(12.345, "mm", true) != FormatUnits(12.345, "mm", true)
  {
  }

  // ---------------------------------------------------------------------
  // The progress bar over the span
  // ---------------------------------------------------------------------

  /** `_progress_from_value`: the position clamped to the range from 0 to
      the span, in percent of the span; a zero span raises. The newer bar
      over bounds 0 and span gives the same number. */
  function SpanProgress(span: real, v: real): (r: Option<int>)
    ensures r.None? <==> span == 0.0
    ensures r.Some? ==> 0 <= r.value <= 100 && r.value == Progress(0.0, span, v)
    ensures span > 0.0 && v <= 0.0 ==> r == Some(0)
    ensures span > 0.0 && v >= span ==> r == Some(100)
    ensures span < 0.0 ==> r == Some(0)
  {
    if span == 0.0 then None else Some(Progress(0.0, span, v))
  }

  /** A later position never shows less progress. */
  lemma SpanProgressMonotone(span: real, v: real, w: real)
    requires span != 0.0 && v <= w
    ensures SpanProgress(span, v).value <= SpanProgress(span, w).value
  {
    ProgressMonotone(0.0, span, v, w);
  }

  // ---------------------------------------------------------------------
  // A row with simulated motion
  // ---------------------------------------------------------------------

  /** The row's number and record, whether it is simulating motion and by
      how many steps per tick, its labels, its bar and its green light. */
  datatype LegacyRow = LegacyRow(
    index: int,
    info: MotorInfo,
    moving: bool,
    stepPerTick: int,
    stepsText: string,
    unitsText: UnitsText,
    speedText: UnitsText,
    bar: int,
    green: bool)

  /** The step count of a tick when none is given. */
  const DefaultStepPerTick := 3000

  /** Steps per unit of position in the simulated conversion. */
  const StepsPerUnit := 100000.0

  /** The light shows the motion flag, and a row at rest does not step. */
  ghost predicate MotionOk(row: LegacyRow)
  {
    row.green == row.moving && (!row.moving ==> row.stepPerTick == 0)
  }

  /** The labels show the record, and so does the bar when the span is not
      zero. */
  ghost predicate RowShows(row: LegacyRow)
  {
    && row.stepsText == FmtSteps(row.info.steps)
    && row.unitsText == FormatUnits(row.info.engValue, row.info.unit, true)
    && row.speedText == FormatUnits(row.info.speed, row.info.speedUnit, true)
    && (row.info.span != 0.0 ==> row.bar == SpanProgress(row.info.span, row.info.engValue).value)
  }

  /** `set_moving`: the flag and the light follow `moving`; a moving row
      steps by the given count, a stopped one by 0. */
  function SetMoving(row: LegacyRow, moving: bool, stepPerTick: int): (r: LegacyRow)
    ensures MotionOk(r)
    ensures r.moving == moving
    ensures moving ==> r.stepPerTick == stepPerTick
    ensures r.(moving := row.moving, stepPerTick := row.stepPerTick, green := row.green) == row
  {
    row.(moving := moving, stepPerTick := if moving then stepPerTick else 0, green := moving)
  }

  /** `stop_motion`: the red light stops the simulation. */
  function StopMotion(row: LegacyRow): (r: LegacyRow)
    ensures MotionOk(r) && !r.moving && r.stepPerTick == 0
    ensures r.info == row.info && r.bar == row.bar
  {
    SetMoving(row, false, DefaultStepPerTick)
  }

  /** A double click toggles the simulation, at the default step count. */
  function ToggleMotion(row: LegacyRow): (r: LegacyRow)
    ensures MotionOk(r) && r.moving == !row.moving
    ensures r.moving ==> r.stepPerTick == DefaultStepPerTick
  {
    SetMoving(row, !row.moving, DefaultStepPerTick)
  }

  /** Python's float `%`: the remainder takes the sign of the divisor. */
  function PyMod(x: real, s: real): (r: real)
    requires s != 0.0
    ensures s > 0.0 ==> 0.0 <= r < s
    ensures s < 0.0 ==> s < r <= 0.0
    ensures (x - r) / s == ((x - r) / s).Floor as real
  {
    var q := (x / s).Floor;
    PyModFacts(x, s, q);
    x - q as real * s
  }

  /** Taking the whole multiples `q` of `s` off `x` leaves a remainder
      between 0 and `s`, and what is taken off is a whole multiple. */
  lemma PyModFacts(x: real, s: real, q: int)
    requires s != 0.0 && q == (x / s).Floor
    ensures s > 0.0 ==> 0.0 <= x - q as real * s < s
    ensures s < 0.0 ==> s < x - q as real * s <= 0.0
    ensures (x - (x - q as real * s)) / s == q as real
  {
    var r := x - q as real * s;
    var d := x / s - q as real;
    assert 0.0 <= d < 1.0;
    RemainderScaled(x, s, q as real);
    assert r == d * s;
    FractionTimes(d, s);
    var m := q as real * s;
    assert x - r == m;
    MulDivCancel(q as real, s);
  }

  /** Taking whole multiples `q` of `s` off `x` leaves the scaled fraction. */
  lemma RemainderScaled(x: real, s: real, q: real)
    requires s != 0.0
    ensures x - q * s == (x / s - q) * s
  {
    assert (x / s) * s == x;
  }

  lemma MulDivCancel(a: real, s: real)
    requires s != 0.0
    ensures (a * s) / s == a
  {
  }

  /** A fraction in [0, 1) of a number lies between 0 and that number. */
  lemma FractionTimes(d: real, s: real)
    requires 0.0 <= d < 1.0
    ensures s > 0.0 ==> 0.0 <= d * s < s
    ensures s < 0.0 ==> s < d * s <= 0.0
  {
    assert s - d * s == (1.0 - d) * s;
  }

  /** A value already between 0 and a positive divisor is its own
      remainder. */
  lemma PyModInRange(x: real, s: real)
    requires 0.0 <= x < s
    ensures PyMod(x, s) == x
  {
    assert (x / s).Floor == 0 by {
      assert (x / s - 1.0) * s == x - s;
    }
  }

  /** `tick`: a stopped row is left alone; a moving one advances its step
      count and maps it onto the span, wrapping around; a zero span raises
      once the step count has been advanced. */
  function Tick(row: LegacyRow): (r: LegacyRow)
    ensures !row.moving ==> r == row
    ensures row.moving ==> r.info.steps == row.info.steps + row.stepPerTick
    ensures row.moving && row.info.span == 0.0 ==> r == row.(info := row.info.(steps := r.info.steps))
    ensures row.moving && row.info.span > 0.0 ==> 0.0 <= r.info.engValue < row.info.span
    ensures row.moving && row.info.span != 0.0 ==>
      r.info == row.info.(steps := r.info.steps, engValue := PyMod(r.info.steps as real / StepsPerUnit, row.info.span))
    ensures row.moving && row.info.span != 0.0 ==> RowShows(r) || !RowShows(row)
    ensures r.(info := row.info, stepsText := row.stepsText, unitsText := row.unitsText, bar := row.bar) == row
  {
    if !row.moving then row
    else
      var steps := row.info.steps + row.stepPerTick;
      if row.info.span == 0.0 then row.(info := row.info.(steps := steps))
      else
        var eng := PyMod(steps as real / StepsPerUnit, row.info.span);
        var info := row.info.(steps := steps, engValue := eng);
        row.(info := info,
             stepsText := FmtSteps(steps),
             unitsText := FormatUnits(eng, info.unit, true),
             bar := SpanProgress(info.span, eng).value)
  }

  /** A stopped row does not move on a tick. */
  lemma StoppedRowStaysPut(row: LegacyRow)
    ensures Tick(StopMotion(row)) == StopMotion(row)
  {
  }

  /** While the simulated position stays inside the span, a tick moves it
      by the step count divided by the conversion factor. */
  lemma TickAdvances(row: LegacyRow)
    requires row.moving && row.info.span > 0.0
    requires var x := (row.info.steps + row.stepPerTick) as real / StepsPerUnit; 0.0 <= x < row.info.span
    ensures Tick(row).info.engValue == (row.info.steps + row.stepPerTick) as real / StepsPerUnit
  {
    PyModInRange((row.info.steps + row.stepPerTick) as real / StepsPerUnit, row.info.span);
  }

  // ---------------------------------------------------------------------
  // The stage-control setters
  // ---------------------------------------------------------------------

  /** Python's `max(0.0, min(span, v))`: a value clamped to the range from
      0 to the span, and 0 for a negative span. */
  function ClampToSpan(span: real, v: real): (c: real)
    ensures 0.0 <= c
    ensures span >= 0.0 ==> c <= span
    ensures span < 0.0 ==> c == 0.0
    ensures 0.0 <= v <= span ==> c == v
  {
    var m := if span <= v then span else v;
    if 0.0 >= m then 0.0 else m
  }

  /** `_apply_value`: the position is clamped to the span and the step count
      is the rounded position times the conversion factor; labels and bar
      are refreshed, the bar's update raising on a zero span. */
  function ApplyValue(row: LegacyRow, v: real): (r: LegacyRow)
    ensures r.info.engValue == ClampToSpan(row.info.span, v)
    ensures 0.0 <= v <= row.info.span ==> r.info.engValue == v
    ensures var e := (r.info.steps as real - r.info.engValue * StepsPerUnit) * 2.0; -1.0 <= e <= 1.0
    ensures r.info == row.info.(engValue := r.info.engValue, steps := r.info.steps)
    ensures RowShows(row) && row.info.span != 0.0 ==> RowShows(r)
    ensures r.moving == row.moving && r.stepPerTick == row.stepPerTick && r.green == row.green
  {
    ShowPosition(row, ClampToSpan(row.info.span, v))
  }

  /** The row showing position `c`: its step count, both labels and the bar. */
  function ShowPosition(row: LegacyRow, c: real): (r: LegacyRow)
    ensures r.info.span == row.info.span
  {
    var steps := PyText.RoundHalfEven(c * StepsPerUnit);
    var info := row.info.(engValue := c, steps := steps);
    var bar := if info.span == 0.0 then row.bar else SpanProgress(info.span, c).value;
    row.(info := info, unitsText := FormatUnits(c, info.unit, true), stepsText := FmtSteps(steps), bar := bar)
  }

  /** Showing the position a row already shows changes nothing. */
  lemma ShowPositionTwice(row: LegacyRow, c: real)
    ensures ShowPosition(ShowPosition(row, c), c) == ShowPosition(row, c)
  {
  }

  /** Applying the same value again changes nothing more. */
  lemma ApplyValueIdempotent(row: LegacyRow, v: real)
    ensures ApplyValue(ApplyValue(row, v), v) == ApplyValue(row, v)
  {
    ShowPositionTwice(row, ClampToSpan(row.info.span, v));
  }

  /** `_set_lbound`: the input, or 0.01 below the upper bound when it would
      reach it, becomes the row's lower bound and is written back into the
      input; unlike the newer panel, no request is sent. */
  function SetLbound(rows: seq<LegacyRow>, k: int, input: StageControl.Spin): (r: (seq<LegacyRow>, StageControl.Spin))
    requires 0 <= k < |rows| && input.Ok()
    ensures |r.0| == |rows| && r.1.Ok()
    ensures r.0[k].info.lbound < r.0[k].info.ubound
    ensures input.value < rows[k].info.ubound ==> r.0[k].info.lbound == input.value
    ensures r.0[k] == rows[k].(info := rows[k].info.(lbound := r.0[k].info.lbound))
    ensures forall i | 0 <= i < |rows| && i != k :: r.0[i] == rows[i]
  {
    var row := rows[k];
    var v := StageControl.LowerValue(input.value, row.info.ubound);
    (rows[k := row.(info := row.info.(lbound := v))], StageControl.SetValue(input, v))
  }

  /** `_set_ubound`: the mirror image for the upper bound. */
  function SetUbound(rows: seq<LegacyRow>, k: int, input: StageControl.Spin): (r: (seq<LegacyRow>, StageControl.Spin))
    requires 0 <= k < |rows| && input.Ok()
    ensures |r.0| == |rows| && r.1.Ok()
    ensures r.0[k].info.lbound < r.0[k].info.ubound
    ensures input.value > rows[k].info.lbound ==> r.0[k].info.ubound == input.value
    ensures r.0[k] == rows[k].(info := rows[k].info.(ubound := r.0[k].info.ubound))
    ensures forall i | 0 <= i < |rows| && i != k :: r.0[i] == rows[i]
  {
    var row := rows[k];
    var v := StageControl.UpperValue(input.value, row.info.lbound);
    (rows[k := row.(info := row.info.(ubound := v))], StageControl.SetValue(input, v))
  }

  /** Whichever bound is set last, the row's bounds end up ordered. */
  lemma LegacyBoundsStayOrdered(rows: seq<LegacyRow>, k: int, lo: StageControl.Spin, hi: StageControl.Spin)
    requires 0 <= k < |rows| && lo.Ok() && hi.Ok()
    ensures var a := SetLbound(rows, k, lo).0; SetUbound(a, k, hi).0[k].info.lbound < SetUbound(a, k, hi).0[k].info.ubound
    ensures var b := SetUbound(rows, k, hi).0; SetLbound(b, k, lo).0[k].info.lbound < SetLbound(b, k, lo).0[k].info.ubound
  {
  }

  // ---------------------------------------------------------------------
  // Read-back handlers
  // ---------------------------------------------------------------------

  ghost predicate AllShow(rows: seq<LegacyRow>)
  {
    forall i | 0 <= i < |rows| :: RowShows(rows[i])
  }

  /** `update_address`: the row `rows[stage_no - 1]` (Python indexing) takes
      the truncated step count and the position; its labels are refreshed,
      and its bar too unless the span is zero (the bar update raises). */
  function UpdateAddress(rows: seq<LegacyRow>, steps: real, pos: real, stageNo: int): (r: seq<LegacyRow>)
    ensures MotorStatus.RowIndex(|rows|, stageNo).None? ==> r == rows
    ensures MotorStatus.RowIndex(|rows|, stageNo).Some? ==>
      var k := MotorStatus.RowIndex(|rows|, stageNo).value;
      && |r| == |rows|
      && (forall i | 0 <= i < |rows| && i != k :: r[i] == rows[i])
      && r[k].info == rows[k].info.(steps := PyText.TruncToInt(steps), engValue := pos)
      && (RowShows(rows[k]) ==> RowShows(r[k]))
  {
    match MotorStatus.RowIndex(|rows|, stageNo)
    case None => rows
    case Some(k) =>
      var row := rows[k];
      var info := row.info.(steps := PyText.TruncToInt(steps), engValue := pos);
      var bar := if info.span == 0.0 then row.bar else SpanProgress(info.span, pos).value;
      rows[k := row.(info := info, stepsText := FmtSteps(info.steps),
                     unitsText := FormatUnits(pos, info.unit, true), bar := bar)]
  }

  /** `update_speed`: only the selected row's speed and speed label change. */
  function UpdateSpeed(rows: seq<LegacyRow>, speed: real, stageNo: int): (r: seq<LegacyRow>)
    ensures MotorStatus.RowIndex(|rows|, stageNo).None? ==> r == rows
    ensures MotorStatus.RowIndex(|rows|, stageNo).Some? ==>
      var k := MotorStatus.RowIndex(|rows|, stageNo).value;
      && |r| == |rows|
      && (forall i | 0 <= i < |rows| && i != k :: r[i] == rows[i])
      && r[k].info == rows[k].info.(speed := speed)
      && (RowShows(rows[k]) ==> RowShows(r[k]))
  {
    match MotorStatus.RowIndex(|rows|, stageNo)
    case None => rows
    case Some(k) =>
      var row := rows[k];
      rows[k := row.(info := row.info.(speed := speed), speedText := FormatUnits(speed, row.info.speedUnit, true))]
  }

  /** The two addresses the interface reads back after discovery. */
  predicate ReadBack(address: int)
  {
    address == 1 || address == 15
  }

  /** `_on_position` as written: `address == 1 or 15` is always true, so
      every reply reaches the rows. */
  function OnPositionAsWritten(rows: seq<LegacyRow>, address: int, steps: real, pos: real): (r: seq<LegacyRow>)
    ensures |r| == |rows|
    ensures MotorStatus.RowIndex(|rows|, address).None? ==> r == rows
    ensures MotorStatus.RowIndex(|rows|, address).Some? ==>
      r[MotorStatus.RowIndex(|rows|, address).value].info.engValue == pos
  {
    UpdateAddress(rows, steps, pos, address)
  }

  /** `_on_position` as intended: only replies from addresses 1 and 15
      reach the rows. */
  function OnPosition(rows: seq<LegacyRow>, address: int, steps: real, pos: real): (r: seq<LegacyRow>)
    ensures !ReadBack(address) ==> r == rows
    ensures ReadBack(address) ==> r == OnPositionAsWritten(rows, address, steps, pos)
  {
    if ReadBack(address) then UpdateAddress(rows, steps, pos, address) else rows
  }

  /** `_on_speed` as written: every reply reaches the rows. */
  function OnSpeedAsWritten(rows: seq<LegacyRow>, address: int, speed: real): (r: seq<LegacyRow>)
    ensures |r| == |rows|
    ensures MotorStatus.RowIndex(|rows|, address).None? ==> r == rows
    ensures MotorStatus.RowIndex(|rows|, address).Some? ==>
      r[MotorStatus.RowIndex(|rows|, address).value].info.speed == speed
  {
    UpdateSpeed(rows, speed, address)
  }

  /** `_on_speed` as intended: only addresses 1 and 15. */
  function OnSpeed(rows: seq<LegacyRow>, address: int, speed: real): (r: seq<LegacyRow>)
    ensures !ReadBack(address) ==> r == rows
    ensures ReadBack(address) ==> r == OnSpeedAsWritten(rows, address, speed)
  {
    if ReadBack(address) then UpdateSpeed(rows, speed, address) else rows
  }

  /** A position reply from address 0 overwrites the last row as written,
      by Python's negative indexing, where it was meant to be ignored. */
  lemma AddressZeroMovesLastRow(rows: seq<LegacyRow>, steps: real, pos: real)
    requires |rows| > 0 && pos != rows[|rows| - 1].info.engValue
    ensures OnPosition(rows, 0, steps, pos) == rows
    ensures OnPositionAsWritten(rows, 0, steps, pos)[|rows| - 1].info.engValue == pos
    ensures OnPositionAsWritten(rows, 0, steps, pos) != OnPosition(rows, 0, steps, pos)
  {
    var w := OnPositionAsWritten(rows, 0, steps, pos);
    assert w[|rows| - 1] != rows[|rows| - 1];
  }

  /** A speed reply from address 2 overwrites the second row as written. */
  lemma AddressTwoChangesSpeed(rows: seq<LegacyRow>, speed: real)
    requires |rows| >= 2 && speed != rows[1].info.speed
    ensures OnSpeed(rows, 2, speed) == rows
    ensures OnSpeedAsWritten(rows, 2, speed)[1].info.speed == speed
  {
  }

  /** Neither intended handler ever breaks a row's display. */
  lemma HandlersKeepDisplay(rows: seq<LegacyRow>, address: int, steps: real, pos: real, speed: real)
    requires AllShow(rows)
    ensures AllShow(OnPosition(rows, address, steps, pos))
    ensures AllShow(OnSpeed(rows, address, speed))
  {
    var p := OnPosition(rows, address, steps, pos);
    forall i | 0 <= i < |p|
      ensures RowShows(p[i])
    {
    }
    var s := OnSpeed(rows, address, speed);
    forall i | 0 <= i < |s|
      ensures RowShows(s[i])
    {
    }
  }
}

=== FILE: motor_info.dfy ===
/** The per-stage record shared by the panels and the stage workers. */
module Motors {

  /** One motor stage: names, step count, engineering position and unit
      ("mm" or "deg"), travel span, soft bounds and speed. */
  datatype MotorInfo = MotorInfo(
    short: string,
    long: string,
    steps: int,
    engValue: real,
    unit: string,
    span: real,
    lbound: real,
    ubound: real,
    speed: real,
    speedUnit: string)
}

=== FILE: motor_row.dfy ===
/**
 One stage row of the status panel: the record it shows and what its
 labels and progress bar display. Float-to-text rendering is kept
 structured: a number appears as the format it is printed with (fixed
 decimals, or general with significant digits), not as digits.
 */
module MotorRows {
  import PyText
  import opened Motors

  // ---------------------------------------------------------------------
  // Text of the labels
  // ---------------------------------------------------------------------

  /** `f"{steps:,} steps".replace(",", " ")`. */
  function FmtSteps(steps: int): (r: string)
    ensures |r| > 6 && r[|r| - 6..] == " steps"
    ensures PyText.Ungroup(r[..|r| - 6]) == PyText.IntToString(steps)
    ensures steps >= 0 ==> PyText.Grouped(r[..|r| - 6])
  {
    var g := PyText.GroupInt(steps);
    PyText.GroupIntUngroup(steps);
    var r := g + " steps";
    assert r[..|r| - 6] == g;
    r
  }

  /** How a number is printed: `f"{x:.<places>f}"`, `f"{x:.<sig>g}"`, or
      `str(v)` for a value `float()` rejects. */
  datatype Number = Fixed(x: real, places: nat) | General(x: real, sig: nat) | Text(s: string)

  /** A value handed to a formatter: a number, or something `float()`
      raises on, carried as its `str()`. */
  datatype Value = Num(x: real) | Other(repr: string)

  /** A units label: the number, bold when the label is rich text, then a
      space and the unit. */
  datatype UnitsText = UnitsText(bold: bool, num: Number, unit: string)

  /** The label text, given how the number is rendered. */
  function Render(t: UnitsText, digits: string): string
  {
    if t.bold then "<b>" + digits + "</b> " + t.unit else digits + " " + t.unit
  }

  /** `_fmt_units`: three decimals for every unit, `str(v)` when `float(v)`
      raises. */
  function FmtUnits(v: Value, unit: string, rich: bool): (r: UnitsText)
    ensures r.bold == rich && r.unit == unit
    ensures v.Num? ==> r.num == Fixed(v.x, 3)
    ensures v.Other? ==> r.num == Text(v.repr)
  {
    UnitsText(rich, if v.Num? then Fixed(v.x, 3) else Text(v.repr), unit)
  }

  /** The number's format does not depend on the unit, and the rich text is
      the plain text with the number in bold. */
  lemma FmtUnitsUniform(v: Value, u1: string, u2: string, digits: string)
    ensures FmtUnits(v, u1, true).num == FmtUnits(v, u2, false).num
    ensures Render(FmtUnits(v, u1, true), digits) == "<b>" + digits + "</b>" + Render(FmtUnits(v, u1, false), "")
  {
  }

  // ---------------------------------------------------------------------
  // The progress bar
  // ---------------------------------------------------------------------

  function Clamp(v: real, lo: real, hi: real): (r: real)
    requires lo <= hi
    ensures lo <= r <= hi
    ensures lo <= v <= hi ==> r == v
  {
    if v < lo then lo else if v > hi then hi else v
  }

  /** `int(round(x))` on a value between 0 and 100. */
  lemma RoundPercent(x: real)
    requires 0.0 <= x <= 100.0
    ensures 0 <= PyText.RoundHalfEven(x) <= 100
  {
  }

  /** `_progress_from_value`: 0 for empty bounds, else the position of the
      clamped value between the bounds, in percent. */
  function Progress(lbound: real, ubound: real, v: real): (r: int)
    ensures 0 <= r <= 100
    ensures ubound <= lbound ==> r == 0
    ensures lbound < ubound && v <= lbound ==> r == 0
    ensures lbound < ubound && v >= ubound ==> r == 100
    ensures lbound < ubound && lbound <= v <= ubound ==>
      var x := (v - lbound) / (ubound - lbound) * 100.0;
      && r == PyText.RoundHalfEven(x)
      && (r as real - x) * 2.0 <= 1.0 && (x - r as real) * 2.0 <= 1.0
  {
    if ubound <= lbound then 0
    else
      var c := Clamp(v, lbound, ubound);
      var x := (c - lbound) / (ubound - lbound) * 100.0;
      PercentRange(c - lbound, ubound - lbound);
      RoundPercent(x);
      PyText.RoundOfInt(100);
      PyText.RoundOfInt(0);
      PyText.RoundHalfEven(x)
  }

  /** A share of a positive whole, in percent. */
  lemma PercentRange(a: real, d: real)
    requires 0.0 <= a <= d && d > 0.0
    ensures 0.0 <= a / d * 100.0 <= 100.0
    ensures a == d ==> a / d * 100.0 == 100.0
    ensures a == 0.0 ==> a / d * 100.0 == 0.0
  {
    assert a / d <= 1.0 by {
      assert a / d * d == a;
    }
  }

  /** Dividing by a positive number keeps the order. */
  lemma DivMonotone(a: real, b: real, d: real)
    requires a <= b && d > 0.0
    ensures a / d * 100.0 <= b / d * 100.0
  {
    assert a / d <= b / d by {
      assert (b - a) / d >= 0.0;
      assert b / d - a / d == (b - a) / d;
    }
  }

  /** A larger value never shows less progress. */
  lemma ProgressMonotone(lbound: real, ubound: real, v: real, w: real)
    requires v <= w
    ensures Progress(lbound, ubound, v) <= Progress(lbound, ubound, w)
  {
    if lbound < ubound {
      var cv, cw := Clamp(v, lbound, ubound), Clamp(w, lbound, ubound);
      DivMonotone(cv - lbound, cw - lbound, ubound - lbound);
      PyText.RoundMonotone((cv - lbound) / (ubound - lbound) * 100.0, (cw - lbound) / (ubound - lbound) * 100.0);
    }
  }

  // ---------------------------------------------------------------------
  // A row and what it shows
  // ---------------------------------------------------------------------

  /** The 1-based row number, the record, the steps, position and speed
      labels, and the bar. */
  datatype Row = Row(index: int, info: MotorInfo, stepsText: string, unitsText: UnitsText, speedText: UnitsText, bar: int)

  /** Every label and the bar agree with the record. */
  ghost predicate Shows(row: Row)
  {
    && row.stepsText == FmtSteps(row.info.steps)
    && row.unitsText == FmtUnits(Num(row.info.engValue), row.info.unit, true)
    && row.speedText == FmtUnits(Num(row.info.speed), row.info.speedUnit, true)
    && row.bar == Progress(row.info.lbound, row.info.ubound, row.info.engValue)
  }

  /** A freshly built row shows its record. */
  function NewRow(info: MotorInfo, index: int): (r: Row)
    ensures r.index == index && r.info == info && Shows(r)
    ensures 0 <= r.bar <= 100
  {
    Row(index, info, FmtSteps(info.steps), FmtUnits(Num(info.engValue), info.unit, true),
        FmtUnits(Num(info.speed), info.speedUnit, true), Progress(info.lbound, info.ubound, info.engValue))
  }
}

=== FILE: motor_status.dfy ===
/**
 The status panels' read-back slots (`update_address`, `update_speed` and,
 in the grating application, `update_bounds`): each picks the row
 `rows[stage_no - 1]`, with Python's negative indexing, and updates that
 row's record and the labels and bar that depend on it.
 */
module MotorStatus {
  import opened Wrappers
  import PyText
  import opened Motors
  import opened MotorRows

  /** The row `rows[stage_no - 1]` selects, or `None` when the index raises:
      numbers 1..n select rows 0..n-1, and numbers from 1-n to 0 count back
      from the last row. */
  function RowIndex(n: nat, stageNo: int): (r: Option<nat>)
    ensures r.Some? ==> r.value < n
    ensures 1 <= stageNo <= n ==> r == Some(stageNo - 1)
    ensures 1 - n <= stageNo <= 0 ==> r == Some(n + stageNo - 1)
    ensures r.None? <==> stageNo > n || stageNo <= -(n as int)
  {
    var k := stageNo - 1;
    if 0 <= k < n then Some(k)
    else if -(n as int) <= k < 0 then Some(n + k)
    else None
  }

  ghost predicate AllShow(rows: seq<Row>)
  {
    forall i | 0 <= i < |rows| :: Shows(rows[i])
  }

  /** The panel's rows, numbered from 1 in the order of the records. */
  function NewRows(motors: seq<MotorInfo>): (r: seq<Row>)
    ensures |r| == |motors| && AllShow(r)
    ensures forall i | 0 <= i < |r| :: r[i].index == i + 1 && r[i].info == motors[i]
  {
    if |motors| == 0 then []
    else
      var n := |motors| - 1;
      var front := NewRows(motors[..n]);
      assert forall i | 0 <= i < n :: motors[..n][i] == motors[i];
      var last := NewRow(motors[n], n + 1);
      AppendRowShows(front, last);
      AppendRowNumbered(front, last, motors);
      front + [last]
  }

  lemma AppendRowShows(front: seq<Row>, last: Row)
    requires AllShow(front) && Shows(last)
    ensures AllShow(front + [last])
  {
    var r := front + [last];
    forall i | 0 <= i < |r|
      ensures Shows(r[i])
    {
      if i < |front| {
        assert r[i] == front[i];
      }
    }
  }

  /** Appending the next numbered row keeps the numbering. */
  lemma AppendRowNumbered(front: seq<Row>, last: Row, motors: seq<MotorInfo>)
    requires |front| + 1 == |motors|
    requires forall i | 0 <= i < |front| :: front[i].index == i + 1 && front[i].info == motors[i]
    requires last.index == |motors| && last.info == motors[|front|]
    ensures forall i | 0 <= i < |motors| :: (front + [last])[i].index == i + 1 && (front + [last])[i].info == motors[i]
  {
    var r := front + [last];
    forall i | 0 <= i < |motors|
      ensures r[i].index == i + 1 && r[i].info == motors[i]
    {
      if i < |front| {
        assert r[i] == front[i];
      }
    }
  }

  /** The rows other than `k` are untouched. */
  ghost predicate OthersKept(rows: seq<Row>, r: seq<Row>, k: nat)
  {
    |r| == |rows| && forall i | 0 <= i < |rows| && i != k :: r[i] == rows[i]
  }

  /** `update_address`: the selected row takes `int(steps)` (truncated
      toward zero) and the position, and its steps label, position label and
      bar are refreshed; an index that raises leaves the panel alone. */
  function UpdateAddress(rows: seq<Row>, steps: real, pos: real, stageNo: int): (r: seq<Row>)
    ensures RowIndex(|rows|, stageNo).None? ==> r == rows
    ensures RowIndex(|rows|, stageNo).Some? ==>
      var k := RowIndex(|rows|, stageNo).value;
      && OthersKept(rows, r, k)
      && r[k].info == rows[k].info.(steps := PyText.TruncToInt(steps), engValue := pos)
      && r[k].speedText == rows[k].speedText
    ensures AllShow(rows) ==> AllShow(r)
  {
    match RowIndex(|rows|, stageNo)
    case None => rows
    case Some(k) =>
      var row := rows[k];
      var info := row.info.(steps := PyText.TruncToInt(steps), engValue := pos);
      rows[k := row.(info := info,
                     stepsText := FmtSteps(info.steps),
                     unitsText := FmtUnits(Num(info.engValue), info.unit, true),
                     bar := Progress(info.lbound, info.ubound, info.engValue))]
  }

  /** `update_speed`: only the selected row's speed and speed label change. */
  function UpdateSpeed(rows: seq<Row>, speed: real, stageNo: int): (r: seq<Row>)
    ensures RowIndex(|rows|, stageNo).None? ==> r == rows
    ensures RowIndex(|rows|, stageNo).Some? ==>
      var k := RowIndex(|rows|, stageNo).value;
      && OthersKept(rows, r, k)
      && r[k].info == rows[k].info.(speed := speed)
      && r[k].stepsText == rows[k].stepsText && r[k].unitsText == rows[k].unitsText && r[k].bar == rows[k].bar
    ensures AllShow(rows) ==> AllShow(r)
  {
    match RowIndex(|rows|, stageNo)
    case None => rows
    case Some(k) =>
      var row := rows[k];
      var info := row.info.(speed := speed);
      rows[k := row.(info := info, speedText := FmtUnits(Num(speed), info.speedUnit, true))]
  }

  /** `update_bounds` (grating panel): both bounds are stored as given, with
      no ordering check, and the bar is recomputed. */
  function UpdateBounds(rows: seq<Row>, lower: real, upper: real, stageNo: int): (r: seq<Row>)
    ensures RowIndex(|rows|, stageNo).None? ==> r == rows
    ensures RowIndex(|rows|, stageNo).Some? ==>
      var k := RowIndex(|rows|, stageNo).value;
      && OthersKept(rows, r, k)
      && r[k].info == rows[k].info.(lbound := lower, ubound := upper)
    ensures AllShow(rows) ==> AllShow(r)
  {
    match RowIndex(|rows|, stageNo)
    case None => rows
    case Some(k) =>
      var row := rows[k];
      var info := row.info.(lbound := lower, ubound := upper);
      rows[k := row.(info := info, bar := Progress(lower, upper, row.info.engValue))]
  }

  /** Bounds given in the wrong order empty the bar rather than being
      rejected. */
  lemma ReversedBoundsEmptyBar(rows: seq<Row>, lower: real, upper: real, stageNo: int)
    requires RowIndex(|rows|, stageNo).Some? && upper <= lower
    ensures UpdateBounds(rows, lower, upper, stageNo)[RowIndex(|rows|, stageNo).value].bar == 0
  {
  }

  /** Stage number 0 updates the last row. */
  lemma StageZeroIsLastRow(rows: seq<Row>, steps: real, pos: real)
    requires |rows| > 0
    ensures UpdateAddress(rows, steps, pos, 0)[|rows| - 1].info.engValue == pos
  {
  }

  /** A read-back of the position it already shows changes nothing on a
      row that already agrees with its record, when the step count is whole. */
  lemma UpdateAddressIdempotent(rows: seq<Row>, stageNo: int)
    requires AllShow(rows) && RowIndex(|rows|, stageNo).Some?
    ensures var row := rows[RowIndex(|rows|, stageNo).value];
      UpdateAddress(rows, row.info.steps as real, row.info.engValue, stageNo) == rows
  {
    var k := RowIndex(|rows|, stageNo).value;
    var row := rows[k];
    assert PyText.TruncToInt(row.info.steps as real) == row.info.steps;
    assert row.info.(steps := row.info.steps, engValue := row.info.engValue) == row.info;
  }
}

=== FILE: pico_io.dfy ===
/**
 The New Focus Picomotor 8742 worker: adapter/address enumeration at open,
 the initial position reads, and the outcome logic of a relative move
 (motion-done polling, final position read, position cache and the
 "nothing attached" rule). Vendor replies are inputs; a call that raised on
 every overload is the reply `Single(NotNumber)`, which is how the code
 treats its `None` result.
 */
module PicoIO {
  import opened Wrappers

  /** What `float(x)` makes of a reply value. */
  datatype Scalar = Number(v: real) | NotNumber

  /** A `GetPosition` reply: an `(ok, value)` tuple or a bare value. */
  datatype Reply = Tuple(ok: bool, val: Scalar) | Single(val: Scalar)

  /** A `GetMotionDone` reply: an `(ok, done)` tuple, or a bare value with
      its truthiness. */
  datatype DoneReply = DoneTuple(ok: bool, flag: bool) | DoneSingle(truthy: bool)

  /** Position cache key: adapter key, address, axis. */
  datatype AxisKey = AxisKey(key: string, addr: int, axis: int)

  datatype PicoError = CmdLibMissing | OverloadsFailed | NothingAttached(addr: int, axis: int)

  datatype Event =
    | Error(e: PicoError)
    | Moving(key: string, addr: int, on: bool)
    | Moved(k: AxisKey, pos: real)

  type Cache = map<AxisKey, real>

  // ---------------------------------------------------------------------
  // Reply interpretation
  // ---------------------------------------------------------------------

  /** A position reply as the initial read and the pre-move read use it:
      a tuple counts only when its flag is set, a bare value whenever it
      converts to a number. */
  function Accepted(r: Reply): (p: Option<real>)
    ensures p.Some? <==> r.val.Number? && (r.Tuple? ==> r.ok)
    ensures p.Some? ==> p.value == r.val.v
  {
    match r
    case Tuple(ok, s) => if ok && s.Number? then Some(s.v) else None
    case Single(s) => if s.Number? then Some(s.v) else None
  }

  /** The final read after a move: `pos_ok` is the tuple's flag, or for a
      bare value whether it converts; `pos` the converted value if any. A
      tuple can thus be ok without a usable position. */
  function FinalRead(r: Reply): (res: (bool, Option<real>))
    ensures r.Single? ==> res.0 == r.val.Number?
    ensures r.Tuple? ==> res.0 == r.ok
    ensures res.1.Some? <==> r.val.Number?
    ensures res.1.Some? ==> res.1.value == r.val.v
  {
    match r
    case Tuple(ok, s) => (ok, if s.Number? then Some(s.v) else None)
    case Single(s) => (s.Number?, if s.Number? then Some(s.v) else None)
  }

  /** One motion-done reply says the motion has finished. */
  predicate IsDone(d: DoneReply)
  {
    match d
    case DoneTuple(ok, flag) => ok && flag
    case DoneSingle(t) => t
  }

  /** The bound on motion-done polls. */
  const MaxPolls: nat := 500

  /** Motion is reported done within the poll bound. Replies past the end of
      `replies` are treated as "not done" (the device went silent). */
  ghost predicate DoneWithin(replies: seq<DoneReply>)
  {
    exists i :: 0 <= i < |replies| && i < MaxPolls && IsDone(replies[i])
  }

  /** The motion-done loop: poll at most 500 times, stop at the first reply
      that reports done. `attempts` counts the polls made. */
  method PollMotionDone(replies: seq<DoneReply>) returns (done: bool, attempts: nat)
    ensures done <==> DoneWithin(replies)
    ensures attempts <= MaxPolls
    ensures done ==> 0 < attempts <= |replies| && IsDone(replies[attempts - 1])
    ensures forall i | 0 <= i < attempts - 1 && i < |replies| :: !IsDone(replies[i])
    ensures !done ==> attempts == MaxPolls
  {
    done := false;
    attempts := 0;
    while attempts < MaxPolls
      invariant attempts <= MaxPolls
      invariant forall i | 0 <= i < attempts && i < |replies| :: !IsDone(replies[i])
      decreases MaxPolls - attempts
    {
      var d := if attempts < |replies| then replies[attempts] else DoneSingle(false);
      attempts := attempts + 1;
      if IsDone(d) {
        assert attempts - 1 < |replies| && IsDone(replies[attempts - 1]);
        done := true;
        return;
      }
    }
    assert !DoneWithin(replies);
  }

  // ---------------------------------------------------------------------
  // relative_move
  // ---------------------------------------------------------------------

  /** The outcome of `relative_move` once the move command was accepted:
      `done` is the motion-done poll's verdict, `final` the position reply
      read afterwards. */
  function Finish(cache: Cache, k: AxisKey, done: bool, final: Reply): (r: (Cache, seq<Event>))
    ensures var (posOk, pos) := FinalRead(final);
      && (pos.Some? && posOk ==> r.0 == cache[k := pos.value])
      && (!(pos.Some? && posOk) ==> r.0 == cache)
      && (Error(NothingAttached(k.addr, k.axis)) in r.1 <==>
            done && posOk && pos.Some? && k in cache && cache[k] == pos.value)
      && (Error(NothingAttached(k.addr, k.axis)) !in r.1 ==>
            (Moved(k, pos.GetOr(0.0)) in r.1 <==> posOk && pos.Some?))
    ensures |r.1| > 0 && r.1[|r.1| - 1] == Moving(k.key, k.addr, false)
  {
    var (posOk, pos) := FinalRead(final);
    var idle := [Moving(k.key, k.addr, false)];
    if done && posOk then
      var cache' := if pos.Some? then cache[k := pos.value] else cache;
      if pos.Some? && k in cache && cache[k] == pos.value then
        (cache', [Error(NothingAttached(k.addr, k.axis))] + idle)
      else if pos.Some? then (cache', [Moved(k, pos.value)] + idle)
      else (cache', idle)
    else if posOk && pos.Some? then (cache[k := pos.value], [Moved(k, pos.value)] + idle)
    else (cache, idle)
  }

  /** `relative_move`. `cmdLoaded` is whether CmdLib8742 was loaded,
      `moveOk` whether some overload of RelativeMove returned. The pre-move
      position read is computed by the code but never used, so it is not an
      input here. */
  method RelativeMove(cache: Cache, cmdLoaded: bool, key: string, addr: int, axis: int,
                      moveOk: bool, replies: seq<DoneReply>, final: Reply)
    returns (cache': Cache, events: seq<Event>)
    ensures !cmdLoaded ==> cache' == cache && events == [Error(CmdLibMissing)]
    ensures cmdLoaded ==> |events| >= 2 && events[0] == Moving(key, addr, true)
                          && events[|events| - 1] == Moving(key, addr, false)
    ensures cmdLoaded && !moveOk ==> cache' == cache && events == [Moving(key, addr, true), Error(OverloadsFailed), Moving(key, addr, false)]
    ensures cmdLoaded && moveOk ==>
      (cache', events[1..]) == Finish(cache, AxisKey(key, addr, axis), DoneWithin(replies), final)
  {
    if !cmdLoaded {
      return cache, [Error(CmdLibMissing)];
    }
    var busy := [Moving(key, addr, true)];
    if !moveOk {
      return cache, busy + [Error(OverloadsFailed), Moving(key, addr, false)];
    }
    var done, _ := PollMotionDone(replies);
    var (c, tail) := Finish(cache, AxisKey(key, addr, axis), done, final);
    cache' := c;
    events := busy + tail;
    assert events[1..] == tail;
  }

  /** A move onto the cached position while the motion was reported done
      is an error and emits no `moved`; the cache keeps the value. */
  lemma NothingAttachedNoMoved(cache: Cache, k: AxisKey, v: real)
    requires k in cache && cache[k] == v
    ensures var (c, ev) := Finish(cache, k, true, Single(Number(v)));
      && ev == [Error(NothingAttached(k.addr, k.axis)), Moving(k.key, k.addr, false)]
      && c == cache
  {
  }

  // ---------------------------------------------------------------------
  // open: enumeration and initial reads
  // ---------------------------------------------------------------------

  /** What one adapter key reports: its address list (`None` when the query
      raised or an entry did not convert) and the model/serial strings that
      could be read, by address. */
  datatype Adapter = Adapter(key: string, addrs: Option<seq<int>>, serials: map<int, string>)

  /** One discovered controller: adapter key, address, model/serial ('' when
      unavailable). */
  datatype Found = Found(key: string, addr: int, serial: string)

  function MaxOf(s: seq<int>, m: int): (r: int)
    ensures r >= m && forall x | x in s :: x <= r
    ensures r == m || r in s
  {
    if |s| == 0 then m
    else
      assert s == [s[0]] + s[1..];
      MaxOf(s[1..], if s[0] > m then s[0] else m)
  }

  /** The highest address to enumerate: the largest reported, and at least 1. */
  function MaxAddr(a: Adapter): (r: int)
    ensures r >= 1
    ensures r == 1 || (a.addrs.Some? && r in a.addrs.value)
    ensures a.addrs.Some? ==> forall x | x in a.addrs.value :: x <= r
  {
    if a.addrs.Some? then MaxOf(a.addrs.value, 1) else 1
  }

  /** The model/serial string of an address, '' when it could not be read. */
  function SerialOf(a: Adapter, addr: int): string
  {
    if addr in a.serials then a.serials[addr] else ""
  }

  /** Entries for addresses `from`..`to` of one adapter. */
  function Enumerate(a: Adapter, from: int, to: int): (r: seq<Found>)
    ensures |r| == if to >= from then to - from + 1 else 0
    ensures forall j | 0 <= j < |r| :: r[j] == Found(a.key, from + j, SerialOf(a, from + j))
    decreases if to >= from then to - from + 1 else 0
  {
    if from > to then []
    else [Found(a.key, from, SerialOf(a, from))] + Enumerate(a, from + 1, to)
  }

  /** The number of addresses enumerated over all adapters. */
  function TotalAddrs(adapters: seq<Adapter>): nat
  {
    if |adapters| == 0 then 0 else MaxAddr(adapters[0]) + TotalAddrs(adapters[1..])
  }

  /** The discovered list: per adapter, in key order, addresses 1..max. */
  function Discover(adapters: seq<Adapter>): (r: seq<Found>)
    ensures |r| == TotalAddrs(adapters)
    ensures |r| >= |adapters|
  {
    if |adapters| == 0 then []
    else
      var head := Enumerate(adapters[0], 1, MaxAddr(adapters[0]));
      assert |head| >= 1;
      head + Discover(adapters[1..])
  }

  /** The figure `opened_count` reports: adapter keys, not entries. */
  function OpenedCount(adapters: seq<Adapter>): (n: nat)
    ensures n == |adapters| && n <= |Discover(adapters)|
  {
    |adapters|
  }

  /** Every address from 1 up to the highest reported one is listed for its
      adapter, so the primary address 1 is always present. */
  lemma {:induction false} DiscoverListsEveryAddress(adapters: seq<Adapter>, i: int, addr: int)
    requires 0 <= i < |adapters| && 1 <= addr <= MaxAddr(adapters[i])
    ensures exists j :: 0 <= j < |Discover(adapters)| && Discover(adapters)[j].key == adapters[i].key
                        && Discover(adapters)[j].addr == addr
    decreases i
  {
    var head := Enumerate(adapters[0], 1, MaxAddr(adapters[0]));
    assert Discover(adapters) == head + Discover(adapters[1..]);
    if i == 0 {
      assert head[addr - 1].addr == addr;
      assert Discover(adapters)[addr - 1] == head[addr - 1];
    } else {
      DiscoverListsEveryAddress(adapters[1..], i - 1, addr);
      var j :| 0 <= j < |Discover(adapters[1..])| && Discover(adapters[1..])[j].key == adapters[i].key
               && Discover(adapters[1..])[j].addr == addr;
      assert Discover(adapters)[|head| + j] == Discover(adapters[1..])[j];
    }
  }

  /** Nothing else is listed: every entry is an address from 1 up to the
      highest reported one of some adapter, under that adapter's key and
      with its serial for that address. */
  lemma {:induction false} DiscoverEntry(adapters: seq<Adapter>, j: int)
    requires 0 <= j < |Discover(adapters)|
    ensures exists i, addr | 0 <= i < |adapters| && 1 <= addr <= MaxAddr(adapters[i]) ::
              Discover(adapters)[j] == Found(adapters[i].key, addr, SerialOf(adapters[i], addr))
    decreases |adapters|
  {
    var head := Enumerate(adapters[0], 1, MaxAddr(adapters[0]));
    assert Discover(adapters) == head + Discover(adapters[1..]);
    if j < |head| {
      assert Discover(adapters)[j] == Found(adapters[0].key, 1 + j, SerialOf(adapters[0], 1 + j));
    } else {
      var rest := adapters[1..];
      DiscoverEntry(rest, j - |head|);
      var i, addr :| 0 <= i < |rest| && 1 <= addr <= MaxAddr(rest[i])
                     && Discover(rest)[j - |head|] == Found(rest[i].key, addr, SerialOf(rest[i], addr));
      assert rest[i] == adapters[i + 1];
      assert Discover(adapters)[j] == Found(adapters[i + 1].key, addr, SerialOf(adapters[i + 1], addr));
    }
  }

  /** Initial reads for axes `axis`..4 of one entry: the cache and `moved`
      follow each accepted reply. */
  function ReadAxes(cache: Cache, f: Found, axis: int, read: AxisKey -> Reply): (r: (Cache, seq<Event>))
    requires 1 <= axis <= 5
    ensures forall k | k in r.0 :: k in cache || (k.key == f.key && k.addr == f.addr && axis <= k.axis <= 4)
    ensures forall ax | axis <= ax <= 4 && Accepted(read(AxisKey(f.key, f.addr, ax))).Some? ::
      var k := AxisKey(f.key, f.addr, ax);
      k in r.0 && r.0[k] == Accepted(read(k)).value
    ensures forall k | k in cache && !(k.key == f.key && k.addr == f.addr && axis <= k.axis <= 4) ::
      k in r.0 && r.0[k] == cache[k]
    ensures forall k | k in cache :: k in r.0
    ensures FromReads(r.0, cache, read)
    decreases 5 - axis
  {
    if axis == 5 then (cache, [])
    else
      var k := AxisKey(f.key, f.addr, axis);
      match Accepted(read(k))
      case None => ReadAxes(cache, f, axis + 1, read)
      case Some(p) =>
        var (c, ev) := ReadAxes(cache[k := p], f, axis + 1, read);
        (c, [Moved(k, p)] + ev)
  }

  /** Every entry of `c` is either kept from `cache` or an accepted reply. */
  ghost predicate FromReads(c: Cache, cache: Cache, read: AxisKey -> Reply)
  {
    forall k | k in c :: (k in cache && c[k] == cache[k]) || Accepted(read(k)) == Some(c[k])
  }

  lemma FromReadsTrans(c2: Cache, c1: Cache, cache: Cache, read: AxisKey -> Reply)
    requires FromReads(c2, c1, read) && FromReads(c1, cache, read)
    ensures FromReads(c2, cache, read)
  {
  }

  /** The initial reads over every discovered entry, in order. */
  function InitialReads(cache: Cache, found: seq<Found>, read: AxisKey -> Reply): (r: (Cache, seq<Event>))
    ensures forall k | k in cache :: k in r.0
    ensures FromReads(r.0, cache, read)
    decreases |found|
  {
    if |found| == 0 then (cache, [])
    else
      var (c1, ev1) := ReadAxes(cache, found[0], 1, read);
      var (c2, ev2) := InitialReads(c1, found[1..], read);
      FromReadsTrans(c2, c1, cache, read);
      (c2, ev1 + ev2)
  }

  /** After open, every axis 1..4 of every discovered entry whose reply is
      accepted is cached with that reply's value. */
  lemma {:induction false} InitialReadsCache(cache: Cache, found: seq<Found>, read: AxisKey -> Reply, j: int, ax: int)
    requires 0 <= j < |found| && 1 <= ax <= 4
    requires Accepted(read(AxisKey(found[j].key, found[j].addr, ax))).Some?
    ensures var k := AxisKey(found[j].key, found[j].addr, ax);
      k in InitialReads(cache, found, read).0 && InitialReads(cache, found, read).0[k] == Accepted(read(k)).value
    decreases |found|
  {
    var k := AxisKey(found[j].key, found[j].addr, ax);
    var (c1, ev1) := ReadAxes(cache, found[0], 1, read);
    if j > 0 {
      InitialReadsCache(c1, found[1..], read, j - 1, ax);
    } else {
      assert k in c1 && c1[k] == Accepted(read(k)).value;
      InitialReadsKeeps(c1, found[1..], read, k);
    }
  }

  /** A cached value that the later reads overwrite is overwritten with the
      same accepted value, so a value once cached from a reply stays it. */
  lemma {:induction false} InitialReadsKeeps(cache: Cache, found: seq<Found>, read: AxisKey -> Reply, k: AxisKey)
    requires k in cache && Accepted(read(k)) == Some(cache[k])
    ensures k in InitialReads(cache, found, read).0
    ensures InitialReads(cache, found, read).0[k] == cache[k]
    decreases |found|
  {
    if |found| > 0 {
      var (c1, ev1) := ReadAxes(cache, found[0], 1, read);
      assert k in c1 && c1[k] == cache[k];
      InitialReadsKeeps(c1, found[1..], read, k);
    }
  }
}

=== FILE: pico_panel.dfy ===
/**
 The picomotor panel: the controller selector filled from discovered
 controller addresses, the motor selector that follows it, and the
 Back/Forward jog requests it sends.
 */
module PicoPanel {
  import opened Wrappers
  import PyText
  import Json
  import Sorting

  // ---------------------------------------------------------------------
  // Discovered items
  // ---------------------------------------------------------------------

  /** One discovered controller address: the adapter it hangs off, its
      address on that adapter, and its model/serial text. */
  datatype Entry = Entry(key: string, addr: int, serial: string)

  /** The entry a discovered item gives: `str(adapter_key or '')`,
      `int(address or 0)` and `str(model_serial or '')`; `None` when the
      address does not convert. */
  function ItemEntry(it: Json.Record, floatText: real -> string): (e: Option<Entry>)
    ensures e.Some? <==> Json.PyInt(Json.Or(Json.Get(it, "address", Json.Null), Json.Int(0))).Some?
    ensures "address" !in it ==> e.Some? && e.value.addr == 0
    ensures "adapter_key" !in it && e.Some? ==> e.value.key == ""
    ensures "model_serial" !in it && e.Some? ==> e.value.serial == ""
  {
    match Json.PyInt(Json.Or(Json.Get(it, "address", Json.Null), Json.Int(0)))
    case None => None
    case Some(a) =>
      Some(Entry(
        Json.PyStr(Json.Or(Json.Get(it, "adapter_key", Json.Null), Json.Str("")), floatText),
        a,
        Json.PyStr(Json.Or(Json.Get(it, "model_serial", Json.Null), Json.Str("")), floatText)))
  }

  /** The adapter-key dictionary: each key with its entries in the order
      they arrived, keys in the order they first appeared. */
  type Mapping = seq<(string, seq<Entry>)>

  /** Where `key` sits in the mapping, if anywhere. */
  function KeyAt(m: Mapping, key: string): (r: Option<nat>)
    ensures r.Some? ==> r.value < |m| && m[r.value].0 == key
    ensures r.None? ==> forall i | 0 <= i < |m| :: m[i].0 != key
  {
    if |m| == 0 then None
    else if m[0].0 == key then Some(0)
    else
      var r := KeyAt(m[1..], key);
      assert forall i | 1 <= i < |m| :: m[i] == m[1..][i - 1];
      if r.Some? then Some(r.value + 1) else None
  }

  /** `mapping.setdefault(key, []).append(e)`. */
  function SetDefaultAppend(m: Mapping, e: Entry): (r: Mapping)
    ensures KeyAt(m, e.key).None? ==> r == m + [(e.key, [e])]
    ensures KeyAt(m, e.key).Some? ==> r == m[KeyAt(m, e.key).value := (e.key, m[KeyAt(m, e.key).value].1 + [e])]
  {
    match KeyAt(m, e.key)
    case None => m + [(e.key, [e])]
    case Some(i) => m[i := (e.key, m[i].1 + [e])]
  }

  /** The entries of a mapping, key after key. */
  function Flatten(m: Mapping): seq<Entry>
  {
    if |m| == 0 then [] else m[0].1 + Flatten(m[1..])
  }

  lemma {:induction false} FlattenSnoc(m: Mapping, g: (string, seq<Entry>))
    ensures Flatten(m + [g]) == Flatten(m) + g.1
  {
    if |m| > 0 {
      assert (m + [g])[1..] == m[1..] + [g];
      FlattenSnoc(m[1..], g);
    }
  }

  lemma {:induction false} FlattenUpdate(m: Mapping, i: nat, g: (string, seq<Entry>))
    requires i < |m|
    ensures multiset(Flatten(m[i := g])) + multiset(m[i].1) == multiset(Flatten(m)) + multiset(g.1)
  {
    if i == 0 {
      assert m[i := g][1..] == m[1..];
    } else {
      assert m[i := g][1..] == m[1..][i - 1 := g];
      assert m[1..][i - 1] == m[i] && m[i := g][0] == m[0];
      assert Flatten(m[i := g]) == m[0].1 + Flatten(m[1..][i - 1 := g]);
      assert Flatten(m) == m[0].1 + Flatten(m[1..]);
      FlattenUpdate(m[1..], i - 1, g);
      var rest, rest' := Flatten(m[1..]), Flatten(m[1..][i - 1 := g]);
      assert multiset(rest') + multiset(m[i].1) == multiset(rest) + multiset(g.1);
      assert multiset(Flatten(m[i := g])) == multiset(m[0].1) + multiset(rest');
      assert multiset(Flatten(m)) == multiset(m[0].1) + multiset(rest);
      assert multiset(Flatten(m[i := g])) + multiset(m[i].1) == multiset(m[0].1) + (multiset(rest') + multiset(m[i].1));
    }
  }

  /** Adding an entry to the mapping adds exactly that entry to its
      flattening. */
  lemma AppendAddsOne(m: Mapping, e: Entry)
    ensures multiset(Flatten(SetDefaultAppend(m, e))) == multiset(Flatten(m)) + multiset{e}
  {
    match KeyAt(m, e.key)
    case None => FlattenSnoc(m, (e.key, [e]));
    case Some(i) =>
      FlattenUpdate(m, i, (e.key, m[i].1 + [e]));
      var before, after := multiset(Flatten(m)), multiset(Flatten(SetDefaultAppend(m, e)));
      assert after + multiset(m[i].1) == before + (multiset(m[i].1) + multiset{e});
      var a := multiset(m[i].1);
      assert after + a == (before + multiset{e}) + a;
      forall x
        ensures after[x] == (before + multiset{e})[x]
      {
        assert (after + a)[x] == ((before + multiset{e}) + a)[x];
      }
      assert after == before + multiset{e};
  }

  /** The entries of the discovered items, in item order; `None` when some
      address does not convert. */
  function Entries(items: seq<Json.Record>, floatText: real -> string): (r: Option<seq<Entry>>)
    ensures r.Some? ==> |r.value| == |items|
    ensures r.Some? ==> forall i | 0 <= i < |items| :: ItemEntry(items[i], floatText) == Some(r.value[i])
    ensures r.None? <==> exists i | 0 <= i < |items| :: ItemEntry(items[i], floatText).None?
  {
    if |items| == 0 then Some([])
    else
      var n := |items| - 1;
      assert forall i | 0 <= i < n :: items[..n][i] == items[i];
      match Entries(items[..n], floatText)
      case None => None
      case Some(prev) =>
        match ItemEntry(items[n], floatText)
        case None => None
        case Some(e) => Some(prev + [e])
  }

  /** The entries of `es` under adapter key `k`, in arrival order. */
  function WithKey(es: seq<Entry>, k: string): (r: seq<Entry>)
    ensures forall e | e in r :: e in es && e.key == k
  {
    if |es| == 0 then []
    else
      var n := |es| - 1;
      assert forall e | e in es[..n] :: e in es;
      WithKey(es[..n], k) + (if es[n].key == k then [es[n]] else [])
  }

  lemma {:induction false} WithKeyNone(es: seq<Entry>, k: string)
    requires forall j | 0 <= j < |es| :: es[j].key != k
    ensures WithKey(es, k) == []
  {
    if |es| > 0 {
      WithKeyNone(es[..|es| - 1], k);
    }
  }

  /** Each key of the mapping occurs once. */
  ghost predicate KeysDistinct(m: Mapping)
  {
    forall i, j | 0 <= i < j < |m| :: m[i].0 != m[j].0
  }

  /** Every key of the mapping holds exactly the entries of `es` with that
      key, in arrival order. */
  ghost predicate HoldsWithKey(m: Mapping, es: seq<Entry>)
  {
    forall i | 0 <= i < |m| :: m[i].1 == WithKey(es, m[i].0)
  }

  /** Every entry's key is present in the mapping. */
  ghost predicate CoversKeys(m: Mapping, es: seq<Entry>)
  {
    forall j | 0 <= j < |es| :: KeyAt(m, es[j].key).Some?
  }

  lemma WithKeySnoc(es: seq<Entry>, k: string)
    requires |es| > 0
    ensures WithKey(es, k) == WithKey(es[..|es| - 1], k) + (if es[|es| - 1].key == k then [es[|es| - 1]] else [])
  {
  }

  lemma DistinctStep(prev: Mapping, e: Entry)
    requires KeysDistinct(prev)
    ensures KeysDistinct(SetDefaultAppend(prev, e))
  {
  }

  lemma CoversStep(prev: Mapping, es: seq<Entry>)
    requires |es| > 0 && CoversKeys(prev, es[..|es| - 1])
    ensures CoversKeys(SetDefaultAppend(prev, es[|es| - 1]), es)
  {
    var n := |es| - 1;
    var m := SetDefaultAppend(prev, es[n]);
    forall j | 0 <= j < |es|
      ensures KeyAt(m, es[j].key).Some?
    {
      if j < n {
        assert es[..n][j] == es[j];
        var x := KeyAt(prev, es[j].key).value;
        assert m[x].0 == es[j].key;
      } else {
        match KeyAt(prev, es[n].key)
        case None => assert m[|prev|].0 == es[j].key;
        case Some(y) => assert m[y].0 == es[j].key;
      }
    }
  }

  lemma HoldsStep(prev: Mapping, es: seq<Entry>)
    requires |es| > 0 && KeysDistinct(prev) && CoversKeys(prev, es[..|es| - 1])
    requires HoldsWithKey(prev, es[..|es| - 1])
    ensures HoldsWithKey(SetDefaultAppend(prev, es[|es| - 1]), es)
  {
    var n := |es| - 1;
    var front, e := es[..n], es[n];
    var m := SetDefaultAppend(prev, e);
    match KeyAt(prev, e.key)
    case None =>
      forall j | 0 <= j < n
        ensures front[j].key != e.key
      {
        var x := KeyAt(prev, front[j].key).value;
        assert prev[x].0 == front[j].key;
      }
      WithKeyNone(front, e.key);
      forall i | 0 <= i < |m|
        ensures m[i].1 == WithKey(es, m[i].0)
      {
        WithKeySnoc(es, m[i].0);
        if i < |prev| {
          assert m[i] == prev[i];
        }
      }
    case Some(y) =>
      forall i | 0 <= i < |m|
        ensures m[i].1 == WithKey(es, m[i].0)
      {
        WithKeySnoc(es, m[i].0);
        if i != y {
          assert m[i] == prev[i] && prev[i].0 != e.key;
        }
      }
  }

  lemma MultisetSnoc<T>(s: seq<T>)
    requires |s| > 0
    ensures multiset(s) == multiset(s[..|s| - 1]) + multiset{s[|s| - 1]}
  {
    assert s == s[..|s| - 1] + [s[|s| - 1]];
  }

  /** `mapping.setdefault(e.key, []).append(e)` for each entry in order: the
      mapping holds exactly the entries, each filed under its own key. */
  function Group(es: seq<Entry>): (m: Mapping)
    ensures multiset(Flatten(m)) == multiset(es)
    ensures KeysDistinct(m) && HoldsWithKey(m, es) && CoversKeys(m, es)
  {
    if |es| == 0 then []
    else
      var n := |es| - 1;
      var prev := Group(es[..n]);
      AppendAddsOne(prev, es[n]);
      DistinctStep(prev, es[n]);
      CoversStep(prev, es);
      HoldsStep(prev, es);
      MultisetSnoc(es);
      SetDefaultAppend(prev, es[n])
  }

  /** The mapping built from the discovered items, with the entries read in
      item order; `None` when some address does not convert, which abandons
      the whole update. */
  function BuildMapping(items: seq<Json.Record>, floatText: real -> string): (r: Option<(Mapping, seq<Entry>)>)
    ensures r.Some? ==> |r.value.1| == |items|
    ensures r.Some? ==> forall i | 0 <= i < |items| :: ItemEntry(items[i], floatText) == Some(r.value.1[i])
    ensures r.Some? ==> multiset(Flatten(r.value.0)) == multiset(r.value.1)
    ensures r.Some? ==> KeysDistinct(r.value.0) && HoldsWithKey(r.value.0, r.value.1) && CoversKeys(r.value.0, r.value.1)
    ensures r.None? <==> exists i | 0 <= i < |items| :: ItemEntry(items[i], floatText).None?
  {
    match Entries(items, floatText)
    case None => None
    case Some(es) => Some((Group(es), es))
  }

  /** Tuple order on `(adapter key, address)`. */
  predicate EntryLe(x: Entry, y: Entry)
  {
    if x.key != y.key then Json.LexLe(x.key, y.key) else x.addr <= y.addr
  }

  lemma EntryLePreorder()
    ensures Sorting.TotalPreorder(EntryLe)
  {
    forall x: Entry, y: Entry
      ensures EntryLe(x, y) || EntryLe(y, x)
    {
      Json.LexLeTotal(x.key, y.key);
    }
    forall x: Entry, y: Entry, z: Entry | EntryLe(x, y) && EntryLe(y, z)
      ensures EntryLe(x, z)
    {
      if x.key != y.key && y.key != z.key {
        Json.LexLeTrans(x.key, y.key, z.key);
        if x.key == z.key {
          Json.LexLeAntisym(x.key, y.key);
        }
      }
    }
  }

  /** One controller-selector item: its caption and its user data. */
  datatype ComboItem = ComboItem(caption: string, key: string, addr: int)

  /** "<serial> (Address <a>)", or "Address <a>" without a serial. */
  function Label(e: Entry): (l: string)
    ensures e.serial == "" ==> l == "Address " + PyText.IntToString(e.addr)
    ensures e.serial != "" ==> l == e.serial + " (Address " + PyText.IntToString(e.addr) + ")"
  {
    if e.serial != "" then e.serial + " (Address " + PyText.IntToString(e.addr) + ")"
    else "Address " + PyText.IntToString(e.addr)
  }

  function ToItems(es: seq<Entry>): (r: seq<ComboItem>)
    ensures |r| == |es|
    ensures forall i | 0 <= i < |es| :: r[i] == ComboItem(Label(es[i]), es[i].key, es[i].addr)
  {
    seq(|es|, i requires 0 <= i < |es| => ComboItem(Label(es[i]), es[i].key, es[i].addr))
  }

  /** The panel state the discovered items replace. */
  datatype State = State(combo: seq<ComboItem>, mapping: Mapping)

  /** `set_discovered_items`: one selector item per discovered item, sorted
      by adapter key and then address; the state is kept as it was when an
      address does not convert. */
  function SetDiscoveredItems(st: State, items: seq<Json.Record>, floatText: real -> string): (r: State)
    ensures BuildMapping(items, floatText).None? ==> r == st
    ensures BuildMapping(items, floatText).Some? ==> |r.combo| == |items|
  {
    match BuildMapping(items, floatText)
    case None => st
    case Some(b) =>
      var es := Flatten(b.0);
      assert |es| == |multiset(es)| == |multiset(b.1)| == |items|;
      State(ToItems(Sorting.Sort(es, EntryLe)), b.0)
  }

  /** The selector lists the items' entries, each once, in `(key, address)`
      order. */
  lemma DiscoveredSorted(st: State, items: seq<Json.Record>, floatText: real -> string)
    requires BuildMapping(items, floatText).Some?
    ensures var b := BuildMapping(items, floatText).value;
      var es := Sorting.Sort(Flatten(b.0), EntryLe);
      && SetDiscoveredItems(st, items, floatText).combo == ToItems(es)
      && multiset(es) == multiset(b.1)
      && Sorting.Sorted(es, EntryLe)
  {
    var b := BuildMapping(items, floatText).value;
    EntryLePreorder();
    Sorting.SortSorted(Flatten(b.0), EntryLe);
  }

  // ---------------------------------------------------------------------
  // The motor selector
  // ---------------------------------------------------------------------

  /** The user data of the selected controller item: a `(key, address)`
      pair, a bare adapter key (items added by `set_controllers`), or none. */
  datatype Selection = Pair(key: string, addr: int) | Key(name: string) | NoSelection

  predicate AddrLe(x: Entry, y: Entry)
  {
    x.addr <= y.addr
  }

  /** `_refresh_motor_selector_for_current_controller`: a pair selects its
      own address; a non-empty key selects every address recorded under it,
      ascending; anything else selects nothing. */
  function MotorAddresses(m: Mapping, sel: Selection): (r: seq<int>)
    ensures sel.Pair? ==> r == [sel.addr]
    ensures sel.NoSelection? || (sel.Key? && sel.name == "") ==> r == []
    ensures sel.Key? && sel.name != "" && KeyAt(m, sel.name).None? ==> r == []
    ensures sel.Key? && sel.name != "" && KeyAt(m, sel.name).Some? ==> |r| == |m[KeyAt(m, sel.name).value].1|
  {
    match sel
    case Pair(_, a) => [a]
    case NoSelection => []
    case Key(k) =>
      if k == "" then []
      else match KeyAt(m, k)
        case None => []
        case Some(i) => Addresses(Sorting.Sort(m[i].1, AddrLe))
  }

  function Addresses(es: seq<Entry>): (r: seq<int>)
    ensures |r| == |es| && forall i | 0 <= i < |es| :: r[i] == es[i].addr
  {
    seq(|es|, i requires 0 <= i < |es| => es[i].addr)
  }

  /** A key selects its addresses in ascending order, each as often as it
      was discovered. */
  lemma KeySelectsAscending(m: Mapping, k: string)
    requires k != "" && KeyAt(m, k).Some?
    ensures var r := MotorAddresses(m, Key(k));
      && (forall i, j | 0 <= i < j < |r| :: r[i] <= r[j])
      && multiset(r) == multiset(Addresses(m[KeyAt(m, k).value].1))
  {
    var g := m[KeyAt(m, k).value].1;
    var s := Sorting.Sort(g, AddrLe);
    assert Sorting.TotalPreorder(AddrLe);
    Sorting.SortSorted(g, AddrLe);
    SortAddresses(g);
  }

  /** On a freshly built mapping a non-empty key selects, in ascending order,
      the addresses of exactly the items discovered under that key. */
  lemma MappingSelectsItsEntries(items: seq<Json.Record>, floatText: real -> string, k: string)
    requires k != "" && BuildMapping(items, floatText).Some?
    ensures var (m, es) := BuildMapping(items, floatText).value;
      var r := MotorAddresses(m, Key(k));
      && (forall i, j | 0 <= i < j < |r| :: r[i] <= r[j])
      && multiset(r) == multiset(Addresses(WithKey(es, k)))
  {
    var (m, es) := BuildMapping(items, floatText).value;
    match KeyAt(m, k)
    case None =>
      forall j | 0 <= j < |es|
        ensures es[j].key != k
      {
        var x := KeyAt(m, es[j].key).value;
        assert m[x].0 == es[j].key;
      }
      WithKeyNone(es, k);
    case Some(x) =>
      assert m[x].1 == WithKey(es, k);
      KeySelectsAscending(m, k);
  }

  lemma AddressesAppend(a: seq<Entry>, b: seq<Entry>)
    ensures Addresses(a + b) == Addresses(a) + Addresses(b)
  {
    assert forall i | 0 <= i < |a + b| :: Addresses(a + b)[i] == (Addresses(a) + Addresses(b))[i];
  }

  lemma {:induction false} InsertAddresses(x: Entry, t: seq<Entry>)
    ensures multiset(Addresses(Sorting.Insert(x, t, AddrLe))) == multiset(Addresses(t)) + multiset{x.addr}
  {
    if |t| == 0 || AddrLe(x, t[0]) {
      AddressesAppend([x], t);
    } else {
      var rest := Sorting.Insert(x, t[1..], AddrLe);
      InsertAddresses(x, t[1..]);
      AddressesAppend([t[0]], rest);
      assert t == [t[0]] + t[1..];
      AddressesAppend([t[0]], t[1..]);
    }
  }

  lemma {:induction false} SortAddresses(g: seq<Entry>)
    ensures multiset(Addresses(Sorting.Sort(g, AddrLe))) == multiset(Addresses(g))
  {
    if |g| > 0 {
      var tail := Sorting.Sort(g[1..], AddrLe);
      assert Sorting.Sort(g, AddrLe) == Sorting.Insert(g[0], tail, AddrLe);
      SortAddresses(g[1..]);
      InsertAddresses(g[0], tail);
      AddressesCons(g);
    }
  }

  lemma AddressesCons(g: seq<Entry>)
    requires |g| > 0
    ensures multiset(Addresses(g)) == multiset{g[0].addr} + multiset(Addresses(g[1..]))
  {
    assert g == [g[0]] + g[1..];
    AddressesAppend([g[0]], g[1..]);
    assert Addresses([g[0]]) == [g[0].addr];
  }

  // ---------------------------------------------------------------------
  // Jog requests
  // ---------------------------------------------------------------------

  /** `request_move(adapter, address, axis, steps)`. */
  datatype Move = Move(adapter: string, addr: int, axis: int, steps: int)

  /** The adapter and, when the controller item carries it, the address of
      a jog: a pair gives both; a bare key (or the combo text when the key
      is empty) gives the adapter only. */
  function Target(sel: Selection, comboText: string): (r: (string, Option<int>))
    ensures sel.Pair? ==> r == (sel.key, Some(sel.addr))
    ensures sel.Key? && sel.name != "" ==> r == (sel.name, None)
    ensures !sel.Pair? && !(sel.Key? && sel.name != "") ==> r == (comboText, None)
  {
    match sel
    case Pair(k, a) => (k, Some(a))
    case Key(k) => (if k != "" then k else comboText, None)
    case NoSelection => (comboText, None)
  }

  /** The address from the motor selector: its data when it has an item,
      else `int(text or 1)`, else 1. */
  function SelectorAddr(data: Option<int>, text: string): (a: int)
    ensures data.Some? ==> a == data.value
    ensures data.None? && text == "" ==> a == 1
    ensures data.None? && text != "" ==> a == PyText.ParseInt(text).GetOr(1)
  {
    match data
    case Some(d) => d
    case None => if text == "" then 1 else PyText.ParseInt(text).GetOr(1)
  }

  /** The request a jog sends: `int(step text)` (0 when that fails) with
      `sign`, on axis 1. */
  function Jog(sign: int, stepText: string, sel: Selection, comboText: string,
               selectorData: Option<int>, selectorText: string): (r: Move)
    requires sign == 1 || sign == -1
    ensures r.axis == 1
    ensures r.steps == sign * PyText.ParseInt(stepText).GetOr(0)
    ensures r.adapter == Target(sel, comboText).0
    ensures sel.Pair? ==> r.addr == sel.addr
    ensures !sel.Pair? ==> r.addr == SelectorAddr(selectorData, selectorText)
  {
    var t := Target(sel, comboText);
    var addr := match t.1 case Some(a) => a case None => SelectorAddr(selectorData, selectorText);
    Move(t.0, addr, 1, sign * PyText.ParseInt(stepText).GetOr(0))
  }

  /** `_on_back`. */
  function Back(stepText: string, sel: Selection, comboText: string, selectorData: Option<int>, selectorText: string): (r: Move)
    ensures r == Jog(-1, stepText, sel, comboText, selectorData, selectorText)
  {
    Jog(-1, stepText, sel, comboText, selectorData, selectorText)
  }

  /** `_on_forward`. */
  function Forward(stepText: string, sel: Selection, comboText: string, selectorData: Option<int>, selectorText: string): (r: Move)
    ensures r == Jog(1, stepText, sel, comboText, selectorData, selectorText)
  {
    Jog(1, stepText, sel, comboText, selectorData, selectorText)
  }

  /** Back and Forward address the same motor with opposite step counts,
      and the text of a whole number moves by exactly that number. */
  lemma BackUndoesForward(n: int, sel: Selection, comboText: string, selectorData: Option<int>, selectorText: string)
    ensures var text := PyText.IntToString(n);
      var b := Back(text, sel, comboText, selectorData, selectorText);
      var f := Forward(text, sel, comboText, selectorData, selectorText);
      && b.adapter == f.adapter && b.addr == f.addr && b.axis == f.axis
      && f.steps == n && b.steps == -n
  {
    PyText.IntRoundTrip(n);
  }

  // ---------------------------------------------------------------------
  // Controllers by adapter key
  // ---------------------------------------------------------------------

  /** `set_controllers`: each adapter key becomes a selector item with the
      key as text and data, recorded as controller `(key, 1, '')`. */
  function SetControllers(cs: seq<string>): (r: (seq<(string, Selection)>, seq<(string, int, string)>))
    ensures |r.0| == |cs| && |r.1| == |cs|
    ensures forall i | 0 <= i < |cs| :: r.0[i] == (cs[i], Key(cs[i])) && r.1[i] == (cs[i], 1, "")
  {
    (seq(|cs|, i requires 0 <= i < |cs| => (cs[i], Key(cs[i]))),
     seq(|cs|, i requires 0 <= i < |cs| => (cs[i], 1, "")))
  }

  /** A jog with a controller from `set_controllers` selected goes to that
      adapter; its address comes from the motor selector. */
  lemma ControllerJog(cs: seq<string>, i: nat, stepText: string, selectorData: Option<int>, selectorText: string)
    requires i < |cs|
    ensures var item := SetControllers(cs).0[i];
      var m := Forward(stepText, item.1, item.0, selectorData, selectorText);
      m.adapter == cs[i] && m.addr == SelectorAddr(selectorData, selectorText)
  {
  }
}

=== FILE: pm_auto.dfy ===
/**
 Plasma-mirror auto moves. For every mirror group with Auto checked, one
 move descriptor is derived from the group's target type: a circular target
 turns the requested distance into an RX rotation about the computed radius,
 a rectangular one moves Y by the distance. A move that would leave its
 stage's bounds is swapped for a move of the other axis and the direction
 combo box of the first is flipped. A separate check lists the RX, Y and Z
 stages that already sit outside their bounds.
 */
module PmAuto {
  import opened Wrappers
  import opened Motors
  import opened PmPanel
  import PyText

  /** `math.pi` as the source's double holds it. */
  const Pi: real := 3.141592653589793

  /** Tolerance on every bound comparison and on the radius. */
  const Tol: real := 0.0001

  /** Fallback added to Y.max when the zero position cannot be read. */
  const RadiusOffset: real := 4.25

  function Abs(x: real): real { if x < 0.0 then -x else x }

  /** Which branch produced the `log` text carried by a move, and for which
      group (1..3). The local `log` keeps its last value across groups. */
  datatype MoveLog = CircularSwapLog(group: nat) | CircularLog(group: nat) | LinearSwapLog(group: nat)

  datatype Move = Move(address: int, delta: real, unit: string, log: MoveLog)

  /** The direction rule: text starting with 'p' in any case means positive. */
  predicate PositiveDir(dirText: string)
  {
    PyText.StartsWith(PyText.Lower(dirText), "p")
  }

  /** The target-type rule: a trimmed text starting with 'c' in any case is circular. */
  predicate IsCircular(g: MirrorGroup)
  {
    PyText.StartsWith(PyText.Lower(PyText.Strip(g.targetType)), "c")
  }

  /** Direction text of a row; a row without a combo box counts as "Pos". */
  function DirText(row: StageRow): string
  {
    match row.dir
    case None => "Pos"
    case Some(t) => t
  }

  /** The sign rule: a magnitude is used as given when the direction text
      starts with 'p' (any case), and made negative otherwise. */
  function Signed(mag: real, dirText: string): (d: real)
    ensures PositiveDir(dirText) ==> d == mag
    ensures !PositiveDir(dirText) ==> d <= 0.0 && Abs(d) == Abs(mag)
  {
    if PositiveDir(dirText) then mag else -Abs(mag)
  }

  /** `_toggle_dir_widget`: 'Neg' when the trimmed text starts with 'p', else
      'Pos'. A row without a combo box is left alone. */
  function Toggle(row: StageRow): (r: StageRow)
    ensures r == row.(dir := r.dir)
    ensures row.dir.None? <==> r.dir.None?
    ensures r.dir.Some? ==> r.dir.value in {"Pos", "Neg"}
  {
    match row.dir
    case None => row
    case Some(t) =>
      row.(dir := Some(if PositiveDir(PyText.Strip(t)) then "Neg" else "Pos"))
  }

  /** Toggling flips "Pos" and "Neg", so toggling twice restores them. */
  lemma ToggleTwice(row: StageRow)
    requires row.dir == Some("Pos") || row.dir == Some("Neg")
    ensures Toggle(row).dir != row.dir
    ensures Toggle(Toggle(row)) == row
  {
    PyText.StripTrimmed("Pos");
    PyText.StripTrimmed("Neg");
    assert PyText.Lower("Pos") == "pos";
    assert PyText.Lower("Neg") == "neg";
  }

  /** A stage's position: the motor row's engineering value when the address
      names one of the rows, otherwise the widget reading. */
  function PositionOf(rows: seq<MotorInfo>, addr: int, widget: Option<real>): (p: Option<real>)
    ensures 0 < addr <= |rows| ==> p == Some(rows[addr - 1].engValue)
    ensures !(0 < addr <= |rows|) ==> p == widget
  {
    if 0 < addr <= |rows| then Some(rows[addr - 1].engValue) else widget
  }

  /** The unit of the motor row at a positive address, or the default. */
  function UnitOf(rows: seq<MotorInfo>, addr: int, default: string): string
  {
    if 0 < addr <= |rows| then rows[addr - 1].unit else default
  }

  /** Whether `pos + delta` falls outside `[min - Tol, max + Tol]`; an unknown
      position is never out of bounds. */
  predicate OutOfBounds(pos: Option<real>, delta: real, min: real, max: real)
  {
    pos.Some? && (pos.value + delta < min - Tol || pos.value + delta > max + Tol)
  }

  /** The radius of a circular target. */
  function Radius(g: MirrorGroup, currentY: real): real
  {
    match g.y.zero
    case Some(z) => z - currentY
    case None => g.y.max - currentY + RadiusOffset
  }

  /** The rotation, in degrees, that covers the arc `dist` on radius `r`. */
  function Angle(dist: real, r: real): real
    requires r != 0.0
  {
    180.0 * dist / (Pi * r)
  }

  /** What one group contributes: at most one move, the group with any
      toggled direction, and the value of `log` afterwards. */
  datatype GroupResult = GroupResult(move: Option<Move>, group: MirrorGroup, log: Option<MoveLog>)

  /** What a group computes before `log` is consulted: nothing to move, a
      move (with the group as it is left) that also binds `log`, or an
      in-bounds rectangular Y move that still takes its `log` value from an
      earlier group. */
  datatype Plan =
    | NoMove
    | Fixed(move: Move, group: MirrorGroup)
    | NeedsLog(address: int, delta: real, unit: string)

  /** What every plan of group `g` keeps: a group not on Auto plans nothing,
      moves name positive addresses, and a toggled group differs from `g`
      only in the RX and Y directions. */
  ghost predicate PlanOk(p: Plan, g: MirrorGroup)
  {
    && (!g.auto ==> p == NoMove)
    && (p.Fixed? ==>
          && p.move.address > 0
          && p.group.name == g.name && p.group.auto == g.auto
          && p.group.z == g.z && p.group.sd == g.sd)
    && (p.NeedsLog? ==> p.address > 0)
  }

  /** The body of the per-group loop of `generate_moves` up to the point
      where the unbound `log` would be read. */
  function GroupPlan(g: MirrorGroup, idx: nat, rows: seq<MotorInfo>): (p: Plan)
    ensures PlanOk(p, g)
  {
    if !g.auto then NoMove
    else
      var yAddr := g.y.stageNum;
      var currentY := PositionOf(rows, yAddr, g.y.current).GetOr(0.0);
      if IsCircular(g) then
        var r := Radius(g, currentY);
        if Abs(r) < Tol then NoMove
        else
          var deltaAngle := Angle(g.dist, r);
          var rxAddr := g.rx.stageNum;
          if rxAddr <= 0 then NoMove
          else
            var delta := Signed(deltaAngle, DirText(g.rx));
            var unit := UnitOf(rows, rxAddr, "deg");
            var rxPos := PositionOf(rows, rxAddr, g.rx.current);
            if OutOfBounds(rxPos, delta, g.rx.min, g.rx.max) then
              if yAddr <= 0 then NoMove
              else
                Fixed(Move(yAddr, Signed(g.dist, DirText(g.y)), UnitOf(rows, yAddr, "mm"), CircularSwapLog(idx)),
                      g.(rx := Toggle(g.rx)))
            else
              Fixed(Move(rxAddr, delta, unit, CircularLog(idx)), g)
      else
        if yAddr <= 0 then NoMove
        else
          var yDelta := Signed(g.dist, DirText(g.y));
          var unit := UnitOf(rows, yAddr, "mm");
          var yPos := PositionOf(rows, yAddr, g.y.current);
          if OutOfBounds(yPos, yDelta, g.y.min, g.y.max) then
            var rxAddr := g.rx.stageNum;
            if rxAddr <= 0 then NoMove
            else
              Fixed(Move(rxAddr, Signed(g.dist, DirText(g.rx)), UnitOf(rows, rxAddr, "mm"), LinearSwapLog(idx)),
                    g.(y := Toggle(g.y)))
          else NeedsLog(yAddr, yDelta, unit)
  }

  /** Finishing a group's plan with the `log` value left by earlier groups:
      a fixed move binds `log` to its own text; a move that needs `log` is
      skipped while it is unbound (reading it raises) and otherwise reuses
      it. */
  function Resolve(p: Plan, g: MirrorGroup, log: Option<MoveLog>): (r: GroupResult)
    ensures p.NoMove? ==> r == GroupResult(None, g, log)
    ensures p.Fixed? ==> r == GroupResult(Some(p.move), p.group, Some(p.move.log))
    ensures p.NeedsLog? ==>
      && r.group == g && r.log == log
      && (r.move.Some? <==> log.Some?)
      && (log.Some? ==> r.move == Some(Move(p.address, p.delta, p.unit, log.value)))
  {
    match p
    case NoMove => GroupResult(None, g, log)
    case Fixed(m, g') => GroupResult(Some(m), g', Some(m.log))
    case NeedsLog(addr, delta, unit) =>
      match log
      case None => GroupResult(None, g, log)
      case Some(l) => GroupResult(Some(Move(addr, delta, unit, l)), g, log)
  }

  /** One pass of the per-group loop of `generate_moves`. */
  function GroupMove(g: MirrorGroup, idx: nat, rows: seq<MotorInfo>, log: Option<MoveLog>): (r: GroupResult)
    ensures !g.auto ==> r == GroupResult(None, g, log)
    ensures r.move.Some? ==> r.move.value.address > 0
    ensures r.move.None? ==> r.group == g && r.log == log
    ensures r.group.name == g.name && r.group.auto == g.auto && r.group.z == g.z && r.group.sd == g.sd
  {
    Resolve(GroupPlan(g, idx, rows), g, log)
  }

  /** The plans of the groups from index `idx` on. */
  function Plans(gs: seq<MirrorGroup>, idx: nat, rows: seq<MotorInfo>): (ps: seq<Plan>)
    ensures |ps| == |gs|
    ensures forall k | 0 <= k < |gs| :: ps[k] == GroupPlan(gs[k], idx + k, rows)
    ensures forall k | 0 <= k < |gs| :: PlanOk(ps[k], gs[k])
  {
    seq(|gs|, k requires 0 <= k < |gs| => GroupPlan(gs[k], idx + k, rows))
  }

  /** The value of `log` when group `k` is reached: the starting value,
      then whatever each earlier group left, in order. */
  function LogBefore(gs: seq<MirrorGroup>, ps: seq<Plan>, log: Option<MoveLog>, k: nat): Option<MoveLog>
    requires |ps| == |gs| && k <= |gs|
  {
    if k == 0 then log
    else Resolve(ps[k - 1], gs[k - 1], LogBefore(gs, ps, log, k - 1)).log
  }

  /** The moves of the first `k` groups, in group order, each group
      resolved under the `log` its predecessors left. */
  function MovesBefore(gs: seq<MirrorGroup>, ps: seq<Plan>, log: Option<MoveLog>, k: nat): seq<Move>
    requires |ps| == |gs| && k <= |gs|
  {
    if k == 0 then []
    else MovesBefore(gs, ps, log, k - 1) + OptSeq(Resolve(ps[k - 1], gs[k - 1], LogBefore(gs, ps, log, k - 1)).move)
  }

  /** Resolving the first group and carrying on from the rest is the same
      as reaching group `k + 1` from the start. */
  lemma {:induction false} BeforeShift(gs: seq<MirrorGroup>, ps: seq<Plan>, log: Option<MoveLog>, k: nat)
    requires |ps| == |gs| && k < |gs|
    ensures var res := Resolve(ps[0], gs[0], log);
      && LogBefore(gs, ps, log, k + 1) == LogBefore(gs[1..], ps[1..], res.log, k)
      && MovesBefore(gs, ps, log, k + 1) == OptSeq(res.move) + MovesBefore(gs[1..], ps[1..], res.log, k)
  {
    var res := Resolve(ps[0], gs[0], log);
    if k > 0 {
      BeforeShift(gs, ps, log, k - 1);
      assert gs[1..][k - 1] == gs[k] && ps[1..][k - 1] == ps[k];
    }
  }

  /** `generate_moves` over the groups from index `idx` on, given their
      plans: `log` is threaded from group to group. */
  function MovesFrom(gs: seq<MirrorGroup>, ps: seq<Plan>, log: Option<MoveLog>)
    : (r: (seq<Move>, seq<MirrorGroup>))
    requires |ps| == |gs| && forall k | 0 <= k < |gs| :: PlanOk(ps[k], gs[k])
    ensures |r.0| <= |gs| && |r.1| == |gs|
    ensures forall k :: 0 <= k < |r.0| ==> r.0[k].address > 0
    ensures forall k :: 0 <= k < |gs| && !gs[k].auto ==> r.1[k] == gs[k]
    decreases |gs|
  {
    if |gs| == 0 then ([], [])
    else
      var res := Resolve(ps[0], gs[0], log);
      assert PlanOk(ps[0], gs[0]);
      assert forall k | 0 <= k < |gs| - 1 :: ps[1..][k] == ps[k + 1] && gs[1..][k] == gs[k + 1];
      var (ms, gs') := MovesFrom(gs[1..], ps[1..], res.log);
      var head := if res.move.Some? then [res.move.value] else [];
      forall k | 0 <= k < |head + ms|
        ensures (head + ms)[k].address > 0
      {
        if k >= |head| {
          assert (head + ms)[k] == ms[k - |head|];
        }
      }
      forall k | 0 <= k < |gs| && !gs[k].auto
        ensures ([res.group] + gs')[k] == gs[k]
      {
        if k > 0 {
          assert gs[k] == gs[1..][k - 1];
        }
      }
      (head + ms, [res.group] + gs')
  }

  /** MovesFrom taken apart: the first group's move, then those of the rest
      under the `log` the first group left. */
  lemma MovesFromUnfold(gs: seq<MirrorGroup>, ps: seq<Plan>, log: Option<MoveLog>)
    requires |ps| == |gs| > 0 && forall k | 0 <= k < |gs| :: PlanOk(ps[k], gs[k])
    ensures forall k | 0 <= k < |gs| - 1 :: PlanOk(ps[1..][k], gs[1..][k])
    ensures var res := Resolve(ps[0], gs[0], log);
      var rest := MovesFrom(gs[1..], ps[1..], res.log);
      MovesFrom(gs, ps, log) == (OptSeq(res.move) + rest.0, [res.group] + rest.1)
  {
    assert forall k | 0 <= k < |gs| - 1 :: ps[1..][k] == ps[k + 1] && gs[1..][k] == gs[k + 1];
  }

  /** The moves come group by group, in order, each group resolved under
      the `log` its predecessors left. */
  lemma {:induction false} MovesFromThreaded(gs: seq<MirrorGroup>, ps: seq<Plan>, log: Option<MoveLog>)
    requires |ps| == |gs| && forall k | 0 <= k < |gs| :: PlanOk(ps[k], gs[k])
    ensures MovesFrom(gs, ps, log).0 == MovesBefore(gs, ps, log, |gs|)
    decreases |gs|
  {
    if |gs| > 0 {
      var res := Resolve(ps[0], gs[0], log);
      var n := |gs| - 1;
      var gs1, ps1 := gs[1..], ps[1..];
      MovesFromUnfold(gs, ps, log);
      MovesFromThreaded(gs1, ps1, res.log);
      BeforeShift(gs, ps, log, n);
      calc {
        MovesFrom(gs, ps, log).0;
        OptSeq(res.move) + MovesFrom(gs1, ps1, res.log).0;
        OptSeq(res.move) + MovesBefore(gs1, ps1, res.log, n);
        MovesBefore(gs, ps, log, n + 1);
      }
    }
  }

  /** Each group comes back as its own resolution leaves it, under the
      `log` its predecessors left. */
  lemma {:induction false} MovesFromGroups(gs: seq<MirrorGroup>, ps: seq<Plan>, log: Option<MoveLog>)
    requires |ps| == |gs| && forall k | 0 <= k < |gs| :: PlanOk(ps[k], gs[k])
    ensures forall k | 0 <= k < |gs| ::
      MovesFrom(gs, ps, log).1[k] == Resolve(ps[k], gs[k], LogBefore(gs, ps, log, k)).group
    decreases |gs|
  {
    if |gs| > 0 {
      var res := Resolve(ps[0], gs[0], log);
      var gs1, ps1 := gs[1..], ps[1..];
      MovesFromUnfold(gs, ps, log);
      MovesFromGroups(gs1, ps1, res.log);
      var r := MovesFrom(gs, ps, log);
      var rest := MovesFrom(gs1, ps1, res.log);
      assert r.1 == [res.group] + rest.1;
      forall k | 0 <= k < |gs|
        ensures r.1[k] == Resolve(ps[k], gs[k], LogBefore(gs, ps, log, k)).group
      {
        if k > 0 {
          BeforeShift(gs, ps, log, k - 1);
          assert gs[k] == gs1[k - 1] && ps[k] == ps1[k - 1];
          calc {
            r.1[k];
            rest.1[k - 1];
            Resolve(ps1[k - 1], gs1[k - 1], LogBefore(gs1, ps1, res.log, k - 1)).group;
            Resolve(ps[k], gs[k], LogBefore(gs, ps, log, k)).group;
          }
        }
      }
    }
  }

  /** `generate_moves`: the descriptors for pm1, pm2, pm3 in that order, and
      the panel with any direction flips applied. */
  function GenerateMoves(p: Panel, rows: seq<MotorInfo>): (r: (seq<Move>, Panel))
    ensures |r.0| <= 3
    ensures forall k :: 0 <= k < |r.0| ==> r.0[k].address > 0
    ensures var r1 := GroupMove(p.pm1, 1, rows, None);
      var r2 := GroupMove(p.pm2, 2, rows, r1.log);
      var r3 := GroupMove(p.pm3, 3, rows, r2.log);
      r == (OptSeq(r1.move) + OptSeq(r2.move) + OptSeq(r3.move), Panel(r1.group, r2.group, r3.group))
  {
    var gs := p.Groups();
    var ps := Plans(gs, 1, rows);
    var (ms, gs') := MovesFrom(gs, ps, None);
    MovesFromThreaded(gs, ps, None);
    MovesFromGroups(gs, ps, None);
    assert LogBefore(gs, ps, None, 1) == GroupMove(p.pm1, 1, rows, None).log;
    assert LogBefore(gs, ps, None, 2) == GroupMove(p.pm2, 2, rows, LogBefore(gs, ps, None, 1)).log;
    assert MovesBefore(gs, ps, None, 1) == OptSeq(GroupMove(p.pm1, 1, rows, None).move);
    assert MovesBefore(gs, ps, None, 2) == MovesBefore(gs, ps, None, 1) + OptSeq(GroupMove(p.pm2, 2, rows, LogBefore(gs, ps, None, 1)).move);
    (ms, Panel(gs'[0], gs'[1], gs'[2]))
  }

  /** With no group on Auto, nothing moves and the panel is untouched. */
  lemma NoAutoNoMoves(p: Panel, rows: seq<MotorInfo>)
    requires !p.pm1.auto && !p.pm2.auto && !p.pm3.auto
    ensures GenerateMoves(p, rows) == ([], p)
  {
    var gs := p.Groups();
    var ps := Plans(gs, 1, rows);
    assert forall k | 0 <= k < |gs| :: !gs[k].auto;
    NoPlansNoMoves(gs, ps, None);
    var r := MovesFrom(gs, ps, None);
    assert r.1[0] == p.pm1 && r.1[1] == p.pm2 && r.1[2] == p.pm3;
  }

  /** Groups that all plan nothing produce no move and leave `log` as it was. */
  lemma {:induction false} NoPlansNoMoves(gs: seq<MirrorGroup>, ps: seq<Plan>, log: Option<MoveLog>)
    requires |ps| == |gs| && forall k | 0 <= k < |gs| :: PlanOk(ps[k], gs[k])
    requires forall k | 0 <= k < |ps| :: ps[k] == NoMove
    ensures MovesFrom(gs, ps, log).0 == []
  {
    if |gs| > 0 {
      assert forall k | 0 <= k < |gs| - 1 :: ps[1..][k] == ps[k + 1] && gs[1..][k] == gs[k + 1];
      NoPlansNoMoves(gs[1..], ps[1..], log);
    }
  }

  /** A circular group moves RX by the angle that covers `dist` on the
      computed radius, signed by the RX direction, when that keeps RX inside
      its bounds; otherwise it moves Y by the signed distance and flips the
      RX direction. Either way the radius is at least the tolerance. */
  lemma CircularMoves(g: MirrorGroup, idx: nat, rows: seq<MotorInfo>, log: Option<MoveLog>)
    requires g.auto && IsCircular(g)
    ensures var res := GroupMove(g, idx, rows, log);
      var r := Radius(g, PositionOf(rows, g.y.stageNum, g.y.current).GetOr(0.0));
      res.move.Some? ==>
        && Abs(r) >= Tol
        && var delta := Signed(Angle(g.dist, r), DirText(g.rx));
        && var pos := PositionOf(rows, g.rx.stageNum, g.rx.current);
        if OutOfBounds(pos, delta, g.rx.min, g.rx.max) then
          && res.move.value == Move(g.y.stageNum, Signed(g.dist, DirText(g.y)),
                                    UnitOf(rows, g.y.stageNum, "mm"), CircularSwapLog(idx))
          && res.group == g.(rx := Toggle(g.rx))
        else
          && res.move.value == Move(g.rx.stageNum, delta, UnitOf(rows, g.rx.stageNum, "deg"), CircularLog(idx))
          && res.group == g
          && (pos.Some? ==> g.rx.min - Tol <= pos.value + delta <= g.rx.max + Tol)
  {
  }

  /** A circular group moves exactly when the radius is at least the
      tolerance, RX has an address, and Y has one whenever the RX move would
      leave its bounds. Its move never depends on the `log` of earlier
      groups. */
  lemma CircularMovesIff(g: MirrorGroup, idx: nat, rows: seq<MotorInfo>, log: Option<MoveLog>)
    requires g.auto && IsCircular(g)
    ensures GroupMove(g, idx, rows, log).move == GroupMove(g, idx, rows, None).move
    ensures var r := Radius(g, PositionOf(rows, g.y.stageNum, g.y.current).GetOr(0.0));
      GroupMove(g, idx, rows, log).move.Some? <==>
        && Abs(r) >= Tol
        && g.rx.stageNum > 0
        && (OutOfBounds(PositionOf(rows, g.rx.stageNum, g.rx.current),
                        Signed(Angle(g.dist, r), DirText(g.rx)), g.rx.min, g.rx.max)
            ==> g.y.stageNum > 0)
  {
  }

  /** A rectangular group moves Y by the signed distance when that keeps Y
      inside its bounds, reusing the `log` value an earlier group left;
      otherwise it moves RX by the signed distance and flips the Y direction. */
  lemma LinearMoves(g: MirrorGroup, idx: nat, rows: seq<MotorInfo>, log: Option<MoveLog>)
    requires g.auto && !IsCircular(g)
    ensures var res := GroupMove(g, idx, rows, log);
      var d := Signed(g.dist, DirText(g.y));
      var pos := PositionOf(rows, g.y.stageNum, g.y.current);
      res.move.Some? ==>
        if OutOfBounds(pos, d, g.y.min, g.y.max) then
          && res.move.value == Move(g.rx.stageNum, Signed(g.dist, DirText(g.rx)),
                                    UnitOf(rows, g.rx.stageNum, "mm"), LinearSwapLog(idx))
          && res.group == g.(y := Toggle(g.y))
        else
          && log.Some?
          && res.move.value == Move(g.y.stageNum, d, UnitOf(rows, g.y.stageNum, "mm"), log.value)
          && res.group == g
          && (pos.Some? ==> g.y.min - Tol <= pos.value + d <= g.y.max + Tol)
  {
  }

  /** A rectangular group whose Y move fits is skipped exactly when no earlier
      group has bound `log`. */
  lemma LinearNeedsEarlierLog(g: MirrorGroup, idx: nat, rows: seq<MotorInfo>)
    requires g.auto && g.y.stageNum > 0
    requires !IsCircular(g)
    requires !OutOfBounds(PositionOf(rows, g.y.stageNum, g.y.current),
                          Signed(g.dist, DirText(g.y)), g.y.min, g.y.max)
    ensures GroupMove(g, idx, rows, None).move.None?
    ensures forall l :: GroupMove(g, idx, rows, Some(l)).move.Some?
  {
  }

  /** An out-of-bounds rectangular move becomes an RX move of the signed
      distance and flips the Y direction, when RX has a valid address. */
  lemma LinearSwap(g: MirrorGroup, idx: nat, rows: seq<MotorInfo>, log: Option<MoveLog>)
    requires g.auto && g.y.stageNum > 0 && g.rx.stageNum > 0
    requires !IsCircular(g)
    requires OutOfBounds(PositionOf(rows, g.y.stageNum, g.y.current),
                         Signed(g.dist, DirText(g.y)), g.y.min, g.y.max)
    ensures var r := GroupMove(g, idx, rows, log);
      && r.move == Some(Move(g.rx.stageNum, Signed(g.dist, DirText(g.rx)),
                             UnitOf(rows, g.rx.stageNum, "mm"), LinearSwapLog(idx)))
      && r.group == g.(y := Toggle(g.y))
      && r.log == Some(LinearSwapLog(idx))
  {
  }

  // ---------------------------------------------------------------------
  // check_bounds
  // ---------------------------------------------------------------------

  datatype Relation = Below | Above

  datatype Violation = Violation(
    pmName: string, rowLabel: string, address: int,
    position: real, min: real, max: real, relation: Relation)

  /** One row's violation, if its position is known and outside its bounds. */
  function CheckRow(name: string, axis: string, row: StageRow, rows: seq<MotorInfo>): (v: Option<Violation>)
    ensures v.Some? <==>
      row.stageNum > 0 && PositionOf(rows, row.stageNum, row.current).Some? &&
      (PositionOf(rows, row.stageNum, row.current).value < row.min - Tol ||
       PositionOf(rows, row.stageNum, row.current).value > row.max + Tol)
    ensures v.Some? ==>
              && v.value.rowLabel == axis && v.value.address == row.stageNum
              && v.value.position == PositionOf(rows, row.stageNum, row.current).value
              && (v.value.relation == Below <==> v.value.position < row.min - Tol)
  {
    if row.stageNum <= 0 then None
    else
      match PositionOf(rows, row.stageNum, row.current)
      case None => None
      case Some(pos) =>
        if pos < row.min - Tol then Some(Violation(name, axis, row.stageNum, pos, row.min, row.max, Below))
        else if pos > row.max + Tol then Some(Violation(name, axis, row.stageNum, pos, row.min, row.max, Above))
        else None
  }

  function OptSeq<T>(o: Option<T>): seq<T>
  {
    if o.Some? then [o.value] else []
  }

  /** The violations of one group: RX, Y and Z only. */
  function CheckGroup(g: MirrorGroup, rows: seq<MotorInfo>): (vs: seq<Violation>)
    ensures !g.auto ==> vs == []
    ensures |vs| <= 3
    ensures forall v | v in vs :: v.rowLabel in {"RX", "Y", "Z"} && v.pmName == g.name
    ensures forall v | v in vs :: v.position < v.min - Tol || v.position > v.max + Tol
  {
    if !g.auto then []
    else
      OptSeq(CheckRow(g.name, "RX", g.rx, rows)) + OptSeq(CheckRow(g.name, "Y", g.y, rows))
      + OptSeq(CheckRow(g.name, "Z", g.z, rows))
  }

  /** `check_bounds`: every violation of the Auto groups, pm1 to pm3. */
  function CheckBounds(p: Panel, rows: seq<MotorInfo>): (vs: seq<Violation>)
    ensures |vs| <= 9
    ensures forall v | v in vs :: v.rowLabel != "SD" && (v.position < v.min - Tol || v.position > v.max + Tol)
  {
    var a, b, c := CheckGroup(p.pm1, rows), CheckGroup(p.pm2, rows), CheckGroup(p.pm3, rows);
    assert forall v | v in a + b + c :: v in a || v in b || v in c;
    a + b + c
  }

  /** Completeness: an Auto group's RX, Y or Z stage with a valid address and
      a known position outside its bounds is always reported. */
  lemma CheckBoundsComplete(p: Panel, rows: seq<MotorInfo>, g: MirrorGroup, axis: string)
    requires g in p.Groups() && g.auto
    requires axis == "RX" || axis == "Y" || axis == "Z"
    requires var row := if axis == "RX" then g.rx else if axis == "Y" then g.y else g.z;
      && row.stageNum > 0
      && var pos := PositionOf(rows, row.stageNum, row.current);
      && pos.Some? && (pos.value < row.min - Tol || pos.value > row.max + Tol)
    ensures exists v :: v in CheckBounds(p, rows) && v.pmName == g.name && v.rowLabel == axis
  {
    var row := if axis == "RX" then g.rx else if axis == "Y" then g.y else g.z;
    var v := CheckRow(g.name, axis, row, rows).value;
    assert v in CheckGroup(g, rows);
  }
}

=== FILE: pm_panel.dfy ===
/**
 The plasma-mirror panel as the automation code reads it: three mirror
 groups, each with RX, Y, Z and SD stage rows. Every field is a widget
 reading; `current` and `zero` are reads that may fail (the row widget has
 no accessor for them), so they are optional.
 */
module PmPanel {
  import opened Wrappers

  /** One stage row: stage number (0..999 spin box), bounds, an optional
      direction combo box (RX and Y only), and the optional readings. */
  datatype StageRow = StageRow(
    stageNum: int,
    min: real,
    max: real,
    dir: Option<string>,
    current: Option<real>,
    zero: Option<real>)

  datatype MirrorGroup = MirrorGroup(
    name: string,
    auto: bool,
    dist: real,
    targetType: string,
    rx: StageRow,
    y: StageRow,
    z: StageRow,
    sd: StageRow)

  datatype Panel = Panel(pm1: MirrorGroup, pm2: MirrorGroup, pm3: MirrorGroup)
  {
    /** The groups in the order the automation visits them. */
    function Groups(): seq<MirrorGroup>
    {
      [pm1, pm2, pm3]
    }
  }
}

=== FILE: pytext.dfy ===
/**
 Python string and number primitives that the repository's logic leans on:
 `str.strip()`, `str.lower()`, substring tests, `int()` on text and on
 floats, decimal rendering with zero padding and digit grouping, and
 `os.path.splitext`. Each is stated independently of how it is computed,
 and the parsing functions are proved to invert the rendering ones.
 */
module PyText {
  import opened Wrappers

  // ---------------------------------------------------------------------
  // Whitespace and stripping
  // ---------------------------------------------------------------------

  /** The characters Python's `str.isspace` accepts (and `strip()` removes). */
  predicate IsSpace(c: char)
  {
    || c == ' '
    || ('\t' <= c <= '\r')
    || ('\U{1C}' <= c <= '\U{1F}')
    || c == '\U{85}' || c == '\U{A0}' || c == '\U{1680}'
    || ('\U{2000}' <= c <= '\U{200A}')
    || c == '\U{2028}' || c == '\U{2029}' || c == '\U{202F}'
    || c == '\U{205F}' || c == '\U{3000}'
  }

  /** Every character of `s` is whitespace. */
  ghost predicate AllSpace(s: string)
  {
    forall k :: 0 <= k < |s| ==> IsSpace(s[k])
  }

  /** `s` neither starts nor ends with whitespace. */
  ghost predicate Trimmed(s: string)
  {
    |s| > 0 ==> !IsSpace(s[0]) && !IsSpace(s[|s| - 1])
  }

  /** The first position at or after `i` that is not whitespace, or `|s|`. */
  function SkipSpace(s: string, i: nat): (j: nat)
    requires i <= |s|
    ensures i <= j <= |s|
    ensures forall k | i <= k < j :: IsSpace(s[k])
    ensures j < |s| ==> !IsSpace(s[j])
    decreases |s| - i
  {
    if i < |s| && IsSpace(s[i]) then SkipSpace(s, i + 1) else i
  }

  /** Where the whitespace that ends `s[lo..j]` begins. */
  function BackSpace(s: string, lo: nat, j: nat): (e: nat)
    requires lo <= j <= |s|
    ensures lo <= e <= j
    ensures forall k | e <= k < j :: IsSpace(s[k])
    ensures e > lo ==> !IsSpace(s[e - 1])
    decreases j - lo
  {
    if j > lo && IsSpace(s[j - 1]) then BackSpace(s, lo, j - 1) else j
  }

  /** How many leading whitespace characters `strip()` removes. */
  function StripStart(s: string): (i: nat)
    ensures i <= |s| && AllSpace(s[..i])
    ensures i < |s| ==> !IsSpace(s[i])
  {
    SkipSpace(s, 0)
  }

  /** Python `s.strip()`: the slice of `s` left once the leading and trailing
      whitespace is removed. */
  function Strip(s: string): (r: string)
    ensures Trimmed(r)
    ensures StripStart(s) + |r| <= |s| && r == s[StripStart(s)..StripStart(s) + |r|]
    ensures AllSpace(s[StripStart(s) + |r|..])
  {
    var i := StripStart(s);
    var e := BackSpace(s, i, |s|);
    assert forall k | 0 <= k < |s| - e :: s[e..][k] == s[e + k];
    s[i..e]
  }

  /** A string that is already trimmed is its own strip. */
  lemma StripTrimmed(s: string)
    requires Trimmed(s)
    ensures Strip(s) == s
  {
  }

  /** Stripping twice is stripping once. */
  lemma StripIdempotent(s: string)
    ensures Strip(Strip(s)) == Strip(s)
  {
    StripTrimmed(Strip(s));
  }

  // ---------------------------------------------------------------------
  // Case and substrings
  // ---------------------------------------------------------------------

  predicate IsUpper(c: char) { 'A' <= c <= 'Z' }

  /** Lower-casing of one character, on the ASCII letters. */
  function LowerChar(c: char): (r: char)
    ensures !IsUpper(r)
    ensures IsUpper(c) ==> r as int == c as int + 32
    ensures !IsUpper(c) ==> r == c
  {
    if IsUpper(c) then (c as int + 32) as char else c
  }

  /** Python `s.lower()` on ASCII letters. */
  function Lower(s: string): (r: string)
    ensures |r| == |s|
    ensures forall k :: 0 <= k < |s| ==> r[k] == LowerChar(s[k])
  {
    if |s| == 0 then "" else [LowerChar(s[0])] + Lower(s[1..])
  }

  /** Lower-casing gives `t` when it gives each of its characters. */
  lemma LowerPointwise(s: string, t: string)
    requires |s| == |t| && forall k | 0 <= k < |s| :: LowerChar(s[k]) == t[k]
    ensures Lower(s) == t
  {
  }

  /** Lower-casing is idempotent, so a lowered key compares equal to itself lowered. */
  lemma LowerIdempotent(s: string)
    ensures Lower(Lower(s)) == Lower(s)
  {
  }

  /** Python `s.startswith(p)`. */
  predicate StartsWith(s: string, p: string)
  {
    |p| <= |s| && s[..|p|] == p
  }

  /** `sub` occurs in `s` at position `i`. */
  ghost predicate OccursAt(s: string, sub: string, i: int)
  {
    0 <= i && i + |sub| <= |s| && s[i..i + |sub|] == sub
  }

  /** Python `sub in s`, computed by scanning. */
  predicate Contains(s: string, sub: string)
    decreases |s|
  {
    StartsWith(s, sub) || (|s| > 0 && Contains(s[1..], sub))
  }

  /** The scan finds `sub` exactly when it occurs somewhere in `s`. */
  lemma {:induction false} ContainsIff(s: string, sub: string)
    ensures Contains(s, sub) <==> exists i :: OccursAt(s, sub, i)
    decreases |s|
  {
    if StartsWith(s, sub) {
      assert OccursAt(s, sub, 0);
    } else if |s| > 0 {
      ContainsIff(s[1..], sub);
      if Contains(s[1..], sub) {
        var i :| OccursAt(s[1..], sub, i);
        assert s[1..][i..i + |sub|] == s[i + 1..i + 1 + |sub|];
        assert OccursAt(s, sub, i + 1);
      }
      if i :| OccursAt(s, sub, i) {
        assert i != 0;
        assert s[1..][i - 1..i - 1 + |sub|] == s[i..i + |sub|];
        assert OccursAt(s[1..], sub, i - 1);
      }
    }
  }

  /** The empty string is contained in every string. */
  lemma ContainsEmpty(s: string)
    ensures Contains(s, "")
  {
  }

  /** A string never contains a longer one. */
  lemma {:induction false} ContainsShorter(s: string, sub: string)
    requires |s| < |sub|
    ensures !Contains(s, sub)
    decreases |s|
  {
    if |s| > 0 {
      ContainsShorter(s[1..], sub);
    }
  }

  // ---------------------------------------------------------------------
  // Decimal digits
  // ---------------------------------------------------------------------

  predicate IsDigit(c: char) { '0' <= c <= '9' }

  function DigitChar(d: nat): (c: char)
    requires d < 10
    ensures IsDigit(c) && c as int - '0' as int == d
  {
    ('0' as int + d) as char
  }

  function DigitValue(c: char): (d: nat)
    requires IsDigit(c)
    ensures d < 10 && DigitChar(d) == c
  {
    c as int - '0' as int
  }

  ghost predicate AllDigits(s: string)
  {
    forall k :: 0 <= k < |s| ==> IsDigit(s[k])
  }

  /** Decimal rendering of a natural number, without leading zeros. */
  function NatToString(n: nat): (r: string)
    ensures |r| >= 1 && AllDigits(r)
    ensures r[0] == '0' ==> n == 0
    decreases n
  {
    if n < 10 then [DigitChar(n)] else NatToString(n / 10) + [DigitChar(n % 10)]
  }

  /** The value of a string of decimal digits. */
  function DigitsValue(s: string): (v: nat)
    requires AllDigits(s)
  {
    if |s| == 0 then 0 else DigitsValue(s[..|s| - 1]) * 10 + DigitValue(s[|s| - 1])
  }

  lemma {:induction false} DigitsValueOfNat(n: nat)
    ensures DigitsValue(NatToString(n)) == n
    decreases n
  {
    var r := NatToString(n);
    if n >= 10 {
      DigitsValueOfNat(n / 10);
      assert r[..|r| - 1] == NatToString(n / 10);
    }
  }

  /** Leading zeros do not change a digit string's value. */
  lemma {:induction false} DigitsValueLeadingZeros(z: string, s: string)
    requires AllDigits(s)
    requires forall k :: 0 <= k < |z| ==> z[k] == '0'
    ensures AllDigits(z + s)
    ensures DigitsValue(z + s) == DigitsValue(s)
    decreases |s|
  {
    if |s| == 0 {
      ZerosValue(z);
      assert z + s == z;
    } else {
      var t := z + s;
      assert t[..|t| - 1] == z + s[..|s| - 1];
      DigitsValueLeadingZeros(z, s[..|s| - 1]);
    }
  }

  lemma {:induction false} ZerosValue(z: string)
    requires forall k :: 0 <= k < |z| ==> z[k] == '0'
    ensures AllDigits(z) && DigitsValue(z) == 0
    decreases |z|
  {
    if |z| > 0 {
      ZerosValue(z[..|z| - 1]);
    }
  }

  /** Python `str(i)` for an integer. */
  function IntToString(i: int): (r: string)
    ensures i >= 0 ==> r == NatToString(i)
    ensures i < 0 ==> |r| >= 2 && r[0] == '-' && r[1..] == NatToString(-i)
  {
    if i < 0 then "-" + NatToString(-i) else NatToString(i)
  }

  /** The digit part `int()` accepts: digits, with single underscores
      allowed between two digits. */
  predicate DigitGroups(s: string)
  {
    && |s| >= 1 && IsDigit(s[0]) && IsDigit(s[|s| - 1])
    && (forall k | 0 <= k < |s| :: IsDigit(s[k]) || s[k] == '_')
    && (forall i, j | 0 <= i < |s| && 0 <= j < |s| && j == i + 1 :: s[i] == '_' ==> s[j] != '_')
  }

  /** The digits of `s` with the underscores removed. */
  function DropUnderscores(s: string): (r: string)
    requires forall k | 0 <= k < |s| :: IsDigit(s[k]) || s[k] == '_'
    ensures AllDigits(r) && |r| <= |s|
    ensures AllDigits(s) ==> r == s
  {
    if |s| == 0 then []
    else (if s[0] == '_' then [] else [s[0]]) + DropUnderscores(s[1..])
  }

  /** Python `int(text)`: surrounding whitespace, an optional sign, then
      digits (single underscores between digits allowed); anything else
      raises (here `None`). */
  function ParseInt(text: string): (r: Option<int>)
    ensures r.Some? ==> |Strip(text)| >= 1
  {
    var t := Strip(text);
    if |t| >= 1 && (t[0] == '-' || t[0] == '+') then
      var body := t[1..];
      if DigitGroups(body) then
        var v: int := DigitsValue(DropUnderscores(body));
        Some(if t[0] == '-' then -v else v)
      else None
    else if DigitGroups(t) then Some(DigitsValue(DropUnderscores(t)))
    else None
  }

  /** A plain run of digits is read as its decimal value. */
  lemma DigitsParse(s: string)
    requires |s| >= 1 && AllDigits(s)
    ensures DigitGroups(s) && DropUnderscores(s) == s
  {
  }

  /** A plain run of digits parses to its value. */
  lemma ParseDigits(s: string)
    requires |s| >= 1 && AllDigits(s)
    ensures ParseInt(s) == Some(DigitsValue(s))
  {
    assert IsDigit(s[0]) && IsDigit(s[|s| - 1]);
    StripTrimmed(s);
    assert Strip(s) == s;
    DigitsParse(s);
    assert s[0] != '-' && s[0] != '+';
  }

  /** A minus sign followed by digits parses to the negated value. */
  lemma ParseNegDigits(r: string)
    requires |r| >= 2 && r[0] == '-' && AllDigits(r[1..])
    ensures ParseInt(r) == Some(-(DigitsValue(r[1..]) as int))
  {
    var s := r[1..];
    assert r[|r| - 1] == s[|s| - 1];
    assert IsDigit(s[|s| - 1]);
    assert !IsSpace(r[0]) && !IsSpace(r[|r| - 1]);
    StripTrimmed(r);
    DigitsParse(s);
  }

  /** Reading back what `str()` wrote gives the same integer. */
  lemma IntRoundTrip(i: int)
    ensures ParseInt(IntToString(i)) == Some(i)
  {
    var digits := NatToString(if i < 0 then -i else i);
    DigitsValueOfNat(if i < 0 then -i else i);
    if i < 0 {
      ParseNegDigits(IntToString(i));
    } else {
      assert IntToString(i) == digits;
      ParseDigits(digits);
    }
  }

  // ---------------------------------------------------------------------
  // Python int() applied to a number: truncation toward zero
  // ---------------------------------------------------------------------

  /** Python `int(x)` for a float `x`: drop the fraction, rounding toward zero. */
  function TruncToInt(x: real): (r: int)
    ensures x >= 0.0 ==> 0.0 <= r as real <= x < r as real + 1.0
    ensures x < 0.0 ==> r as real - 1.0 < x <= r as real <= 0.0
  {
    if x >= 0.0 then x.Floor else -((-x).Floor)
  }

  /** Python `round(x)` on an exact value: nearest integer, ties to even. */
  function RoundHalfEven(x: real): (r: int)
    ensures (r as real - x) * 2.0 <= 1.0 && (x - r as real) * 2.0 <= 1.0
    ensures (x - r as real) * 2.0 == 1.0 || (r as real - x) * 2.0 == 1.0 ==> r % 2 == 0
  {
    var f := x.Floor;
    var d := x - f as real;
    if d * 2.0 < 1.0 then f
    else if d * 2.0 > 1.0 then f + 1
    else if f % 2 == 0 then f
    else f + 1
  }

  /** Rounding is monotone: a larger value never rounds lower. */
  lemma RoundMonotone(x: real, y: real)
    requires x <= y
    ensures RoundHalfEven(x) <= RoundHalfEven(y)
  {
  }

  /** Rounding an integral value gives that integer back. */
  lemma RoundOfInt(n: int)
    ensures RoundHalfEven(n as real) == n
  {
  }

  // ---------------------------------------------------------------------
  // Zero padding: f"{n:05d}"
  // ---------------------------------------------------------------------

  function Zeros(k: nat): (z: string)
    ensures |z| == k && forall j :: 0 <= j < k ==> z[j] == '0'
  {
    if k == 0 then "" else "0" + Zeros(k - 1)
  }

  /** Left-pad a digit string with zeros up to `width` characters. */
  function PadDigits(s: string, width: nat): (r: string)
    ensures |r| == if |s| < width then width else |s|
    ensures exists z :: r == z + s && (forall j :: 0 <= j < |z| ==> z[j] == '0')
  {
    var z := Zeros(if |s| < width then width - |s| else 0);
    z + s
  }

  /** Python `f"{n:0{width}d}"`: the sign counts towards the width. */
  function ZeroPad(n: int, width: nat): (r: string)
    ensures |r| >= width && |r| >= 1
    ensures n >= 0 ==> AllDigits(r) && DigitsValue(r) == n
    ensures n < 0 ==> |r| >= 2 && r[0] == '-' && AllDigits(r[1..]) && DigitsValue(r[1..]) == -n
  {
    if n >= 0 then
      var r := PadDigits(NatToString(n), width);
      PadValue(NatToString(n), width, n);
      r
    else
      var body := PadDigits(NatToString(-n), if width > 0 then width - 1 else 0);
      PadValue(NatToString(-n), if width > 0 then width - 1 else 0, -n);
      assert ("-" + body)[1..] == body;
      "-" + body
  }

  lemma PadValue(s: string, width: nat, n: nat)
    requires s == NatToString(n)
    ensures AllDigits(PadDigits(s, width)) && DigitsValue(PadDigits(s, width)) == n
  {
    var z :| PadDigits(s, width) == z + s && (forall j :: 0 <= j < |z| ==> z[j] == '0');
    DigitsValueLeadingZeros(z, s);
    DigitsValueOfNat(n);
  }

  /** `int()` reads a zero-padded number back unchanged. */
  lemma ZeroPadRoundTrip(n: int, width: nat)
    ensures ParseInt(ZeroPad(n, width)) == Some(n)
  {
    if n >= 0 {
      ParseDigits(ZeroPad(n, width));
    } else {
      ZeroPadNegative(n, width);
    }
  }

  lemma ZeroPadNegative(n: int, width: nat)
    requires n < 0
    ensures ParseInt(ZeroPad(n, width)) == Some(n)
  {
    ParseNegDigits(ZeroPad(n, width));
  }

  function Pow10(k: nat): (r: nat)
    ensures r >= 1
  {
    if k == 0 then 1 else 10 * Pow10(k - 1)
  }

  /** A number below 10^w needs at most w digits. */
  lemma {:induction false} NatToStringWidth(n: nat, w: nat)
    requires w >= 1 && n < Pow10(w)
    ensures |NatToString(n)| <= w
    decreases w
  {
    if n >= 10 {
      NatToStringWidth(n / 10, w - 1);
    }
  }

  /** Zero padding of a number that fits fills exactly the width. */
  lemma ZeroPadExact(n: nat, w: nat)
    requires w >= 1 && n < Pow10(w)
    ensures |ZeroPad(n, w)| == w && AllDigits(ZeroPad(n, w))
  {
    NatToStringWidth(n, w);
  }

  // ---------------------------------------------------------------------
  // Digit grouping: f"{n:,}".replace(",", " ")
  // ---------------------------------------------------------------------

  /** Exactly three digits, the width of every group after the first. */
  function Pad3(m: nat): (r: string)
    requires m < 1000
    ensures |r| == 3 && AllDigits(r)
  {
    [DigitChar(m / 100), DigitChar(m / 10 % 10), DigitChar(m % 10)]
  }

  /** A leading group of one to three digits followed by space-separated
      groups of exactly three digits. */
  ghost predicate Grouped(s: string)
    decreases |s|
  {
    if |s| <= 3 then |s| >= 1 && AllDigits(s)
    else |s| >= 5 && s[|s| - 4] == ' ' && AllDigits(s[|s| - 3..]) && Grouped(s[..|s| - 4])
  }

  function GroupNat(n: nat): (r: string)
    ensures Grouped(r)
    decreases n
  {
    if n < 1000 then
      assert Pow10(3) == 1000;
      NatToStringWidth(n, 3);
      NatToString(n)
    else
      var g, p := GroupNat(n / 1000), Pad3(n % 1000);
      var r := g + " " + p;
      assert r[..|r| - 4] == g && r[|r| - 3..] == p;
      r
  }

  /** Delete every space. */
  function Ungroup(s: string): (r: string)
  {
    if |s| == 0 then "" else (if s[0] == ' ' then "" else [s[0]]) + Ungroup(s[1..])
  }

  lemma UngroupAppend(a: string, b: string)
    ensures Ungroup(a + b) == Ungroup(a) + Ungroup(b)
  {
    if |a| > 0 {
      assert (a + b)[1..] == a[1..] + b;
      UngroupAppend(a[1..], b);
    } else {
      assert a + b == b;
    }
  }

  lemma UngroupDigits(s: string)
    requires AllDigits(s)
    ensures Ungroup(s) == s
  {
  }

  /** Splitting off the last three digits of a number of four or more digits. */
  lemma NatToStringThousands(n: nat)
    requires n >= 1000
    ensures NatToString(n) == NatToString(n / 1000) + Pad3(n % 1000)
  {
    var m := n % 1000;
    LastThreeDigits(n);
    var d2, d1, d0 := DigitChar(m / 100), DigitChar(m / 10 % 10), DigitChar(m % 10);
    assert NatToString(n) == NatToString(n / 10) + [d0];
    assert NatToString(n / 10) == NatToString(n / 100) + [d1];
    assert NatToString(n / 100) == NatToString(n / 1000) + [d2];
    assert Pad3(m) == [d2] + [d1] + [d0];
  }

  /** The last three decimal digits of `n`, read off `n` and off `n % 1000`. */
  lemma LastThreeDigits(n: nat)
    ensures n / 10 / 10 == n / 100 && n / 100 / 10 == n / 1000
    ensures n / 100 % 10 == n % 1000 / 100
    ensures n / 10 % 10 == n % 1000 / 10 % 10
    ensures n % 10 == n % 1000 % 10
  {
  }

  /** Removing the separators gives back the plain decimal rendering. */
  lemma {:induction false} GroupNatUngroup(n: nat)
    ensures Ungroup(GroupNat(n)) == NatToString(n)
    decreases n
  {
    if n < 1000 {
      UngroupDigits(NatToString(n));
    } else {
      GroupNatUngroup(n / 1000);
      UngroupAppend(GroupNat(n / 1000) + " ", Pad3(n % 1000));
      UngroupAppend(GroupNat(n / 1000), " ");
      UngroupDigits(Pad3(n % 1000));
      NatToStringThousands(n);
    }
  }

  /** Python `f"{n:,}"` with every comma replaced by a space. */
  function GroupInt(n: int): (r: string)
    ensures n >= 0 ==> Grouped(r)
    ensures n < 0 ==> |r| >= 2 && r[0] == '-' && Grouped(r[1..])
  {
    if n < 0 then "-" + GroupNat(-n) else GroupNat(n)
  }

  /** The grouped text carries exactly the digits of `str(n)`. */
  lemma GroupIntUngroup(n: int)
    ensures Ungroup(GroupInt(n)) == IntToString(n)
  {
    if n < 0 {
      GroupNatUngroup(-n);
      UngroupAppend("-", GroupNat(-n));
    } else {
      GroupNatUngroup(n);
    }
  }

  // ---------------------------------------------------------------------
  // Windows os.path: join, basename, splitext
  // ---------------------------------------------------------------------

  predicate IsSep(c: char) { c == '/' || c == '\\' }

  /** Index of the last character satisfying `sep`-or-dot test, or -1. */
  function LastIndex(s: string, dot: bool): (i: int)
    ensures -1 <= i < |s|
    ensures i >= 0 ==> (if dot then s[i] == '.' else IsSep(s[i]))
    ensures forall k :: i < k < |s| ==> !(if dot then s[k] == '.' else IsSep(s[k]))
  {
    if |s| == 0 then -1
    else if (if dot then s[|s| - 1] == '.' else IsSep(s[|s| - 1])) then |s| - 1
    else LastIndex(s[..|s| - 1], dot)
  }

  /** `os.path.join(dir, name)` for a relative `name` without a drive: a
      backslash goes between the two unless `dir` is empty or already ends
      in a separator. */
  function Join(dir: string, name: string): (r: string)
    ensures |r| >= |dir| + |name| && r[..|dir|] == dir && r[|r| - |name|..] == name
    ensures |r| == |dir| + |name| || (|r| == |dir| + |name| + 1 && IsSep(r[|dir|]))
  {
    if |dir| == 0 || IsSep(dir[|dir| - 1]) then dir + name else dir + "\\" + name
  }

  /** `os.path.basename(p)`: what follows the last separator. */
  function Basename(p: string): (r: string)
    ensures |r| <= |p| && r == p[|p| - |r|..]
    ensures forall k :: 0 <= k < |r| ==> !IsSep(r[k])
    ensures |r| < |p| ==> IsSep(p[|p| - |r| - 1])
  {
    p[LastIndex(p, false) + 1..]
  }

  /** A file name joined to a directory is its base name again. */
  lemma BasenameJoin(dir: string, name: string)
    requires forall k :: 0 <= k < |name| ==> !IsSep(name[k])
    ensures Basename(Join(dir, name)) == name
  {
  }

  /** Some character of `s[lo..hi]` is not a dot. */
  predicate HasNonDot(s: string, lo: int, hi: int)
    requires 0 <= lo <= hi <= |s|
  {
    exists k | lo <= k < hi :: s[k] != '.'
  }

  /** Python `os.path.splitext(p)`: the extension starts at the last dot of the
      final path component, unless that component has only dots before it. */
  function SplitExt(p: string): (r: (string, string))
    ensures r.0 + r.1 == p
    ensures r.1 == "" || (r.1[0] == '.' && forall k :: 1 <= k < |r.1| ==> r.1[k] != '.' && !IsSep(r.1[k]))
  {
    var dot := LastIndex(p, true);
    var sep := LastIndex(p, false);
    if dot > sep && HasNonDot(p, sep + 1, dot) then (p[..dot], p[dot..]) else (p, "")
  }

  /** A proper extension appended to a stem that ends in an ordinary
      character is split off again unchanged. */
  lemma SplitExtJoin(stem: string, ext: string)
    requires |stem| > 0 && stem[|stem| - 1] != '.' && !IsSep(stem[|stem| - 1])
    requires |ext| > 0 && ext[0] == '.'
    requires forall k :: 1 <= k < |ext| ==> ext[k] != '.' && !IsSep(ext[k])
    ensures SplitExt(stem + ext) == (stem, ext)
  {
    var p := stem + ext;
    var dot := LastIndex(p, true);
    var sep := LastIndex(p, false);
    assert p[|stem|] == '.';
    assert dot == |stem|;
    assert sep < |stem| - 1;
    assert p[|stem| - 1] != '.';
    assert HasNonDot(p, sep + 1, dot);
    assert p[..dot] == stem && p[dot..] == ext;
  }

  /** A name without any dot has no extension. */
  lemma SplitExtNoDot(p: string)
    requires forall k :: 0 <= k < |p| ==> p[k] != '.'
    ensures SplitExt(p) == (p, "")
  {
  }
}

=== FILE: shot_rename.dfy ===
/**
 Renaming of the camera and spectrometer files written for one shot
 (`rename_shot_files`, in the current utilities version and in the older
 copy kept next to the main window). The output directory is polled; per
 token the newest unprocessed matching file becomes the candidate, and it
 is renamed to the canonical shot name once its size has been seen equal on
 two consecutive polls and then stayed so for the stability time.

 The file system is an input: each poll carries the listing it saw (name,
 modification time and size of each file, `None` where a stat raised), the
 clock reading, the calendar time `datetime.now()` would give, the paths
 that already exist when a destination is checked, and the sources whose
 `os.rename` raises.
 */
module ShotRename {
  import opened Wrappers
  import PyText

  // ---------------------------------------------------------------------
  // Tokens and matching
  // ---------------------------------------------------------------------

  /** `default_match_fn`: the lower-cased token occurs in the lower-cased
      file name. */
  function DefaultMatch(nameLower: string, tokLower: string): (r: bool)
    ensures r <==> exists i :: PyText.OccursAt(nameLower, tokLower, i)
  {
    PyText.ContainsIff(nameLower, tokLower);
    PyText.Contains(nameLower, tokLower)
  }

  /** `[str(t).strip() for t in tokens if t]`: empty tokens are dropped
      before stripping, so a token of spaces survives as "". */
  function CleanTokens(tokens: seq<string>): (r: seq<string>)
    ensures |r| <= |tokens|
    ensures forall t | t in tokens && t != "" :: PyText.Strip(t) in r
    ensures forall u | u in r :: exists t | t in tokens :: t != "" && u == PyText.Strip(t)
  {
    if |tokens| == 0 then []
    else
      var rest := CleanTokens(tokens[1..]);
      assert forall t | t in tokens[1..] :: t in tokens;
      if tokens[0] == "" then rest else [PyText.Strip(tokens[0])] + rest
  }

  // ---------------------------------------------------------------------
  // The canonical name
  // ---------------------------------------------------------------------

  /** A calendar reading, as `datetime` gives it. */
  datatype DateTime = DateTime(year: int, month: int, day: int, hour: int, minute: int, second: int, microsecond: int)

  ghost predicate ValidDateTime(d: DateTime)
  {
    && 1 <= d.year <= 9999 && 1 <= d.month <= 12 && 1 <= d.day <= 31
    && 0 <= d.hour < 24 && 0 <= d.minute < 60 && 0 <= d.second < 60
    && 0 <= d.microsecond < 1000000
  }

  /** `strftime('%Y%m%d')`. */
  function DateText(d: DateTime): string
  {
    PyText.ZeroPad(d.year, 4) + PyText.ZeroPad(d.month, 2) + PyText.ZeroPad(d.day, 2)
  }

  /** Milliseconds as `int(microsecond / 1000)` computes them. */
  function Millis(d: DateTime): int
  {
    PyText.TruncToInt(d.microsecond as real / 1000.0)
  }

  /** `strftime('%H%M%S')` followed by the milliseconds as three digits. */
  function TimeText(d: DateTime): string
  {
    PyText.ZeroPad(d.hour, 2) + PyText.ZeroPad(d.minute, 2) + PyText.ZeroPad(d.second, 2)
    + PyText.ZeroPad(Millis(d), 3)
  }

  /** Three-digit milliseconds for a valid microsecond count. */
  lemma MillisRange(d: DateTime)
    requires 0 <= d.microsecond < 1000000
    ensures 0 <= Millis(d) < 1000
  {
  }

  /** A field padded to `w` digits that fits in them. */
  lemma Field(n: int, w: nat)
    requires 1 <= w <= 4 && 0 <= n < PyText.Pow10(w)
    ensures |PyText.ZeroPad(n, w)| == w && PyText.AllDigits(PyText.ZeroPad(n, w))
  {
    PyText.ZeroPadExact(n, w);
  }

  lemma DigitsConcat(a: string, b: string)
    requires PyText.AllDigits(a) && PyText.AllDigits(b)
    ensures PyText.AllDigits(a + b)
  {
  }

  /** For a valid calendar reading the date has exactly 8 digits and the
      time exactly 9, so the fields of a shot name sit at fixed places. */
  lemma StampWidths(d: DateTime)
    requires ValidDateTime(d)
    ensures |DateText(d)| == 8 && PyText.AllDigits(DateText(d))
    ensures |TimeText(d)| == 9 && PyText.AllDigits(TimeText(d))
  {
    assert PyText.Pow10(2) == 100 && PyText.Pow10(3) == 1000 && PyText.Pow10(4) == 10000;
    Field(d.year, 4);
    Field(d.month, 2);
    Field(d.day, 2);
    DigitsConcat(PyText.ZeroPad(d.year, 4), PyText.ZeroPad(d.month, 2));
    DigitsConcat(PyText.ZeroPad(d.year, 4) + PyText.ZeroPad(d.month, 2), PyText.ZeroPad(d.day, 2));
    Field(d.hour, 2);
    Field(d.minute, 2);
    Field(d.second, 2);
    MillisRange(d);
    Field(Millis(d), 3);
    var hm := PyText.ZeroPad(d.hour, 2) + PyText.ZeroPad(d.minute, 2);
    DigitsConcat(PyText.ZeroPad(d.hour, 2), PyText.ZeroPad(d.minute, 2));
    DigitsConcat(hm, PyText.ZeroPad(d.second, 2));
    DigitsConcat(hm + PyText.ZeroPad(d.second, 2), PyText.ZeroPad(Millis(d), 3));
  }

  /** The experiment name, `Experiment` when none is given. */
  function ExperimentName(experiment: string): (r: string)
    ensures r != ""
    ensures experiment != "" ==> r == experiment
  {
    if experiment == "" then "Experiment" else experiment
  }

  /** `{exp}_Shot{shot:05d}_{date}_{time}_{token}_0{ext}`. */
  function ShotName(exp: string, shot: int, stamp: DateTime, tok: string, ext: string): string
  {
    exp + "_Shot" + PyText.ZeroPad(shot, 5) + StampPart(stamp) + LabelPart(tok, ext)
  }

  function StampPart(stamp: DateTime): string
  {
    "_" + DateText(stamp) + "_" + TimeText(stamp) + "_"
  }

  function LabelPart(tok: string, ext: string): string
  {
    tok + "_0" + ext
  }

  /** Reading the shot field back out of a name built for `exp`: the five
      characters after `_Shot`. */
  function ShotNumberOf(name: string, exp: string): (r: Option<int>)
  {
    var k := |exp| + 5;
    if |name| >= k + 5 && name[..k] == exp + "_Shot" then PyText.ParseInt(name[k..k + 5]) else None
  }

  lemma Pieces(a: string, z: string, b: string, c: string)
    ensures var n := a + z + b + c;
      && n[..|a|] == a && n[|a|..|a| + |z|] == z
      && n[|n| - |c|..] == c
  {
  }

  /** The shot number survives the name: for shots of at most five digits
      the field after `_Shot` reads back as the same number, and the name
      ends with the token, the `_0` counter and the extension. */
  lemma ShotNumberRoundTrip(exp: string, shot: int, stamp: DateTime, tok: string, ext: string)
    requires 0 <= shot < 100000
    ensures ShotNumberOf(ShotName(exp, shot, stamp, tok, ext), exp) == Some(shot)
    ensures var n := ShotName(exp, shot, stamp, tok, ext);
      |n| >= |tok| + 2 + |ext| && n[|n| - |tok| - 2 - |ext|..] == tok + "_0" + ext
  {
    var z := PyText.ZeroPad(shot, 5);
    assert PyText.Pow10(5) == 100000;
    PyText.ZeroPadExact(shot, 5);
    PyText.ZeroPadRoundTrip(shot, 5);
    FieldAfterShot(exp, z, StampPart(stamp), LabelPart(tok, ext));
  }

  /** In `exp_Shot` + five characters + anything, the five characters are
      what `ShotNumberOf` parses, and the last piece ends the name. */
  lemma FieldAfterShot(exp: string, z: string, b: string, c: string)
    requires |z| == 5
    ensures ShotNumberOf(exp + "_Shot" + z + b + c, exp) == PyText.ParseInt(z)
    ensures var n := exp + "_Shot" + z + b + c; n[|n| - |c|..] == c
  {
    var a := exp + "_Shot";
    Pieces(a, z, b, c);
  }

  /** The `_dup` variant: the suffix goes in front of the extension that
      `os.path.splitext` finds. */
  function DupName(p: string): (r: string)
    ensures |r| == |p| + 4
  {
    var (stem, ext) := PyText.SplitExt(p);
    stem + "_dup" + ext
  }

  /** A collision always yields a different path, and when the path has an
      extension the `_dup` path keeps it. */
  lemma DupKeepsExtension(p: string)
    ensures DupName(p) != p
    ensures var (stem, ext) := PyText.SplitExt(p);
      ext != "" ==> PyText.SplitExt(DupName(p)) == (stem + "_dup", ext)
  {
    var (stem, ext) := PyText.SplitExt(p);
    if ext != "" {
      PyText.SplitExtJoin(stem + "_dup", ext);
    }
  }

  // ---------------------------------------------------------------------
  // Polls and the candidate of a token
  // ---------------------------------------------------------------------

  /** A listed file: its name and what `getmtime` and `getsize` return
      (`None` when they raise). */
  datatype Entry = Entry(name: string, mtime: Option<real>, size: Option<int>)

  /** What one pass of the loop observes. `listing` is `None` when
      `os.listdir` raised. */
  datatype Poll = Poll(
    now: real,
    listing: Option<seq<Entry>>,
    clock: DateTime,
    taken: set<string>,
    failing: set<string>)

  /** The fixed inputs of one call, after the argument defaults. */
  datatype Job = Job(
    outdir: string,
    toks: seq<string>,
    shot: int,
    exp: string,
    stableTime: real,
    eventStamp: Option<DateTime>)

  /** What the candidate search needs to know besides the listing. */
  datatype View = View(outdir: string, processed: set<string>, moved: set<string>, tokLower: string)

  /** The modification time the search uses for a listed file: 0 (never
      chosen) for a processed path, a non-matching name, or a failed stat.
      A file renamed earlier in the same call is gone, so its stat fails. */
  function Score(v: View, e: Entry): real
  {
    var full := PyText.Join(v.outdir, e.name);
    if full in v.processed || full in v.moved || e.mtime.None? then 0.0
    else if !DefaultMatch(PyText.Lower(e.name), v.tokLower) then 0.0
    else e.mtime.value
  }

  /** The score of every listed entry, in listing order. */
  function Scores(es: seq<Entry>, v: View): (sc: seq<real>)
    ensures |sc| == |es| && forall j | 0 <= j < |es| :: sc[j] == Score(v, es[j])
  {
    seq(|es|, j requires 0 <= j < |es| => Score(v, es[j]))
  }

  /** `b` is the entry the search has chosen among the first `n` scores:
      none when no entry scores, else a scoring entry with the largest
      score and the first of those. */
  ghost predicate IsBest(sc: seq<real>, n: nat, b: Option<nat>)
    requires n <= |sc|
  {
    match b
    case None => forall j | 0 <= j < n :: sc[j] == 0.0
    case Some(k) =>
      && k < n && sc[k] != 0.0
      && (forall j | 0 <= j < n && sc[j] != 0.0 :: sc[j] <= sc[k])
      && (forall j | 0 <= j < k && sc[j] != 0.0 :: sc[j] < sc[k])
  }

  /** The newest matching file among the first `n` entries, as `IsBest`
      says for their scores. */
  ghost predicate IsNewest(es: seq<Entry>, v: View, n: nat, b: Option<nat>)
    requires n <= |es|
  {
    IsBest(Scores(es, v), n, b)
  }

  /** The search loop from entry `n` on, with `b` chosen so far. */
  function PickFrom(sc: seq<real>, n: nat, b: Option<nat>): (r: Option<nat>)
    requires n <= |sc| && IsBest(sc, n, b)
    ensures IsBest(sc, |sc|, r)
    decreases |sc| - n
  {
    if n == |sc| then b
    else
      PickStep(sc, n, b);
      if sc[n] != 0.0 && (b.None? || sc[n] > sc[b.value]) then PickFrom(sc, n + 1, Some(n))
      else PickFrom(sc, n + 1, b)
  }

  /** One entry more: the search's choice stays the newest. */
  lemma PickStep(sc: seq<real>, n: nat, b: Option<nat>)
    requires n < |sc| && IsBest(sc, n, b)
    ensures IsBest(sc, n + 1, if sc[n] != 0.0 && (b.None? || sc[n] > sc[b.value]) then Some(n) else b)
  {
    if sc[n] != 0.0 && (b.None? || sc[n] > sc[b.value]) {
      if b.Some? {
        assert forall j | 0 <= j < n && sc[j] != 0.0 :: sc[j] < sc[n];
      }
    }
  }

  /** The candidate of a token in one poll: the index of the newest
      matching entry. */
  function Newest(es: seq<Entry>, v: View): (r: Option<nat>)
    ensures IsNewest(es, v, |es|, r)
    ensures r.Some? ==> r.value < |es| && Score(v, es[r.value]) != 0.0
  {
    PickFrom(Scores(es, v), 0, None)
  }

  // ---------------------------------------------------------------------
  // The polling state
  // ---------------------------------------------------------------------

  datatype Tracker = Tracker(
    remaining: seq<nat>,
    candidates: map<nat, string>,
    lastSize: map<string, int>,
    stableSince: map<string, Option<real>>,
    processed: set<string>,
    pairs: seq<(string, string)>)

  function Get<K, V>(m: map<K, V>, k: K, d: V): (r: V)
    ensures k in m ==> r == m[k]
    ensures k !in m ==> r == d
  {
    if k in m then m[k] else d
  }

  /** The sources renamed so far. */
  function Sources(pairs: seq<(string, string)>): (r: set<string>)
    ensures forall i | 0 <= i < |pairs| :: pairs[i].0 in r
    ensures forall s | s in r :: exists i | 0 <= i < |pairs| :: pairs[i].0 == s
  {
    set i | 0 <= i < |pairs| :: pairs[i].0
  }

  /** `remaining.discard(idx)` on the ascending list of token indices. */
  function Remove(s: seq<nat>, x: nat): (r: seq<nat>)
    ensures forall y :: y in r <==> y in s && y != x
    ensures |r| <= |s|
    ensures x in s ==> |r| < |s|
    ensures Distinct(s) ==> Distinct(r)
  {
    if |s| == 0 then []
    else
      var rest := Remove(s[1..], x);
      DistinctTail(s);
      if s[0] == x then rest else [s[0]] + rest
  }

  ghost predicate Distinct(s: seq<nat>)
  {
    forall i, j | 0 <= i < j < |s| :: s[i] != s[j]
  }

  lemma DistinctTail(s: seq<nat>)
    requires |s| > 0
    ensures Distinct(s) ==> Distinct(s[1..]) && s[0] !in s[1..]
  {
    if Distinct(s) {
      forall a, b | 0 <= a < b < |s[1..]|
        ensures s[1..][a] != s[1..][b]
      {
        assert s[1..][a] == s[a + 1] && s[1..][b] == s[b + 1];
      }
    }
  }

  /** The destination of a rename: the canonical name in the output
      directory, or its `_dup` variant when that path is taken. */
  function Destination(job: Job, poll: Poll, cand: string, tok: string): string
  {
    var ext := PyText.SplitExt(PyText.Basename(cand)).1;
    var stamp := job.eventStamp.GetOr(poll.clock);
    var full := PyText.Join(job.outdir, ShotName(job.exp, job.shot, stamp, tok, ext));
    if full in poll.taken then DupName(full) else full
  }

  /** `d` is a canonical shot name (or its `_dup` variant) for one of the
      tokens, stamped with `stamp`. */
  ghost predicate ShotDestination(job: Job, stamp: DateTime, d: string)
  {
    exists tok, ext :: tok in job.toks &&
      var full := PyText.Join(job.outdir, ShotName(job.exp, job.shot, stamp, tok, ext));
      d == full || d == DupName(full)
  }

  /** Every destination carries the event stamp when one was given, and
      some poll's clock otherwise. */
  ghost predicate Stamped(job: Job, stamps: set<DateTime>, d: string)
  {
    if job.eventStamp.Some? then ShotDestination(job, job.eventStamp.value, d)
    else exists s | s in stamps :: ShotDestination(job, s, d)
  }

  /** Every waiting token is a real one, listed once, and each renamed
      pair used up a token. */
  ghost predicate Counted(job: Job, t: Tracker)
  {
    && (forall i | i in t.remaining :: i < |job.toks|)
    && Distinct(t.remaining)
    && |t.pairs| + |t.remaining| <= |job.toks|
  }

  /** Every renamed pair's destination is recorded as processed, no source
      was moved twice, and every destination is a stamped shot name. */
  ghost predicate PairsOk(job: Job, stamps: set<DateTime>, pairs: seq<(string, string)>, processed: set<string>)
  {
    && (forall i | 0 <= i < |pairs| :: pairs[i].1 in processed)
    && (forall i, j | 0 <= i < j < |pairs| :: pairs[i].0 != pairs[j].0)
    && (forall i | 0 <= i < |pairs| :: Stamped(job, stamps, pairs[i].1))
  }

  /** A path is only marked stable after a real size was recorded for it. */
  ghost predicate StableOk(t: Tracker)
  {
    forall p | p in t.stableSince && t.stableSince[p].Some? :: Get(t.lastSize, p, -2) >= 0
  }

  /** What the loop keeps true between token steps. */
  ghost predicate Inv(job: Job, stamps: set<DateTime>, t: Tracker)
  {
    Counted(job, t) && PairsOk(job, stamps, t.pairs, t.processed) && StableOk(t)
  }

  /** The work done for token `idx` in one poll over the listing `es`. */
  function TokenStep(job: Job, t: Tracker, poll: Poll, es: seq<Entry>, idx: nat): (r: Tracker)
    requires idx < |job.toks|
  {
    var tok := job.toks[idx];
    var v := View(job.outdir, t.processed, Sources(t.pairs), PyText.Lower(tok));
    match Newest(es, v)
    case None => t
    case Some(k) =>
      var cand := PyText.Join(job.outdir, es[k].name);
      Settle(job, Follow(t, idx, cand), poll, idx, cand, es[k].size.GetOr(-1))
  }

  /** A new candidate for the token starts over: size unknown, not stable. */
  function Follow(t: Tracker, idx: nat, cand: string): Tracker
  {
    if idx in t.candidates && t.candidates[idx] == cand then t
    else t.(candidates := t.candidates[idx := cand],
            lastSize := t.lastSize[cand := -1],
            stableSince := t.stableSince[cand := None])
  }

  /** Comparing the candidate's size `cur` with the last one: an equal,
      real size starts or continues the stability wait and, once the wait
      is over, retires the token and renames the file unless the rename
      raises; any other size is recorded and restarts the wait. */
  function Settle(job: Job, t1: Tracker, poll: Poll, idx: nat, cand: string, cur: int): Tracker
    requires idx < |job.toks|
  {
    if cur == Get(t1.lastSize, cand, -2) && cur >= 0 then
      match Get(t1.stableSince, cand, None)
      case None => t1.(stableSince := t1.stableSince[cand := Some(poll.now)])
      case Some(since) =>
        if poll.now - since >= job.stableTime then
          var t2 := t1.(remaining := Remove(t1.remaining, idx));
          if cand in poll.failing then t2
          else
            var dest := Destination(job, poll, cand, job.toks[idx]);
            t2.(processed := t2.processed + {dest}, pairs := t2.pairs + [(cand, dest)])
        else t1
    else t1.(lastSize := t1.lastSize[cand := cur], stableSince := t1.stableSince[cand := None])
  }

  /** A rename happens only for the token's standing candidate, after its
      size was recorded non-negative on an earlier poll, read equal now, and
      the stability time has passed since it was first seen equal; the
      renamed source was not renamed before, the destination is the
      canonical name, and the token is retired. */
  lemma RenameNeedsStability(job: Job, t: Tracker, poll: Poll, es: seq<Entry>, idx: nat)
    requires idx < |job.toks|
    ensures var r := TokenStep(job, t, poll, es, idx);
      |r.pairs| > |t.pairs| ==>
        && |r.pairs| == |t.pairs| + 1
        && var (c, d) := r.pairs[|t.pairs|];
        && idx in t.candidates && t.candidates[idx] == c
        && c in t.lastSize && t.lastSize[c] >= 0
        && c in t.stableSince && t.stableSince[c].Some?
        && poll.now - t.stableSince[c].value >= job.stableTime
        && c !in Sources(t.pairs) && c !in poll.failing
        && d == Destination(job, poll, c, job.toks[idx])
        && idx !in r.remaining
  {
  }

  /** A token leaves the waiting list only through a rename attempt: either
      a pair is recorded or the rename raised. */
  lemma RetiredAfterAttempt(job: Job, t: Tracker, poll: Poll, es: seq<Entry>, idx: nat)
    requires idx < |job.toks| && idx in t.remaining
    ensures var r := TokenStep(job, t, poll, es, idx);
      idx !in r.remaining ==>
        |r.pairs| == |t.pairs| + 1 ||
        (r.pairs == t.pairs && exists k | 0 <= k < |es| :: PyText.Join(job.outdir, es[k].name) in poll.failing)
  {
    var v := View(job.outdir, t.processed, Sources(t.pairs), PyText.Lower(job.toks[idx]));
    match Newest(es, v)
    case None =>
    case Some(k) =>
      var cand := PyText.Join(job.outdir, es[k].name);
      var t1 := Follow(t, idx, cand);
      assert t1.remaining == t.remaining && t1.pairs == t.pairs;
      SettleRetires(job, t1, poll, idx, cand, es[k].size.GetOr(-1));
  }

  /** The token leaves the waiting list only when a pair is recorded or the
      candidate's rename raises. */
  lemma SettleRetires(job: Job, t1: Tracker, poll: Poll, idx: nat, cand: string, cur: int)
    requires idx < |job.toks| && idx in t1.remaining
    ensures var r := Settle(job, t1, poll, idx, cand, cur);
      idx !in r.remaining ==>
        |r.pairs| == |t1.pairs| + 1 || (r.pairs == t1.pairs && cand in poll.failing)
  {
  }

  /** A new candidate, or a size that differs from the last one recorded,
      restarts the stability wait: no rename, and no stable-since time. */
  lemma ChangeRestartsWait(job: Job, t: Tracker, poll: Poll, es: seq<Entry>, idx: nat, k: nat)
    requires idx < |job.toks|
    requires Newest(es, View(job.outdir, t.processed, Sources(t.pairs), PyText.Lower(job.toks[idx]))) == Some(k)
    requires var cand := PyText.Join(job.outdir, es[k].name);
      || !(idx in t.candidates && t.candidates[idx] == cand)
      || es[k].size.GetOr(-1) != Get(t.lastSize, cand, -2)
    ensures var r := TokenStep(job, t, poll, es, idx);
      var cand := PyText.Join(job.outdir, es[k].name);
      && r.pairs == t.pairs && r.remaining == t.remaining
      && r.candidates[idx] == cand
      && r.lastSize[cand] == es[k].size.GetOr(-1)
      && r.stableSince[cand] == None
  {
  }

  /** What a token step can change in the bookkeeping: at most one pair is
      appended, with its destination added to the processed set, and the
      token may be retired. */
  lemma TokenStepShape(job: Job, t: Tracker, poll: Poll, es: seq<Entry>, idx: nat)
    requires idx < |job.toks|
    ensures var r := TokenStep(job, t, poll, es, idx);
      && (r.remaining == t.remaining || r.remaining == Remove(t.remaining, idx))
      && ((r.pairs == t.pairs && r.processed == t.processed) ||
          (&& |r.pairs| == |t.pairs| + 1 && r.pairs[..|t.pairs|] == t.pairs
           && r.processed == t.processed + {r.pairs[|t.pairs|].1}))
  {
    var v := View(job.outdir, t.processed, Sources(t.pairs), PyText.Lower(job.toks[idx]));
    match Newest(es, v)
    case None =>
    case Some(k) =>
      var cand := PyText.Join(job.outdir, es[k].name);
      var t1 := Follow(t, idx, cand);
      assert t1.remaining == t.remaining && t1.pairs == t.pairs && t1.processed == t.processed;
      SettleShape(job, t1, poll, idx, cand, es[k].size.GetOr(-1));
  }

  lemma SettleShape(job: Job, t1: Tracker, poll: Poll, idx: nat, cand: string, cur: int)
    requires idx < |job.toks|
    ensures var r := Settle(job, t1, poll, idx, cand, cur);
      && (r.remaining == t1.remaining || r.remaining == Remove(t1.remaining, idx))
      && ((r.pairs == t1.pairs && r.processed == t1.processed) ||
          (&& |r.pairs| == |t1.pairs| + 1 && r.pairs[..|t1.pairs|] == t1.pairs
           && r.processed == t1.processed + {r.pairs[|t1.pairs|].1}))
  {
    var r := Settle(job, t1, poll, idx, cand, cur);
    if |r.pairs| != |t1.pairs| {
      assert r.pairs[..|t1.pairs|] == t1.pairs;
    }
  }

  /** A recorded stable-since time always has a non-negative size beside it. */
  lemma TokenStepStable(job: Job, t: Tracker, poll: Poll, es: seq<Entry>, idx: nat)
    requires idx < |job.toks|
    requires StableOk(t)
    ensures StableOk(TokenStep(job, t, poll, es, idx))
  {
    var v := View(job.outdir, t.processed, Sources(t.pairs), PyText.Lower(job.toks[idx]));
    match Newest(es, v)
    case None =>
    case Some(k) =>
      var cand := PyText.Join(job.outdir, es[k].name);
      FollowStable(t, idx, cand);
      SettleStable(job, Follow(t, idx, cand), poll, idx, cand, es[k].size.GetOr(-1));
  }

  lemma FollowStable(t: Tracker, idx: nat, cand: string)
    requires StableOk(t)
    ensures StableOk(Follow(t, idx, cand))
  {
    if !(idx in t.candidates && t.candidates[idx] == cand) {
      StableOkReset(t.(candidates := t.candidates[idx := cand]), cand, -1);
    }
  }

  lemma SettleStable(job: Job, t1: Tracker, poll: Poll, idx: nat, cand: string, cur: int)
    requires idx < |job.toks| && StableOk(t1)
    ensures StableOk(Settle(job, t1, poll, idx, cand, cur))
  {
    if cur == Get(t1.lastSize, cand, -2) && cur >= 0 {
      if Get(t1.stableSince, cand, None).None? {
        StableOkMark(t1, cand, Some(poll.now));
      }
    } else {
      StableOkReset(t1, cand, cur);
    }
  }

  /** Marking a path whose recorded size is non-negative keeps `StableOk`. */
  lemma StableOkMark(t: Tracker, p: string, since: Option<real>)
    requires StableOk(t) && Get(t.lastSize, p, -2) >= 0
    ensures StableOk(t.(stableSince := t.stableSince[p := since]))
  {
  }

  /** Recording a new size and clearing the mark keeps `StableOk`. */
  lemma StableOkReset(t: Tracker, p: string, size: int)
    requires StableOk(t)
    ensures StableOk(t.(lastSize := t.lastSize[p := size], stableSince := t.stableSince[p := None]))
  {
  }

  /** The destination of a new pair is a shot name with the allowed stamp. */
  lemma TokenStepStamped(job: Job, stamps: set<DateTime>, t: Tracker, poll: Poll, es: seq<Entry>, idx: nat)
    requires idx < |job.toks| && poll.clock in stamps
    ensures var r := TokenStep(job, t, poll, es, idx);
      |r.pairs| > |t.pairs| ==> Stamped(job, stamps, r.pairs[|t.pairs|].1)
  {
    var r := TokenStep(job, t, poll, es, idx);
    RenameNeedsStability(job, t, poll, es, idx);
    if |r.pairs| > |t.pairs| {
      var (c, d) := r.pairs[|t.pairs|];
      var tok := job.toks[idx];
      var ext := PyText.SplitExt(PyText.Basename(c)).1;
      var stamp := job.eventStamp.GetOr(poll.clock);
      var full := PyText.Join(job.outdir, ShotName(job.exp, job.shot, stamp, tok, ext));
      assert tok in job.toks && (d == full || d == DupName(full));
      assert ShotDestination(job, stamp, d);
    }
  }

  /** Token counting survives a step that either keeps the waiting list or
      retires `idx` and records at most one pair. */
  lemma CountedAfter(job: Job, t: Tracker, r: Tracker, idx: nat)
    requires Counted(job, t) && idx in t.remaining
    requires (r.remaining == t.remaining && |r.pairs| == |t.pairs|) ||
             (r.remaining == Remove(t.remaining, idx) && |r.pairs| <= |t.pairs| + 1)
    ensures Counted(job, r)
  {
  }

  /** Appending a fresh source with a stamped destination, and recording
      that destination, keeps the pair facts. */
  lemma PairsAppend(job: Job, stamps: set<DateTime>, pairs: seq<(string, string)>, processed: set<string>, c: string, d: string)
    requires PairsOk(job, stamps, pairs, processed)
    requires c !in Sources(pairs) && Stamped(job, stamps, d)
    ensures PairsOk(job, stamps, pairs + [(c, d)], processed + {d})
  {
    var ps := pairs + [(c, d)];
    forall i | 0 <= i < |ps|
      ensures ps[i].1 in processed + {d} && Stamped(job, stamps, ps[i].1)
    {
      if i < |pairs| {
        assert ps[i] == pairs[i];
      }
    }
    forall i, j | 0 <= i < j < |ps|
      ensures ps[i].0 != ps[j].0
    {
      assert ps[i] == pairs[i];
      if j == |pairs| {
        assert pairs[i].0 in Sources(pairs);
      } else {
        assert ps[j] == pairs[j];
      }
    }
  }

  /** `s` with `x` added. */
  function Added<T>(s: set<T>, x: T): set<T>
  {
    s + {x}
  }

  /** The invariant after any change of the shape a token step makes. */
  lemma InvAfter(job: Job, stamps: set<DateTime>, t: Tracker, r: Tracker, idx: nat)
    requires Inv(job, stamps, t) && idx in t.remaining
    requires (r.remaining == t.remaining && r.pairs == t.pairs && r.processed == t.processed) ||
             (&& r.remaining == Remove(t.remaining, idx)
              && ((r.pairs == t.pairs && r.processed == t.processed) ||
                  (&& |r.pairs| == |t.pairs| + 1 && r.pairs[..|t.pairs|] == t.pairs
                   && r.processed == Added(t.processed, r.pairs[|t.pairs|].1)
                   && r.pairs[|t.pairs|].0 !in Sources(t.pairs)
                   && Stamped(job, stamps, r.pairs[|t.pairs|].1))))
    requires StableOk(r)
    ensures Inv(job, stamps, r)
  {
    CountedAfter(job, t, r, idx);
    if r.pairs == t.pairs {
      assert r.processed == t.processed;
    } else {
      PairsExtend(job, stamps, t.pairs, t.processed, r.pairs, r.processed);
    }
  }

  /** `PairsAppend` for a list given as one longer than `pairs` and
      starting with it. */
  lemma PairsExtend(job: Job, stamps: set<DateTime>, pairs: seq<(string, string)>, processed: set<string>,
                    ps: seq<(string, string)>, psProcessed: set<string>)
    requires PairsOk(job, stamps, pairs, processed)
    requires |ps| == |pairs| + 1 && ps[..|pairs|] == pairs
    requires psProcessed == Added(processed, ps[|pairs|].1)
    requires ps[|pairs|].0 !in Sources(pairs) && Stamped(job, stamps, ps[|pairs|].1)
    ensures PairsOk(job, stamps, ps, psProcessed)
  {
    var n := |pairs|;
    Snoc(ps, pairs);
    PairsAppend(job, stamps, pairs, processed, ps[n].0, ps[n].1);
  }

  /** A list one longer than `pre` and starting with it is `pre` and its
      last element. */
  lemma Snoc<T>(s: seq<T>, pre: seq<T>)
    requires |s| == |pre| + 1 && s[..|pre|] == pre
    ensures s == pre + [s[|pre|]]
  {
    assert s == s[..|pre|] + [s[|pre|]];
  }

  /** One token step keeps the loop invariant, given the poll's stamp is
      among the allowed ones. */
  lemma TokenStepInv(job: Job, stamps: set<DateTime>, t: Tracker, poll: Poll, es: seq<Entry>, idx: nat)
    requires Inv(job, stamps, t) && idx in t.remaining && poll.clock in stamps
    ensures Inv(job, stamps, TokenStep(job, t, poll, es, idx))
    ensures var r := TokenStep(job, t, poll, es, idx);
      && (forall y | y in t.remaining && y != idx :: y in r.remaining)
      && (forall y | y in r.remaining :: y in t.remaining)
      && t.processed <= r.processed
      && |r.pairs| >= |t.pairs| && r.pairs[..|t.pairs|] == t.pairs
  {
    var r := TokenStep(job, t, poll, es, idx);
    TokenStepShape(job, t, poll, es, idx);
    TokenStepStable(job, t, poll, es, idx);
    RenameNeedsStability(job, t, poll, es, idx);
    TokenStepStamped(job, stamps, t, poll, es, idx);
    InvAfter(job, stamps, t, r, idx);
  }

  /** The token steps of one poll, over the waiting list as it stood when
      the poll began. */
  function Sweep(job: Job, t: Tracker, poll: Poll, es: seq<Entry>, idxs: seq<nat>): (r: Tracker)
    requires forall k | 0 <= k < |idxs| :: idxs[k] < |job.toks|
    decreases |idxs|
  {
    if |idxs| == 0 then t
    else Sweep(job, TokenStep(job, t, poll, es, idxs[0]), poll, es, idxs[1..])
  }

  lemma {:induction false} SweepInv(job: Job, stamps: set<DateTime>, t: Tracker, poll: Poll, es: seq<Entry>, idxs: seq<nat>)
    requires Inv(job, stamps, t) && poll.clock in stamps
    requires Distinct(idxs) && forall k | 0 <= k < |idxs| :: idxs[k] in t.remaining
    ensures Inv(job, stamps, Sweep(job, t, poll, es, idxs))
    ensures t.processed <= Sweep(job, t, poll, es, idxs).processed
    ensures |Sweep(job, t, poll, es, idxs).pairs| >= |t.pairs|
    ensures Sweep(job, t, poll, es, idxs).pairs[..|t.pairs|] == t.pairs
    decreases |idxs|
  {
    if |idxs| > 0 {
      var t1 := TokenStep(job, t, poll, es, idxs[0]);
      TokenStepInv(job, stamps, t, poll, es, idxs[0]);
      forall k | 0 <= k < |idxs[1..]|
        ensures idxs[1..][k] in t1.remaining
      {
        assert idxs[1..][k] == idxs[k + 1] && idxs[0] != idxs[k + 1];
      }
      assert Distinct(idxs[1..]) by {
        forall a, b | 0 <= a < b < |idxs[1..]|
          ensures idxs[1..][a] != idxs[1..][b]
        {
          assert idxs[1..][a] == idxs[a + 1] && idxs[1..][b] == idxs[b + 1];
        }
      }
      SweepInv(job, stamps, t1, poll, es, idxs[1..]);
      var r := Sweep(job, t1, poll, es, idxs[1..]);
      assert r.pairs[..|t.pairs|] == r.pairs[..|t1.pairs|][..|t.pairs|];
    }
  }

  /** The counting part of the invariant, for any sweep over distinct
      waiting tokens. */
  lemma {:induction false} SweepCounts(job: Job, t: Tracker, poll: Poll, es: seq<Entry>, idxs: seq<nat>)
    requires Counted(job, t)
    requires Distinct(idxs) && forall k | 0 <= k < |idxs| :: idxs[k] in t.remaining
    ensures Counted(job, Sweep(job, t, poll, es, idxs))
    decreases |idxs|
  {
    if |idxs| > 0 {
      var idx := idxs[0];
      var t1 := TokenStep(job, t, poll, es, idx);
      RenameNeedsStability(job, t, poll, es, idx);
      forall k | 0 <= k < |idxs[1..]|
        ensures idxs[1..][k] in t1.remaining
      {
        assert idxs[1..][k] == idxs[k + 1] && idxs[0] != idxs[k + 1];
      }
      assert Distinct(idxs[1..]) by {
        forall a, b | 0 <= a < b < |idxs[1..]|
          ensures idxs[1..][a] != idxs[1..][b]
        {
          assert idxs[1..][a] == idxs[a + 1] && idxs[1..][b] == idxs[b + 1];
        }
      }
      SweepCounts(job, t1, poll, es, idxs[1..]);
    }
  }

  /** One pass of the `while` loop. */
  function PollStep(job: Job, t: Tracker, poll: Poll): Tracker
    requires forall i | i in t.remaining :: i < |job.toks|
  {
    assert forall k | 0 <= k < |t.remaining| :: t.remaining[k] in t.remaining;
    Sweep(job, t, poll, poll.listing.GetOr([]), t.remaining)
  }

  /** The loop over the polls made before the deadline; it also stops once
      every token is retired. */
  function Loop(job: Job, t: Tracker, polls: seq<Poll>): (r: Tracker)
    requires Counted(job, t)
    decreases |polls|
  {
    if |polls| == 0 || |t.remaining| == 0 then t
    else
      SweepCounts(job, t, polls[0], polls[0].listing.GetOr([]), t.remaining);
      Loop(job, PollStep(job, t, polls[0]), polls[1..])
  }

  lemma {:induction false} LoopInv(job: Job, stamps: set<DateTime>, t: Tracker, polls: seq<Poll>)
    requires Inv(job, stamps, t)
    requires forall p | p in polls :: p.clock in stamps
    ensures Inv(job, stamps, Loop(job, t, polls))
    ensures t.processed <= Loop(job, t, polls).processed
    decreases |polls|
  {
    if |polls| > 0 && |t.remaining| > 0 {
      SweepInv(job, stamps, t, polls[0], polls[0].listing.GetOr([]), t.remaining);
      LoopInv(job, stamps, PollStep(job, t, polls[0]), polls[1..]);
    }
  }

  /** The token indices 0 .. n-1 in order. */
  function Range(n: nat): (r: seq<nat>)
    ensures |r| == n && forall i | 0 <= i < n :: r[i] == i
  {
    if n == 0 then [] else Range(n - 1) + [n - 1]
  }

  /** The job `rename_shot_files` sets up from its arguments: falsy
      experiment and stability time fall back to their defaults. */
  function MakeJob(outdir: string, tokens: seq<string>, shotnum: int, experiment: string,
                   stableS: real, eventStamp: Option<DateTime>): Job
  {
    Job(outdir, CleanTokens(tokens), shotnum, ExperimentName(experiment),
        if stableS == 0.0 then 0.3 else stableS, eventStamp)
  }

  function Start(job: Job, processed: set<string>): (t: Tracker)
    ensures forall i | i in t.remaining :: i < |job.toks|
    ensures Distinct(t.remaining) && |t.remaining| == |job.toks|
  {
    Tracker(Range(|job.toks|), map[], map[], map[], processed, [])
  }

  /** `rename_shot_files`: the renamed (source, destination) pairs and the
      updated processed set. An empty or missing output directory renames
      nothing; otherwise each token is renamed at most once, no file is
      renamed twice, and every destination is recorded as processed. */
  function RenameShotFiles(outdir: string, isDir: bool, tokens: seq<string>, shotnum: int,
                           experiment: string, stableS: real, processed: set<string>,
                           eventStamp: Option<DateTime>, polls: seq<Poll>): (r: (seq<(string, string)>, set<string>))
    ensures outdir == "" || !isDir ==> r == ([], processed)
    ensures processed <= r.1
    ensures |r.0| <= |CleanTokens(tokens)|
    ensures forall i | 0 <= i < |r.0| :: r.0[i].1 in r.1
    ensures forall i, j | 0 <= i < j < |r.0| :: r.0[i].0 != r.0[j].0
  {
    if outdir == "" || !isDir then ([], processed)
    else
      var job := MakeJob(outdir, tokens, shotnum, experiment, stableS, eventStamp);
      var t0 := Start(job, processed);
      LoopInv(job, set p | p in polls :: p.clock, t0, polls);
      var t := Loop(job, t0, polls);
      (t.pairs, t.processed)
  }

  /** Every destination is a canonical shot name for one of the cleaned
      tokens (or its `_dup` variant); with an event timestamp all of them
      carry that one stamp, otherwise each carries the clock of some poll. */
  lemma DestinationsAreShotNames(outdir: string, isDir: bool, tokens: seq<string>, shotnum: int,
                                 experiment: string, stableS: real, processed: set<string>,
                                 eventStamp: Option<DateTime>, polls: seq<Poll>, d: string)
    requires exists i | 0 <= i < |RenameShotFiles(outdir, isDir, tokens, shotnum, experiment, stableS, processed, eventStamp, polls).0| ::
      RenameShotFiles(outdir, isDir, tokens, shotnum, experiment, stableS, processed, eventStamp, polls).0[i].1 == d
    ensures var job := MakeJob(outdir, tokens, shotnum, experiment, stableS, eventStamp);
      if eventStamp.Some? then ShotDestination(job, eventStamp.value, d)
      else exists p | p in polls :: ShotDestination(job, p.clock, d)
  {
    var job := MakeJob(outdir, tokens, shotnum, experiment, stableS, eventStamp);
    var stamps := set p | p in polls :: p.clock;
    var t0 := Start(job, processed);
    LoopInv(job, stamps, t0, polls);
    var t := Loop(job, t0, polls);
    var i :| 0 <= i < |t.pairs| && t.pairs[i].1 == d;
    assert Stamped(job, stamps, d);
    if eventStamp.None? {
      var s :| s in stamps && ShotDestination(job, s, d);
      var p :| p in polls && p.clock == s;
    }
  }

  /** The older copy of `rename_shot_files`: the same loop, naming every
      file with the clock at the moment of its rename. */
  function LegacyRenameShotFiles(outdir: string, isDir: bool, tokens: seq<string>, shotnum: int,
                                 experiment: string, stableS: real, processed: set<string>,
                                 polls: seq<Poll>): (r: (seq<(string, string)>, set<string>))
    ensures outdir == "" || !isDir ==> r == ([], processed)
    ensures processed <= r.1
    ensures |r.0| <= |CleanTokens(tokens)|
    ensures forall i | 0 <= i < |r.0| :: r.0[i].1 in r.1
    ensures forall i, j | 0 <= i < j < |r.0| :: r.0[i].0 != r.0[j].0
  {
    RenameShotFiles(outdir, isDir, tokens, shotnum, experiment, stableS, processed, None, polls)
  }
}

=== FILE: sorting.dfy ===
/**
 Python's `sorted(xs, key=...)` / `list.sort(key=...)`: a stable sort.
 It is modelled as an insertion sort parameterised by the "not greater than"
 relation that the key induces, and proved to return a sorted permutation
 of its input that keeps equal-key elements in their original order.
 */
module Sorting {

  /** `le` is a total preorder: what comparing keys with `<` gives. */
  ghost predicate TotalPreorder<T(!new)>(le: (T, T) -> bool)
  {
    && (forall a, b :: le(a, b) || le(b, a))
    && (forall a, b, c :: le(a, b) && le(b, c) ==> le(a, c))
  }

  ghost predicate Sorted<T>(s: seq<T>, le: (T, T) -> bool)
  {
    forall i, j :: 0 <= i < j < |s| ==> le(s[i], s[j])
  }

  /** The elements of `s` whose key equals `a`'s, in order. */
  function Ties<T>(s: seq<T>, le: (T, T) -> bool, a: T): (r: seq<T>)
    ensures |r| <= |s|
  {
    if |s| == 0 then []
    else (if le(a, s[0]) && le(s[0], a) then [s[0]] else []) + Ties(s[1..], le, a)
  }

  /** Put `x` in front of the first element it is not greater than. */
  function Insert<T>(x: T, t: seq<T>, le: (T, T) -> bool): (r: seq<T>)
    ensures |r| == |t| + 1
    ensures multiset(r) == multiset(t) + multiset{x}
  {
    if |t| == 0 || le(x, t[0]) then [x] + t
    else
      assert t == [t[0]] + t[1..];
      [t[0]] + Insert(x, t[1..], le)
  }

  /** Stable sort: the first element of `s` goes before all of its ties. */
  function Sort<T>(s: seq<T>, le: (T, T) -> bool): (r: seq<T>)
    ensures |r| == |s|
    ensures multiset(r) == multiset(s)
  {
    if |s| == 0 then []
    else
      assert s == [s[0]] + s[1..];
      Insert(s[0], Sort(s[1..], le), le)
  }

  lemma {:induction false} InsertSorted<T(!new)>(x: T, t: seq<T>, le: (T, T) -> bool)
    requires TotalPreorder(le)
    requires Sorted(t, le)
    ensures Sorted(Insert(x, t, le), le)
    decreases |t|
  {
    if |t| > 0 && !le(x, t[0]) {
      InsertSorted(x, t[1..], le);
      var r := Insert(x, t, le);
      var tail := Insert(x, t[1..], le);
      assert r == [t[0]] + tail;
      assert multiset(tail) == multiset(t[1..]) + multiset{x};
      forall j | 0 < j < |r|
        ensures le(t[0], r[j])
      {
        assert r[j] in multiset(tail);
        if r[j] == x {
        } else {
          assert r[j] in multiset(t[1..]);
          var k :| 0 <= k < |t[1..]| && t[1..][k] == r[j];
          assert t[k + 1] == r[j];
        }
      }
    }
  }

  /** The result is in non-decreasing key order. */
  lemma {:induction false} SortSorted<T(!new)>(s: seq<T>, le: (T, T) -> bool)
    requires TotalPreorder(le)
    ensures Sorted(Sort(s, le), le)
    decreases |s|
  {
    if |s| > 0 {
      SortSorted(s[1..], le);
      InsertSorted(s[0], Sort(s[1..], le), le);
    }
  }

  /** Transitivity through `a`: whatever is below `a` is below whatever is
      above it. */
  ghost predicate TransThrough<T(!new)>(le: (T, T) -> bool, a: T)
  {
    forall b, c :: le(b, a) && le(a, c) ==> le(b, c)
  }

  lemma PreorderTransThrough<T(!new)>(le: (T, T) -> bool, a: T)
    requires TotalPreorder(le)
    ensures TransThrough(le, a)
  {
  }

  lemma {:induction false} InsertTies<T(!new)>(x: T, t: seq<T>, le: (T, T) -> bool, a: T)
    requires TransThrough(le, a)
    ensures Ties(Insert(x, t, le), le, a)
         == (if le(a, x) && le(x, a) then [x] else []) + Ties(t, le, a)
    decreases |t|
  {
    if |t| == 0 || le(x, t[0]) {
      assert ([x] + t)[1..] == t;
    } else {
      var tail := Insert(x, t[1..], le);
      InsertTies(x, t[1..], le, a);
      var r := Insert(x, t, le);
      assert r == [t[0]] + tail;
      var tx := le(a, x) && le(x, a);
      var t0 := le(a, t[0]) && le(t[0], a);
      // t[0] is strictly below x, so x and t[0] never both tie with a
      assert !(tx && t0);
      TiesCons(t[0], tail, le, a);
      assert t == [t[0]] + t[1..];
      TiesCons(t[0], t[1..], le, a);
    }
  }

  lemma TiesCons<T>(h: T, s: seq<T>, le: (T, T) -> bool, a: T)
    ensures Ties([h] + s, le, a) == (if le(a, h) && le(h, a) then [h] else []) + Ties(s, le, a)
  {
    assert ([h] + s)[1..] == s;
  }

  /** Stability: the elements with any given key keep their relative order. */
  lemma {:induction false} SortStable<T(!new)>(s: seq<T>, le: (T, T) -> bool, a: T)
    requires TotalPreorder(le)
    ensures Ties(Sort(s, le), le, a) == Ties(s, le, a)
    decreases |s|
  {
    if |s| > 0 {
      SortStable(s[1..], le, a);
      PreorderTransThrough(le, a);
      InsertTies(s[0], Sort(s[1..], le), le, a);
    }
  }

  /** Input that is already sorted comes back unchanged. */
  lemma {:induction false} SortOfSorted<T(!new)>(s: seq<T>, le: (T, T) -> bool)
    requires Sorted(s, le)
    ensures Sort(s, le) == s
    decreases |s|
  {
    if |s| > 0 {
      SortOfSorted(s[1..], le);
      var t := s[1..];
      assert |t| == 0 || le(s[0], t[0]);
      assert s == [s[0]] + t;
    }
  }
}

=== FILE: stage_control.dfy ===
/**
 The stage-control panel: a selector over the status panel's rows, the
 absolute-position, jog, bound and speed inputs, and the requests and log
 messages its buttons send. The panel shares its rows with the status panel,
 so a bound set here is written into the row's record.
 */
module StageControl {
  import opened Wrappers
  import opened Motors
  import opened MotorRows

  // ---------------------------------------------------------------------
  // Numeric inputs
  // ---------------------------------------------------------------------

  /** A numeric input box: its range, the number of decimals it shows and
      its value. */
  datatype Spin = Spin(lo: real, hi: real, decimals: nat, value: real)
  {
    /** The value lies in a non-empty range. */
    predicate Ok()
    {
      lo <= hi && lo <= value <= hi
    }
  }

  function Max(a: real, b: real): real
  {
    if a < b then b else a
  }

  /** Setting a value clamps it into the box's range. */
  function SetValue(s: Spin, v: real): (r: Spin)
    requires s.Ok()
    ensures r.Ok() && r.lo == s.lo && r.hi == s.hi && r.decimals == s.decimals
    ensures s.lo <= v <= s.hi ==> r.value == v
    ensures v < s.lo ==> r.value == s.lo
    ensures v > s.hi ==> r.value == s.hi
  {
    s.(value := Clamp(v, s.lo, s.hi))
  }

  /** A new range; a maximum below the minimum makes the minimum the only
      legal value, and the current value is clamped into the new range. */
  function SetRange(s: Spin, lo: real, hi: real): (r: Spin)
    ensures r.Ok() && r.lo == lo && r.decimals == s.decimals
    ensures lo <= hi ==> r.hi == hi
    ensures hi < lo ==> r.hi == lo && r.value == lo
    ensures lo <= s.value <= hi ==> r.value == s.value
  {
    var top := Max(lo, hi);
    s.(lo := lo, hi := top, value := Clamp(s.value, lo, top))
  }

  /** A new minimum; the maximum is raised to it when it was lower. */
  function SetMinimum(s: Spin, lo: real): (r: Spin)
    ensures r.Ok() && r.lo == lo && r.hi == Max(lo, s.hi)
  {
    SetRange(s, lo, Max(lo, s.hi))
  }

  /** A new maximum; the minimum is lowered to it when it was higher. */
  function SetMaximum(s: Spin, hi: real): (r: Spin)
    ensures r.Ok() && r.hi == hi
    ensures s.lo <= hi ==> r.lo == s.lo
  {
    SetRange(s, if s.lo <= hi then s.lo else hi, hi)
  }

  /** A box as built: range 0 to 99.99, two decimals, value 0. */
  const NewSpin := Spin(0.0, 99.99, 2, 0.0)

  // ---------------------------------------------------------------------
  // The panel
  // ---------------------------------------------------------------------

  /** The rows, the selected row, the five inputs and the unit labels (the
      four position-unit labels always carry the same text). */
  datatype Panel = Panel(
    rows: seq<Row>,
    current: int,
    abs: Spin,
    jog: Spin,
    lboundIn: Spin,
    uboundIn: Spin,
    speedIn: Spin,
    unitLabel: string,
    speedUnitLabel: string)
  {
    /** The selection names a row and every input holds a legal value. */
    predicate Valid()
    {
      && 0 <= current < |rows|
      && abs.Ok() && jog.Ok() && lboundIn.Ok() && uboundIn.Ok() && speedIn.Ok()
    }
  }

  /** Two decimals for a stage in degrees, four otherwise. */
  function Decimals(unit: string): (d: nat)
    ensures d == 2 <==> unit == "deg"
    ensures d == 2 || d == 4
  {
    if unit == "deg" then 2 else 4
  }

  /** `_on_selection_changed`: the selector's data names the row (0 when it
      has none); the labels take the row's units, the absolute input the
      range from the row's lower to its upper bound and the row's position,
      the jog input the range from 0 to the row's span. */
  function Select(p: Panel, data: Option<int>): (r: Panel)
    requires p.Valid()
    requires data.Some? ==> 0 <= data.value < |p.rows|
    ensures r.Valid()
    ensures r.current == data.GetOr(0)
    ensures var info := p.rows[r.current].info;
      && r.unitLabel == info.unit && r.speedUnitLabel == info.speedUnit
      && r.abs.lo == info.lbound && r.abs.hi == Max(info.lbound, info.ubound)
      && r.jog.lo == 0.0 && r.jog.hi == Max(0.0, info.span)
      && r.abs.decimals == Decimals(info.unit) && r.jog.decimals == Decimals(info.unit)
      && (info.lbound <= info.engValue <= info.ubound ==> r.abs.value == info.engValue)
    ensures r.rows == p.rows && r.lboundIn == p.lboundIn && r.uboundIn == p.uboundIn && r.speedIn == p.speedIn
  {
    var k := data.GetOr(0);
    var info := p.rows[k].info;
    var dec := Decimals(info.unit);
    var abs := SetRange(p.abs.(decimals := dec), info.lbound, info.ubound);
    var jog := SetRange(p.jog.(decimals := dec), 0.0, info.span);
    p.(current := k, unitLabel := info.unit, speedUnitLabel := info.speedUnit,
       abs := SetValue(abs, info.engValue), jog := jog)
  }

  /** Re-selecting the row already shown changes nothing more. */
  lemma SelectIdempotent(p: Panel, data: Option<int>)
    requires p.Valid()
    requires data.Some? ==> 0 <= data.value < |p.rows|
    ensures Select(Select(p, data), data) == Select(p, data)
  {
  }

  /** The panel as built over the status panel's rows: the first row
      selected, the jog step 0.01 clamped into the first row's span, the
      bound inputs at 0 and the speed input at its minimum 0.01. */
  function Init(rows: seq<Row>): (r: Panel)
    requires |rows| > 0
    ensures r.Valid() && r.rows == rows && r.current == 0
    ensures r.lboundIn.value == 0.0 && r.uboundIn.value == 0.0 && r.speedIn.value == 0.01
    ensures r.lboundIn.lo == -99999.0 && r.lboundIn.hi == 99999.0
    ensures r.uboundIn.lo == -99999.0 && r.uboundIn.hi == 99999.0
    ensures r.speedIn.lo == 0.01 && r.speedIn.hi == 1000.0 && r.speedIn.decimals == 2
  {
    var abs := SetMaximum(SetMinimum(NewSpin.(decimals := 4), 0.0), 99999.0);
    var jog := SetValue(SetMaximum(SetMinimum(NewSpin.(decimals := 4), 0.0001), 99999.0), 0.01);
    var lb := SetMaximum(SetMinimum(NewSpin.(decimals := 4), -99999.0), 99999.0);
    var ub := SetMaximum(SetMinimum(NewSpin.(decimals := 4), -99999.0), 99999.0);
    var sp := SetMaximum(SetMinimum(NewSpin, 0.01), 1000.0);
    var p := Panel(rows, 0, abs, jog, lb, ub, sp, rows[0].info.unit, rows[0].info.speedUnit);
    Select(p, Some(0))
  }

  // ---------------------------------------------------------------------
  // Requests and messages
  // ---------------------------------------------------------------------

  /** The requests the panel sends to the stage workers, by row number. */
  datatype Request =
    | Home(index: int)
    | MoveAbsolute(index: int, value: real)
    | MoveDelta(index: int, delta: real)
    | SetLower(index: int, value: real)
    | SetUpper(index: int, value: real)
    | SetSpeed(index: int, value: real)

  /** The log line each button writes, with its numbers kept as formats. */
  datatype Message =
    | MoveMsg(verb: string, short: string, idx: int, num: int, value: Number, unit: string)
    | BoundMsg(upper: bool, short: string, index: int, value: Number, unit: string)
    | SpeedMsg(short: string, index: int, value: Number, unit: string)

  /** What a button press leaves behind. */
  datatype Step = Step(panel: Panel, request: Request, message: Message)

  /** `_emit_move`: two decimals for degrees, six otherwise; the row number
      and the zero-based index derived from it. */
  function MoveMessage(row: Row, value: real, verb: string): (m: Message)
    ensures m.MoveMsg? && m.verb == verb && m.short == row.info.short && m.unit == row.info.unit
    ensures m.num == row.index && m.idx == m.num - 1
    ensures m.value == Fixed(value, if row.info.unit == "deg" then 2 else 6)
  {
    MoveMsg(verb, row.info.short, row.index - 1, row.index,
            Fixed(value, if row.info.unit == "deg" then 2 else 6), row.info.unit)
  }

  /** `_home`: homes the selected row. */
  function PressHome(p: Panel): (r: Step)
    requires p.Valid()
    ensures r.panel == p
    ensures r.request == Home(p.rows[p.current].index)
    ensures r.message.MoveMsg? && r.message.verb == "Home" && r.message.value.Fixed? && r.message.value.x == 0.0
  {
    var row := p.rows[p.current];
    Step(p, Home(row.index), MoveMessage(row, 0.0, "Home"))
  }

  /** `_move_absolute`: the target is the absolute input's value, which the
      selection clamped to the row's bounds. */
  function PressAbsolute(p: Panel): (r: Step)
    requires p.Valid()
    ensures r.panel == p
    ensures r.request.MoveAbsolute? && r.request.index == p.rows[p.current].index
    ensures p.abs.lo <= r.request.value <= p.abs.hi
    ensures r.message.MoveMsg? && r.message.value.Fixed? && r.message.value.x == r.request.value
  {
    var row := p.rows[p.current];
    var v := p.abs.value;
    Step(p, MoveAbsolute(row.index, v), MoveMessage(row, v, "Move"))
  }

  /** `_jog`: the step is the jog input times the direction; the message
      carries the row's current position. */
  function Jog(p: Panel, direction: int): (r: Step)
    requires p.Valid()
    ensures r.panel == p
    ensures r.request == MoveDelta(p.rows[p.current].index, p.jog.value * direction as real)
    ensures r.message.MoveMsg? && r.message.verb == "Jog" && r.message.value.Fixed? && r.message.value.x == p.rows[p.current].info.engValue
  {
    var row := p.rows[p.current];
    Step(p, MoveDelta(row.index, p.jog.value * direction as real), MoveMessage(row, row.info.engValue, "Jog"))
  }

  /** Whenever the jog input keeps its non-negative range (as every
      selection leaves it), Forward never moves back and Back never moves
      forward, and both move by the same amount. */
  lemma JogDirection(p: Panel)
    requires p.Valid() && p.jog.lo >= 0.0
    ensures Jog(p, 1).request.delta >= 0.0
    ensures Jog(p, -1).request.delta <= 0.0
    ensures Jog(p, -1).request.delta == -Jog(p, 1).request.delta
  {
  }

  /** The jog range a selection sets is never negative. */
  lemma SelectJogNonNegative(p: Panel, data: Option<int>)
    requires p.Valid()
    requires data.Some? ==> 0 <= data.value < |p.rows|
    ensures Select(p, data).jog.lo >= 0.0
    ensures Jog(Select(p, data), 1).request.delta >= 0.0
  {
  }

  // ---------------------------------------------------------------------
  // Bounds and speed
  // ---------------------------------------------------------------------

  /** The value `_set_lbound` stores: the input, or 0.01 below the upper
      bound when the input would reach it. */
  function LowerValue(input: real, ubound: real): (v: real)
    ensures v < ubound
    ensures input < ubound ==> v == input
  {
    if input >= ubound then ubound - 0.01 else input
  }

  /** The value `_set_ubound` stores: the input, or 0.01 above the lower
      bound when the input would not exceed it. */
  function UpperValue(input: real, lbound: real): (v: real)
    ensures v > lbound
    ensures input > lbound ==> v == input
  {
    if input <= lbound then lbound + 0.01 else input
  }

  /** `_set_lbound`: the adjusted value becomes the selected row's lower
      bound (nothing else in the row, its bar included, is refreshed), is
      sent as the request and written back into the input. */
  function SetLbound(p: Panel): (r: Step)
    requires p.Valid()
    ensures r.panel.Valid() && r.panel.current == p.current && |r.panel.rows| == |p.rows|
    ensures var k := p.current; var info := p.rows[k].info;
      && r.panel.rows[k].info.lbound < r.panel.rows[k].info.ubound
      && r.panel.rows[k] == p.rows[k].(info := info.(lbound := r.panel.rows[k].info.lbound))
      && (p.lboundIn.value < info.ubound ==> r.panel.rows[k].info.lbound == p.lboundIn.value)
      && r.request == SetLower(p.rows[k].index, r.panel.rows[k].info.lbound)
      && r.message == BoundMsg(false, info.short, p.rows[k].index, Fixed(r.request.value, 4), info.unit)
    ensures forall i | 0 <= i < |p.rows| && i != p.current :: r.panel.rows[i] == p.rows[i]
    ensures r.panel == p.(rows := r.panel.rows, lboundIn := r.panel.lboundIn)
  {
    var k := p.current;
    var row := p.rows[k];
    var v := LowerValue(p.lboundIn.value, row.info.ubound);
    var row' := row.(info := row.info.(lbound := v));
    Step(p.(rows := p.rows[k := row'], lboundIn := SetValue(p.lboundIn, v)),
         SetLower(row.index, v),
         BoundMsg(false, row.info.short, row.index, Fixed(v, 4), row.info.unit))
  }

  /** `_set_ubound`: the mirror image of `_set_lbound` for the upper bound. */
  function SetUbound(p: Panel): (r: Step)
    requires p.Valid()
    ensures r.panel.Valid() && r.panel.current == p.current && |r.panel.rows| == |p.rows|
    ensures var k := p.current; var info := p.rows[k].info;
      && r.panel.rows[k].info.lbound < r.panel.rows[k].info.ubound
      && r.panel.rows[k] == p.rows[k].(info := info.(ubound := r.panel.rows[k].info.ubound))
      && (p.uboundIn.value > info.lbound ==> r.panel.rows[k].info.ubound == p.uboundIn.value)
      && r.request == SetUpper(p.rows[k].index, r.panel.rows[k].info.ubound)
      && r.message == BoundMsg(true, info.short, p.rows[k].index, Fixed(r.request.value, 4), info.unit)
    ensures forall i | 0 <= i < |p.rows| && i != p.current :: r.panel.rows[i] == p.rows[i]
    ensures r.panel == p.(rows := r.panel.rows, uboundIn := r.panel.uboundIn)
  {
    var k := p.current;
    var row := p.rows[k];
    var v := UpperValue(p.uboundIn.value, row.info.lbound);
    var row' := row.(info := row.info.(ubound := v));
    Step(p.(rows := p.rows[k := row'], uboundIn := SetValue(p.uboundIn, v)),
         SetUpper(row.index, v),
         BoundMsg(true, row.info.short, row.index, Fixed(v, 4), row.info.unit))
  }

  /** `_set_speed`: sends the speed input's value; nothing is stored. */
  function PressSpeed(p: Panel): (r: Step)
    requires p.Valid()
    ensures r.panel == p
    ensures r.request == SetSpeed(p.rows[p.current].index, p.speedIn.value)
    ensures p.speedIn.lo <= r.request.value <= p.speedIn.hi
    ensures r.message == SpeedMsg(p.rows[p.current].info.short, p.rows[p.current].index,
                                  Fixed(p.speedIn.value, 2), p.rows[p.current].info.speedUnit)
  {
    var row := p.rows[p.current];
    Step(p, SetSpeed(row.index, p.speedIn.value),
         SpeedMsg(row.info.short, row.index, Fixed(p.speedIn.value, 2), row.info.speedUnit))
  }

  /** Pressing "Set Lower Bound" twice in a row stores the same bound as
      pressing it once, when the input box can hold the stored value. */
  lemma SetLboundIdempotent(p: Panel)
    requires p.Valid()
    requires p.lboundIn.lo <= p.rows[p.current].info.ubound - 0.01
    ensures var once := SetLbound(p);
      SetLbound(once.panel).panel.rows == once.panel.rows
  {
  }

  /** The two setters, in either order, leave the row's bounds ordered. */
  lemma BoundsStayOrdered(p: Panel)
    requires p.Valid()
    ensures var q := SetUbound(SetLbound(p).panel).panel;
      q.rows[q.current].info.lbound < q.rows[q.current].info.ubound
    ensures var q := SetLbound(SetUbound(p).panel).panel;
      q.rows[q.current].info.lbound < q.rows[q.current].info.ubound
  {
  }

  /** A bound set here leaves the shared row's bar as it was, so the bar no
      longer follows the record once the bound moves past the position. */
  lemma SetLboundStaleBar(p: Panel)
    requires p.Valid() && Shows(p.rows[p.current])
    requires var info := p.rows[p.current].info;
      info.engValue < p.lboundIn.value < info.ubound && info.lbound < info.engValue
    ensures var q := SetLbound(p).panel;
      q.rows[q.current].bar == p.rows[p.current].bar
    ensures var q := SetLbound(p).panel;
      Progress(q.rows[q.current].info.lbound, q.rows[q.current].info.ubound, q.rows[q.current].info.engValue) == 0
  {
  }
}

=== FILE: stage_events.dfy ===
/**
 What the Zaber stage workers exchange with the outside world: commands sent
 to a device, and the signals they emit to the panels (log text left out).
 Device replies are explicit inputs of each slot.
 */
module StageEvents {

  /** The unit argument passed to the motion library. */
  datatype DevUnit = Native | Millimetres | Degrees | MillimetresPerSecond | DegreesPerSecond

  datatype Cmd =
    | MoveAbs(target: real, u: DevUnit)
    | MoveRel(delta: real, u: DevUnit)
    | HomeCmd
    | StopCmd(u: DevUnit)
    | SetSpeed(v: real, u: DevUnit)
    | SetMin(v: real, u: DevUnit)
    | SetMax(v: real, u: DevUnit)

  datatype Event =
    | Error
    | Moving(addr: int, on: bool)
    | Position(addr: int, steps: real, pos: real)
    | Moved(addr: int, pos: real)
    | Homed(addr: int)
    | Speed(addr: int, v: real)
    | Bounds(addr: int, min: real, max: real)

  /** A position read back from a device: native steps and engineering value. */
  datatype Reading = Reading(steps: real, pos: real)

  /** Commands sent and signals emitted by one slot, each in order. */
  datatype Out = Out(cmds: seq<Cmd>, events: seq<Event>)

  /** Position and limit unit: "mm" selects millimetres, any other text degrees. */
  function LengthOrAngle(unit: string): (u: DevUnit)
    ensures u == Millimetres <==> unit == "mm"
    ensures u != Millimetres ==> u == Degrees
  {
    if unit == "mm" then Millimetres else Degrees
  }

  /** The unit `stop` passes: millimetres, degrees, or native steps. */
  function StopUnit(unit: string): (u: DevUnit)
    ensures unit == "mm" ==> u == Millimetres
    ensures unit == "deg" ==> u == Degrees
    ensures unit != "mm" && unit != "deg" ==> u == Native
  {
    if unit == "mm" then Millimetres else if unit == "deg" then Degrees else Native
  }

  /** `moving(addr, True)` first and `moving(addr, False)` last. */
  predicate Bracketed(ev: seq<Event>, addr: int)
  {
    |ev| >= 2 && ev[0] == Moving(addr, true) && ev[|ev| - 1] == Moving(addr, false)
  }
}

=== FILE: wrappers.dfy ===
/** Small wrapper types shared by every module of the model. */
module Wrappers {

  /** A value that may be absent: a failed widget read, a missing JSON key. */
  datatype Option<T> = None | Some(value: T)
  {
    predicate IsSome() { this.Some? }

    function GetOr(default: T): (r: T)
      ensures this.Some? ==> r == value
      ensures this.None? ==> r == default
    {
      match this
      case None => default
      case Some(v) => v
    }
  }
}

=== FILE: zaber_ascii.dfy ===
/**
 The non-blocking Zaber ASCII worker: motion slots return at once and a
 per-address poll timer ends the motion when axis 1 reports not busy. The
 ASCII protocol gives no step count, so position signals carry 0.0 steps.
 */
module ZaberAscii {
  import opened Wrappers
  import opened StageEvents

  /** Connection flag and the unit each polled address was started with. */
  datatype Worker = Worker(connected: bool, polls: map<int, string>)

  function StartPoll(w: Worker, addr: int, unit: string): (r: Worker)
    ensures addr in w.polls ==> r == w
    ensures addr !in w.polls ==> r.polls == w.polls[addr := unit]
    ensures r.connected == w.connected
  {
    if addr in w.polls then w else w.(polls := w.polls[addr := unit])
  }

  function StopPoll(w: Worker, addr: int): (r: Worker)
    ensures addr !in r.polls && r.connected == w.connected
    ensures forall a | a != addr :: (a in r.polls <==> a in w.polls) && (a in w.polls ==> r.polls[a] == w.polls[a])
  {
    w.(polls := w.polls - {addr})
  }

  /** `_poll_once`: `first` is the live position read, `busy` the busy
      query, `final` the position read when finishing; `None` means raised.
      Unlike the binary worker, a failed busy query ends the motion with an
      error. */
  function PollOnce(w: Worker, addr: int, first: Option<real>, busy: Option<bool>, final: Option<real>)
    : (r: (Worker, seq<Event>))
    ensures (addr in r.0.polls) == (addr in w.polls && w.connected && first.Some? && busy == Some(true))
    ensures w.connected && first.Some? && busy == Some(true) ==> r == (w, [Position(addr, 0.0, first.value)])
    ensures w.connected && first.Some? && busy == Some(false) && final.Some? ==>
      r.1 == [Position(addr, 0.0, first.value), Moved(addr, final.value), Moving(addr, false)]
    ensures !(w.connected && first.Some? && busy == Some(true)) ==>
      r.0 == StopPoll(w, addr) && |r.1| > 0 && r.1[|r.1| - 1] == Moving(addr, false)
    ensures forall e | e in r.1 && e.Position? :: e.steps == 0.0
  {
    if !w.connected || first.None? then (StopPoll(w, addr), [Error, Moving(addr, false)])
    else
      var live := [Position(addr, 0.0, first.value)];
      match busy
      case None => (StopPoll(w, addr), live + [Error, Moving(addr, false)])
      case Some(true) => (w, live)
      case Some(false) =>
        match final
        case None => (StopPoll(w, addr), live + [Error, Moving(addr, false)])
        case Some(f) => (StopPoll(w, addr), live + [Moved(addr, f), Moving(addr, false)])
  }

  /** Shared tail of the motion slots: moving True and polling after the
      command returned, moving False after an exception. */
  function Launch(w: Worker, addr: int, unit: string, cmd: Cmd, ok: bool): (r: (Worker, Out))
  {
    if ok then (StartPoll(w, addr, unit), Out([cmd], [Moving(addr, true)]))
    else (w, Out([cmd], [Error, Moving(addr, false)]))
  }

  function MoveAbsolute(w: Worker, addr: int, target: real, unit: string, ok: bool): (r: (Worker, Out))
    ensures !w.connected ==> r == (w, Out([], [Error]))
    ensures w.connected ==> r.1.cmds == [MoveAbs(target, LengthOrAngle(unit))]
    ensures w.connected && ok ==> r.0 == StartPoll(w, addr, unit) && r.1.events == [Moving(addr, true)]
    ensures w.connected && !ok ==> r.0 == w && r.1.events == [Error, Moving(addr, false)]
  {
    if !w.connected then (w, Out([], [Error]))
    else Launch(w, addr, unit, MoveAbs(target, LengthOrAngle(unit)), ok)
  }

  /** `move_delta` is a relative move of the delta itself. */
  function MoveDelta(w: Worker, addr: int, delta: real, unit: string, ok: bool): (r: (Worker, Out))
    ensures !w.connected ==> r == (w, Out([], [Error]))
    ensures w.connected ==> r.1.cmds == [MoveRel(delta, LengthOrAngle(unit))]
    ensures w.connected && ok ==> r.0 == StartPoll(w, addr, unit) && r.1.events == [Moving(addr, true)]
    ensures w.connected && !ok ==> r.0 == w && r.1.events == [Error, Moving(addr, false)]
  {
    if !w.connected then (w, Out([], [Error]))
    else Launch(w, addr, unit, MoveRel(delta, LengthOrAngle(unit)), ok)
  }

  /** `home` polls in millimetres. */
  function Home(w: Worker, addr: int, ok: bool): (r: (Worker, Out))
    ensures !w.connected ==> r == (w, Out([], [Error]))
    ensures w.connected && ok ==> r.0 == StartPoll(w, addr, "mm") && r.1 == Out([HomeCmd], [Moving(addr, true)])
    ensures w.connected && !ok ==> r.0 == w && r.1.events == [Error, Moving(addr, false)]
  {
    if !w.connected then (w, Out([], [Error]))
    else Launch(w, addr, "mm", HomeCmd, ok)
  }

  /** `stop` only requests the stop: polling continues and the poller
      reports the end of motion. */
  function Stop(w: Worker, addr: int, ok: bool): (r: (Worker, Out))
    ensures r.0 == w
    ensures forall e | e in r.1.events :: e == Error
    ensures !w.connected ==> r.1 == Out([], [Error])
    ensures w.connected ==> r.1.cmds == [StopCmd(Native)] && (Error in r.1.events <==> !ok)
  {
    if !w.connected then (w, Out([], [Error]))
    else if ok then (w, Out([StopCmd(Native)], []))
    else (w, Out([StopCmd(Native)], [Error]))
  }

  /** After a stop request on a moving address, the first poll that sees the
      axis idle ends the motion with its final position. */
  lemma StopThenIdlePoll(w: Worker, addr: int, pos: real, fin: real)
    requires w.connected && addr in w.polls
    ensures var (w1, _) := Stop(w, addr, true);
      var (w2, ev) := PollOnce(w1, addr, Some(pos), Some(false), Some(fin));
      && addr in w1.polls
      && addr !in w2.polls
      && ev[|ev| - 2..] == [Moved(addr, fin), Moving(addr, false)]
  {
  }
}

=== FILE: zaber_blocking.dfy ===
/**
 The blocking Zaber binary worker: every motion slot sends its command,
 waits until the axis is idle and reads the position back, all inside one
 slot call. `connected` stands for `conn is not None`; a reply of `None`
 stands for a library call that raised.
 */
module ZaberBlocking {
  import opened Wrappers
  import opened StageEvents

  /** `move_absolute`: bracketed by moving True/False on every path; the
      position and `moved` follow only a move that completed. */
  function MoveAbsolute(connected: bool, addr: int, target: real, unit: string, res: Option<Reading>): (o: Out)
    ensures Bracketed(o.events, addr)
    ensures !connected ==> o == Out([], [Moving(addr, true), Error, Moving(addr, false)])
    ensures connected ==> o.cmds == [MoveAbs(target, LengthOrAngle(unit))]
    ensures connected && res.Some? ==>
      o.events == [Moving(addr, true), Position(addr, res.value.steps, res.value.pos),
                   Moved(addr, res.value.pos), Moving(addr, false)]
    ensures res.None? ==> forall e | e in o.events :: !e.Moved? && !e.Position?
  {
    var body :=
      if !connected then Out([], [Error])
      else
        var cmd := [MoveAbs(target, LengthOrAngle(unit))];
        match res
        case None => Out(cmd, [Error])
        case Some(r) => Out(cmd, [Position(addr, r.steps, r.pos), Moved(addr, r.pos)]);
    Out(body.cmds, [Moving(addr, true)] + body.events + [Moving(addr, false)])
  }

  /** `home`: bracketed; `homed` only when homing returned. */
  function Home(connected: bool, addr: int, ok: bool): (o: Out)
    ensures Bracketed(o.events, addr)
    ensures Homed(addr) in o.events <==> connected && ok
    ensures !connected ==> o == Out([], [Moving(addr, true), Error, Moving(addr, false)])
    ensures connected ==> o.cmds == [HomeCmd] && |o.events| == 3
    ensures connected && !ok ==> o.events[1] == Error
  {
    var body :=
      if !connected then Out([], [Error])
      else if ok then Out([HomeCmd], [Homed(addr)])
      else Out([HomeCmd], [Error]);
    Out(body.cmds, [Moving(addr, true)] + body.events + [Moving(addr, false)])
  }

  /** `move_delta`: an absolute move to the current position plus the delta,
      bracketed like `move_absolute`. `cur` is the position read first. */
  function MoveDelta(connected: bool, addr: int, delta: real, unit: string,
                     cur: Option<real>, res: Option<Reading>): (o: Out)
    ensures Bracketed(o.events, addr)
    ensures connected && cur.Some? ==> o.cmds == [MoveAbs(cur.value + delta, LengthOrAngle(unit))]
    ensures !(connected && cur.Some?) ==> o.cmds == []
    ensures (exists p :: Moved(addr, p) in o.events) <==> connected && cur.Some? && res.Some?
  {
    var body :=
      if !connected then Out([], [Error])
      else
        match cur
        case None => Out([], [Error])
        case Some(c) =>
          var cmd := [MoveAbs(c + delta, LengthOrAngle(unit))];
          match res
          case None => Out(cmd, [Error])
          case Some(r) => Out(cmd, [Position(addr, r.steps, r.pos), Moved(addr, r.pos)]);
    var o := Out(body.cmds, [Moving(addr, true)] + body.events + [Moving(addr, false)]);
    assert connected && cur.Some? && res.Some? ==> Moved(addr, res.value.pos) == o.events[2];
    o
  }

  /** `stop`: position, `moved` and moving False on success, an error alone
      otherwise. */
  function Stop(connected: bool, addr: int, unit: string, res: Option<Reading>): (o: Out)
    ensures !connected ==> o == Out([], [Error])
    ensures connected ==> o.cmds == [StopCmd(StopUnit(unit))]
    ensures connected && res.Some? ==>
      o.events == [Position(addr, res.value.steps, res.value.pos), Moved(addr, res.value.pos), Moving(addr, false)]
    ensures !(connected && res.Some?) ==> o.events == [Error]
  {
    if !connected then Out([], [Error])
    else
      var cmd := [StopCmd(StopUnit(unit))];
      match res
      case None => Out(cmd, [Error])
      case Some(r) => Out(cmd, [Position(addr, r.steps, r.pos), Moved(addr, r.pos), Moving(addr, false)])
  }

  /** `set_target_speed`: acts for "mm/s" and "deg/s" only. `setOk` is the
      outcome of the set; `readBack` is `None` when the read raised, else the
      value read (`Some(None)` when the library returned nothing). */
  function SetTargetSpeed(connected: bool, addr: int, v: real, unit: string,
                          setOk: bool, readBack: Option<Option<real>>): (o: Out)
    ensures !connected ==> o == Out([], [Error])
    ensures connected && unit != "mm/s" && unit != "deg/s" ==> o == Out([], [])
    ensures connected && (unit == "mm/s" || unit == "deg/s") ==>
      |o.events| <= 1 && (o.events == [Error] <==> !setOk || readBack.None?)
    ensures connected && unit == "mm/s" ==> o.cmds == [SetSpeed(v, MillimetresPerSecond)]
    ensures connected && unit == "deg/s" ==> o.cmds == [SetSpeed(v, DegreesPerSecond)]
    ensures (exists s :: Speed(addr, s) in o.events) <==>
      connected && (unit == "mm/s" || unit == "deg/s") && setOk && readBack.Some? && readBack.value.Some?
  {
    if !connected then Out([], [Error])
    else if unit != "mm/s" && unit != "deg/s" then Out([], [])
    else
      var u := if unit == "mm/s" then MillimetresPerSecond else DegreesPerSecond;
      var cmd := [SetSpeed(v, u)];
      if !setOk then Out(cmd, [Error])
      else
        match readBack
        case None => Out(cmd, [Error])
        case Some(None) => Out(cmd, [])
        case Some(Some(ts)) =>
          var o := Out(cmd, [Speed(addr, ts)]);
          assert Speed(addr, ts) in o.events;
          o
  }

  /** `set_lower_limit`: no fallback; both limits must read back. */
  function SetLowerLimit(connected: bool, addr: int, value: real, unit: string, setOk: bool,
                         minRead: Option<real>, maxRead: Option<real>): (o: Out)
    ensures !connected ==> o == Out([], [Error])
    ensures connected ==> o.cmds == [SetMin(value, LengthOrAngle(unit))]
    ensures connected && setOk && minRead.Some? && maxRead.Some? ==>
      o.events == [Bounds(addr, minRead.value, maxRead.value)]
    ensures !(connected && setOk && minRead.Some? && maxRead.Some?) ==> o.events == [Error]
  {
    if !connected then Out([], [Error])
    else
      var cmd := [SetMin(value, LengthOrAngle(unit))];
      if setOk && minRead.Some? && maxRead.Some? then Out(cmd, [Bounds(addr, minRead.value, maxRead.value)])
      else Out(cmd, [Error])
  }

  /** `set_upper_limit`: a failed minimum read reports an error and falls
      back to 0.0, and the bounds are still emitted. */
  function SetUpperLimit(connected: bool, addr: int, value: real, unit: string, setOk: bool,
                         maxRead: Option<real>, minRead: Option<real>): (o: Out)
    ensures !connected ==> o == Out([], [Error])
    ensures connected ==> o.cmds == [SetMax(value, LengthOrAngle(unit))]
    ensures connected && setOk && maxRead.Some? ==>
      |o.events| > 0 && o.events[|o.events| - 1] == Bounds(addr, minRead.GetOr(0.0), maxRead.value)
      && (Error in o.events <==> minRead.None?)
    ensures !(connected && setOk && maxRead.Some?) ==> o.events == [Error]
  {
    if !connected then Out([], [Error])
    else
      var cmd := [SetMax(value, LengthOrAngle(unit))];
      if !setOk || maxRead.None? then Out(cmd, [Error])
      else
        var bounds := [Bounds(addr, minRead.GetOr(0.0), maxRead.value)];
        Out(cmd, (if minRead.None? then [Error] else []) + bounds)
  }

  /** `get_limits`: the same minimum fallback; a failed maximum read ends
      the slot with an error. */
  function GetLimits(connected: bool, addr: int, minRead: Option<real>, maxRead: Option<real>): (o: Out)
    ensures o.cmds == []
    ensures connected && maxRead.Some? ==>
      |o.events| > 0 && o.events[|o.events| - 1] == Bounds(addr, minRead.GetOr(0.0), maxRead.value)
      && (Error in o.events <==> minRead.None?)
    ensures !(connected && maxRead.Some?) ==> forall e | e in o.events :: e == Error
    ensures !connected ==> o == Out([], [Error])
    ensures connected && maxRead.None? ==> |o.events| == (if minRead.None? then 2 else 1) && Error in o.events
  {
    if !connected then Out([], [Error])
    else
      var pre := if minRead.None? then [Error] else [];
      match maxRead
      case None => Out([], pre + [Error])
      case Some(mx) => Out([], pre + [Bounds(addr, minRead.GetOr(0.0), mx)])
  }
}

=== FILE: zaber_poll.dfy ===
/**
 The polling Zaber binary worker: motion slots send their command and
 return at once; a per-address poll timer then reads the position, asks
 the device whether it is busy, and declares the motion finished when it
 is not busy or the position has not changed for two consecutive polls.
 */
module ZaberPoll {
  import opened Wrappers
  import opened StageEvents

  /** Threshold below which two readings count as the same position. */
  const Eps: real := 0.000000001

  /** Consecutive unchanged polls that end a motion. */
  const NeedStable: nat := 2

  /** Per-address poll state: the unit captured by the timer, the last
      position seen and the count of consecutive unchanged polls. */
  datatype Poller = Poller(unit: string, last: Option<real>, stable: nat)

  datatype Worker = Worker(connected: bool, polls: map<int, Poller>)

  function Abs(x: real): real { if x < 0.0 then -x else x }

  /** `_start_poll`: register a fresh poller unless one is already running. */
  function StartPoll(w: Worker, addr: int, unit: string): (r: Worker)
    ensures addr in w.polls ==> r == w
    ensures addr !in w.polls ==> r.polls == w.polls[addr := Poller(unit, None, 0)]
    ensures r.connected == w.connected && addr in r.polls
  {
    if addr in w.polls then w else w.(polls := w.polls[addr := Poller(unit, None, 0)])
  }

  /** `_stop_poll`: forget this address and nothing else. */
  function StopPoll(w: Worker, addr: int): (r: Worker)
    ensures addr !in r.polls && r.connected == w.connected
    ensures forall a | a != addr :: (a in r.polls <==> a in w.polls) && (a in w.polls ==> r.polls[a] == w.polls[a])
  {
    w.(polls := w.polls - {addr})
  }

  lemma StartPollIdempotent(w: Worker, addr: int, u1: string, u2: string)
    ensures StartPoll(StartPoll(w, addr, u1), addr, u2) == StartPoll(w, addr, u1)
  {
  }

  /** `_is_busy_binary`: a query that raised counts as busy. */
  function IsBusy(reply: Option<bool>): (b: bool)
    ensures reply.None? ==> b
    ensures reply.Some? ==> b == reply.value
  {
    reply.GetOr(true)
  }

  /** The stable counter after seeing `pos`. */
  function NextStable(p: Poller, pos: real): (n: nat)
    ensures n > 0 <==> p.last.Some? && Abs(pos - p.last.value) < Eps
    ensures n > 0 ==> n == p.stable + 1
  {
    if p.last.Some? && Abs(pos - p.last.value) < Eps then p.stable + 1 else 0
  }

  /** Whether this poll finishes the motion. */
  predicate Finishes(busy: bool, stable: nat)
  {
    !busy || stable >= NeedStable
  }

  /** The exception path of a poll: error, stop polling, moving False. */
  function Abort(w: Worker, addr: int, pre: seq<Event>): (Worker, seq<Event>)
  {
    (StopPoll(w, addr), pre + [Error, Moving(addr, false)])
  }

  /** `_poll_once` for a polled address. `first` and `final` are the two
      position reads (the second only when finishing), `busy` the busy query;
      `None` means the call raised. */
  function PollOnce(w: Worker, addr: int, first: Option<Reading>, busy: Option<bool>, final: Option<Reading>)
    : (r: (Worker, seq<Event>))
    requires addr in w.polls
    ensures (addr in r.0.polls) == (w.connected && first.Some?
                                    && !Finishes(IsBusy(busy), NextStable(w.polls[addr], first.value.pos)))
    ensures addr in r.0.polls ==>
      && r.0.polls[addr] == w.polls[addr].(last := Some(first.value.pos),
                                           stable := NextStable(w.polls[addr], first.value.pos))
      && r.1 == [Position(addr, first.value.steps, first.value.pos)]
    ensures addr !in r.0.polls ==> |r.1| > 0 && r.1[|r.1| - 1] == Moving(addr, false)
    ensures addr !in r.0.polls && final.Some? && Error !in r.1 ==>
      |r.1| >= 2 && r.1[|r.1| - 2] == Moved(addr, final.value.pos)
    ensures forall a | a != addr :: (a in r.0.polls <==> a in w.polls) && (a in w.polls ==> r.0.polls[a] == w.polls[a])
    ensures r.0.connected == w.connected
  {
    if !w.connected || first.None? then Abort(w, addr, [])
    else
      var p := w.polls[addr];
      var pos := first.value.pos;
      var live := [Position(addr, first.value.steps, pos)];
      var p' := p.(last := Some(pos), stable := NextStable(p, pos));
      var w' := w.(polls := w.polls[addr := p']);
      if Finishes(IsBusy(busy), p'.stable) then
        match final
        case None => Abort(w', addr, live)
        case Some(f) =>
          (StopPoll(w', addr), live + [Position(addr, f.steps, f.pos), Moved(addr, f.pos), Moving(addr, false)])
      else (w', live)
  }

  /** A poll announces the end of motion exactly when it stops polling the
      address, and a poll that keeps polling announces nothing else. */
  lemma PollMovingIffStopped(w: Worker, addr: int, first: Option<Reading>, busy: Option<bool>, final: Option<Reading>)
    requires addr in w.polls
    ensures var r := PollOnce(w, addr, first, busy, final);
      (Moving(addr, false) in r.1 <==> addr !in r.0.polls)
      && forall b :: Moving(addr, b) in r.1 ==> !b
  {
  }

  /** With the busy query failing every time, a stage that has stopped is
      finished by the third poll: the first sees no previous position, the
      next two see it unchanged. */
  lemma {:induction false} ThreeStillPollsFinish(w: Worker, addr: int, unit: string, rd: Reading, fin: Reading)
    requires w.connected && addr !in w.polls
    ensures var w0 := StartPoll(w, addr, unit);
      var (w1, _) := PollOnce(w0, addr, Some(rd), None, Some(fin));
      && addr in w1.polls
      && var (w2, _) := PollOnce(w1, addr, Some(rd), None, Some(fin));
      && addr in w2.polls
      && var (w3, ev3) := PollOnce(w2, addr, Some(rd), None, Some(fin));
      && addr !in w3.polls
      && ev3 == [Position(addr, rd.steps, rd.pos), Position(addr, fin.steps, fin.pos),
                 Moved(addr, fin.pos), Moving(addr, false)]
  {
    var w0 := StartPoll(w, addr, unit);
    var (w1, _) := PollOnce(w0, addr, Some(rd), None, Some(fin));
    assert w1.polls[addr] == Poller(unit, Some(rd.pos), 0);
    var (w2, _) := PollOnce(w1, addr, Some(rd), None, Some(fin));
    assert w2.polls[addr] == Poller(unit, Some(rd.pos), 1);
  }

  /** A motion slot's outcome: `None` when the device call raised. */
  function Launch(w: Worker, addr: int, unit: string, cmds: seq<Cmd>, ok: bool): (r: (Worker, Out))
  {
    if ok then (StartPoll(w, addr, unit), Out(cmds, [Moving(addr, true)]))
    else (w, Out(cmds, [Error, Moving(addr, false)]))
  }

  /** `move_absolute`: moving True and polling only once the command
      returned; an exception reports moving False; without a connection
      only an error. */
  function MoveAbsolute(w: Worker, addr: int, target: real, unit: string, ok: bool): (r: (Worker, Out))
    ensures !w.connected ==> r == (w, Out([], [Error]))
    ensures w.connected ==> r.1.cmds == [MoveAbs(target, LengthOrAngle(unit))]
    ensures w.connected && ok ==> r.1.events == [Moving(addr, true)] && r.0 == StartPoll(w, addr, unit)
    ensures w.connected && !ok ==> r.1.events == [Error, Moving(addr, false)] && r.0 == w
  {
    if !w.connected then (w, Out([], [Error]))
    else Launch(w, addr, unit, [MoveAbs(target, LengthOrAngle(unit))], ok)
  }

  /** `move_delta`: read the current position, then an absolute move to it
      plus the delta. */
  function MoveDelta(w: Worker, addr: int, delta: real, unit: string, cur: Option<real>, ok: bool): (r: (Worker, Out))
    ensures !w.connected ==> r == (w, Out([], [Error]))
    ensures w.connected && cur.Some? ==> r.1.cmds == [MoveAbs(cur.value + delta, LengthOrAngle(unit))]
    ensures w.connected && cur.None? ==> r == (w, Out([], [Error, Moving(addr, false)]))
    ensures Moving(addr, true) in r.1.events <==> w.connected && cur.Some? && ok
  {
    if !w.connected then (w, Out([], [Error]))
    else
      match cur
      case None => (w, Out([], [Error, Moving(addr, false)]))
      case Some(c) => Launch(w, addr, unit, [MoveAbs(c + delta, LengthOrAngle(unit))], ok)
  }

  /** `home`: always polled in millimetres. */
  function Home(w: Worker, addr: int, ok: bool): (r: (Worker, Out))
    ensures !w.connected ==> r == (w, Out([], [Error]))
    ensures w.connected && ok ==> r.0 == StartPoll(w, addr, "mm") && r.1 == Out([HomeCmd], [Moving(addr, true)])
    ensures w.connected && !ok ==> r.0 == w && r.1.events == [Error, Moving(addr, false)]
  {
    if !w.connected then (w, Out([], [Error]))
    else Launch(w, addr, "mm", [HomeCmd], ok)
  }

  /** `stop`: whatever happens, polling of the address ends and moving
      False is the last signal, even without a connection. */
  function Stop(w: Worker, addr: int, unit: string, res: Option<Reading>): (r: (Worker, Out))
    ensures r.0 == StopPoll(w, addr)
    ensures |r.1.events| > 0 && r.1.events[|r.1.events| - 1] == Moving(addr, false)
    ensures w.connected && res.Some? ==>
      r.1.events == [Position(addr, res.value.steps, res.value.pos), Moved(addr, res.value.pos), Moving(addr, false)]
    ensures !(w.connected && res.Some?) ==> r.1.events == [Error, Moving(addr, false)]
  {
    var body :=
      if !w.connected then Out([], [Error])
      else
        var u := StopUnit(unit);
        match res
        case None => Out([StopCmd(u)], [Error])
        case Some(rd) => Out([StopCmd(u)], [Position(addr, rd.steps, rd.pos), Moved(addr, rd.pos)]);
    (StopPoll(w, addr), Out(body.cmds, body.events + [Moving(addr, false)]))
  }
}
